=== FILE: README.md ===
# SmartElectronicLibrary in Dafny

A model of the core of SmartElectronicLibrary, an electronic library with three
parts: a Flask/SQLAlchemy backend, a language-model recommendation agent, and a
React single-page frontend. The backend keeps books, articles, users, rentals,
rental requests, account requests and notifications. Readers use it to borrow
books, like and bookmark articles, and ask the agent for recommendations.
Administrators approve accounts and borrow requests and run the catalog.

Every database table is an immutable sequence of records in primary-key order
(`Library`). Every service call is a pure function from the database to a
result or an error (`Wrappers`). The modules follow the source files:

- Backend services: `Books`, `Rentals`, `RentalRequests`, `Users`,
  `Notifications`, `Email`, page arithmetic (`Paging`), and the routes
  `BookRoutes`, `Articles` and `RentalRoutes`.
- Scripts: the article scraper's text helpers (`ArticleScraper`) and the
  seeding script (`Seed`).
- The recommendation agent:
  - the vector-index synchronisation (`IndexSync`);
  - the `retrieve` tool (`Retrieval`);
  - the grounding of the model's proposals in the catalog (`Grounding`);
  - the user and catalog tools (`ChatUserTools`, `ChatCatalogTools`);
  - the stored chat exchange (`ChatMessages`);
  - the older chat service's reply parsers and filters (`ChatService`).
- The frontend:
  - pagination (`PageWindow`), the article list (`ArticlesPage`) and the article page (`ArticleDetails`);
  - sign-in and registration (`AuthForms`, `AuthSession`) and the notification bell (`NotificationUi`);
  - the chat widget (`ChatbotUi`) and the reader's profile (`UserProfile`);
  - the administrator pages: `AdminDashboard`, `AdminUsers`, `AccountRequestsPage`, `AdminBooks`, `BookForms`, `AdminRentals`, `RequestsPage`, and the shared `Tables`.

Whatever the model cannot see is a parameter of the function that needs it:
the clock, random choices, the language model's text, the similarity search,
browser date parsing, `localeCompare`, e-mail validation, slug generation and
the outcome of an HTTP call. Texts are sequences of characters. Case mapping and
digit classes are ASCII (`Strs`). Whitespace is not: `Strs.IsSpace` takes the
language whose rules apply, Python's `str.isspace()` set for the backend
(`strip()`, `split()`, `\s` in `re`) and JavaScript's `trim()` set for the
frontend, and the stripping helpers carry that choice through.

Some behaviour is modelled exactly as written, even where it looks odd:

- A failure to load users on the dashboard shows in the rentals error slot (`AdminDashboard.UsersLoaded`).
- The admin rental table calls a loan overdue after more than fourteen days (`AdminRentals.IsOverdue`). The reader's profile counts whole days left, rounded up (`UserProfile.DaysLeft`).

## Model

| member | source | states |
|---|---|---|
| IndexSync.TagNameInjective | backend/app/services/ChatBot.py:121-135 | the four queue tags ("book", "book_delete", "article", "article_delete") are pairwise different, so no two event kinds share a tag |
| IndexSync.Initial | backend/app/services/ChatBot.py:91-120 | the queue starts with an empty pending set and no live timer |
| IndexSync.AtMostOneTimer | backend/app/services/ChatBot.py:137-141 | in every reachable queue state at most one flush timer is live |
| IndexSync.Schedule | backend/app/services/ChatBot.py:137-141 | re-arming cancels the armed timer, so afterwards exactly the new timer is live; the pending set is untouched |
| IndexSync.Queue | backend/app/services/ChatBot.py:121-135 | a change event adds its `(tag, id)` pair to the pending set and leaves a single armed timer |
| IndexSync.QueueCollapses | backend/app/services/ChatBot.py:121-135 | repeating the same event before a flush leaves the pending set as after the first one |
| IndexSync.QueueChangeAndDelete | backend/app/services/ChatBot.py:121-135 | a change and a deletion of the same row are different pending entries and both stay queued |
| IndexSync.DecodeEncode | backend/app/services/ChatBot.py:178-202 | decoding a metadata id `book_N` / `article_N` by removing the prefix and parsing the rest gives back N (also lines 370, 415) |
| IndexSync.KeyInjective | backend/app/services/ChatBot.py:178-202 | two metadata ids are equal exactly when kind and row id are both equal |
| IndexSync.BookDocument | backend/app/services/ChatBot.py:158-182 | a book's document carries exactly the metadata keys title, id and type, with id `book_N` and type "book" |
| IndexSync.ArticleDocument | backend/app/services/ChatBot.py:184-206 | an article's document carries exactly title, id and type, with id `article_N` and type "article" |
| IndexSync.Apply | backend/app/services/ChatBot.py:216-227 | a handler touches only its own key: a deletion removes it; a change re-adds the current row's document when the row exists and otherwise leaves the index unchanged (also lines 237-248) |
| IndexSync.Flush | backend/app/services/ChatBot.py:143-156 | a flush dispatches every snapshot entry exactly once, in some order, leaves the pending set empty and clears the timer |
| IndexSync.FlushOutcome | backend/app/services/ChatBot.py:143-156 | whatever the walking order, after a flush a row's entry is absent iff it was deleted or neither changed-and-present nor indexed before, and holds the current document iff it changed and exists |
| IndexSync.FlushRemovesDeleted | backend/app/services/ChatBot.py:143-156 | a queued deletion removes the row's entry, whatever order the set is walked in (also lines 237-239) |
| Retrieval.BookCardOf | backend/app/services/ChatBot.py:373-392 | a book card's id is the decimal text of the row id |
| Retrieval.ArticleCardOf | backend/app/services/ChatBot.py:416-436 | an article card's id is the decimal text of the row id; without a meta row the counters are 5, 0, 0 |
| Retrieval.ResolveBook | backend/app/services/ChatBot.py:364-370 | a hit resolves only to a book that is in the catalog |
| Retrieval.ResolveArticle | backend/app/services/ChatBot.py:408-415 | a hit resolves only to an article that is in the catalog |
| Retrieval.BookCards | backend/app/services/ChatBot.py:356-401 | the books pass yields at most one card per hit |
| Retrieval.ArticleCards | backend/app/services/ChatBot.py:403-445 | the articles pass yields at most one card per hit |
| Retrieval.BookCardsFromCatalog | backend/app/services/ChatBot.py:356-401 | every book card is the card of a catalog book |
| Retrieval.ArticleCardsFromCatalog | backend/app/services/ChatBot.py:403-445 | every article card is the card of a catalog article |
| Retrieval.CardsWithinHits | backend/app/services/ChatBot.py:349-456 | a hit is a book or an article, never both, so the two lists together have at most one entry per hit |
| Retrieval.HitTexts | backend/app/services/ChatBot.py:448-451 | one "Type/Title/Content" block per hit, in hit order |
| Retrieval.Retrieve | backend/app/services/ChatBot.py:349-456 | a failed search gives the fixed message and no cards; no hits give "No results found."; otherwise books plus articles number at most min(5, hits) |
| Retrieval.RetrieveCards | backend/app/services/ChatBot.py:349-456 | the reported cards are exactly those of the first five hits |
| Retrieval.SingleHitCards | backend/app/services/ChatBot.py:356-445 | a single hit gives the card of the row it resolves to, or nothing |
| Retrieval.RetrieveIndexedBook | backend/app/services/ChatBot.py:364-399 | round trip: a hit for the document built from a catalog book resolves back to that book, whose card is reported, and gives no article (also lines 158-182) |
| Retrieval.RetrieveIndexedArticle | backend/app/services/ChatBot.py:408-443 | round trip for articles: the hit's article card is reported and no book (also lines 184-206) |
| Retrieval.RetrieveDropsMissing | backend/app/services/ChatBot.py:370-399 | a book hit whose row has left the catalog gives no card |
| Grounding.IndexBy | backend/app/services/ChatBot.py:1130-1131 | the artifact index holds exactly the ids that occur, each mapped to an entry with that id taken from the list |
| Grounding.IndexLastWins | backend/app/services/ChatBot.py:1130-1131 | when an id occurs several times, the last entry wins |
| Grounding.DigitsRoundTrip | backend/app/services/ChatBot.py:1222-1223 | an all-digit proposal is the decimal text of its value unless it has a leading zero |
| Grounding.NoLeadingZeroDigits | backend/app/services/ChatBot.py:1222-1223 | a digit string without a leading zero is the rendering of its value |
| Grounding.ResolveBookGrounded | backend/app/services/ChatBot.py:1188-1247 | every resolved book proposal is the artifact under that id or the card of a catalog row whose id is the proposal's value; without leading zeros the card's id is the proposal |
| Grounding.ResolveArticleGrounded | backend/app/services/ChatBot.py:1249-1314 | the same for article proposals |
| Grounding.ValidateBooks | backend/app/services/ChatBot.py:1188-1247 | validation yields at most one book per proposal |
| Grounding.ValidateArticles | backend/app/services/ChatBot.py:1249-1314 | validation yields at most one article per proposal |
| Grounding.ValidateBooksAppend | backend/app/services/ChatBot.py:1188-1247 | validation works proposal by proposal in the model's order: it distributes over concatenation |
| Grounding.ValidateBooksKeepsAll | backend/app/services/ChatBot.py:1188-1247 | when every proposal resolves nothing is dropped or merged, duplicates included, and the i-th result is the i-th resolution |
| Grounding.ValidateBooksGrounded | backend/app/services/ChatBot.py:1188-1247 | every validated book is grounded in some proposal (also lines 1130-1131) |
| Grounding.ValidateArticlesGrounded | backend/app/services/ChatBot.py:1249-1314 | every validated article is grounded in some proposal (also line 1131) |
| Grounding.SecondaryCards | backend/app/services/ChatBot.py:1316-1353 | every card of the secondary search is the card of a catalog article |
| Grounding.TopUpArticles | backend/app/services/ChatBot.py:1316-1353 | the top-up keeps what was held as a prefix, adds only catalog articles, and stops at three |
| Grounding.Generate | backend/app/services/ChatBot.py:1108-1368 | a failed model call gives the apology with no recommendations; otherwise the answer and follow-up are the model's, the books are exactly the validated proposals, and the articles are the validated ones or, when none survived, at most three catalog articles |
| Grounding.GenerateGrounded | backend/app/services/ChatBot.py:1188-1353 | every reported book is grounded in a proposed id; every reported article is grounded in a proposed id or is a catalog article from the secondary search (also lines 1130-1131) |
| Grounding.SecondaryOnlyWhenNeeded | backend/app/services/ChatBot.py:1316 | without proposed articles, or when the tool output does not mention "article", the articles are exactly the validated proposals |
| Library.StatusName | backend/app/model/RentalRequest.py:11 | a request's status column holds one of "pending", "approved", "rejected" |
| Library.StatusNameInjective | backend/app/model/RentalRequest.py:11 | different statuses are stored as different texts, so the stored text identifies the status |
| Library.Lookup | backend/app/services/RentalService.py:15 | `query.get(id)` finds a row with that key from the table, and finds nothing only when no row has that key |
| Library.LookupAt | backend/app/services/RentalRequestService.py:90 | with unique keys, looking up a row's own key finds that very row |
| Library.NextKey | backend/app/model/RentalRequest.py:7 | the auto-increment key handed to a new row is larger than every stored key |
| Library.AppendFreshUnique | backend/app/model/RentalRequest.py:7 | appending a row under the next auto-increment key keeps primary keys unique |
| RentalRequests.CreateRequest | backend/app/services/RentalRequestService.py:9-37 | an unknown book fails with "Book not found"; creation succeeds exactly when the book exists with a copy available, the user exists and no pending request for the pair exists; the new pending request for (user, book) is appended under a fresh id and nothing else changes |
| RentalRequests.CreateKeepsAtMostOnePending | backend/app/services/RentalRequestService.py:23-28 | successive creations never give a (user, book) pair a second pending request |
| RentalRequests.SetStatus | backend/app/services/RentalRequestService.py:104 | only the request with that id changes status; every other request is kept (also line 134) |
| RentalRequests.ApproveRequest | backend/app/services/RentalRequestService.py:86-120 | approval fails for an unknown id or a settled request; when the rental call returns it marks a pending request approved, appends one open rental for the same user and book and moves one copy from available to borrowed; with the call as wired (an argument create_rental does not take) it always fails |
| RentalRequests.ApproveKeepsStock | backend/app/services/RentalRequestService.py:99-111 | approval never drives a book's available copies below zero |
| RentalRequests.RejectRequest | backend/app/services/RentalRequestService.py:123-139 | rejection succeeds exactly for an existing pending request, which becomes rejected, and touches nothing else |
| RentalRequests.CancelRequest | backend/app/services/RentalRequestService.py:142-160 | cancellation succeeds exactly when the request exists, belongs to the caller and is pending, and then removes just that request |
| RentalRequests.SettledIsTerminal | backend/app/services/RentalRequestService.py:93-94 | no operation (create, approve, reject, cancel) changes or removes an approved or rejected request (also lines 130-131, 151-152) |
| RentalRequests.PendingRequests | backend/app/services/RentalRequestService.py:40-45 | exactly the pending requests, in table order |
| RentalRequests.PageOf | backend/app/services/RentalRequestService.py:48-74 | a page reports the total count, (total + per_page - 1) // per_page pages and the slice of that page; a zero page size fails |
| RentalRequests.UserRequests | backend/app/services/RentalRequestService.py:62-74 | a user's page lists only that user's requests |
| RentalRequests.RequestedBooks | backend/app/services/RentalRequestService.py:163-174 | exactly the catalog books with at least one pending request, each once, in table order |
| Rentals.CreateRental | backend/app/services/RentalService.py:7-11 | one open rental for (user, book) is appended under a fresh id and nothing else changes |
| Rentals.CreateRentalKeepsKeysUnique | backend/app/services/RentalService.py:7-11 | creating a rental keeps rental ids unique |
| Rentals.ReturnBook | backend/app/services/RentalService.py:14-20 | an unknown id gives None and changes nothing; otherwise only that rental gets the return time, and it is returned |
| Rentals.ReturnBookOnlyStamps | backend/app/services/RentalService.py:14-20 | a return leaves every rental's user, book and start time unchanged |
| Rentals.UserRentals | backend/app/services/RentalService.py:23-25 | exactly that user's rentals, in table order |
| Rentals.BookRentals | backend/app/services/RentalService.py:29-31 | exactly that book's rentals, in table order |
| Paging.FloorDiv | backend/app/services/RentalRequestService.py:58 | Python's `//` rounds toward negative infinity: the quotient is the unique q with the remainder inside the divisor's range |
| Paging.PageCount | backend/app/controllers/book_controller.py:53 | `(total + per_page - 1) // per_page` is the ceiling of total / per_page for a positive size and the ZeroDivisionError for size 0 |
| Paging.PageCountLeast | backend/app/controllers/rental_controller.py:318 | that page count is the least number of pages that hold every row |
| Paging.PySlice | backend/app/controllers/rental_controller.py:311-313 | Python slicing never yields more than the list and agrees with the plain slice for non-negative, ordered bounds |
| Paging.Offset | backend/app/controllers/article_controller.py:37 | the offset `(page - 1) * per_page` of page p ends exactly where page p + 1 starts |
| Paging.Paginate | backend/app/controllers/book_controller.py:47 | `paginate(error_out=False)` gives the page's slice for valid arguments, never more rows than the page size (20 when the size is below 1), and only rows of the query |
| Paging.PagesConcat | backend/app/controllers/book_controller.py:47-53 | pages 1..k joined are the first k * per_page rows |
| Paging.PagesPartition | backend/app/controllers/book_controller.py:47-53 | the pages 1..total_pages joined give back the whole listing in order: every row on exactly one page |
| Users.Ceil | backend/app/services/UserService.py:49 | `math.ceil(a / b)` is the least integer c with a <= b * c |
| Users.ClampedPage | backend/app/services/UserService.py:46-56 | the clamped page fails exactly for a negative size or a zero size with rows; it reports the count, total_pages (1 when empty, else the ceiling), at most per_page rows, all taken from the listing |
| Users.ClampedPageInRange | backend/app/services/UserService.py:52-56 | a page number inside [1, total_pages] shows exactly that page's slice |
| Users.ClampedPageNeverEmpty | backend/app/services/UserService.py:52 | a non-empty listing never shows an empty page; a page past the end shows the last page |
| Users.PaginatedUsers | backend/app/services/UserService.py:16-58 | the users page fails exactly for a negative size or a zero size with matching users; it counts the matching users, shows only matching ones, and lists them in increasing id order |
| Users.MatchingUsers | backend/app/services/UserService.py:30-55 | the users selected are exactly the stored users matching the search and role, as many as match, ordered by id |
| Users.PaginatedUsersPage | backend/app/services/UserService.py:49-58 | for a positive page size the page shown is the slice of the id-ordered matches at the clamped page's offset |
| Users.MatchingRequests | backend/app/services/UserService.py:138-166 | exactly the requests passing the status and search filters, newest first |
| Users.PaginatedAccountRequests | backend/app/services/UserService.py:125-168 | the account-request page fails exactly like the users page, counts the matching requests and shows only matching ones, newest first |
| Users.SliceSorted | backend/app/services/UserService.py:166 | an offset/limit window of an ordered listing is still ordered |
| Users.CreateAccountRequest | backend/app/services/UserService.py:104-117 | refused exactly when the email is already used by a user or a request; otherwise one pending request with the given fields and time is stored under a fresh id |
| Users.ApproveAccountRequest | backend/app/services/UserService.py:177-188 | only a pending request is approved; it becomes a new user with role "user" and the same name, email and password hash, and the request is deleted; nothing else changes |
| Users.RejectAccountRequest | backend/app/services/UserService.py:190-198 | answers true exactly for a pending request, which is deleted; otherwise nothing changes |
| Users.SetAccountRequestPending | backend/app/services/UserService.py:200-207 | answers true exactly for an existing request, which becomes pending; every other request is kept |
| Users.AccountRequestsStayPending | backend/app/services/UserService.py:104-207 | no account-request operation stores a non-pending request: approval and rejection delete rather than record a status |
| Users.CreatedEmailUnique | backend/app/services/UserService.py:106-109 | after a creation no older stored request shares the new request's email |
| Users.UpdateUser | backend/app/services/UserService.py:76-87 | an unknown user gives None and changes nothing; each given field overwrites, each missing one is kept, no other user changes, and the stored row is the returned user |
| Users.UpdateUserIdempotent | backend/app/services/UserService.py:76-87 | sending the same update twice has the effect of sending it once |
| Users.DeleteUser | backend/app/services/UserService.py:90-101 | deletion answers true exactly for an existing non-admin user, who alone is removed; otherwise nothing changes |
| Users.AdminsSurviveDelete | backend/app/services/UserService.py:95-97 | no deletion ever removes an admin |
| Notifications.CreateNotification | backend/app/services/NotificationService.py:6-25 | one new unread notification with the given user, type, message and time is appended under a fresh id |
| Notifications.UserNotifications | backend/app/services/NotificationService.py:28-53 | only the user's notifications (unread ones when asked), newest first; with a limit exactly min(limit, matching) of them and the newest, without one all of them |
| Notifications.MarkAsRead | backend/app/services/NotificationService.py:56-70 | an unknown id gives None and changes nothing; otherwise only that notification becomes read |
| Notifications.MarkAsReadIdempotent | backend/app/services/NotificationService.py:56-70 | marking the same notification twice is the same as marking it once |
| Notifications.MarkAllAsRead | backend/app/services/NotificationService.py:73-88 | answers how many of the user's notifications were unread; all of the user's become read and nobody else's change |
| Notifications.MarkAllAsReadLeavesNoneUnread | backend/app/services/NotificationService.py:73-88 | afterwards the user has no unread notification |
| Notifications.DeleteNotification | backend/app/services/NotificationService.py:91-106 | answers true exactly when the id existed; only that notification is removed |
| Books.NamedIn | backend/app/services/BookService.py:128-135 | `name.in_(names)` selects exactly the stored names that are listed, in table order |
| Books.UpdateBook | backend/app/services/BookService.py:111-138 | an unknown id gives None and changes nothing; a present key (title, author, year, cover address, description, summary, availability, categories) overwrites its field and an absent one keeps it, names without a row are dropped, no other book changes, and the stored row is the returned book |
| Books.UpdateWithoutKeysKeepsBooks | backend/app/services/BookService.py:111-135 | an update with no keys changes nothing |
| Books.UpdateBookIdempotent | backend/app/services/BookService.py:111-135 | sending the same update twice has the effect of sending it once |
| Books.PopularBooks | backend/app/services/BookService.py:63-69 | min(6, books) catalog books, most borrowed first, and no book left out was borrowed more than one listed |
| Books.SearchBooks | backend/app/services/BookService.py:11-30 | exactly the books whose title contains the query, ignoring case, in table order |
| Books.SearchBooksByCategory | backend/app/services/BookService.py:35-50 | exactly the books with a category name containing the query, each once, in table order |
| Books.EmptyQueryMatchesAll | backend/app/services/BookService.py:28-47 | the empty query matches every title and every book that has a category |
| Email.NewService | backend/app/services/EmailService.py:12-26 | construction fails with the credentials message exactly when user id, service id or access token is unset or empty; otherwise all three are set and the sender comes from EMAIL_FROM when given |
| Email.TransformAction | backend/app/services/EmailService.py:28-42 | a known verb, in any case, gets its fixed past-tense label; any other action is capitalized |
| Email.TransformIgnoresCase | backend/app/services/EmailService.py:42 | two spellings of a known verb that differ only in case get the same label |
| Email.CapitalizedShape | backend/app/services/EmailService.py:42 | an unknown action keeps its length, its first letter is upper-case and no other letter is |
| Email.AccountStyle | backend/app/services/EmailService.py:57-77 | template-1 styling writes only style keys and shows the login button exactly for an approval |
| Email.Colours | backend/app/services/EmailService.py:103-151 | template-2 styling writes only style keys and carries the chosen status line |
| Email.ActivityStyle | backend/app/services/EmailService.py:101-152 | the template-2 look is chosen from the caller's action and carries its status line |
| Email.LabelKeepsStyle | backend/app/services/EmailService.py:104-145 | for each verb with its own status line, styling from the label instead of the raw action would pick the same, non-generic status line (also lines 30-40) |
| Email.LabelLowered | backend/app/services/EmailService.py:28-42 | a lower-case known verb's label, lower-cased, is its past tense |
| Email.Style | backend/app/services/EmailService.py:56-152 | styling writes only the declared style keys |
| Email.TemplateParams | backend/app/services/EmailService.py:52-152 | the caller's parameters are kept except that the action is relabelled and style keys are written over them; no other key appears; the login button and status line follow the kind and action |
| Email.RecipientKeysUnstyled | backend/app/services/EmailService.py:155-164 | styling never writes the recipient keys `to_email` and `email` |
| Email.MakePayload | backend/app/services/EmailService.py:155-164 | template 1 exactly for the account kinds; the recipient fields default to the sender and the recipient unless the caller's parameters name them (also lines 48-49) |
| Email.SendEmail | backend/app/services/EmailService.py:166-178 | success exactly when the post is delivered, with the success text; otherwise the failure text with the error and, when a response arrived, its body |
| Articles.PagesFor | backend/app/controllers/article_controller.py:42 | `ceil(total / per_page)` is the least page count holding every match, and 0 exactly when nothing matches |
| Articles.ListArticles | backend/app/controllers/article_controller.py:13-43 | a zero page size is a 500 (the page count divides by it), and a negative page size or a page below 1 is the 500 of PostgreSQL's refusal of a negative LIMIT or OFFSET; otherwise the page is the slice at (page - 1) * per_page of the matching articles, with the match count and page count, and holds at most per_page matching articles |
| Articles.ListArticlesCoversAll | backend/app/controllers/article_controller.py:37-42 | walking pages 1 to total_pages lists every matching article exactly once, in table order |
| Articles.Slug | backend/app/controllers/article_controller.py:69 | a slug is never longer than its title and holds no space, apostrophe, comma or upper-case letter (also line 124) |
| Articles.SlugIdempotent | backend/app/controllers/article_controller.py:69 | deriving a slug from a slug changes nothing (also line 124) |
| Articles.CreateArticle | backend/app/controllers/article_controller.py:55-91 | missing required fields give 400; creation succeeds exactly when they are present, the author has a name and the slug is new; the stored article carries the given fields, the defaults for absent ones (read time 5; views, likes and bookmarks 0), the title's slug and a fresh id |
| Articles.BySlug | backend/app/controllers/article_controller.py:48 | `filter_by(slug).first()` finds the first row with that slug, or reports that none has it (also lines 96, 134) |
| Articles.UpdateArticle | backend/app/controllers/article_controller.py:95-129 | unknown slug gives 404 and an empty body 400; success exactly when the author, meta and new slug conditions hold; then only that row is rewritten, each present field (title, content, category, summary, cover address, tags, author name, each meta count) overwrites and an absent one is kept, a new title brings its slug, and the PDF address and creation time are kept |
| Articles.UnreadKeysKeepArticle | backend/app/controllers/article_controller.py:100-106 | a non-empty body whose keys the route does not read answers 200 with the article and changes nothing |
| Articles.OthersTaken | backend/app/controllers/article_controller.py:124-127 | a slug found among the other rows is held by another article |
| Articles.OthersFree | backend/app/controllers/article_controller.py:124-127 | a slug absent from the other rows is free for this article |
| Articles.CreateKeepsSlugsUnique | backend/app/controllers/article_controller.py:55-91 | a successful creation keeps slugs unique |
| Articles.UpdateKeepsSlugsUnique | backend/app/controllers/article_controller.py:95-129 | a successful update keeps slugs unique |
| Articles.GetArticle | backend/app/controllers/article_controller.py:47-51 | found exactly when some article has the slug, and then it is such an article; otherwise 404 |
| Articles.DeleteArticle | backend/app/controllers/article_controller.py:133-140 | succeeds exactly when the slug is found; removes just that article and its likes and bookmarks, keeping everything else in order |
| Articles.UpdateKeepsSlugOfTitle | backend/app/controllers/article_controller.py:123-124 | after an update the slug is the slug of the stored title whenever the body carried a title or the two agreed before |
| Articles.RequestedTags | backend/app/controllers/article_controller.py:151-152 | an absent parameter requests no tag; a tag is requested exactly when it is a non-empty stripped comma piece; tags hold no comma and no edge whitespace, and keep the order of the pieces |
| Articles.RequestedTagsJoin | backend/app/controllers/article_controller.py:151-152 | joining clean non-empty tags with commas and reading them back gives the same tags |
| Articles.StripAll | backend/app/controllers/article_controller.py:152 | each requested tag is stripped, one for one |
| Articles.RelatedArticles | backend/app/controllers/article_controller.py:144-179 | unknown article fails; otherwise only other articles sharing a tag or the category, highest score first; with a non-negative limit at most that many and none left out scores higher; with a large limit exactly all related articles |
| Articles.Ranked | backend/app/controllers/article_controller.py:156-166 | the ranked list is exactly the related articles, highest score first |
| Articles.PyHead | backend/app/controllers/article_controller.py:167 | `[:limit]` is the first `limit` entries, or for a negative limit all but the last `-limit` |
| Articles.RelatedIsStable | backend/app/controllers/article_controller.py:166 | articles with equal scores keep their table order (Python's sort is stable) |
| Articles.Toggle | backend/app/controllers/article_controller.py:183-217 | unknown article gives 404; success exactly when it has a meta row; the (user, article) mark flips and no other mark changes; the counter rises by one or falls by one but not below 0, with the matching message; only that article's counter changes |
| Articles.ToggleOn | backend/app/controllers/article_controller.py:186-198 | the same, for an article already found with its meta row (also lines 205-217) |
| Articles.ToggleTouchesOnlyItsArticle | backend/app/controllers/article_controller.py:183-217 | a toggle leaves every other article, the books, the users and the other mark table as they were |
| Articles.ToggleThenLookup | backend/app/controllers/article_controller.py:183-217 | after a toggle the article is found again carrying the new counter |
| Articles.ToggleTwiceRestoresMarks | backend/app/controllers/article_controller.py:183-217 | toggling twice restores the marks |
| Articles.ToggleTwiceRestoresCount | backend/app/controllers/article_controller.py:190-214 | toggling twice restores a consistent counter (non-negative, positive while marked) |
| Articles.ToggleOnTwiceCount | backend/app/controllers/article_controller.py:190-214 | the same round trip for the toggle on a found article |
| BookRoutes.MatchingBooks | backend/app/controllers/book_controller.py:27-44 | exactly the books passing the search and category filters, in table order |
| BookRoutes.ListBooks | backend/app/controllers/book_controller.py:23-54 | a zero page size fails with division by zero; otherwise the match count, the page count from the raw size, the page's slice for valid arguments, never more rows than the normalised size, only matching books |
| BookRoutes.ListBooksCoversAll | backend/app/controllers/book_controller.py:47-53 | for a positive page size, pages 1 to total_pages list every matching book exactly once |
| BookRoutes.RanksTotal | backend/app/controllers/book_controller.py:184-188 | the ranking by (matching categories, borrow count) is a total preorder |
| BookRoutes.RelatedBooks | backend/app/controllers/book_controller.py:134-193 | no categories gives 400; otherwise only candidates, ranked descending; with a non-negative limit at most that many and none left out ranks higher; with a large limit exactly all candidates |
| BookRoutes.NoCandidatesNoBooks | backend/app/controllers/book_controller.py:155-170 | when no book carries a requested category the answer is the empty list |
| BookRoutes.RelatedBooksStable | backend/app/controllers/book_controller.py:184-188 | books of equal rank keep their table order |
| RentalRoutes.AllRentals | backend/app/controllers/rental_controller.py:86-122 | an invalid status gives 400 listing all, active, returned; a valid one reaches a service call with arguments it does not take, so the route always errs |
| RentalRoutes.StatusList | backend/app/controllers/rental_controller.py:106-112 | the refusal lists the valid statuses joined by ", " |
| RentalRoutes.MyRentals | backend/app/controllers/rental_controller.py:298-324 | a zero page size is a 500; otherwise the user's rental count, the page count, and for valid arguments the page's slice of only that user's rentals |
| RentalRoutes.ManualPage | backend/app/controllers/rental_controller.py:311-313 | the hand-made slice is the page's slice for valid arguments and holds only listed rows |
| RentalRoutes.PageSlice | backend/app/controllers/rental_controller.py:311-313 | for page >= 1 the Python slice is the plain one |
| RentalRoutes.PySliceFrom | backend/app/controllers/rental_controller.py:313 | every element of the slice comes from the listing |
| RentalRoutes.PageZeroIsEmpty | backend/app/controllers/rental_controller.py:311-313 | page 0 is empty: its slice ends where it starts |
| RentalRoutes.MyRentalsPartition | backend/app/controllers/rental_controller.py:308-319 | pages 1 to total_pages list every one of the user's rentals exactly once, in table order |
| ArticleScraper.Scrub | backend/article_scraper.py:13 | each lower-case letter, digit, whitespace character and hyphen stays in place and every other character becomes a space, so only slug characters and whitespace remain |
| ArticleScraper.ScrubSlug | backend/article_scraper.py:13 | text made only of slug characters passes unchanged |
| ArticleScraper.Hyphenate | backend/article_scraper.py:19 | after the replacement no space is left and the length is kept |
| ArticleScraper.HyphenateSlug | backend/article_scraper.py:19 | text without spaces passes unchanged |
| ArticleScraper.RunLength | backend/article_scraper.py:15-21 | the leading run of a character class is maximal |
| ArticleScraper.Squeeze | backend/article_scraper.py:15-21 | replacing each run of a class by one character leaves no two neighbours of the class and keeps every other character |
| ArticleScraper.SqueezeSqueezed | backend/article_scraper.py:15-21 | text already squeezed passes unchanged |
| ArticleScraper.Spaced | backend/article_scraper.py:15 | after collapsing, all whitespace is plain spaces |
| ArticleScraper.Collapse | backend/article_scraper.py:21 | collapsing hyphen runs yields a slug |
| ArticleScraper.SpacedSlug | backend/article_scraper.py:15 | whitespace-free text passes the collapse unchanged |
| ArticleScraper.CollapseSlug | backend/article_scraper.py:21 | a slug passes the hyphen collapse unchanged |
| ArticleScraper.StripSpaced | backend/article_scraper.py:17 | stripping keeps only slug characters and spaces |
| ArticleScraper.Slugify | backend/article_scraper.py:9-23 | the result is a slug (lower-case letters, digits, single hyphens) with no whitespace |
| ArticleScraper.SlugNoSpace | backend/article_scraper.py:9-23 | a slug holds no whitespace |
| ArticleScraper.SlugifySlug | backend/article_scraper.py:9-23 | a slug is its own slug |
| ArticleScraper.SlugSpaced | backend/article_scraper.py:11-15 | the first three stages leave a slug as it is |
| ArticleScraper.SlugifyIdempotent | backend/article_scraper.py:9-23 | slugifying twice is slugifying once |
| ArticleScraper.Words | backend/article_scraper.py:30-45 | `split()` gives non-empty whitespace-free words, and none exactly for blank text |
| ArticleScraper.WordsAfterSpace | backend/article_scraper.py:30-45 | leading whitespace does not change the words |
| ArticleScraper.WordsBeforeSpace | backend/article_scraper.py:30-45 | trailing whitespace does not change the words |
| ArticleScraper.RunLengthPrefix | backend/article_scraper.py:30-45 | a run ending inside a prefix has the same length in the longer text |
| ArticleScraper.WordsStrip | backend/article_scraper.py:30-45 | `strip()` before `split()` changes nothing |
| ArticleScraper.WordsTrimStart | backend/article_scraper.py:30-45 | trimming the start before splitting changes nothing |
| ArticleScraper.WordsTrimEnd | backend/article_scraper.py:30-45 | trimming the end before splitting changes nothing |
| ArticleScraper.WordsJoin | backend/article_scraper.py:30-45 | words joined by single spaces split back into themselves |
| ArticleScraper.WordsCons | backend/article_scraper.py:30-45 | a word, a space and a text split into the word followed by the text's words |
| ArticleScraper.RunLengthWhole | backend/article_scraper.py:30-45 | a text wholly in the class is one run |
| ArticleScraper.Initials | backend/article_scraper.py:28-56 | two letters: the upper-cased first letter of the first word, then that of the last (or second) word, or of the single word's second letter, or the first again; the fallback for no words |
| ArticleScraper.AuthorInitials | backend/article_scraper.py:28-41 | "UN" for a blank name; otherwise the first letters of the first and last name parts, upper-cased, or the single part's first two letters |
| ArticleScraper.TitleInitials | backend/article_scraper.py:43-56 | "AR" for a blank title; otherwise the first letters of the first two words, upper-cased, or the single word's first two letters |
| Seed.AtLeast | backend/seed.py:14-24 | the used slugs at least n characters long, exactly |
| Seed.UniqueSlug | backend/seed.py:14-24 | an unused base is returned as is; otherwise the answer is an unused, longer slug beginning with the base, drawing no more suffixes than given |
| Seed.UniqueSlugLonger | backend/seed.py:14-24 | only used slugs at least as long as the base can block a candidate |
| Seed.UniqueSlugFound | backend/seed.py:14-24 | as many suffixes as used slugs always suffice for the recursion to end |
| Seed.UniqueSlugDraws | backend/seed.py:14-24 | the recursion never draws more suffixes than there are used slugs |
| Seed.BaseSlug | backend/seed.py:215-219 | an article's own non-empty slug is its base; otherwise the slug of its title, "Untitled" when absent |
| Seed.NextSlug | backend/seed.py:221-222 | one call gives the unique slug, always succeeds with enough suffixes, and draws at most as many as there are used slugs |
| Seed.AssignedLast | backend/seed.py:211-222 | the last assigned slug is new, begins with its base, and is the base exactly when no earlier article took it |
| Seed.AssignedDistinct | backend/seed.py:211-222 | the assigned slugs are distinct |
| Seed.AssignedStarts | backend/seed.py:211-222 | each assigned slug begins with its article's base |
| Seed.AssignedFirstUse | backend/seed.py:211-222 | each assigned slug is its base exactly when no earlier slug is that base |
| Seed.ProgressStep | backend/seed.py:221-222 | adding one article's unique slug keeps the loop invariant for the next article |
| Seed.AssignSlugs | backend/seed.py:211-222 | the article loop assigns distinct slugs, each beginning with its base and equal to it exactly on first use, and never runs out with n(n-1)/2 suffixes for n articles |
| Seed.PairsClosed | backend/seed.py:211-222 | the suffix budget 0 + 1 + ... + (n - 1) equals n(n - 1)/2 |
| Seed.PairsMono | backend/seed.py:211-222 | the suffix budget grows with the number of articles |
| Seed.Triangle | backend/seed.py:211-222 | before article i of n, the budget still holds at least i suffixes |
| Seed.BudgetLeft | backend/seed.py:211-222 | with the full budget drawn, at least i suffixes remain before article i |
| Seed.BudgetStep | backend/seed.py:211-222 | drawing at most i suffixes for article i stays within the budget of i + 1 articles |
| Seed.MetaFor | backend/seed.py:264-286 | a non-dict meta gives max(5, summary length / 200) minutes and no counts; an empty dict gives 5, 0, 0, 0 |
| Seed.SeedRentals | backend/seed.py:98-120 | each of the first three books' borrow count rises by one; the first and third lose one available copy, the second (returned) none |
| Seed.SeedRentalsTotals | backend/seed.py:98-120 | over the catalog, borrow counts rise by min(3, books) and available copies fall by the rentals still out |
| Seed.SumSplit | backend/seed.py:98-120 | the same totals over the first k books |
| Seed.SampleLikes | backend/seed.py:290-303 | min(3, articles) distinct likes on the first articles, one each |
| Seed.SampleBookmarks | backend/seed.py:292-295 | one bookmark exactly when there is an article |
| ChatMessages.Str | backend/app/model/ChatMessage.py:58 | `str()` of a text is the text itself |
| ChatMessages.Get | backend/app/model/ChatMessage.py:58-82 | `get(key, default)` is the stored value when the key is present and the default otherwise |
| ChatMessages.Trunc | backend/app/model/ChatMessage.py:74 | `int()` of a float truncates toward zero |
| ChatMessages.ToFloat | backend/app/model/ChatMessage.py:67-70 | `float()` keeps integers and floats and refuses null, lists and dicts |
| ChatMessages.ToInt | backend/app/model/ChatMessage.py:73-76 | `int()` keeps integers, parses texts as Python does and refuses null, lists and dicts |
| ChatMessages.Listed | backend/app/model/ChatMessage.py:32-45 | an empty column is the empty list; undecodable text fails; a decoded list is itself, a decoded dict a one-element list, anything else the empty list (also lines 89-102) |
| ChatMessages.BookEntry | backend/app/model/ChatMessage.py:54-84 | each missing field takes its default, and a rating or id that `float()` / `int()` refuses becomes 0.0 / 0 |
| ChatMessages.Dicts | backend/app/model/ChatMessage.py:49-52 | no more dict entries than entries (also lines 106-109) |
| ChatMessages.BookRecs | backend/app/model/ChatMessage.py:48-86 | one record per dict entry; other entries are skipped |
| ChatMessages.BookRecsConcat | backend/app/model/ChatMessage.py:48-86 | records are produced entry by entry, in order |
| ChatMessages.BookEntryRoundTrip | backend/app/model/ChatMessage.py:54-84 | normalising a normalised record written back gives it again |
| ChatMessages.BookEntryDefaults | backend/app/model/ChatMessage.py:58-82 | an empty dict gives the all-defaults record |
| ChatMessages.ArticleAuthor | backend/app/model/ChatMessage.py:117-122 | a dict author without a name, or a falsy author, gives "Unknown Author"; a non-empty text is kept |
| ChatMessages.MetaOf | backend/app/model/ChatMessage.py:145-150 | a non-dict meta gives no counters; a dict gives counters or fails; the empty dict gives 5, 0, 0 |
| ChatMessages.ArticleEntry | backend/app/model/ChatMessage.py:111-152 | an entry fails exactly when its meta counters fail `int()`; otherwise it carries those counters, 5/0/0 without meta, and id 0 when missing or refused |
| ChatMessages.ArticleRecs | backend/app/model/ChatMessage.py:105-154 | one record per dict entry, or failure exactly when some dict entry fails |
| ChatMessages.MetaRoundTrip | backend/app/model/ChatMessage.py:146-150 | counters written back under meta read back unchanged |
| ChatMessages.ArticleDictTexts | backend/app/model/ChatMessage.py:115-143 | the text fields of a written-back record read back unchanged |
| ChatMessages.ArticleEntryRoundTrip | backend/app/model/ChatMessage.py:111-152 | normalising a normalised article written back gives it again |
| ChatMessages.Recommendations | backend/app/model/ChatMessage.py:30-154 | the conversion fails exactly when a column is undecodable or an article entry fails; otherwise it gives both normalised lists |
| ChatMessages.ToDict | backend/app/model/ChatMessage.py:28-174 | the scalar fields are copied; both lists are emptied when any step fails; otherwise they are the normalised lists, the books no more than the column's entries |
| ChatMessages.NoColumnsNoRecommendations | backend/app/model/ChatMessage.py:32-38 | a message without recommendations converts to empty lists (also lines 89-95) |
| ChatService.FirstSpan | backend/app/services/ChatBotService.py:715-716 | the lazy match finds the leftmost opening tag and the first closing tag after it; the enclosed text holds no closing tag; no opening tag, no span |
| ChatService.Enclosed | backend/app/services/ChatBotService.py:715-716 | `findall` of the lazy tagged pattern yields texts that never contain the closing tag |
| ChatService.RemoveEnclosed | backend/app/services/ChatBotService.py:818 | removing the tagged spans never lengthens the text and leaves untagged text unchanged |
| ChatService.RemoveEnclosedAccounts | backend/app/services/ChatBotService.py:716 | removal drops exactly the spans `findall` reports plus their tags: the lengths add up (also line 818) |
| ChatService.NewlineRun | backend/app/services/ChatBotService.py:824 | the leading newline run is maximal |
| ChatService.CollapseNewlines | backend/app/services/ChatBotService.py:824 | after collapsing no three newlines are consecutive, and a non-empty text stays non-empty with the same kind of first character |
| ChatService.CollapseKeepsText | backend/app/services/ChatBotService.py:824 | collapsing only shortens newline runs: the other characters are those of the input, in order |
| ChatService.CollapseNoTriple | backend/app/services/ChatBotService.py:824 | a text without triple newlines is left as it is |
| ChatService.CollapseLength | backend/app/services/ChatBotService.py:824 | collapsing never lengthens the text |
| ChatService.CleanResponse | backend/app/services/ChatBotService.py:815-827 | the cleaned reply has no triple newline, no surrounding whitespace, and is no longer than the reply |
| ChatService.CleanPlainReply | backend/app/services/ChatBotService.py:815-827 | a reply without tags, echoed instructions or triple newlines is only stripped |
| ChatService.FirstIndex | backend/app/services/ChatBotService.py:753 | the lazy group stops at the first newline |
| ChatService.FieldMatch | backend/app/services/ChatBotService.py:753 | a field matches exactly when its key occurs ignoring case; the captured value is one line |
| ChatService.LineAfter | backend/app/services/ChatBotService.py:753 | the value after the key's whitespace run is one line, and the match ends after it |
| ChatService.FindAll | backend/app/services/ChatBotService.py:723-729 | `findall` with MULTILINE captures single lines, and none exactly when the key does not occur |
| ChatService.FieldValue | backend/app/services/ChatBotService.py:753-756 | a block field is present exactly when its key occurs ignoring case, as a stripped line |
| ChatService.BlockEntry | backend/app/services/ChatBotService.py:750-756 | a block's entry has a field exactly when its key occurs in the block, each value a stripped line |
| ChatService.ParseBlocks | backend/app/services/ChatBotService.py:749-759 | one well-formed entry per block |
| ChatService.ParseBlocksConcat | backend/app/services/ChatBotService.py:749-759 | blocks are parsed one by one, in order |
| ChatService.NonEmpty | backend/app/services/ChatBotService.py:760-764 | only entries with at least one field are kept, in order |
| ChatService.NonEmptyConcat | backend/app/services/ChatBotService.py:760-764 | the empty-entry filter works entry by entry |
| ChatService.BlockEntries | backend/app/services/ChatBotService.py:748-766 | at most one non-empty, well-formed entry per block |
| ChatService.BlockEntriesConcat | backend/app/services/ChatBotService.py:748-766 | the entries of consecutive runs of blocks are concatenated in order |
| ChatService.LooseLists | backend/app/services/ChatBotService.py:723-729 | each of the seven loose lists holds single-line values |
| ChatService.StripValues | backend/app/services/ChatBotService.py:739-745 | stripping keeps one stripped value per captured value |
| ChatService.LooseEntries | backend/app/services/ChatBotService.py:731-746 | the loose parse gives min of the seven list lengths entries, each with all seven fields |
| ChatService.LooseFrom | backend/app/services/ChatBotService.py:737-746 | the zipped entries from index i on are complete and number count - i |
| ChatService.ExtractRecommendations | backend/app/services/ChatBotService.py:707-766 | tagged blocks give their entries; without blocks but with `title:` the loose parse gives complete entries; otherwise nothing |
| ChatService.LineStart | backend/app/services/ChatBotService.py:777-799 | a line's start follows the last newline before it |
| ChatService.CutComment | backend/app/services/ChatBotService.py:777-799 | on a single line the comment cut keeps the text before the first `#`, and stops only at a `#` |
| ChatService.ValidateEntry | backend/app/services/ChatBotService.py:772-810 | an entry is kept exactly when its id parses and names an existing book that was retrieved (when any were), and it keeps that id |
| ChatService.ValidateAll | backend/app/services/ChatBotService.py:768-813 | every kept recommendation names an accepted book, at most one per entry |
| ChatService.ValidateAllConcat | backend/app/services/ChatBotService.py:770-811 | entries are validated one by one, in order |
| ChatService.ValidateAllEmpty | backend/app/services/ChatBotService.py:768-813 | nothing survives exactly when no entry names an accepted book |
| ChatService.FallbackEntry | backend/app/services/ChatBotService.py:660-668 | a fallback recommendation carries the retrieved id and the book's rating |
| ChatService.FallbackFrom | backend/app/services/ChatBotService.py:641-668 | the fallback loop names exactly the unfound ids that have a book, each once, from the given ids |
| ChatService.FallbackCons | backend/app/services/ChatBotService.py:641-668 | putting the first id's entry in front keeps ids distinct and adds exactly that id |
| ChatService.WithFallback | backend/app/services/ChatBotService.py:632-672 | the validated list stays unless it is empty and the reply promises recommendations; then at most three distinct accepted books from the first three retrieved ids, including every such id that has a book |
| ChatService.Suffixed | backend/app/services/ChatBotService.py:195-199 | each self-introduction lead followed by the name |
| ChatService.NameMentions | backend/app/services/ChatBotService.py:195-199 | every accepted self-introduction of a language names the assistant |
| ChatService.OffTopicReply | backend/app/services/ChatBotService.py:177-181 | the off-topic reply names the assistant |
| ChatService.IdentityPrefix | backend/app/services/ChatBotService.py:674-678 | the identity prefix names the assistant |
| ChatService.NameReply | backend/app/services/ChatBotService.py:206-210 | the canned name reply passes its language's own name check |
| ChatService.DocIds | backend/app/services/ChatBotService.py:163-166 | the stored book ids of the documents that carry one, no more of them than documents |
| ChatService.ValidIds | backend/app/services/ChatBotService.py:555-566 | exactly the documents' ids that are integers or texts `int()` accepts, converted |
| ChatService.IntIdsAgree | backend/app/services/ChatBotService.py:555-566 | an integer id the filter accepts is also a valid id of the response path (also lines 163-166) |
| ChatService.FilterResponse | backend/app/services/ChatBotService.py:158-213 | recommendations with a retrieved id are kept in order; an off-topic reply becomes the canned one; a name question without an introduction gets the name reply; otherwise the reply is kept |
| ChatService.WithIdentity | backend/app/services/ChatBotService.py:671-678 | after an identity question the answer names the assistant; otherwise, or when it already did, the reply is kept |
| ChatService.WithIdentityOnce | backend/app/services/ChatBotService.py:671-678 | the identity prefix is added at most once |
| ChatService.ChatbotResponse | backend/app/services/ChatBotService.py:540-705 | a failed retrieval or model call gives the apology and no books; otherwise the reply ends with the cleaned text, names the assistant after an identity question, and recommends only accepted books: the validated ones, or up to three distinct fallbacks when none survived |
| ChatService.Answer | backend/app/services/ChatBotService.py:632-688 | the successful path keeps only accepted books and the cleaned text at the end |
| ChatService.FieldKeysValid | backend/app/services/ChatBotService.py:752 | the service's own field keys meet the parser's requirements |
| ChatService.CleanupOld | backend/app/services/ChatBotService.py:524-538 | exactly the stale users lose their activity stamp and memory; everyone else keeps both unchanged |
| ChatService.CleanupOnce | backend/app/services/ChatBotService.py:524-538 | a second cleanup at the same moment removes nothing more |
| ChatService.ClearMemory | backend/app/services/ChatBotService.py:832-837 | the user's memory is gone, every other one stays, and the answer is true |
| ChatService.ClearMemoryOnce | backend/app/services/ChatBotService.py:832-837 | clearing twice is clearing once |
| ChatUserTools.UserPreferences | backend/app/services/ChatBot.py:594-644 | without a bound user: the login message and no write; only "set" with preferences stores one chat-message row with their JSON; "get" for an existing user always ends in the missing-profile error |
| ChatUserTools.BorrowBook | backend/app/services/ChatBot.py:700-735 | without a bound user nothing changes; a refused request answers its error and writes nothing; an accepted one appends the request and one unread notification for the user, and the answer depends on whether e-mail is configured |
| ChatUserTools.CancelBorrowRequest | backend/app/services/ChatBot.py:738-773 | without a bound user the login message and no write; a refused cancellation answers its error; a successful one applies the service's cancellation and adds one notification |
| ChatUserTools.CancelOnlyOwn | backend/app/services/ChatBot.py:738-773 | another user's request survives every cancellation made through the tool |
| ChatUserTools.WithStatus | backend/app/services/ChatBot.py:800-806 | the page's requests whose status text equals the filter, every request for "all" |
| ChatUserTools.Lines | backend/app/services/ChatBot.py:809-816 | one formatted line per request with its id, status and time; formatting fails exactly when some request's book row is gone |
| ChatUserTools.LinesDescribe | backend/app/services/ChatBot.py:800-816 | every formatted line stands for one of the user's requests with the filtered status |
| ChatUserTools.UserBorrowRequests | backend/app/services/ChatBot.py:777-828 | without a bound user the login message; per-page 0 fails with the division error; a listing reports the asked page, counts only the kept lines under a status filter, and every line describes one of the user's own requests |
| ChatUserTools.Feedback | backend/app/services/ChatBot.py:891-930 | without a bound user nothing changes; a rating outside 1..5 is refused before any write; otherwise exactly one chat-message row and one notification for the user are added and requests are untouched |
| ChatUserTools.EventRecommendations | backend/app/services/ChatBot.py:933-975 | writes nothing; without a bound user the login message, otherwise the missing-profile error |
| ChatUserTools.UnboundWritesNothing | backend/app/services/ChatBot.py:606-608 | with no user bound, none of the writing tools changes the database or the log (also lines 711-713, 748-750, 903-905, 944-946) |
| ChatCatalogTools.UpsertFind | backend/app/services/ChatBot.py:476-491 | one dictionary update adds the count to an existing name and keeps its type, or creates the name; other names are untouched |
| ChatCatalogTools.UpsertNames | backend/app/services/ChatBot.py:476-480 | an update introduces no name other than the updated one |
| ChatCatalogTools.UpsertDistinct | backend/app/services/ChatBot.py:476-480 | the listing keeps one entry per name |
| ChatCatalogTools.AddAllFind | backend/app/services/ChatBot.py:470-497 | folding the entries in sums the counts per name and keeps the type of the entry that created it |
| ChatCatalogTools.AddAllDistinct | backend/app/services/ChatBot.py:470-497 | names stay distinct through the whole fold |
| ChatCatalogTools.SumForConcat | backend/app/services/ChatBot.py:470-497 | the books half and the articles half contribute separately |
| ChatCatalogTools.BooksIn | backend/app/services/ChatBot.py:478 | exactly the catalog books filed under the category |
| ChatCatalogTools.ArticleCategories | backend/app/services/ChatBot.py:484-486 | the category column of the articles, row by row |
| Seqs.Dedup | backend/app/services/ChatBot.py:484-486 | the `GROUP BY` groups: the same names, each once |
| ChatCatalogTools.BookItemsSum | backend/app/services/ChatBot.py:474-480 | the books half counts a category's books once per category row of that name |
| ChatCatalogTools.BookItemsKind | backend/app/services/ChatBot.py:474-480 | the books half names exactly the category rows, with type "book" |
| ChatCatalogTools.GroupItemsSum | backend/app/services/ChatBot.py:483-491 | the articles half counts each non-blank group's articles, with type "article", and skips blank names |
| ChatCatalogTools.Categories | backend/app/services/ChatBot.py:459-500 | an unknown item type yields an empty listing, not an error |
| ChatCatalogTools.CategoriesSpec | backend/app/services/ChatBot.py:470-497 | a name is listed iff a selected half has it; its count sums both halves; its type is "book" iff the books half created it; names are distinct |
| ChatCatalogTools.CategoryGroups | backend/app/services/ChatBot.py:484-486 | a name is an article group iff some article has that category |
| ChatCatalogTools.BookSummaries | backend/app/services/ChatBot.py:526 | one summary per book, in order |
| ChatCatalogTools.ArticleSummaries | backend/app/services/ChatBot.py:536 | one summary per article, in order |
| ChatCatalogTools.MatchingCategories | backend/app/services/ChatBot.py:523 | exactly the category rows whose name contains the query, ignoring case |
| ChatCatalogTools.FirstBooksIn | backend/app/services/ChatBot.py:525 | at most `limit` books, each a catalog book filed under the category |
| ChatCatalogTools.CategoryBooks | backend/app/services/ChatBot.py:524-526 | at most `limit` books per matching category |
| ChatCatalogTools.CategoryBooksFrom | backend/app/services/ChatBot.py:524-526 | every listed book is a catalog book filed under one of the categories |
| ChatCatalogTools.CategoryArticles | backend/app/services/ChatBot.py:531-534 | at most `limit` articles, each a catalog article whose category matches |
| ChatCatalogTools.SearchByCategory | backend/app/services/ChatBot.py:503-544 | fails, with the fixed error text, exactly when articles are asked with a negative limit; articles never exceed the limit, books at most the limit per matching category; an unselected half is empty |
| ChatCatalogTools.SearchByCategoryGrounded | backend/app/services/ChatBot.py:520-541 | every listed article matches by its category and every listed book through a matching category it is filed under, both from the catalog |
| ChatCatalogTools.BooksMayExceedLimit | backend/app/services/ChatBot.py:524-526 | two matching categories with one book each give two books under limit 1: the limit is per category |
| ChatCatalogTools.ScienceMatches | backend/app/services/ChatBot.py:523 | "science" matches both "science" and "social science" |
| ChatCatalogTools.ScienceBooks | backend/app/services/ChatBot.py:524-526 | under limit 1 the two categories contribute one book each |
| ChatCatalogTools.SystemInfo | backend/app/services/ChatBot.py:1070-1076 | "all" (any case) gives everything, a known key one section, anything else an error text naming every key |
| ChatCatalogTools.InvalidListsKeys | backend/app/services/ChatBot.py:1074-1076 | the error text names every available key |
| PageWindow.Run | frontend/src/components/common/Pagination.tsx:40-42 | the consecutive pages from the first bound to the second |
| PageWindow.Bounds | frontend/src/components/common/Pagination.tsx:32-38 | the window's bounds lie within page 1 and the last page |
| PageWindow.Window | frontend/src/components/common/Pagination.tsx:28-45 | a run of consecutive real pages, as many as five or the number of pages, whichever is smaller |
| PageWindow.WindowHasCurrent | frontend/src/components/common/Pagination.tsx:28-45 | a valid current page always appears in its own window |
| PageWindow.WindowAtEnd | frontend/src/components/common/Pagination.tsx:32-38 | near the end the window is the last pages |
| PageWindow.WindowAtStart | frontend/src/components/common/Pagination.tsx:32-38 | near the start the window is the first pages |
| PageWindow.WithEllipses | frontend/src/pages/ArticlesPage.tsx:268-292 | page 1 and a marker lead when the window starts later; a marker and the last page trail when it ends earlier |
| PageWindow.IncreasingConcat | frontend/src/pages/ArticlesPage.tsx:276-289 | joining two rising lists that meet in order gives a rising list |
| PageWindow.NumbersOfRun | frontend/src/pages/ArticlesPage.tsx:276-278 | a run of real pages holds no marker |
| PageWindow.NumbersOfEllipses | frontend/src/pages/ArticlesPage.tsx:276-289 | without markers the list is page 1 when shown, the window, and the last page when shown |
| PageWindow.FramedRun | frontend/src/pages/ArticlesPage.tsx:276-289 | framing the window with the first and last page rises strictly from 1 to the last page |
| PageWindow.WithEllipsesShape | frontend/src/pages/ArticlesPage.tsx:268-292 | markers aside, the list rises strictly from page 1 to the last page, every entry a real page, at most nine entries |
| PageWindow.EllipsisPlacement | frontend/src/pages/ArticlesPage.tsx:281-288 | each marker appears exactly when pages are hidden on its side |
| PageWindow.Label | frontend/src/components/common/Pagination.tsx:82-86 | "0" exactly when there are no items; the last shown item never exceeds the total |
| PageWindow.LabelCountsPage | frontend/src/components/common/Pagination.tsx:84-86 | on a page holding items the label spans exactly that page's items |
| PageWindow.ChangePage | frontend/src/pages/ArticlesPage.tsx:262-266 | a page outside 1..last is ignored, any other is taken |
| PageWindow.ChangePageStaysValid | frontend/src/pages/ArticlesPage.tsx:262-266 | from a valid page only valid pages are reached |
| ArticlesPage.SearchChange | frontend/src/pages/ArticlesPage.tsx:145-148 | a new search text goes back to page 1 and keeps the other filters |
| ArticlesPage.Pick | frontend/src/pages/ArticlesPage.tsx:151-156 | choosing the selected value again clears the choice; any other value is chosen |
| ArticlesPage.CategoryChange | frontend/src/pages/ArticlesPage.tsx:150-153 | the category toggles, the page resets, the other filters stay |
| ArticlesPage.TagChange | frontend/src/pages/ArticlesPage.tsx:155-158 | the tag toggles, the page resets, the other filters stay |
| ArticlesPage.CategoryTwice | frontend/src/pages/ArticlesPage.tsx:150-153 | clicking the same category twice undoes the first click |
| ArticlesPage.ClearFilters | frontend/src/pages/ArticlesPage.tsx:160-165 | no search, category or tag, page 1 |
| ArticlesPage.Params | frontend/src/pages/ArticlesPage.tsx:88-95 | page and size always; each filter exactly when non-empty, with its own value; nothing else |
| ArticlesPage.ClearedParams | frontend/src/pages/ArticlesPage.tsx:160-165 | after clearing only the page and its size are requested (also lines 88-95) |
| ArticlesPage.Bump | frontend/src/pages/ArticlesPage.tsx:199 | only the chosen counter moves, by the given amount (also line 239) |
| ArticlesPage.Toggle | frontend/src/pages/ArticlesPage.tsx:175-253 | a failed call changes nothing; an accepted one moves only that article's counter, down when marked and up otherwise, and flips only its membership |
| ArticlesPage.ToggleTwice | frontend/src/pages/ArticlesPage.tsx:175-253 | two accepted toggles restore the list and the set |
| ArticlesPage.AllTags | frontend/src/pages/ArticlesPage.tsx:126 | exactly the tags some article carries |
| ArticlesPage.Options | frontend/src/pages/ArticlesPage.tsx:125-126 | the distinct categories and distinct tags of the page's articles, each once |
| BookForms.BlankIsStripEmpty | frontend/src/pages/admin/CreateBookPage.tsx:133-135 | an entry is blank exactly when trimming leaves nothing |
| BookForms.AllBlank | frontend/src/pages/admin/CreateBookPage.tsx:134-135 | true exactly when every entry is blank, so also for no entries |
| BookForms.Validate | frontend/src/pages/admin/CreateBookPage.tsx:129-150 | one message per failing field: each field's error appears exactly under its rule, and the "exceed" message wins over the "negative" one |
| BookForms.ValidateEmpty | frontend/src/pages/admin/CreateBookPage.tsx:150 | no errors exactly for a valid form |
| BookForms.InitialInvalid | frontend/src/pages/admin/CreateBookPage.tsx:129-150 | the opening form fails exactly on title, authors and categories (also lines 27-38) |
| BookForms.DropBlank | frontend/src/pages/admin/CreateBookPage.tsx:164-165 | the non-blank entries, in order |
| BookForms.Payload | frontend/src/pages/admin/CreateBookPage.tsx:153-166 | sent exactly when valid, with blank names dropped and the rest as entered |
| BookForms.PayloadNamesPresent | frontend/src/pages/admin/CreateBookPage.tsx:134-135 | a sent book has at least one author and one category, none blank (also lines 164-165) |
| BookForms.AddField | frontend/src/pages/admin/CreateBookPage.tsx:113-115 | one empty entry added at the end, the others kept |
| BookForms.RemoveField | frontend/src/pages/admin/CreateBookPage.tsx:117-120 | the entry at the index is gone and the others keep their order; an index out of range removes nothing |
| BookForms.RemoveAdded | frontend/src/pages/admin/CreateBookPage.tsx:113-120 | removing the entry just added gives the list back |
| BookForms.SelectCategory | frontend/src/pages/admin/CreateBookPage.tsx:122-127 | only the chosen entry changes, to the name, and the dropdown closes |
| BookForms.ClampAvailable | frontend/src/pages/admin/CreateBookPage.tsx:198-202 | an available count above the total is lowered to it; nothing else changes |
| BookForms.ClampedNotTooHigh | frontend/src/pages/admin/CreateBookPage.tsx:140-142 | after the effect the "exceed" error cannot occur, and the effect is settled (also lines 198-202) |
| BookForms.ReadNames | frontend/src/pages/admin/EditBook.tsx:228-246 | at least one name read back, none holding a comma or surrounding spaces |
| Strs.StripKeeps | frontend/src/pages/admin/EditBook.tsx:228-246 | trimming adds no character |
| BookForms.Padded | frontend/src/pages/admin/EditBook.tsx:224-242 | every name behind a space |
| BookForms.JoinPadded | frontend/src/pages/admin/EditBook.tsx:224-242 | the shown text split at commas is each name behind a space |
| BookForms.JoinCommaSpace | frontend/src/pages/admin/EditBook.tsx:224-242 | joining with ", " is joining with "," with a space before every later name |
| BookForms.StripPadded | frontend/src/pages/admin/EditBook.tsx:228-246 | trimming removes the added space |
| BookForms.NamesRoundTrip | frontend/src/pages/admin/EditBook.tsx:224-246 | names without commas or surrounding spaces read back from their text unchanged |
| BookForms.StripParts | frontend/src/pages/admin/EditBook.tsx:228-246 | trimming the split parts gives the names |
| BookForms.EmptyNamesRead | frontend/src/pages/admin/EditBook.tsx:224-228 | an empty list reads back as one empty name |
| BookForms.InputValue | frontend/src/pages/admin/EditBook.tsx:64-76 | number inputs become numbers, `featured_book` a flag true exactly for "true", anything else keeps its text |
| BookForms.ReadFeatured | frontend/src/pages/admin/EditBook.tsx:208 | true exactly for "true" |
| BookForms.FeaturedRoundTrip | frontend/src/pages/admin/EditBook.tsx:204-208 | the featured select reads back what it shows |
| BookForms.EditPayload | frontend/src/pages/admin/EditBook.tsx:78-86 | blank names dropped in order, title and flag kept |
| BookForms.EditPayloadIdempotent | frontend/src/pages/admin/EditBook.tsx:84-85 | sending a cleaned book changes nothing more |
| AuthForms.Format | frontend/src/utils/validationSchemas.ts:83-90 | exactly the fields some issue names get a message |
| AuthForms.FormatLastWins | frontend/src/utils/validationSchemas.ts:85-88 | each field shows the message of its last issue |
| AuthForms.FormatConcat | frontend/src/utils/validationSchemas.ts:85-88 | formatting two batches in turn lets the second batch's messages win |
| AuthForms.ValidateWithZod | frontend/src/utils/validationSchemas.ts:72-94 | true with `{}` exactly when there are no issues; otherwise false with a non-empty formatted error object |
| AuthForms.Checks | frontend/src/utils/validationSchemas.ts:20-37 | one issue per failed check of a field, on that field, and none exactly when all checks pass |
| AuthForms.ChecksFormat | frontend/src/utils/validationSchemas.ts:20-37 | a field's error is the message of its last failed check (also lines 85-88) |
| AuthForms.ChecksNone | frontend/src/utils/validationSchemas.ts:20-37 | a field without failed checks has no error |
| AuthForms.ChecksTwo | frontend/src/utils/validationSchemas.ts:20-27 | a field with two checks has no issue exactly when both pass |
| AuthForms.ChecksThree | frontend/src/utils/validationSchemas.ts:28-35 | the password's three checks raise nothing exactly when all pass |
| AuthForms.RegistrationErrors | frontend/src/utils/validationSchemas.ts:19-41 | the registration errors are the name, e-mail, password and confirmation errors, field by field |
| AuthForms.RegistrationAccepts | frontend/src/utils/validationSchemas.ts:19-41 | the data passes exactly when the name is letters and whitespace, the e-mail is non-empty and well formed, the password has six characters, an upper-case letter and a digit, and the confirmation is non-empty and equal |
| AuthForms.NameMessageWins | frontend/src/utils/validationSchemas.ts:20-24 | any bad name, the empty one included, shows the character rule's message |
| AuthForms.NameAccepted | frontend/src/utils/validationSchemas.ts:20-24 | a good name has no error |
| AuthForms.PasswordMessage | frontend/src/utils/validationSchemas.ts:28-35 | a bad password shows the last rule it breaks: digit, then upper case, then length |
| AuthForms.MismatchOnConfirm | frontend/src/utils/validationSchemas.ts:38-41 | a mismatch is reported on the confirmation field whatever else is wrong |
| AuthForms.Requirements | frontend/src/utils/validationSchemas.ts:63-67 | the checklist has three entries |
| AuthForms.RequirementsMatchSchema | frontend/src/utils/validationSchemas.ts:28-35 | on a password without line breaks the checklist is all ticked exactly when the schema accepts it (also lines 63-67) |
| AuthForms.RequirementsDisagreeOnLineBreak | frontend/src/utils/validationSchemas.ts:29 | with a line break the checklist refuses a password the schema accepts (also line 64) |
| AuthForms.ValidateForm | frontend/src/pages/LibraryRegistrationPage.tsx:31-53 | unchecked terms fail with the terms message; before an attempted submit everything passes; afterwards the schema decides; shown errors are only added to |
| AuthForms.Submit | frontend/src/pages/LibraryRegistrationPage.tsx:55-61 | the attempted flag is set, but the request is sent exactly when the validation of the current render passes, so only with the terms checked |
| AuthForms.FirstSubmitSkipsSchema | frontend/src/pages/LibraryRegistrationPage.tsx:42-61 | the first submit sends an all-empty form the schema refuses |
| AuthForms.SubmitIntended | frontend/src/pages/LibraryRegistrationPage.tsx:55-61 | the request is sent exactly when the terms are checked and the schema accepts the data |
| AuthForms.SubmitIntendedSendsValid | frontend/src/pages/LibraryRegistrationPage.tsx:55-61 | only data the schema accepts is ever sent |
| AuthForms.Change | frontend/src/pages/LibraryRegistrationPage.tsx:99-113 | the edited field loses its own error; every other error stays |
| AuthForms.TermsChange | frontend/src/pages/LibraryRegistrationPage.tsx:115-125 | checking the box clears the terms error; unchecking leaves the errors |
| AuthForms.TermsErrorCleared | frontend/src/pages/LibraryRegistrationPage.tsx:115-125 | checking the terms after a refused submit removes exactly the message that refusal added (also lines 33-40) |
| AuthForms.LoginErrors | frontend/src/pages/LibraryLoginPage.tsx:20-26 | each empty field gets its message, and there are none exactly when both are filled |
| AuthForms.LoginFailure | frontend/src/pages/LibraryLoginPage.tsx:39 | the server's message, or "Login failed" when it sent none |
| AuthForms.LoginSubmit | frontend/src/pages/LibraryLoginPage.tsx:28-42 | the login is attempted exactly when both fields are filled and moves on exactly when it succeeds; a refusal shows the server's message |
| AuthSession.IsAdmin | frontend/src/context/AuthContext.tsx:119-121 | signed in with the administrator role |
| AuthSession.IsUser | frontend/src/context/AuthContext.tsx:123-125 | signed in with the user role |
| AuthSession.RequireRole | frontend/src/context/AuthContext.tsx:127-129 | only a signed-in session with a user passes |
| AuthSession.RolesExclusive | frontend/src/context/AuthContext.tsx:119-129 | nobody is both administrator and user; both checks are the role requirement |
| AuthSession.Login | frontend/src/context/AuthContext.tsx:69-103 | a failure, or an answer without a token, passes an error on and keeps the session; a token signs the user in with it |
| AuthSession.LoginRole | frontend/src/context/AuthContext.tsx:78-93 | after a login the administrator check follows the server's role (also lines 119-121) |
| AuthSession.Initialize | frontend/src/context/AuthContext.tsx:32-58 | signed in exactly when a token is stored and its user can be fetched; otherwise fully signed out |
| AuthSession.Logout | frontend/src/context/AuthContext.tsx:106-117 | no user, no token, no role |
| AuthSession.Guard | frontend/src/components/ProtectedRoute.tsx:11-25 | signed-out visitors go to the login page; without a required role a signed-in user sees the page |
| AuthSession.GuardMatchesRequireRole | frontend/src/components/ProtectedRoute.tsx:14-24 | a role-restricted page renders exactly for the sessions the role requirement accepts; other signed-in users go home |
| AuthSession.AdminPages | frontend/src/components/ProtectedRoute.tsx:19-24 | an administrator page admits exactly administrators |
| NotificationUi.FloorTwice | frontend/src/components/notification/NotificationDropDown.tsx:71-74 | flooring in steps equals flooring once |
| NotificationUi.AgeOf | frontend/src/components/notification/NotificationDropDown.tsx:57-91 | the clamped elapsed time picks "just now" up to five seconds, then the largest unit below the next, each count the floored quotient; the future reads "just now" |
| NotificationUi.PluralUnlessOne | frontend/src/components/notification/NotificationDropDown.tsx:78-90 | the unit is plural exactly when the count is not one |
| NotificationUi.AgeCounts | frontend/src/components/notification/NotificationDropDown.tsx:77-90 | past "just now" the count is at least one and below the next unit |
| NotificationUi.IconOf | frontend/src/components/notification/NotificationDropDown.tsx:41-55 | the check for welcome and accepted, the cross for rejected, the alert for info, the bell for anything else |
| NotificationUi.DeclaredTypesHaveIcons | frontend/src/components/notification/NotificationDropDown.tsx:41-55 | the four declared types never get the plain bell |
| NotificationUi.AllReadNoneUnread | frontend/src/context/NotificationContext.tsx:90-95 | a list all read has none unread |
| NotificationUi.MarkAll | frontend/src/context/NotificationContext.tsx:70-74 | every note passes through the marking, positions kept |
| NotificationUi.MarkAsRead | frontend/src/context/NotificationContext.tsx:63-82 | without a token or on a failed call nothing changes; otherwise the notes with that id become read and the counter drops by one, not below zero |
| NotificationUi.UnreadAfterMark | frontend/src/context/NotificationContext.tsx:70-77 | marking a note read lowers the unread number by one when it was unread and leaves it otherwise |
| NotificationUi.MarkNoOther | frontend/src/context/NotificationContext.tsx:70-74 | marking an absent id changes no note |
| NotificationUi.MarkAsReadConsistency | frontend/src/context/NotificationContext.tsx:63-82 | marking an unread note keeps the counter in step; marking a read one makes the counter fall below the list |
| NotificationUi.ReadAll | frontend/src/context/NotificationContext.tsx:90-92 | every note read, positions kept |
| NotificationUi.MarkAllAsRead | frontend/src/context/NotificationContext.tsx:84-99 | without a token or on a failed call nothing changes; otherwise every note is read and the counter is zero |
| NotificationUi.MarkAllConsistent | frontend/src/context/NotificationContext.tsx:84-99 | after marking everything read the counter agrees with the list |
| NotificationUi.StorageChange | frontend/src/context/NotificationContext.tsx:115-125 | other keys change nothing; a removed token clears list and counter; a new token takes the fetched list and counter, and a failed fetch keeps the state |
| AdminUsers.Fill | frontend/src/pages/admin/Users.tsx:82-87 | the identity and role are kept; a present non-zero count is kept, otherwise a count from 5 to 34 replaces it; a present non-empty join date is kept, otherwise the fixed date |
| AdminUsers.FillAll | frontend/src/pages/admin/Users.tsx:71-89 | one filled row per listed user, in order, no figure falsy |
| AdminUsers.FillIdempotent | frontend/src/pages/admin/Users.tsx:85-86 | filling a filled row again changes nothing |
| AdminUsers.Filtered | frontend/src/pages/admin/Users.tsx:51-69 | exactly the users the search (name or e-mail, ignoring case) and the role filter (ignoring case) keep, in table order |
| AdminUsers.ClearedShowsAll | frontend/src/pages/admin/Users.tsx:160-164 | with no search and no role every user shows, in table order |
| AdminUsers.SortedUsers | frontend/src/pages/admin/Users.tsx:166-177 | a rearrangement of the filtered users |
| AdminUsers.SortedUsersOrdered | frontend/src/pages/admin/Users.tsx:166-177 | the users ordered by the column in the chosen direction, equal cells keeping their order |
| AdminUsers.ChangeRole | frontend/src/pages/admin/Users.tsx:100-122 | only that user's role changes |
| AdminUsers.DeleteUser | frontend/src/pages/admin/Users.tsx:125-140 | exactly that user's rows go, the rest stay in order |
| AdminUsers.DeleteAfterRoleChange | frontend/src/pages/admin/Users.tsx:100-140 | a role change before deleting the same user leaves no trace |
| AdminUsers.ChangedRoleShown | frontend/src/pages/admin/Users.tsx:64-66 | the changed user is shown under its new role (also lines 115-118) |
| AccountRequestsPage.Selected | frontend/src/pages/admin/AccountRequestsPage.tsx:60-76 | exactly the requests of the chosen status whose name, e-mail or id contains the term, in table order |
| AccountRequestsPage.RequestSort | frontend/src/pages/admin/AccountRequestsPage.tsx:93-99 | the clicked column becomes the key; descending exactly when it was the key and ascending |
| AccountRequestsPage.RequestSortIsToggle | frontend/src/pages/admin/AccountRequestsPage.tsx:93-99 | the click behaves as the other tables' sort toggle |
| AccountRequestsPage.Shown | frontend/src/pages/admin/AccountRequestsPage.tsx:59-91 | the shown rows are the selected ones, as many |
| AccountRequestsPage.ShownOrdered | frontend/src/pages/admin/AccountRequestsPage.tsx:78-89 | with a column chosen the rows are ordered by it in the chosen direction, equal cells keeping their order |
| AccountRequestsPage.Reset | frontend/src/pages/admin/AccountRequestsPage.tsx:106-110 | every status, no search, newest first |
| AccountRequestsPage.ResetShowsAll | frontend/src/pages/admin/AccountRequestsPage.tsx:106-110 | after a reset every request shows |
| AccountRequestsPage.SetStatus | frontend/src/pages/admin/AccountRequestsPage.tsx:139-220 | only that request's status changes |
| AccountRequestsPage.Delete | frontend/src/pages/admin/AccountRequestsPage.tsx:117-136 | exactly that request goes, the rest stay in order |
| AccountRequestsPage.DeleteAfterStatus | frontend/src/pages/admin/AccountRequestsPage.tsx:117-220 | deleting after a status change is deleting |
| AccountRequestsPage.Actions | frontend/src/pages/admin/AccountRequestsPage.tsx:460-486 | the window offers exactly the two other statuses |
| AccountRequestsPage.ActionsChangeStatus | frontend/src/pages/admin/AccountRequestsPage.tsx:460-486 | every offered action moves the request to a new status and offers the way back |
| AdminBooks.SortedBooks | frontend/src/pages/admin/Books.tsx:166-177 | a rearrangement of the books |
| AdminBooks.SortedBooksOrdered | frontend/src/pages/admin/Books.tsx:166-177 | for a locale comparison that orders texts, the books ordered by the column in the chosen direction, equal cells keeping their order |
| AdminBooks.ListColumnKeepsOrder | frontend/src/pages/admin/Books.tsx:175-176 | sorting by a list column keeps the table order |
| AdminBooks.EqualKeysKeepOrder | frontend/src/pages/admin/Books.tsx:175-176 | when every cell compares equal the stable sort changes nothing |
| AdminBooks.DeleteBook | frontend/src/pages/admin/Books.tsx:113-143 | exactly that book goes, the rest stay in order |
| AdminBooks.DeleteTwice | frontend/src/pages/admin/Books.tsx:139 | deleting twice is deleting once |
| AdminBooks.JsRem | frontend/src/pages/admin/Books.tsx:186 | JavaScript's remainder: strictly between -n and n, differs from the dividend by a multiple of n, and is zero or has the dividend's sign |
| AdminBooks.CoverColor | frontend/src/pages/admin/Books.tsx:179-187 | one of four variants, chosen by the remainder for non-negative ids |
| AdminBooks.CoverColorCycle | frontend/src/pages/admin/Books.tsx:179-187 | ids four apart share a colour and four consecutive ids use all four |
| AdminRentals.Query | frontend/src/pages/admin/AdminRentalsPage.tsx:57-66 | the request table's query, followed by the search exactly when it is non-empty |
| AdminRentals.IsOverdue | frontend/src/pages/admin/AdminRentalsPage.tsx:280-285 | overdue exactly when the date reads and more than fourteen days have passed |
| AdminRentals.OverdueIsStrict | frontend/src/pages/admin/AdminRentalsPage.tsx:284 | exactly fourteen days out is not overdue; a millisecond more is |
| AdminRentals.StatusOf | frontend/src/pages/admin/AdminRentalsPage.tsx:467-478 | returned exactly when returned; overdue exactly when out and overdue; active otherwise (also line 262) |
| AdminRentals.StatusOnlyAdvances | frontend/src/pages/admin/AdminRentalsPage.tsx:262-285 | as time passes no status goes back to active |
| AdminRentals.Cells | frontend/src/pages/admin/AdminRentalsPage.tsx:254-263 | eight cells per rental: id, the user's name or "Unknown", the dates, and the status text |
| AdminRentals.Quote | frontend/src/pages/admin/AdminRentalsPage.tsx:267 | the cell as it is between double quotes |
| AdminRentals.Escape | frontend/src/pages/admin/AdminRentalsPage.tsx:267 | doubling quotes changes no other character |
| AdminRentals.QuoteRfc | frontend/src/pages/admin/AdminRentalsPage.tsx:267 | the standard's quoting keeps every other character |
| AdminRentals.QuotesAgree | frontend/src/pages/admin/AdminRentalsPage.tsx:267 | on cells without double quotes the page's quoting is the standard's |
| AdminRentals.EscapeNoQuote | frontend/src/pages/admin/AdminRentalsPage.tsx:267 | a cell without quotes is unchanged by escaping |
| AdminRentals.Quoted | frontend/src/pages/admin/AdminRentalsPage.tsx:267 | every cell quoted, in order |
| AdminRentals.Rows | frontend/src/pages/admin/AdminRentalsPage.tsx:254-264 | one line of cells per rental, in order |
| AdminRentals.JoinLacks | frontend/src/pages/admin/AdminRentalsPage.tsx:265-268 | joining adds no character absent from the parts and the separator |
| AdminRentals.HeaderOneLine | frontend/src/pages/admin/AdminRentalsPage.tsx:253-266 | the header is one line |
| AdminRentals.LinesSplit | frontend/src/pages/admin/AdminRentalsPage.tsx:265-268 | without line feeds in the cells the file splits back into the header and one record per row |
| AdminRentals.ExportLines | frontend/src/pages/admin/AdminRentalsPage.tsx:252-268 | the exported file splits into the header and one record per rental, in table order |
| AdminRentals.ParseBody | frontend/src/pages/admin/AdminRentalsPage.tsx:267 | reading a quoted field consumes input |
| AdminRentals.BodyRoundTrip | frontend/src/pages/admin/AdminRentalsPage.tsx:267 | an escaped cell reads back as itself |
| AdminRentals.ParseRecordStep | frontend/src/pages/admin/AdminRentalsPage.tsx:267 | a record reads as its first field followed by the rest |
| AdminRentals.RecordRoundTrip | frontend/src/pages/admin/AdminRentalsPage.tsx:267 | with the standard's quoting every line reads back as its cells |
| AdminRentals.QuoteInCellBreaksRecord | frontend/src/pages/admin/AdminRentalsPage.tsx:258-267 | as written, a title holding a double quote does not read back |
| AdminRentals.Ids | frontend/src/pages/admin/AdminRentalsPage.tsx:387 | the rows' ids in order |
| AdminRentals.HeaderToggle | frontend/src/pages/admin/AdminRentalsPage.tsx:384-390 | ticking selects every row, clearing selects none, and a ticked header shows ticked |
| AdminRentals.HeaderCountsOnly | frontend/src/pages/admin/AdminRentalsPage.tsx:384 | the header shows ticked by count alone, even with no shown row selected |
| AdminRentals.RowToggle | frontend/src/pages/admin/AdminRentalsPage.tsx:416-422 | ticking appends the id; clearing removes every copy of it |
| AdminRentals.DeleteOne | frontend/src/pages/admin/AdminRentalsPage.tsx:139-142 | the rental leaves the table and the selection, the rest in order |
| AdminRentals.BulkDelete | frontend/src/pages/admin/AdminRentalsPage.tsx:242-243 | every selected rental leaves and the selection empties |
| AdminRentals.BulkOfOne | frontend/src/pages/admin/AdminRentalsPage.tsx:242-243 | a bulk deletion of one is a single deletion (also lines 139-142) |
| AdminRentals.ReturnOne | frontend/src/pages/admin/AdminRentalsPage.tsx:144-148 | only that rental's row takes the server's answer |
| RequestsPage.Query | frontend/src/pages/admin/Requests.tsx:53-59 | page and size first; a status pair exactly when the filter is not "all", last |
| RequestsPage.PageCount | frontend/src/pages/admin/Requests.tsx:85 | a zero page count becomes one; any other is kept |
| RequestsPage.Label | frontend/src/pages/admin/Requests.tsx:271 | the status with only its first letter upper-cased |
| RequestsPage.LabelLowersBack | frontend/src/pages/admin/Requests.tsx:271 | a lower-case status is its label lower-cased |
| RequestsPage.HasActions | frontend/src/pages/admin/Requests.tsx:275 | buttons exactly on pending rows |
| RequestsPage.Act | frontend/src/pages/admin/Requests.tsx:129-134 | only that request becomes approved or rejected |
| RequestsPage.ActedLosesActions | frontend/src/pages/admin/Requests.tsx:129-134 | an acted-on request offers no more buttons; the others keep theirs (also line 275) |
| UserProfile.Separate | frontend/src/pages/UserProfilePage.tsx:131-141 | returned rentals go to the history and the others to the current loans, each in order; together they are the rentals |
| UserProfile.Pending | frontend/src/pages/UserProfilePage.tsx:163-165 | exactly the pending requests, in order |
| UserProfile.CeilDiv | frontend/src/pages/UserProfilePage.tsx:199 | the least whole count covering the amount |
| UserProfile.DaysLeft | frontend/src/pages/UserProfilePage.tsx:192-202 | no number for an unreadable date; otherwise the days to the due time, rounded up |
| UserProfile.Label | frontend/src/pages/UserProfilePage.tsx:417-421 | "Overdue" at zero days or fewer, "1 day left" at one |
| UserProfile.ColourOf | frontend/src/pages/UserProfilePage.tsx:408-415 | red under three days, amber under seven, green otherwise |
| UserProfile.OverdueFromDueTime | frontend/src/pages/UserProfilePage.tsx:192-202 | "Overdue" exactly from the due time on, and then red (also lines 417-418) |
| UserProfile.Heads | frontend/src/pages/UserProfilePage.tsx:245 | at most one letter per part |
| UserProfile.Initials | frontend/src/pages/UserProfilePage.tsx:245 | at most two characters, none lower case |
| UserProfile.InitialsOfTwoNames | frontend/src/pages/UserProfilePage.tsx:245 | a first and a last name give their two initials, upper-cased |
| ChatbotUi.MainResponse | frontend/src/components/chatbot/Chatbot.tsx:113-116 | without a follow-up the stored answer as it is; with one, a trimmed text no longer than the answer, only trimmed when the follow-up does not occur |
| ChatbotUi.FollowUpSplitOff | frontend/src/components/chatbot/Chatbot.tsx:113-116 | a follow-up appended to an answer is split off again |
| ChatbotUi.Expand | frontend/src/components/chatbot/Chatbot.tsx:104-133 | each row gives the reader's message and the answer at its time, plus the follow-up 100 ms later when there is one |
| ChatbotUi.ExpandAllLength | frontend/src/components/chatbot/Chatbot.tsx:104-133 | n rows give 2n + f messages, f the rows with a follow-up |
| ChatbotUi.History | frontend/src/components/chatbot/Chatbot.tsx:104-136 | a rearrangement of the expanded messages |
| ChatbotUi.HistoryShape | frontend/src/components/chatbot/Chatbot.tsx:104-136 | 2n + f messages in time order, equal times keeping their expansion order |
| ChatbotUi.DigitRun | frontend/src/components/chatbot/Chatbot.tsx:203-213 | the longest leading run of digits |
| ChatbotUi.DigitsParse | frontend/src/components/chatbot/Chatbot.tsx:203-213 | digits alone are neither trimmed nor signed, and form one run |
| ChatbotUi.ParseIntDigits | frontend/src/components/chatbot/Chatbot.tsx:203-213 | a run of digits reads as its decimal value |
| ChatbotUi.ParseIntNegative | frontend/src/components/chatbot/Chatbot.tsx:203-213 | a minus sign negates the value |
| ChatbotUi.ParseIntToString | frontend/src/components/chatbot/Chatbot.tsx:203-213 | integers read back from their decimal form |
| ChatbotUi.ParseIntHex | frontend/src/components/chatbot/Chatbot.tsx:203-213 | with no radix, `0x` followed by hexadecimal digits reads as their base-sixteen value |
| ChatbotUi.RecId | frontend/src/components/chatbot/Chatbot.tsx:203-213 | a missing or empty id reads as 0 |
| ChatbotUi.IntOr | frontend/src/components/chatbot/Chatbot.tsx:221-223 | the default, or a present non-zero value |
| ChatbotUi.RealOr | frontend/src/components/chatbot/Chatbot.tsx:207 | the default, or a present non-zero value |
| ChatbotUi.MapBook | frontend/src/components/chatbot/Chatbot.tsx:201-210 | missing texts read empty, a missing rating 0, a missing id 0; present values are kept |
| ChatbotUi.MapArticle | frontend/src/components/chatbot/Chatbot.tsx:211-225 | a missing or zero reading time reads 5, missing counters 0, missing texts empty, a missing id 0 |
| ChatbotUi.MapBookRoundTrip | frontend/src/components/chatbot/Chatbot.tsx:201-210 | a shown book sent back in full shows unchanged |
| ChatbotUi.MapArticleRoundTrip | frontend/src/components/chatbot/Chatbot.tsx:211-225 | a shown article sent back in full shows unchanged, except that a reading time of zero shows as 5 |
| ChatbotUi.MapBooks | frontend/src/components/chatbot/Chatbot.tsx:201-210 | a missing list reads empty; otherwise one mapped book per entry |
| ChatbotUi.MapArticles | frontend/src/components/chatbot/Chatbot.tsx:211-225 | a missing list reads empty; otherwise one mapped article per entry |
| ChatbotUi.LiveContentAsWritten | frontend/src/components/chatbot/Chatbot.tsx:230 | the live answer as written is trimmed |
| ChatbotUi.LiveContentLosesWord | frontend/src/components/chatbot/Chatbot.tsx:230 | as written, an answer "undefined" without a follow-up shows as nothing |
| ChatbotUi.LiveContent | frontend/src/components/chatbot/Chatbot.tsx:230 | without a follow-up the answer as it is; with one a trimmed text (also lines 113-116) |
| ChatbotUi.LiveContentMatchesHistory | frontend/src/components/chatbot/Chatbot.tsx:230 | a live answer reads as it does reloaded from the history (also lines 113-116) |
| ChatbotUi.Who | frontend/src/components/chatbot/Chatbot.tsx:42-66 | the user's name when present, otherwise a non-empty word for "user" |
| ChatbotUi.Welcome | frontend/src/components/chatbot/Chatbot.tsx:80-87 | the "welcome" assistant message with the greeting for the name and no recommendations |
| ChatbotUi.Toggle | frontend/src/components/chatbot/Chatbot.tsx:167-176 | a signed-out reader cannot open; otherwise the widget flips, the messages stay, and opening reloads the history |
| ChatbotUi.ToggleTwice | frontend/src/components/chatbot/Chatbot.tsx:167-176 | closing and reopening keeps the conversation and reloads the history |
| ChatbotUi.GreetOnOpen | frontend/src/components/chatbot/Chatbot.tsx:78-90 | the first opening with nothing shown shows the welcome alone; otherwise nothing changes |
| ChatbotUi.LoadHistory | frontend/src/components/chatbot/Chatbot.tsx:96-165 | only an open widget without a loaded history loads; a non-empty history replaces the messages; an empty or failed one shows the welcome if nothing is shown |
| ChatbotUi.EmptyHistoryWelcomes | frontend/src/components/chatbot/Chatbot.tsx:138-160 | with nothing shown and no history, exactly the welcome shows |
| ChatbotUi.Send | frontend/src/components/chatbot/Chatbot.tsx:182-262 | blank input or a signed-out reader sends nothing; otherwise the reader's message is appended after the existing ones and the input cleared, and a reply's answer follows it with the text built as written |
| ChatbotUi.Answers | frontend/src/components/chatbot/Chatbot.tsx:226-251 | a failure adds nothing; a reply adds the assistant's answer, its text built as written (the follow-up removed from the reply, then trimmed), and the follow-up when there is one |
| ChatbotUi.LiveContentAgreesWithFollowUp | frontend/src/components/chatbot/Chatbot.tsx:230 | with a non-empty follow-up the text as written and the intended text agree |
| ChatbotUi.SendGrowth | frontend/src/components/chatbot/Chatbot.tsx:182-262 | a send adds one message on failure, two on a reply, three with a follow-up; only a 401 closes the widget |
| ChatbotUi.Clear | frontend/src/components/chatbot/Chatbot.tsx:268-288 | a cleared conversation shows the welcome alone; a failure changes nothing |
| ChatbotUi.ClearTwice | frontend/src/components/chatbot/Chatbot.tsx:268-288 | clearing twice is clearing once |
| AdminDashboard.Borrowed | frontend/src/pages/admin/AdminDashboard.tsx:218-221 | at most the number of rentals |
| AdminDashboard.BorrowedPlusReturned | frontend/src/pages/admin/AdminDashboard.tsx:220 | every rental is either still out or returned |
| AdminDashboard.UsersLoaded | frontend/src/pages/admin/AdminDashboard.tsx:126-146 | the users counter takes the number of users; a failure sets the rentals panel's message |
| AdminDashboard.RentalsLoaded | frontend/src/pages/admin/AdminDashboard.tsx:204-228 | the rentals are kept and the borrowed counter counts those still out; the other counters stay |
| AdminDashboard.TotalBooks | frontend/src/pages/admin/AdminDashboard.tsx:273 | a present non-zero total, otherwise the list's length |
| AdminDashboard.BooksLoaded | frontend/src/pages/admin/AdminDashboard.tsx:235-281 | no message exactly when a token exists and a list came; then the list is kept and counted; otherwise the list empties and the counters stay |
| AdminDashboard.LoadsCommute | frontend/src/pages/admin/AdminDashboard.tsx:126-281 | the requests touch disjoint counters, so their answers commute |
| AdminDashboard.Recent | frontend/src/pages/admin/AdminDashboard.tsx:288-301 | nothing without a list; otherwise six books or all, each from the list |
| AdminDashboard.RecentAreNewest | frontend/src/pages/admin/AdminDashboard.tsx:288-301 | newest first, and no book left out is newer than one shown |
| ArticleDetails.LoadError | frontend/src/pages/ArticleDetailsPage.tsx:169-171 | "not found" exactly for a 404; the generic message otherwise |
| ArticleDetails.Load | frontend/src/pages/ArticleDetailsPage.tsx:101-180 | a signed-out reader goes to the login page; a missing token or slug and a failure show an error, no article and no related ones; otherwise the article with its marks when readable and the related ones or none |
| ArticleDetails.Optimistic | frontend/src/pages/ArticleDetailsPage.tsx:186-248 | success flips the mark and moves the counter by one; a failure restores both |
| ArticleDetails.OptimisticKeepsOthers | frontend/src/pages/ArticleDetailsPage.tsx:186-248 | other readers' marks are unchanged and two toggles undo each other |
| ArticleDetails.Like | frontend/src/pages/ArticleDetailsPage.tsx:186-216 | nothing without an article; otherwise only the like mark and its counter change |
| ArticleDetails.Bookmark | frontend/src/pages/ArticleDetailsPage.tsx:218-248 | nothing without an article; otherwise only the bookmark mark and its counter change |
| ArticleDetails.LikeTwiceRestores | frontend/src/pages/ArticleDetailsPage.tsx:186-216 | liking twice restores the page; a like leaves the bookmark alone |
| ArticleDetails.BookmarkTwiceRestores | frontend/src/pages/ArticleDetailsPage.tsx:218-248 | bookmarking twice restores the page; a bookmark leaves the like alone |
| ArticleDetails.SiteOf | frontend/src/pages/ArticleDetailsPage.tsx:260-272 | exactly the four named sites have a share window |
| ArticleDetails.ShareWith | frontend/src/pages/ArticleDetailsPage.tsx:254-295 | a site opens a window, "copy" copies the URL, any other button does nothing |
| ArticleDetails.AfterShare | frontend/src/pages/ArticleDetailsPage.tsx:287-294 | the menu closes after every known button |
| ArticleDetails.PrefixesDiffer | frontend/src/pages/ArticleDetailsPage.tsx:262-271 | two texts that differ early differ whatever follows |
| ArticleDetails.PrefixMarks | frontend/src/pages/ArticleDetailsPage.tsx:262-271 | three fixed characters tell each site's URL apart |
| ArticleDetails.FacebookMarks | frontend/src/pages/ArticleDetailsPage.tsx:262 | the Facebook URL's distinguishing characters |
| ArticleDetails.TwitterMarks | frontend/src/pages/ArticleDetailsPage.tsx:265 | the Twitter URL's distinguishing characters |
| ArticleDetails.LinkedinMarks | frontend/src/pages/ArticleDetailsPage.tsx:268 | the LinkedIn URL's distinguishing characters |
| ArticleDetails.EmailMarks | frontend/src/pages/ArticleDetailsPage.tsx:271 | the e-mail URL's distinguishing characters |
| ArticleDetails.SitesDiffer | frontend/src/pages/ArticleDetailsPage.tsx:260-272 | different sites get different share URLs whatever the encoder gives |
| ArticleDetails.ShareTargetsDiffer | frontend/src/pages/ArticleDetailsPage.tsx:254-295 | two site buttons open two different windows |
| ArticleDetails.Stem | frontend/src/pages/ArticleDetailsPage.tsx:312 | the same length; letters and digits lower-cased, every other character a dash |
| ArticleDetails.StemIdempotent | frontend/src/pages/ArticleDetailsPage.tsx:312 | a stem is its own stem |
| ArticleDetails.Download | frontend/src/pages/ArticleDetailsPage.tsx:308-316 | a download exactly when the article has a PDF, named after the title's stem |
| ArticleDetails.Progress | frontend/src/pages/ArticleDetailsPage.tsx:73-80 | between 0 and 100; undefined only with no room and no scroll; the scrolled share within range |
| ArticleDetails.ProgressMonotone | frontend/src/pages/ArticleDetailsPage.tsx:73-80 | scrolling further never lowers the progress |
| Tables.Toggle | frontend/src/pages/admin/Users.tsx:143-150 | the clicked column becomes the key; the same column flips the direction, another sorts ascending |
| Tables.ToggleTwice | frontend/src/pages/admin/Books.tsx:104-111 | clicking the same column twice restores the order |
| Tables.LexCompare | frontend/src/pages/admin/Users.tsx:174-176 | zero exactly for equal texts |
| Tables.LexTotal | frontend/src/pages/admin/Users.tsx:174-176 | any two texts compare one way or the other, antisymmetrically |
| Tables.LexTransitive | frontend/src/pages/admin/Users.tsx:174-176 | the text order is transitive |
| Tables.LexIsOrder | frontend/src/pages/admin/Users.tsx:174-176 | the string order is a total order |
| Tables.RowOrderIsPreorder | frontend/src/pages/admin/Books.tsx:166-177 | rows of a typed column compare as a total preorder in either direction |
| Tables.Sorted | frontend/src/pages/admin/Books.tsx:166 | a rearrangement of the rows |
| Tables.SortedIsOrdered | frontend/src/pages/admin/Books.tsx:166-177 | ordered by the column in the chosen direction, equal cells keeping their order |
| Tables.UpdateWhere | frontend/src/pages/admin/Users.tsx:115-117 | only the rows with the id change |
| Tables.RemoveId | frontend/src/pages/admin/Users.tsx:136 | exactly the rows with the id go, the rest in order |
| Tables.RemoveIdTwice | frontend/src/pages/admin/Books.tsx:139 | removing twice is removing once |
| Tables.RemoveAfterUpdate | frontend/src/pages/admin/Users.tsx:115-136 | removing a row after changing it is removing it |

## Left out

- ArticleScraper.AuthorInitials: the initials are upper-cased with ASCII case mapping, so the result always has two characters. Python's `str.upper` can lengthen a letter (`"ß".upper()` is `"SS"`), which makes backend/article_scraper.py:34-40 return three.
- ArticleScraper.TitleInitials: the same ASCII restriction as `AuthorInitials`. With a title starting with `ß`, backend/article_scraper.py:49-55 returns three characters.
- Grounding.ValidateBooks: a proposed id reaches the catalog through `ResolveProposedBook`, which accepts only ASCII digits. Python's `isdigit()` and `int()` also accept other decimal digits, so "٣" names book 3 in backend/app/services/ChatBot.py:1222-1223.
- Grounding.ValidateArticles: the same ASCII-digit restriction, through `ResolveProposedArticle`.
- Grounding.ResolveBookGrounded: grounding is proved for ASCII digit strings only, for the reason given under `Grounding.ValidateBooks`.
- Strs.PyInt: reads ASCII digits with an optional sign and surrounding blanks. Python's `int()` also accepts underscores between digits and non-ASCII decimal digits.
- ChatMessages.ToFloat: any JSON number becomes a value. In backend/app/model/ChatMessage.py:67-76, `float()` of an integer beyond the double range raises `OverflowError`. That error escapes the `except (ValueError, TypeError)` and reaches the outer handler, which empties both recommendation lists. JSON's non-standard `Infinity` and `NaN` are not represented.
- ChatMessages.ToInt: the same overflow path as `ToFloat` is not modelled.
- Users.PaginatedUsers: the `ilike '%q%'` search is a case-insensitive substring test (`Users.UserMatches`). `%` and `_` in the query are taken literally, while SQL treats them as wildcards (backend/app/services/UserService.py:33). A negative page size is treated as the database error it causes.
- Users.PaginatedAccountRequests: the same literal reading of `%` and `_` (backend/app/services/UserService.py:146).
- Articles.ListArticles: the `ilike '%q%'` search and category filters are read as case-insensitive substring tests, so `%` and `_` in the query are taken literally where SQL treats them as wildcards (backend/app/controllers/article_controller.py:25-31). The tag filter `tags.like('%"tag"%')` (line 34) is read as "the lower-cased tag is one of the tags". The source matches a pattern against the column's JSON text, so its answer depends on the database behind `DATABASE_URL`. SQLite matches case-insensitively and can match across two elements or inside an escaped string. PostgreSQL defines no `LIKE` on `json`. A page below 1 or a negative page size is read as the error PostgreSQL raises for a negative OFFSET or LIMIT; SQLite would treat a negative OFFSET as 0 and a negative LIMIT as no limit and answer 200.
- ChatbotUi.RecId: `parseInt` yields a double, so a digit string above 2^53 rounds to the nearest representable number; the model keeps the exact integer.
- Users.ClampedPage: a negative `per_page` gives a negative LIMIT, which PostgreSQL refuses. The model treats it as that error; the database's message is not modelled.
- ChatCatalogTools.MatchingCategories: the `ilike` category filter (`ChatCatalogTools.Matches`) takes `%` and `_` literally (backend/app/services/ChatBot.py:523).
- ChatCatalogTools.SearchByCategory: the same literal reading of `%` and `_` (backend/app/services/ChatBot.py:533). A negative limit on the article query is treated as the database error it causes.
- NotificationUi.AgeOf: takes the creation time as an integer. The "unknown time" answer for a date the browser cannot read (frontend/src/components/notification/NotificationDropDown.tsx:60-64,92-95) is not modelled.
- IndexSync.Apply: assumes the vector index deletes and adds vectors by the catalog row's metadata id, as the source relies on.
- IndexSync.Schedule: the `threading.Timer` is a re-armed flag. Real timing is not modelled, nor is a race between the flush's snapshot and clear and an event queued between them; the model takes both steps together under the lock.
- UserProfile.DaysLeft: the due date is the rental time plus fourteen times 24 hours. `Date.setDate` keeps the local clock time, so across a daylight-saving change the source's due date differs by an hour.
- Tables.LexCompare: compares code points. JavaScript compares strings by UTF-16 code units, which orders characters outside the Basic Multilingual Plane differently.
- ChatbotUi.Send: the follow-up question is appended in the same step as the answer. In the source it arrives a second later, and messages sent in between can come before it.
- ChatbotUi.History: a stored timestamp is read as an integer. A date the browser cannot parse (NaN) is not represented.
- NotificationUi.UnreadAfterMark: proved when the marked id is unique in the list. With duplicate ids the list changes every copy but the counter drops by one.
- RentalRequests.ApproveRequest: the source calls `create_rental(..., update_book=True)`, which `create_rental` does not accept. That `TypeError` rolls the session back. The parameter `createRentalReturns` chooses between that path and the evidently intended transition.
- ChatUserTools.CancelBorrowRequest: the branch for a falsy result from the cancel service cannot be reached (the service returns a request or raises), so it is left out.
- Seed.BaseSlug: the `python-slugify` library is a parameter.
- AdminRentals.ReturnOne: the server's answer replaces the row, while the source merges it into the old row (`{...r, ...updated}`). The two agree whenever the answer carries every field of the row.
- The chat tools `get_popular_items`, `advanced_search`, `article_fulltext_search` and `trending_items` (backend/app/services/ChatBot.py:547,648,830,858) are not modelled.
- The dashboard's `fetchBorrowRequests` (frontend/src/pages/admin/AdminDashboard.tsx:151-200) is not modelled.
- The chat route (backend/app/controllers/chatbot_controller.py:38-42) answers with `response`, `language` and `book_recommendations` only. The chat widget's model takes the follow-up and recommendation keys as optional. With no follow-up, the widget as written still removes the text `undefined` once from the answer and trims it (see Findings), and `ChatbotUi.Answers` keeps that behaviour.
- The regular expressions of the older chat service: `re.IGNORECASE` is read as ASCII case folding.
- The agent is a singleton, so a second user's `user_id` overwrites the first's. Requests are taken one at a time.
- The article record's `content` column versus its `pdf_url` is not modelled.
- Left to the parameters or out entirely:
  - the language model, the embeddings and the similarity search;
  - MD5, randomness and Zod's internals;
  - SQLAlchemy persistence, Flask routing, JWT, axios and localStorage transport;
  - React's batching and polling, and concurrency.

## Findings

| source | as written | input that shows it | evidently intended | confidence | as-written member | corrected member |
|---|---|---|---|---|---|---|
| frontend/src/pages/LibraryRegistrationPage.tsx:42-61 | `validateForm` reads `attemptedSubmit` from the render before `setAttemptedSubmit(true)` takes effect, so the first submit skips the schema and sends | an empty form with the terms checked, submitted once | the schema is checked on every submit | not executed | AuthForms.FirstSubmitSkipsSchema | AuthForms.SubmitIntendedSendsValid |
| frontend/src/pages/admin/AdminRentalsPage.tsx:267 | each CSV cell is wrapped in double quotes without doubling the quotes inside it | a book title `a"b` | inner quotes doubled, as section 2 of RFC 4180 requires, so every line reads back as its cells | not executed | AdminRentals.QuoteInCellBreaksRecord | AdminRentals.RecordRoundTrip |
| frontend/src/components/chatbot/Chatbot.tsx:230 | `replace(follow_up_question, '')` with no follow-up turns the pattern into the text "undefined" | an answer "undefined" with no follow-up question | the answer shown unchanged when there is no follow-up | not executed | ChatbotUi.LiveContentLosesWord | ChatbotUi.LiveContentMatchesHistory |

=== FILE: account_requests_page.dfy ===
/** The administrator's account-request table
    (frontend/src/pages/admin/AccountRequestsPage.tsx): the status filter, the
    search, the sort by a clicked column, the reset, the local status changes
    and deletion, and the actions the detail window offers. */
module AccountRequestsPage {
  import opened Seqs
  import opened Strs
  import opened Wrappers
  import opened Tables

  datatype Status = Pending | Approved | Rejected

  /** The status as the server spells it. */
  function StatusName(s: Status): string
  {
    match s
    case Pending => "pending"
    case Approved => "approved"
    case Rejected => "rejected"
  }

  datatype AccountRequest = AccountRequest(id: nat, name: string, email: string, status: Status, createdAt: string)

  /** The status drop-down: every status, or just one. */
  datatype StatusFilter = All | Only(status: Status)

  /** The lower-cased search term occurs in the lower-cased name or email, or
      in the id written in decimal. */
  predicate Found(q: AccountRequest, term: string)
  {
    var t := Lower(term);
    Contains(Lower(q.name), t) || Contains(Lower(q.email), t) || Contains(NatToString(q.id), t)
  }

  predicate Kept(q: AccountRequest, filter: StatusFilter, term: string)
  {
    && (filter.Only? ==> q.status == filter.status)
    && (term != "" ==> Found(q, term))
  }

  /** The status filter, then the search, in table order. */
  function Selected(requests: seq<AccountRequest>, filter: StatusFilter, term: string): (r: seq<AccountRequest>)
    ensures forall q :: q in r <==> q in requests && Kept(q, filter, term)
    ensures Subseq(r, requests)
  {
    var byStatus := (q: AccountRequest) => filter.Only? && q.status == filter.status;
    var found := (q: AccountRequest) => Found(q, term);
    var filtered := if filter.Only? then Filter(requests, byStatus) else requests;
    if term != "" then
      if filter.Only? then
        FilterFilter(requests, byStatus, found);
        Filter(filtered, found)
      else Filter(requests, found)
    else
      SubseqRefl(requests);
      filtered
  }

  datatype Column = Id | Name | Email | State | CreatedAt

  /** The cell of a column: the id is a number, the rest are texts (dates in
      the server's text form). */
  function Cell(c: Column): AccountRequest -> Key
  {
    (q: AccountRequest) =>
      match c
      case Id => Num(q.id as real)
      case Name => Text(q.name)
      case Email => Text(q.email)
      case State => Text(StatusName(q.status))
      case CreatedAt => Text(q.createdAt)
  }

  /** `sortConfig`: the column, if any, and the direction. */
  datatype SortConfig = SortConfig(key: Option<Column>, dir: Direction)

  /** Newest first, as the page opens and after a reset. */
  const DefaultSort := SortConfig(Some(CreatedAt), Desc)

  /** `requestSort`: the column sorted ascending turns descending; any other
      click sorts ascending by the clicked column. */
  function RequestSort(c: SortConfig, key: Column): (r: SortConfig)
    ensures r.key == Some(key)
    ensures r.dir == Desc <==> c.key == Some(key) && c.dir == Asc
  {
    if c.key == Some(key) && c.dir == Asc then SortConfig(Some(key), Desc) else SortConfig(Some(key), Asc)
  }

  /** Clicking the sorted column behaves as the other tables' toggle; clicking
      the sorted column when it is descending turns it ascending again. */
  lemma RequestSortIsToggle(c: SortConfig, key: Column)
    requires c.key.Some?
    ensures var t := Toggle(SortState(c.key.value, c.dir), key);
      RequestSort(c, key) == SortConfig(Some(t.field), t.dir)
  {
  }

  /** The table as shown: the selected requests, sorted when a column is chosen. */
  function Shown(requests: seq<AccountRequest>, filter: StatusFilter, term: string, c: SortConfig): (r: seq<AccountRequest>)
    ensures forall q :: q in r <==> q in requests && Kept(q, filter, term)
    ensures |r| == |Selected(requests, filter, term)|
  {
    var selected := Selected(requests, filter, term);
    if c.key.None? then selected
    else
      var sorted := Sorted(selected, LexCompare, c.dir, Cell(c.key.value));
      assert |sorted| == |multiset(selected)|;
      assert forall q :: q in sorted <==> q in multiset(selected);
      sorted
  }

  /** With a column chosen, the shown rows are ordered by it in the chosen
      direction, and requests with equal cells keep their table order. */
  lemma ShownOrdered(requests: seq<AccountRequest>, filter: StatusFilter, term: string, c: SortConfig, x: AccountRequest)
    requires c.key.Some?
    ensures var r := Shown(requests, filter, term, c);
      var le := RowOrder(LexCompare, c.dir, Cell(c.key.value));
      (forall i, j :: 0 <= i < j < |r| ==> le(r[i], r[j])) &&
      Filter(r, EquivTo(le, x)) == Filter(Selected(requests, filter, term), EquivTo(le, x))
  {
    LexIsOrder();
    assert Uniform(Cell(c.key.value));
    SortedIsOrdered(Selected(requests, filter, term), LexCompare, c.dir, Cell(c.key.value), x);
  }

  /** The page's filters and sort. */
  datatype View = View(filter: StatusFilter, term: string, sort: SortConfig)

  /** `resetFilters`: every status, no search, newest first. */
  function Reset(v: View): (r: View)
    ensures r.filter == All && r.term == "" && r.sort.key == Some(CreatedAt) && r.sort.dir == Desc
  {
    View(All, "", DefaultSort)
  }

  /** After a reset every request is shown, newest first. */
  lemma ResetShowsAll(requests: seq<AccountRequest>, v: View)
    ensures var w := Reset(v);
      multiset(Shown(requests, w.filter, w.term, w.sort)) == multiset(requests)
  {
    var w := Reset(v);
    SubseqRefl(requests);
    assert Selected(requests, All, "") == requests;
  }

  function RequestId(q: AccountRequest): int { q.id }

  /** `handleApprove`, `handleReject` and `handleSetPending` after the server
      agreed: that request takes the new status, and nothing else changes. */
  function SetStatus(requests: seq<AccountRequest>, id: int, s: Status): (r: seq<AccountRequest>)
    ensures |r| == |requests|
    ensures forall i :: 0 <= i < |r| ==>
      r[i] == if requests[i].id == id then requests[i].(status := s) else requests[i]
  {
    UpdateWhere(requests, id, RequestId, (q: AccountRequest) => q.(status := s))
  }

  /** `handleDelete` after the server agreed: that request is gone, the others
      stay in order. */
  function Delete(requests: seq<AccountRequest>, id: int): (r: seq<AccountRequest>)
    ensures forall q :: q in r <==> q in requests && q.id != id
    ensures Subseq(r, requests)
  {
    RemoveId(requests, id, RequestId)
  }

  /** Deleting a request after changing its status is deleting it. */
  lemma DeleteAfterStatus(requests: seq<AccountRequest>, id: int, s: Status)
    ensures Delete(SetStatus(requests, id, s), id) == Delete(requests, id)
  {
    RemoveAfterUpdate(requests, id, RequestId, (q: AccountRequest) => q.(status := s));
  }

  /** The buttons of the detail window, in order: approve unless approved,
      reject unless rejected, set pending unless pending. */
  function Actions(s: Status): (r: seq<Status>)
    ensures forall t :: t in r <==> t != s
    ensures |r| == 2 && r[0] != r[1]
  {
    (if s != Approved then [Approved] else []) +
    (if s != Rejected then [Rejected] else []) +
    (if s != Pending then [Pending] else [])
  }

  /** Every offered action moves the request to a status it does not have,
      and leaves the request offering the way back. */
  lemma ActionsChangeStatus(requests: seq<AccountRequest>, i: nat, t: Status)
    requires i < |requests| && t in Actions(requests[i].status)
    ensures var r := SetStatus(requests, requests[i].id, t);
      r[i].status == t != requests[i].status && requests[i].status in Actions(r[i].status)
  {
  }
}

=== FILE: admin_books.dfy ===
/** The administrator's book table (frontend/src/pages/admin/Books.tsx): the
    sort by any column, the local deletion, and the colour of the cover
    placeholder. Texts are compared by `localeCompare`, which depends on the
    browser's locale and is a parameter here. */
module AdminBooks {
  import opened Seqs
  import opened Tables
  import opened Wrappers

  datatype Book = Book(id: int, title: string, coverUrl: string, description: string, rating: real,
                       summary: string, authors: seq<string>, categories: seq<string>,
                       borrowCount: int, totalBooks: int, availableBooks: int)

  datatype Column = Id | Title | CoverUrl | Description | Rating | Summary
                  | Authors | Categories | BorrowCount | TotalBooks | AvailableBooks

  /** The cell of a column; the two list columns are neither text nor number. */
  function Cell(c: Column): Book -> Key
  {
    (b: Book) =>
      match c
      case Id => Num(b.id as real)
      case Title => Text(b.title)
      case CoverUrl => Text(b.coverUrl)
      case Description => Text(b.description)
      case Rating => Num(b.rating)
      case Summary => Text(b.summary)
      case Authors => Other
      case Categories => Other
      case BorrowCount => Num(b.borrowCount as real)
      case TotalBooks => Num(b.totalBooks as real)
      case AvailableBooks => Num(b.availableBooks as real)
  }

  /** The table starts sorted by title, ascending. */
  const InitialSort := SortState(Title, Asc)

  /** `sortedBooks`: the books sorted by the chosen column, texts by the
      locale's comparison and numbers by difference; lists compare equal. */
  function SortedBooks(books: seq<Book>, s: SortState<Column>, localeCompare: (string, string) -> int): (r: seq<Book>)
    ensures multiset(r) == multiset(books)
  {
    Sorted(books, localeCompare, s.dir, Cell(s.field))
  }

  /** For a locale comparison that orders texts, the sorted table holds every
      book as often as before, ordered by the column in the chosen direction,
      and books with equal cells keep their order. */
  lemma SortedBooksOrdered(books: seq<Book>, s: SortState<Column>, localeCompare: (string, string) -> int, x: Book)
    requires TextOrder(localeCompare)
    ensures var r := SortedBooks(books, s, localeCompare);
      var le := RowOrder(localeCompare, s.dir, Cell(s.field));
      multiset(r) == multiset(books) &&
      (forall i, j :: 0 <= i < j < |r| ==> le(r[i], r[j])) &&
      Filter(r, EquivTo(le, x)) == Filter(books, EquivTo(le, x))
  {
    assert Uniform(Cell(s.field));
    SortedIsOrdered(books, localeCompare, s.dir, Cell(s.field), x);
  }

  /** Sorting by a list column keeps the table order, whatever the direction. */
  lemma ListColumnKeepsOrder(books: seq<Book>, dir: Direction, localeCompare: (string, string) -> int)
    ensures SortedBooks(books, SortState(Authors, dir), localeCompare) == books
    ensures SortedBooks(books, SortState(Categories, dir), localeCompare) == books
  {
    EqualKeysKeepOrder(books, localeCompare, dir, Cell(Authors));
    EqualKeysKeepOrder(books, localeCompare, dir, Cell(Categories));
  }

  /** When every cell of the column is `Other`, every row may precede every
      other, so the stable sort changes nothing. */
  lemma {:induction false} EqualKeysKeepOrder(books: seq<Book>, cmp: (string, string) -> int, dir: Direction, key: Book -> Key)
    requires forall b :: key(b) == Other
    ensures Sorted(books, cmp, dir, key) == books
    decreases |books|
  {
    if |books| > 0 {
      EqualKeysKeepOrder(books[1..], cmp, dir, key);
      assert books == [books[0]] + books[1..];
      var t := Sorted(books[1..], cmp, dir, key);
      if |t| > 0 {
        assert RowOrder(cmp, dir, key)(books[0], t[0]);
      }
    }
  }

  function BookId(b: Book): int { b.id }

  /** `handleDeleteBook` after the server agreed: that book is gone, the others
      stay in order. */
  function DeleteBook(books: seq<Book>, id: int): (r: seq<Book>)
    ensures forall b :: b in r <==> b in books && b.id != id
    ensures Subseq(r, books)
  {
    RemoveId(books, id, BookId)
  }

  /** Deleting twice is deleting once. */
  lemma DeleteTwice(books: seq<Book>, id: int)
    ensures DeleteBook(DeleteBook(books, id), id) == DeleteBook(books, id)
  {
    RemoveIdTwice(books, id, BookId);
  }

  /** A positive multiple of `n` is at least `n`. */
  lemma {:induction false} MulAtLeast(n: nat, j: int)
    requires j >= 1
    ensures n * j >= n
    decreases j
  {
    if j > 1 {
      MulAtLeast(n, j - 1);
      assert n * j == n * (j - 1) + n;
    }
  }

  /** A multiple of `n` leaves no remainder. */
  lemma MultipleRem(n: int, k: int)
    requires n > 0
    ensures (n * k) % n == 0
  {
    var m := n * k;
    var j := k - m / n;
    assert n * j == m % n by {
      assert m == n * (m / n) + m % n;
      assert n * j == n * k - n * (m / n);
    }
    if j >= 1 {
      MulAtLeast(n, j);
    }
  }

  /** The truncating remainder's three defining facts. */
  lemma JsRemProps(a: int, n: int, r: int)
    requires n > 0
    requires r == if a >= 0 then a % n else -((-a) % n)
    ensures -n < r < n
    ensures (a - r) % n == 0
    ensures r == 0 || (r > 0 <==> a > 0)
  {
    var b := if a >= 0 then a else -a;
    assert b == n * (b / n) + b % n;
    if a >= 0 {
      assert a - r == n * (b / n);
      MultipleRem(n, b / n);
    } else {
      assert a - r == n * -(b / n);
      MultipleRem(n, -(b / n));
    }
  }

  /** The remainder of JavaScript's `%`, which truncates the quotient toward
      zero: `a` minus the remainder is a multiple of `n`, the remainder is
      smaller than `n` in size, and a non-zero remainder takes the sign of
      the dividend. */
  function JsRem(a: int, n: int): (r: int)
    requires n > 0
    ensures -n < r < n
    ensures (a - r) % n == 0
    ensures r == 0 || (r > 0 <==> a > 0)
  {
    var r := if a >= 0 then a % n else -((-a) % n);
    JsRemProps(a, n, r);
    r
  }

  /** `getCoverColor`: one of four colour variants, by the id's remainder; a
      negative id with a non-zero remainder indexes outside the list and
      gives no colour. */
  function CoverColor(id: int): (r: Option<nat>)
    ensures r.Some? ==> r.value < 4
    ensures id >= 0 ==> r == Some(id % 4)
  {
    var k := JsRem(id, 4);
    if 0 <= k then Some(k) else None
  }

  /** Ids four apart share a colour, and four consecutive ids use all four. */
  lemma CoverColorCycle(id: nat)
    ensures CoverColor(id + 4) == CoverColor(id)
    ensures {CoverColor(id).value, CoverColor(id + 1).value, CoverColor(id + 2).value, CoverColor(id + 3).value} == {0, 1, 2, 3}
  {
  }
}

=== FILE: admin_dashboard.dfy ===
/** The administrator's dashboard (frontend/src/pages/admin/AdminDashboard.tsx):
    the three counters, the loading of users, rentals and books that fills
    them, and the list of recently added books. Dates are read by the
    browser's parser, a parameter here. */
module AdminDashboard {
  import opened Wrappers
  import opened Strs
  import opened Seqs

  datatype Book = Book(id: int, title: string, createdAt: string)

  datatype Rental = Rental(id: int, bookId: int, userId: int, returnedAt: Option<string>)

  datatype Stats = Stats(borrowedBooks: int, totalUsers: int, totalBooks: int)

  /** The page's state: the counters, the loaded books and rentals, and the
      messages of the book and rental panels. */
  datatype Dashboard = Dashboard(stats: Stats, books: seq<Book>, bookError: Option<string>,
                                 rentals: seq<Rental>, rentalError: Option<string>)

  const Initial := Dashboard(Stats(0, 0, 0), [], None, [], None)

  /** `returned_at` is falsy: the book is still out. */
  predicate Out(r: Rental)
  {
    r.returnedAt.None? || r.returnedAt.value == ""
  }

  /** The borrowed-books counter: the rentals not yet returned. */
  function Borrowed(rentals: seq<Rental>): (r: nat)
    ensures r <= |rentals|
  {
    Count(rentals, Out)
  }

  /** Every rental is either still out or returned. */
  lemma BorrowedPlusReturned(rentals: seq<Rental>)
    ensures Borrowed(rentals) + Count(rentals, Not(Out)) == |rentals|
  {
    FilterPartition(rentals, Out);
    assert |multiset(Filter(rentals, Out))| + |multiset(Filter(rentals, Not(Out)))| == |multiset(rentals)|;
  }

  /** The generic message of a failed request. */
  function HttpError(status: int): string
  {
    "HTTP error! Status: " + IntToString(status)
  }

  /** The users request: the counter takes the number of users; a failure
      is shown in the rentals panel's message. */
  function UsersLoaded<U>(d: Dashboard, resp: Http<seq<U>>): (r: Dashboard)
    ensures resp.Ok? ==> r == d.(stats := d.stats.(totalUsers := |resp.value|))
    ensures resp.Err? ==> r == d.(rentalError := Some(HttpError(resp.status)))
  {
    match resp
    case Ok(users) => d.(stats := d.stats.(totalUsers := |users|))
    case Err(status, _) => d.(rentalError := Some(HttpError(status)))
  }

  /** The rentals request: the rentals are kept and the borrowed counter
      counts those still out. */
  function RentalsLoaded(d: Dashboard, resp: Http<seq<Rental>>): (r: Dashboard)
    ensures resp.Ok? ==> r.rentals == resp.value && r.stats.borrowedBooks == Borrowed(resp.value)
    ensures resp.Ok? ==> r.stats.totalUsers == d.stats.totalUsers && r.stats.totalBooks == d.stats.totalBooks
    ensures resp.Err? ==> r == d.(rentalError := Some(HttpError(resp.status)))
  {
    match resp
    case Ok(rentals) => d.(rentals := rentals, stats := d.stats.(borrowedBooks := Borrowed(rentals)))
    case Err(status, _) => d.(rentalError := Some(HttpError(status)))
  }

  /** The books endpoint's answer: `books` must be a list; `total_count` may
      be missing. */
  datatype BooksReply = BooksReply(books: Option<seq<Book>>, totalCount: Option<int>)

  /** `total_count || books.length`: a missing or zero total counts the list. */
  function TotalBooks(totalCount: Option<int>, books: seq<Book>): (r: int)
    ensures totalCount.Some? && totalCount.value != 0 ==> r == totalCount.value
    ensures totalCount.None? || totalCount.value == 0 ==> r == |books|
  {
    if totalCount.Some? && totalCount.value != 0 then totalCount.value else |books|
  }

  /** The books request: without a token nothing is asked; a 401, any other
      failure and an answer without a list each set their message and empty
      the list; otherwise the list is kept and counted. */
  function BooksLoaded(d: Dashboard, hasToken: bool, resp: Http<BooksReply>): (r: Dashboard)
    ensures r.stats.borrowedBooks == d.stats.borrowedBooks && r.stats.totalUsers == d.stats.totalUsers
    ensures r.bookError.None? <==> hasToken && resp.Ok? && resp.value.books.Some?
    ensures r.bookError.None? ==>
      r.books == resp.value.books.value && r.stats.totalBooks == TotalBooks(resp.value.totalCount, r.books)
    ensures r.bookError.Some? ==> r.books == [] && r.stats == d.stats
    ensures !hasToken ==> r.bookError == Some("No authentication token found")
    ensures hasToken && resp.Err? && resp.status == 401 ==> r.bookError == Some("Unauthorized access")
  {
    if !hasToken then d.(books := [], bookError := Some("No authentication token found"))
    else match resp
      case Err(status, _) =>
        d.(books := [], bookError := Some(if status == 401 then "Unauthorized access" else HttpError(status)))
      case Ok(reply) =>
        if reply.books.None? then
          d.(books := [], bookError := Some("Invalid response format: Expected { books: [...] }"))
        else
          var books := reply.books.value;
          d.(books := books, bookError := None, stats := d.stats.(totalBooks := TotalBooks(reply.totalCount, books)))
  }

  /** The three requests touch disjoint counters, so their answers commute. */
  lemma LoadsCommute<U>(d: Dashboard, users: seq<U>, rentals: seq<Rental>, hasToken: bool, books: Http<BooksReply>)
    ensures UsersLoaded(RentalsLoaded(d, Ok(rentals)), Ok(users)) == RentalsLoaded(UsersLoaded(d, Ok(users)), Ok(rentals))
    ensures BooksLoaded(RentalsLoaded(d, Ok(rentals)), hasToken, books).stats ==
            RentalsLoaded(BooksLoaded(d, hasToken, books), Ok(rentals)).stats
  {
  }

  /** Newer first: `a` may come before `b` when it was added no earlier. */
  function Newer(parse: string -> int): (Book, Book) -> bool
  {
    (a: Book, b: Book) => parse(a.createdAt) >= parse(b.createdAt)
  }

  /** `getRecentlyAddedBooks`: a copy of the list sorted newest first, then
      its first six; anything but a list gives none. */
  function Recent(books: Option<seq<Book>>, parse: string -> int): (r: seq<Book>)
    ensures books.None? ==> r == []
    ensures books.Some? ==> |r| == Min(6, |books.value|)
    ensures forall b :: b in r ==> books.Some? && b in books.value
  {
    if books.None? then []
    else
      var sorted := SortBy(books.value, Newer(parse));
      SortByMembers(books.value, Newer(parse));
      assert |sorted| == |multiset(books.value)|;
      Take(sorted, 6)
  }

  /** The recent books run newest first, and every book left out was added
      no later than every book shown. */
  lemma RecentAreNewest(books: seq<Book>, parse: string -> int)
    ensures var r := Recent(Some(books), parse);
      (forall i, j :: 0 <= i < j < |r| ==> parse(r[i].createdAt) >= parse(r[j].createdAt)) &&
      (forall x, y :: x in books && x !in r && y in r ==> parse(y.createdAt) >= parse(x.createdAt))
  {
    var le := Newer(parse);
    var sorted := SortBy(books, le);
    assert TotalPreorder(le);
    SortBySorted(books, le);
    SortByMembers(books, le);
    SortedPrefix(sorted, 6, le);
  }
}

=== FILE: admin_rentals.dfy ===
/** The administrator's rental table (frontend/src/pages/admin/AdminRentalsPage.tsx):
    the query it sends, the status each rental shows, the CSV export, the
    selection check boxes and the local updates after returns and deletions.
    Dates are parsed by the browser and the clock is read by the page; both
    are parameters here. */
module AdminRentals {
  import opened Wrappers
  import opened Strs
  import opened Seqs
  import opened Tables
  import RequestsPage

  datatype Person = Person(id: int, name: string, email: string)
  datatype BookInfo = BookInfo(id: int, title: string, coverUrl: string, authors: seq<string>, categories: seq<string>)

  /** A rental row; `returnedAt` is null while the book is out. */
  datatype Rental = Rental(id: int, userId: int, bookId: int, rentedAt: string, returnedAt: Option<string>,
                           user: Option<Person>, book: Option<BookInfo>)

  /** The query: page, page size, the status unless 'all', the search unless empty. */
  function Query(page: nat, perPage: nat, status: string, search: string): (r: seq<(string, string)>)
    ensures |r| == |RequestsPage.Query(page, perPage, status)| + (if search != "" then 1 else 0)
    ensures r[..|RequestsPage.Query(page, perPage, status)|] == RequestsPage.Query(page, perPage, status)
    ensures search != "" ==> r[|r| - 1] == ("search", search)
    ensures search == "" ==> r == RequestsPage.Query(page, perPage, status)
  {
    RequestsPage.Query(page, perPage, status) + (if search != "" then [("search", search)] else [])
  }

  // ---------------------------------------------------------------------------
  // Status

  /** `returned_at` is truthy: present and not empty. */
  predicate IsReturned(r: Rental)
  {
    r.returnedAt.Some? && r.returnedAt.value != ""
  }

  const MsPerDay := 86400000
  const LoanDays := 14

  /** `isOverdue`: the days since `rentedAt`, a fraction, exceed fourteen.
      `parse` gives the milliseconds since the epoch, or `None` for a date the
      browser cannot read, whose NaN makes every comparison false. */
  function IsOverdue(rentedAt: string, now: int, parse: string -> Option<int>): (r: bool)
    ensures r <==> parse(rentedAt).Some? && now - parse(rentedAt).value > LoanDays * MsPerDay
  {
    match parse(rentedAt)
    case None => false
    case Some(t) => (now - t) as real / MsPerDay as real > LoanDays as real
  }

  /** Exactly fourteen days out is not yet overdue; a millisecond more is. */
  lemma OverdueIsStrict(rentedAt: string, t: int, parse: string -> Option<int>)
    requires parse(rentedAt) == Some(t)
    ensures !IsOverdue(rentedAt, t + LoanDays * MsPerDay, parse)
    ensures IsOverdue(rentedAt, t + LoanDays * MsPerDay + 1, parse)
  {
  }

  datatype Status = Active | Overdue | Returned

  /** The rule the table, the detail window and the CSV all apply: returned
      first, then overdue, else active. */
  function StatusOf(r: Rental, now: int, parse: string -> Option<int>): (s: Status)
    ensures s == Returned <==> IsReturned(r)
    ensures s == Overdue <==> !IsReturned(r) && IsOverdue(r.rentedAt, now, parse)
  {
    if IsReturned(r) then Returned
    else if IsOverdue(r.rentedAt, now, parse) then Overdue
    else Active
  }

  function StatusText(s: Status): string
  {
    match s
    case Active => "Active"
    case Overdue => "Overdue"
    case Returned => "Returned"
  }

  /** As time passes an active rental may turn overdue, and no status ever
      goes back to active. */
  lemma StatusOnlyAdvances(r: Rental, now: int, later: int, parse: string -> Option<int>)
    requires now <= later
    ensures StatusOf(r, now, parse) != Active ==> StatusOf(r, later, parse) == StatusOf(r, now, parse)
  {
  }

  // ---------------------------------------------------------------------------
  // CSV export

  const Headers := ["ID", "User", "Email", "Book", "Authors", "Rented At", "Returned At", "Status"]

  /** The eight cells of a rental's line; a missing or empty name or title
      reads "Unknown", the other missing values are empty. */
  function Cells(r: Rental, now: int, parse: string -> Option<int>): (c: seq<string>)
    ensures |c| == |Headers|
    ensures c[0] == IntToString(r.id) && c[5] == r.rentedAt
    ensures c[1] == (if r.user.Some? && r.user.value.name != "" then r.user.value.name else "Unknown")
    ensures c[6] == (if IsReturned(r) then r.returnedAt.value else "")
    ensures c[7] == StatusText(StatusOf(r, now, parse))
  {
    [ IntToString(r.id),
      if r.user.Some? && r.user.value.name != "" then r.user.value.name else "Unknown",
      if r.user.Some? then r.user.value.email else "",
      if r.book.Some? && r.book.value.title != "" then r.book.value.title else "Unknown",
      if r.book.Some? then Join(r.book.value.authors, ", ") else "",
      r.rentedAt,
      if IsReturned(r) then r.returnedAt.value else "",
      StatusText(StatusOf(r, now, parse)) ]
  }

  /** The page's quoting: the cell between double quotes, as it is. */
  function Quote(cell: string): (q: string)
    ensures |q| == |cell| + 2 && q[0] == '"' && q[|q| - 1] == '"'
  {
    "\"" + cell + "\""
  }

  /** Quotes doubled, as section 2, rule 7 of RFC 4180 asks. */
  function Escape(cell: string): (e: string)
    ensures forall ch :: ch != '"' ==> (ch in e <==> ch in cell)
  {
    if cell == [] then []
    else (if cell[0] == '"' then "\"\"" else [cell[0]]) + Escape(cell[1..])
  }

  /** A quoted RFC 4180 field. */
  function QuoteRfc(cell: string): (q: string)
    ensures forall ch :: ch != '"' ==> (ch in q <==> ch in cell)
  {
    "\"" + Escape(cell) + "\""
  }

  /** The two quotings agree on cells without double quotes. */
  lemma {:induction false} QuotesAgree(cell: string)
    requires '"' !in cell
    ensures Quote(cell) == QuoteRfc(cell)
  {
    EscapeNoQuote(cell);
  }

  lemma {:induction false} EscapeNoQuote(cell: string)
    requires '"' !in cell
    ensures Escape(cell) == cell
    decreases |cell|
  {
    if cell != [] {
      assert '"' !in cell[1..];
      EscapeNoQuote(cell[1..]);
      assert cell == [cell[0]] + cell[1..];
    }
  }

  function Quoted(cells: seq<string>, quote: string -> string): (r: seq<string>)
    ensures |r| == |cells| && forall i :: 0 <= i < |r| ==> r[i] == quote(cells[i])
  {
    seq(|cells|, i requires 0 <= i < |cells| => quote(cells[i]))
  }

  /** One line: the quoted cells, separated by commas. */
  function Record(cells: seq<string>, quote: string -> string): string
  {
    Join(Quoted(cells, quote), ",")
  }

  /** The header line, then one line per row, joined by line feeds. */
  function Lines(header: string, rows: seq<seq<string>>, quote: string -> string): string
  {
    Join([header] + seq(|rows|, i requires 0 <= i < |rows| => Record(rows[i], quote)), "\n")
  }

  function Rows(rentals: seq<Rental>, now: int, parse: string -> Option<int>): (r: seq<seq<string>>)
    ensures |r| == |rentals| && forall i :: 0 <= i < |r| ==> r[i] == Cells(rentals[i], now, parse)
  {
    seq(|rentals|, i requires 0 <= i < |rentals| => Cells(rentals[i], now, parse))
  }

  /** `exportToCSV`: the unquoted header line, then one line per rental;
      `quote` is the quoting applied to every cell. */
  function Csv(rentals: seq<Rental>, now: int, parse: string -> Option<int>, quote: string -> string): string
  {
    Lines(Join(Headers, ","), Rows(rentals, now, parse), quote)
  }

  /** The file as the page writes it. */
  function ExportAsWritten(rentals: seq<Rental>, now: int, parse: string -> Option<int>): string
  {
    Csv(rentals, now, parse, Quote)
  }

  /** The file with the standard's quoting. */
  function Export(rentals: seq<Rental>, now: int, parse: string -> Option<int>): string
  {
    Csv(rentals, now, parse, QuoteRfc)
  }

  /** A character in none of the parts and not in the separator is not in
      the joined string. */
  lemma {:induction false} JoinLacks(parts: seq<string>, sep: string, ch: char)
    requires forall k :: 0 <= k < |parts| ==> ch !in parts[k]
    requires ch !in sep
    ensures ch !in Join(parts, sep)
    decreases |parts|
  {
    if |parts| > 1 {
      JoinLacks(parts[1..], sep, ch);
    }
  }

  lemma HeaderOneLine()
    ensures '\n' !in Join(Headers, ",")
  {
    JoinLacks(Headers, ",", '\n');
  }

  /** Without line feeds in the header or the cells, the lines split back
      at line feeds into the header and one line per row. */
  lemma LinesSplit(header: string, rows: seq<seq<string>>)
    requires '\n' !in header
    requires forall i, k :: 0 <= i < |rows| && 0 <= k < |rows[i]| ==> '\n' !in rows[i][k]
    ensures var lines := Split(Lines(header, rows, QuoteRfc), '\n');
      |lines| == |rows| + 1 && lines[0] == header &&
      forall i :: 0 <= i < |rows| ==> lines[i + 1] == Record(rows[i], QuoteRfc)
  {
    var records := seq(|rows|, i requires 0 <= i < |rows| => Record(rows[i], QuoteRfc));
    var parts := [header] + records;
    forall i | 0 <= i < |rows| ensures '\n' !in records[i] {
      var quoted := Quoted(rows[i], QuoteRfc);
      forall k | 0 <= k < |quoted| ensures '\n' !in quoted[k] {
        assert '\n' !in rows[i][k];
      }
      JoinLacks(quoted, ",", '\n');
    }
    forall k | 0 <= k < |parts| ensures '\n' !in parts[k] {
      if k > 0 { assert parts[k] == records[k - 1]; }
    }
    SplitJoin(parts, '\n');
  }

  /** When no cell holds a line feed, the exported file splits at line feeds
      into the header line and one line per rental, in table order. */
  lemma ExportLines(rentals: seq<Rental>, now: int, parse: string -> Option<int>)
    requires forall i, k :: 0 <= i < |rentals| && 0 <= k < |Headers| ==> '\n' !in Cells(rentals[i], now, parse)[k]
    ensures var lines := Split(Export(rentals, now, parse), '\n');
      |lines| == |rentals| + 1 && lines[0] == Join(Headers, ",") &&
      forall i :: 0 <= i < |rentals| ==> lines[i + 1] == Record(Cells(rentals[i], now, parse), QuoteRfc)
  {
    var rows := Rows(rentals, now, parse);
    HeaderOneLine();
    LinesSplit(Join(Headers, ","), rows);
  }

  // ---------------------------------------------------------------------------
  // Reading a line back, by section 2 of RFC 4180 (every field quoted)

  /** The inside of a quoted field up to its closing quote: the field's text
      and what follows the closing quote; a pair of quotes stands for one. */
  function ParseBody(s: string): (r: Option<(string, string)>)
    ensures r.Some? ==> |r.value.1| < |s|
    decreases |s|
  {
    if s == [] then None
    else if s[0] == '"' then
      if |s| >= 2 && s[1] == '"' then
        match ParseBody(s[2..])
        case None => None
        case Some((c, rest)) => Some(("\"" + c, rest))
      else Some(("", s[1..]))
    else
      match ParseBody(s[1..])
      case None => None
      case Some((c, rest)) => Some(([s[0]] + c, rest))
  }

  /** A line of quoted fields separated by commas. */
  function ParseRecord(s: string): (r: Option<seq<string>>)
    decreases |s|
  {
    if s == [] || s[0] != '"' then None
    else
      match ParseBody(s[1..])
      case None => None
      case Some((c, rest)) =>
        if rest == [] then Some([c])
        else if rest[0] != ',' then None
        else
          match ParseRecord(rest[1..])
          case None => None
          case Some(cs) => Some([c] + cs)
  }

  lemma {:induction false} BodyRoundTrip(cell: string, rest: string)
    requires rest == [] || rest[0] != '"'
    ensures ParseBody(Escape(cell) + "\"" + rest) == Some((cell, rest))
    decreases |cell|
  {
    if cell == [] {
      assert Escape(cell) + "\"" + rest == "\"" + rest;
    } else {
      BodyRoundTrip(cell[1..], rest);
      var tail := Escape(cell[1..]) + "\"" + rest;
      if cell[0] == '"' {
        assert Escape(cell) + "\"" + rest == "\"\"" + tail;
        assert ("\"\"" + tail)[2..] == tail;
        assert "\"" + cell[1..] == cell;
      } else {
        assert Escape(cell) + "\"" + rest == [cell[0]] + tail;
        assert ([cell[0]] + tail)[1..] == tail;
        assert [cell[0]] + cell[1..] == cell;
      }
    }
  }

  /** How a line starting with a quoted field reads on. */
  lemma ParseRecordStep(line: string, c: string, rest: string)
    requires |line| > 0 && line[0] == '"' && ParseBody(line[1..]) == Some((c, rest))
    ensures rest == [] ==> ParseRecord(line) == Some([c])
    ensures rest != [] && rest[0] == ',' && ParseRecord(rest[1..]).Some? ==>
      ParseRecord(line) == Some([c] + ParseRecord(rest[1..]).value)
  {
  }

  /** With the standard's quoting every line reads back as its cells. */
  lemma {:induction false} RecordRoundTrip(cells: seq<string>)
    requires |cells| > 0
    ensures ParseRecord(Record(cells, QuoteRfc)) == Some(cells)
    decreases |cells|
  {
    var quoted := Quoted(cells, QuoteRfc);
    var line := Record(cells, QuoteRfc);
    if |cells| == 1 {
      var body := Escape(cells[0]) + "\"" + "";
      assert line == quoted[0] == "\"" + body;
      assert line[1..] == body;
      BodyRoundTrip(cells[0], "");
      ParseRecordStep(line, cells[0], "");
      assert cells == [cells[0]];
    } else {
      var more := Record(cells[1..], QuoteRfc);
      var rest := "," + more;
      var body := Escape(cells[0]) + "\"" + rest;
      assert quoted[1..] == Quoted(cells[1..], QuoteRfc);
      assert line == quoted[0] + "," + more;
      assert line == "\"" + body;
      assert line[1..] == body;
      BodyRoundTrip(cells[0], rest);
      RecordRoundTrip(cells[1..]);
      assert rest[1..] == more;
      ParseRecordStep(line, cells[0], rest);
      assert [cells[0]] + cells[1..] == cells;
    }
  }

  /** As written, a cell holding a double quote (a book titled `a"b`) does
      not read back: the quote ends the field early. */
  lemma QuoteInCellBreaksRecord()
    ensures ParseRecord(Record(["a\"b"], Quote)) == None
  {
    var line := Record(["a\"b"], Quote);
    assert line == Quote("a\"b") == ['"', 'a', '"', 'b', '"'];
    var tail := ['"', 'b', '"'];
    assert tail[1..] == ['b', '"'];
    assert ParseBody(tail) == Some(("", ['b', '"']));
    var s1 := ['a'] + tail;
    assert line[1..] == s1;
    assert s1[0] == 'a' && s1[1..] == tail;
    assert ['a'] + "" == ['a'];
    assert ParseBody(s1) == Some((['a'], ['b', '"']));
  }

  // ---------------------------------------------------------------------------
  // Selection and deletions

  /** The header check box: as many ids selected as rows shown, and at least one. */
  function HeaderChecked(selected: seq<int>, rentals: seq<Rental>): bool
  {
    |selected| == |rentals| && |rentals| > 0
  }

  function Ids(rentals: seq<Rental>): (r: seq<int>)
    ensures |r| == |rentals| && forall i :: 0 <= i < |r| ==> r[i] == rentals[i].id
  {
    seq(|rentals|, i requires 0 <= i < |rentals| => rentals[i].id)
  }

  /** Ticking the header selects every row's id; clearing it selects none. */
  function HeaderToggle(rentals: seq<Rental>, checked: bool): (r: seq<int>)
    ensures checked ==> forall x :: x in rentals ==> x.id in r
    ensures !checked ==> r == []
    ensures checked && |rentals| > 0 ==> HeaderChecked(r, rentals)
  {
    if checked then
      var ids := Ids(rentals);
      assert forall x :: x in rentals ==> x.id in ids by {
        forall x | x in rentals ensures x.id in ids {
          var i :| 0 <= i < |rentals| && rentals[i] == x;
          assert ids[i] == x.id;
        }
      }
      ids
    else []
  }

  /** The header goes by count only: it shows ticked while none of the rows
      on the page is selected. */
  lemma HeaderCountsOnly(r: Rental)
    ensures HeaderChecked([r.id + 1], [r]) && r.id !in [r.id + 1]
  {
  }

  /** A row's check box adds its id, or removes every copy of it. */
  function RowToggle(selected: seq<int>, id: int, checked: bool): (r: seq<int>)
    ensures checked ==> r == selected + [id]
    ensures !checked ==> forall x :: x in r <==> x in selected && x != id
  {
    if checked then selected + [id] else Filter(selected, (x: int) => x != id)
  }

  function RentalId(r: Rental): int { r.id }

  /** A single deletion after the server agreed: the rental leaves the table
      and the selection. */
  function DeleteOne(rentals: seq<Rental>, selected: seq<int>, id: int): (r: (seq<Rental>, seq<int>))
    ensures forall x :: x in r.0 <==> x in rentals && x.id != id
    ensures forall x :: x in r.1 <==> x in selected && x != id
    ensures Subseq(r.0, rentals)
  {
    (RemoveId(rentals, id, RentalId), Filter(selected, (x: int) => x != id))
  }

  /** The bulk deletion after the server agreed: every selected rental leaves
      the table, and the selection is cleared. */
  function BulkDelete(rentals: seq<Rental>, selected: seq<int>): (r: (seq<Rental>, seq<int>))
    ensures forall x :: x in r.0 <==> x in rentals && x.id !in selected
    ensures r.1 == []
    ensures Subseq(r.0, rentals)
  {
    (Filter(rentals, (x: Rental) => x.id !in selected), [])
  }

  /** Deleting the one selected rental in bulk leaves the table a single
      deletion leaves. */
  lemma {:induction false} BulkOfOne(rentals: seq<Rental>, id: int)
    ensures BulkDelete(rentals, [id]).0 == DeleteOne(rentals, [id], id).0
    decreases |rentals|
  {
    if |rentals| > 0 {
      BulkOfOne(rentals[1..], id);
    }
  }

  /** `handleAction(id, 'return')`: the server's answer replaces the row. */
  function ReturnOne(rentals: seq<Rental>, id: int, updated: Rental): (r: seq<Rental>)
    ensures |r| == |rentals|
    ensures forall i :: 0 <= i < |r| ==> r[i] == if rentals[i].id == id then updated else rentals[i]
  {
    UpdateWhere(rentals, id, RentalId, (x: Rental) => updated)
  }
}

=== FILE: admin_users.dfy ===
/** The administrator's user table (frontend/src/pages/admin/Users.tsx): the
    rows as they arrive with the missing figures filled in, the search and role
    filters, the sort by any column, and the local role change and deletion. */
module AdminUsers {
  import opened Seqs
  import opened Strs
  import opened Tables
  import opened Wrappers

  /** A user as the server sends it; the two figures may be missing. */
  datatype Listed = Listed(id: int, name: string, email: string, role: string,
                           booksBorrowed: Option<int>, dateJoined: Option<string>)

  /** A row of the table, every figure present. */
  datatype User = User(id: int, name: string, email: string, role: string,
                       booksBorrowed: int, dateJoined: string)

  const DefaultJoined := "Dec 19 2023"

  /** One row of `fetchUsers`: a missing or zero count becomes `draw + 5`,
      where `draw` is `Math.floor(Math.random() * 30)`; a missing or empty
      join date becomes a fixed date. */
  function Fill(u: Listed, draw: nat): (r: User)
    requires draw < 30
    ensures r.id == u.id && r.name == u.name && r.email == u.email && r.role == u.role
    ensures u.booksBorrowed.Some? && u.booksBorrowed.value != 0 ==> r.booksBorrowed == u.booksBorrowed.value
    ensures !(u.booksBorrowed.Some? && u.booksBorrowed.value != 0) ==> 5 <= r.booksBorrowed < 35
    ensures u.dateJoined.Some? && u.dateJoined.value != "" ==> r.dateJoined == u.dateJoined.value
    ensures !(u.dateJoined.Some? && u.dateJoined.value != "") ==> r.dateJoined == DefaultJoined
  {
    var n := if u.booksBorrowed.Some? && u.booksBorrowed.value != 0 then u.booksBorrowed.value else draw + 5;
    var d := if u.dateJoined.Some? && u.dateJoined.value != "" then u.dateJoined.value else DefaultJoined;
    User(u.id, u.name, u.email, u.role, n, d)
  }

  /** The filled rows: neither figure is ever falsy, so filling again changes
      nothing. */
  function FillAll(us: seq<Listed>, draws: seq<nat>): (r: seq<User>)
    requires |draws| == |us| && forall i :: 0 <= i < |draws| ==> draws[i] < 30
    ensures |r| == |us|
    ensures forall i :: 0 <= i < |r| ==> r[i].id == us[i].id && r[i].booksBorrowed != 0 && r[i].dateJoined != ""
  {
    seq(|us|, i requires 0 <= i < |us| => Fill(us[i], draws[i]))
  }

  /** A filled row read back as a listed one is filled to itself. */
  lemma FillIdempotent(u: User, draw: nat)
    requires draw < 30 && u.booksBorrowed != 0 && u.dateJoined != ""
    ensures Fill(Listed(u.id, u.name, u.email, u.role, Some(u.booksBorrowed), Some(u.dateJoined)), draw) == u
  {
  }

  // ---------------------------------------------------------------------------
  // Filters

  /** The search box matches name or email, ignoring case. */
  predicate Found(u: User, query: string)
  {
    Contains(Lower(u.name), Lower(query)) || Contains(Lower(u.email), Lower(query))
  }

  /** The role filter matches the role, ignoring case. */
  predicate HasRole(u: User, role: string)
  {
    Lower(u.role) == Lower(role)
  }

  /** An empty search or role filter keeps every user. */
  predicate Shown(u: User, query: string, role: Option<string>)
  {
    && (query != "" ==> Found(u, query))
    && (role.Some? && role.value != "" ==> HasRole(u, role.value))
  }

  /** The filtered list: the users the search matches, then those of the
      chosen role, in table order. */
  function Filtered(users: seq<User>, query: string, role: Option<string>): (r: seq<User>)
    ensures forall u :: u in r <==> u in users && Shown(u, query, role)
    ensures Subseq(r, users)
  {
    var found := (u: User) => Found(u, query);
    var searched := if query != "" then Filter(users, found) else users;
    if role.Some? && role.value != "" then
      var ranked := (u: User) => HasRole(u, role.value);
      if query != "" then
        FilterFilter(users, found, ranked);
        Filter(searched, ranked)
      else Filter(users, ranked)
    else
      SubseqRefl(users);
      searched
  }

  /** `clearFilters`: with no search and no role every user is shown, in
      table order. */
  lemma ClearedShowsAll(users: seq<User>)
    ensures Filtered(users, "", None) == users
  {
  }

  // ---------------------------------------------------------------------------
  // Sorting

  datatype Column = Id | Name | Email | Role | BooksBorrowed | DateJoined

  /** The cell a column shows; `?? ''` never applies, as every figure is filled. */
  function Cell(c: Column): User -> Key
  {
    (u: User) =>
      match c
      case Id => Num(u.id as real)
      case Name => Text(u.name)
      case Email => Text(u.email)
      case Role => Text(u.role)
      case BooksBorrowed => Num(u.booksBorrowed as real)
      case DateJoined => Text(u.dateJoined)
  }

  /** The table starts sorted by name, ascending. */
  const InitialSort := SortState(Name, Asc)

  /** `sortedUsers`: the filtered list, sorted by the chosen column, numbers
      by value and texts by `<`. */
  function SortedUsers(shown: seq<User>, s: SortState<Column>): (r: seq<User>)
    ensures multiset(r) == multiset(shown)
  {
    Sorted(shown, LexCompare, s.dir, Cell(s.field))
  }

  /** The sorted list holds the filtered users, each as often as before,
      ordered by the column in the chosen direction; users with equal cells
      keep their order. */
  lemma SortedUsersOrdered(shown: seq<User>, s: SortState<Column>, x: User)
    ensures var r := SortedUsers(shown, s);
      multiset(r) == multiset(shown) &&
      (forall i, j :: 0 <= i < j < |r| ==> Precedes(LexCompare, s.dir, Cell(s.field)(r[i]), Cell(s.field)(r[j]))) &&
      Filter(r, EquivTo(RowOrder(LexCompare, s.dir, Cell(s.field)), x)) ==
        Filter(shown, EquivTo(RowOrder(LexCompare, s.dir, Cell(s.field)), x))
  {
    LexIsOrder();
    assert Uniform(Cell(s.field));
    SortedIsOrdered(shown, LexCompare, s.dir, Cell(s.field), x);
  }

  // ---------------------------------------------------------------------------
  // Local updates

  /** `handleRoleChange` after the server agreed: that user gets the new role,
      and nothing else changes. */
  function ChangeRole(users: seq<User>, id: int, role: string): (r: seq<User>)
    ensures |r| == |users|
    ensures forall i :: 0 <= i < |r| && users[i].id == id ==> r[i] == users[i].(role := role)
    ensures forall i :: 0 <= i < |r| && users[i].id != id ==> r[i] == users[i]
  {
    UpdateWhere(users, id, (u: User) => u.id, (u: User) => u.(role := role))
  }

  /** `handleDeleteUser` after the server agreed: every row of that user goes,
      the others stay in order. */
  function DeleteUser(users: seq<User>, id: int): (r: seq<User>)
    ensures forall u :: u in r <==> u in users && u.id != id
    ensures Subseq(r, users)
  {
    RemoveId(users, id, (u: User) => u.id)
  }

  /** A role change before a deletion of the same user leaves no trace. */
  lemma DeleteAfterRoleChange(users: seq<User>, id: int, role: string)
    ensures DeleteUser(ChangeRole(users, id, role), id) == DeleteUser(users, id)
  {
    RemoveAfterUpdate(users, id, (u: User) => u.id, (u: User) => u.(role := role));
  }

  /** A role change is seen by the role filter: the changed user is shown
      under its new role. */
  lemma ChangedRoleShown(users: seq<User>, id: int, role: string, i: nat)
    requires i < |users| && users[i].id == id && role != ""
    ensures ChangeRole(users, id, role)[i] in Filtered(ChangeRole(users, id, role), "", Some(role))
  {
  }
}

=== FILE: article_details.dfy ===
/** The article page (frontend/src/pages/ArticleDetailsPage.tsx): loading the
    article with the reader's like and bookmark marks and the related
    articles, the optimistic like and bookmark buttons, the share targets,
    the file name of the PDF download, and the reading-progress bar.
    The URL encoder and the layout's measurements are parameters. */
module ArticleDetails {
  import opened Wrappers
  import opened Strs

  datatype Meta = Meta(readTime: int, views: int, likes: int, bookmarks: int)

  datatype Article = Article(id: int, title: string, slug: string, category: string,
                             pdfUrl: string, tags: seq<string>, meta: Meta)

  datatype Related = Related(id: int, title: string, slug: string)

  /** The page's state. `atLogin` records the redirect of a signed-out reader. */
  datatype Page = Page(article: Option<Article>, liked: bool, bookmarked: bool, error: Option<string>,
                       related: seq<Related>, shareOpen: bool, atLogin: bool)

  // ---------------------------------------------------------------------------
  // Loading

  const NotFound := "Article not found"
  const LoadFailed := "Failed to load the article. Please try again later."

  /** The message of a failed load: a 404 means the article does not exist;
      anything else, including a failure without an HTTP status, is the
      generic message. */
  function LoadError(status: Option<int>): (r: string)
    ensures r == NotFound <==> status == Some(404)
    ensures r == NotFound || r == LoadFailed
  {
    if status == Some(404) then NotFound else LoadFailed
  }

  /** The reader's liked and bookmarked article ids. */
  datatype Marks = Marks(liked: seq<int>, bookmarked: seq<int>)

  /** `fetchArticle`: a signed-out reader is sent to the login page; a
      missing token or slug and a failed request show an error and no
      article; otherwise the article shows, with its marks when those could
      be read and the related articles, or none when those could not. */
  function Load(p: Page, signedIn: bool, hasToken: bool, slug: string, resp: Http<Article>,
                marks: Option<Marks>, related: Option<seq<Related>>): (r: Page)
    ensures !signedIn ==> r == p.(atLogin := true)
    ensures signedIn && (!hasToken || slug == "") ==> r.article.None? && r.error == Some(LoadFailed) && r.related == []
    ensures signedIn && hasToken && slug != "" && resp.Err? ==>
      r.article.None? && r.error == Some(LoadError(Some(resp.status))) && r.related == []
    ensures signedIn && hasToken && slug != "" && resp.Ok? ==>
      && r.article == Some(resp.value) && r.error.None?
      && (marks.Some? ==> (r.liked <==> resp.value.id in marks.value.liked))
      && (marks.Some? ==> (r.bookmarked <==> resp.value.id in marks.value.bookmarked))
      && (marks.None? ==> r.liked == p.liked && r.bookmarked == p.bookmarked)
      && r.related == (if related.Some? then related.value else [])
  {
    if !signedIn then p.(atLogin := true)
    else if !hasToken || slug == "" then p.(article := None, error := Some(LoadError(None)), related := [])
    else match resp
      case Err(status, _) => p.(article := None, error := Some(LoadError(Some(status))), related := [])
      case Ok(a) =>
        var liked := if marks.Some? then a.id in marks.value.liked else p.liked;
        var bookmarked := if marks.Some? then a.id in marks.value.bookmarked else p.bookmarked;
        p.(article := Some(a), liked := liked, bookmarked := bookmarked, error := None,
           related := if related.Some? then related.value else [])
  }

  // ---------------------------------------------------------------------------
  // Like and bookmark

  /** One optimistic toggle of a mark and its counter: the mark flips and the
      counter moves by one at once; when the request fails both return to
      their values before the click. */
  function Optimistic(mark: bool, count: int, ok: bool): (r: (bool, int))
    ensures ok ==> r.0 == !mark && r.1 == count + (if mark then -1 else 1)
    ensures !ok ==> r == (mark, count)
  {
    if ok then (!mark, if mark then count - 1 else count + 1) else (mark, count)
  }

  /** The count of other readers' marks, which a toggle never changes. */
  function Others(mark: bool, count: int): int
  {
    count - (if mark then 1 else 0)
  }

  /** Every toggle, successful or not, keeps the other readers' count, and
      two successful ones undo each other. */
  lemma OptimisticKeepsOthers(mark: bool, count: int, ok: bool)
    ensures var r := Optimistic(mark, count, ok); Others(r.0, r.1) == Others(mark, count)
    ensures var r := Optimistic(mark, count, true); Optimistic(r.0, r.1, true) == (mark, count)
  {
  }

  /** `handleLikeToggle`: nothing without an article. */
  function Like(p: Page, ok: bool): (r: Page)
    ensures p.article.None? || !ok ==> r == p
    ensures p.article.Some? && ok ==>
      r.liked == !p.liked && r.article.Some? &&
      r.article.value == p.article.value.(meta := p.article.value.meta.(likes := r.article.value.meta.likes)) &&
      Others(r.liked, r.article.value.meta.likes) == Others(p.liked, p.article.value.meta.likes)
  {
    if p.article.None? then p
    else
      var a := p.article.value;
      var (mark, likes) := Optimistic(p.liked, a.meta.likes, ok);
      OptimisticKeepsOthers(p.liked, a.meta.likes, ok);
      if ok then p.(liked := mark, article := Some(a.(meta := a.meta.(likes := likes)))) else p
  }

  /** `handleBookmarkToggle`: nothing without an article. */
  function Bookmark(p: Page, ok: bool): (r: Page)
    ensures p.article.None? || !ok ==> r == p
    ensures p.article.Some? && ok ==>
      r.bookmarked == !p.bookmarked && r.article.Some? &&
      r.article.value == p.article.value.(meta := p.article.value.meta.(bookmarks := r.article.value.meta.bookmarks)) &&
      Others(r.bookmarked, r.article.value.meta.bookmarks) == Others(p.bookmarked, p.article.value.meta.bookmarks)
  {
    if p.article.None? then p
    else
      var a := p.article.value;
      var (mark, bookmarks) := Optimistic(p.bookmarked, a.meta.bookmarks, ok);
      OptimisticKeepsOthers(p.bookmarked, a.meta.bookmarks, ok);
      if ok then p.(bookmarked := mark, article := Some(a.(meta := a.meta.(bookmarks := bookmarks)))) else p
  }

  /** Liking twice restores the page; a like leaves the bookmark alone. */
  lemma LikeTwiceRestores(p: Page)
    ensures Like(Like(p, true), true) == p
    ensures Like(p, true).bookmarked == p.bookmarked
    ensures p.article.Some? ==> Like(p, true).article.value.meta.bookmarks == p.article.value.meta.bookmarks
  {
  }

  /** Bookmarking twice restores the page; a bookmark leaves the like alone. */
  lemma BookmarkTwiceRestores(p: Page)
    ensures Bookmark(Bookmark(p, true), true) == p
    ensures Bookmark(p, true).liked == p.liked
    ensures p.article.Some? ==> Bookmark(p, true).article.value.meta.likes == p.article.value.meta.likes
  {
  }

  // ---------------------------------------------------------------------------
  // Sharing

  /** What a share button does: open a window at a URL, copy the page's URL,
      or nothing. */
  datatype Share = Open(url: string) | Copy(text: string) | Nothing

  const DefaultTitle := "LMSENSA+ Article"

  /** The sites with a share window. */
  datatype Site = Facebook | Twitter | Linkedin | Email

  /** The button names of the sites; `copy` and anything else are not sites. */
  function SiteOf(platform: string): (r: Option<Site>)
    ensures r.Some? <==> platform in {"facebook", "twitter", "linkedin", "email"}
  {
    if platform == "facebook" then Some(Facebook)
    else if platform == "twitter" then Some(Twitter)
    else if platform == "linkedin" then Some(Linkedin)
    else if platform == "email" then Some(Email)
    else None
  }

  /** The fixed start of a site's share URL: scheme, host and path. */
  function Prefix(s: Site): string
  {
    match s
    case Facebook => "https://" + "www.facebook.com" + "/sharer/sharer.php?u="
    case Twitter => "https://" + "twitter.com" + "/intent/tweet?url="
    case Linkedin => "https://" + "www.linkedin.com" + "/sharing/share-offsite/?url="
    case Email => "mailto:" + "?subject="
  }

  /** What follows the prefix: the encoded page URL, and for Twitter the
      encoded title; for e-mail the encoded title and a body naming the URL. */
  function Tail(s: Site, url: string, title: string, encode: string -> string): string
  {
    match s
    case Facebook => encode(url)
    case Twitter => encode(url) + "&text=" + encode(title)
    case Linkedin => encode(url)
    case Email => encode(title) + "&body=" + encode("Check out this article: " + url)
  }

  /** `handleShare`: a site's window opens at its URL, built from the page's
      URL and the article's title (or a default); `copy` copies the page's
      URL; any other button does nothing. */
  function ShareWith(platform: string, url: string, title: Option<string>, encode: string -> string): (r: Share)
    ensures r.Nothing? <==> platform !in {"facebook", "twitter", "linkedin", "email", "copy"}
    ensures r == Copy(url) <==> platform == "copy"
    ensures r.Open? <==> SiteOf(platform).Some?
  {
    var t := if title.Some? && title.value != "" then title.value else DefaultTitle;
    if platform == "copy" then Copy(url)
    else match SiteOf(platform)
      case None => Nothing
      case Some(s) => Open(Prefix(s) + Tail(s, url, t, encode))
  }

  /** The menu closes after every known button and stays open otherwise. */
  function AfterShare(p: Page, s: Share): (r: Page)
    ensures r.shareOpen == (p.shareOpen && s.Nothing?)
  {
    if s.Nothing? then p else p.(shareOpen := false)
  }

  /** Two texts that differ at a position both prefixes reach differ
      whatever follows. */
  lemma PrefixesDiffer(a: string, b: string, x: string, y: string, k: nat)
    requires k < |a| && k < |b| && a[k] != b[k]
    ensures a + x != b + y
  {
    assert (a + x)[k] == a[k];
    assert (b + y)[k] == b[k];
  }

  /** Three characters of a site's prefix that tell it from the others. */
  function Signature(s: Site): (char, char, char)
  {
    match s
    case Facebook => ('h', 'w', 'f')
    case Twitter => ('h', 't', 't')
    case Linkedin => ('h', 'w', 'l')
    case Email => ('m', 's', 'e')
  }

  lemma PrefixMarks(s: Site)
    ensures |Prefix(s)| > 12 && (Prefix(s)[0], Prefix(s)[8], Prefix(s)[12]) == Signature(s)
  {
    match s
    case Facebook => FacebookMarks();
    case Twitter => TwitterMarks();
    case Linkedin => LinkedinMarks();
    case Email => EmailMarks();
  }

  lemma FacebookMarks()
    ensures var p := Prefix(Facebook); |p| > 12 && p[0] == 'h' && p[8] == 'w' && p[12] == 'f'
  {
  }

  lemma TwitterMarks()
    ensures var p := Prefix(Twitter); |p| > 12 && p[0] == 'h' && p[8] == 't' && p[12] == 't'
  {
  }

  lemma LinkedinMarks()
    ensures var p := Prefix(Linkedin); |p| > 12 && p[0] == 'h' && p[8] == 'w' && p[12] == 'l'
  {
  }

  lemma EmailMarks()
    ensures var p := Prefix(Email); |p| > 12 && p[0] == 'm' && p[8] == 's' && p[12] == 'e'
  {
  }

  /** Different sites get different share URLs, whatever the encoder returns. */
  lemma SitesDiffer(a: Site, b: Site, url: string, title: string, encode: string -> string)
    requires a != b
    ensures Prefix(a) + Tail(a, url, title, encode) != Prefix(b) + Tail(b, url, title, encode)
  {
    PrefixMarks(a);
    PrefixMarks(b);
    var pa, pb := Prefix(a), Prefix(b);
    var k := if pa[0] != pb[0] then 0 else if pa[8] != pb[8] then 8 else 12;
    PrefixesDiffer(pa, pb, Tail(a, url, title, encode), Tail(b, url, title, encode), k);
  }

  /** Two different site buttons open two different windows. */
  lemma ShareTargetsDiffer(p1: string, p2: string, url: string, title: Option<string>, encode: string -> string)
    requires SiteOf(p1).Some? && SiteOf(p2).Some? && p1 != p2
    ensures ShareWith(p1, url, title, encode).Open? && ShareWith(p1, url, title, encode) != ShareWith(p2, url, title, encode)
  {
    var t := if title.Some? && title.value != "" then title.value else DefaultTitle;
    SitesDiffer(SiteOf(p1).value, SiteOf(p2).value, url, t, encode);
  }

  // ---------------------------------------------------------------------------
  // PDF download

  /** `title.replace(/[^a-z0-9]/gi, '-').toLowerCase()`: every character but an
      ASCII letter or digit becomes a dash, letters become lower case. */
  function Stem(title: string): (r: string)
    ensures |r| == |title|
    ensures forall i :: 0 <= i < |r| ==> (IsLower(r[i]) || IsDigit(r[i]) || r[i] == '-')
    ensures forall i :: 0 <= i < |r| ==> (r[i] == '-' <==> !IsAlnum(title[i]))
    ensures forall i :: 0 <= i < |r| && IsAlnum(title[i]) ==> r[i] == ToLowerChar(title[i])
  {
    Lower(seq(|title|, i requires 0 <= i < |title| => if IsAlnum(title[i]) then title[i] else '-'))
  }

  /** A stem is its own stem. */
  lemma StemIdempotent(title: string)
    ensures Stem(Stem(title)) == Stem(title)
  {
    var s := Stem(title);
    forall i | 0 <= i < |s| ensures Stem(s)[i] == s[i] {
      assert IsLower(s[i]) || IsDigit(s[i]) || s[i] == '-';
    }
  }

  /** `handleDownloadPDF`: the link and the file name, when the article has
      a PDF. */
  function Download(a: Option<Article>): (r: Option<(string, string)>)
    ensures r.Some? <==> a.Some? && a.value.pdfUrl != ""
    ensures r.Some? ==> r.value.0 == a.value.pdfUrl && r.value.1 == Stem(a.value.title) + ".pdf"
  {
    if a.Some? && a.value.pdfUrl != "" then Some((a.value.pdfUrl, Stem(a.value.title) + ".pdf")) else None
  }

  // ---------------------------------------------------------------------------
  // Reading progress

  /** `Math.min(100, Math.max(0, scrollY / (clientHeight - innerHeight) * 100))`.
      With no room to scroll the division is by zero: a positive scroll gives
      infinity and so 100, a zero scroll gives `NaN` (`None` here), and a
      negative one 0. */
  function Progress(scrollY: real, clientHeight: real, innerHeight: real): (r: Option<real>)
    ensures r.Some? ==> 0.0 <= r.value <= 100.0
    ensures r.None? <==> clientHeight == innerHeight && scrollY == 0.0
    ensures clientHeight > innerHeight && 0.0 <= scrollY <= clientHeight - innerHeight ==>
      r == Some(scrollY / (clientHeight - innerHeight) * 100.0)
  {
    var total := clientHeight - innerHeight;
    if total == 0.0 then
      if scrollY > 0.0 then Some(100.0) else if scrollY < 0.0 then Some(0.0) else None
    else
      var x := scrollY / total * 100.0;
      Some(if x < 0.0 then 0.0 else if x > 100.0 then 100.0 else x)
  }

  /** With room to scroll, scrolling further never lowers the progress. */
  lemma ProgressMonotone(y1: real, y2: real, clientHeight: real, innerHeight: real)
    requires clientHeight > innerHeight && y1 <= y2
    ensures Progress(y1, clientHeight, innerHeight).value <= Progress(y2, clientHeight, innerHeight).value
  {
    var total := clientHeight - innerHeight;
    assert y1 / total <= y2 / total by {
      assert y2 / total - y1 / total == (y2 - y1) / total;
    }
  }
}

=== FILE: article_scraper.dfy ===
/** The text helpers of the article scraper (backend/article_scraper.py):
    `slugify`, which turns a title into a URL slug, and the two-letter
    initials of an author name or a title. */
module ArticleScraper {
  import opened Strs

  // ---------------------------------------------------------------------------
  // slugify

  /** The characters `[^a-z0-9\s-]` leaves alone. */
  predicate Kept(c: char)
  {
    IsLower(c) || IsDigit(c) || IsSpace(c) || c == '-'
  }

  /** The characters a slug is made of. */
  predicate Allowed(c: char)
  {
    IsLower(c) || IsDigit(c) || c == '-'
  }

  /** `re.sub(r'[^a-z0-9\s-]', ' ', s)`: every kept character stays where it
      was and every other one becomes a space, so only slug characters and
      whitespace remain. */
  function Scrub(s: string): (r: string)
    ensures |r| == |s|
    ensures forall i :: 0 <= i < |s| && Kept(s[i]) ==> r[i] == s[i]
    ensures forall i :: 0 <= i < |s| && !Kept(s[i]) ==> r[i] == ' '
    ensures forall i :: 0 <= i < |r| ==> Allowed(r[i]) || IsSpace(r[i])
  {
    seq(|s|, i requires 0 <= i < |s| => if Kept(s[i]) then s[i] else ' ')
  }

  lemma ScrubSlug(s: string)
    requires forall i :: 0 <= i < |s| ==> Allowed(s[i])
    ensures Scrub(s) == s
  {
  }

  /** `s.replace(' ', '-')` on slug characters and spaces: only slug
      characters remain; text without spaces is unchanged. */
  function Hyphenate(s: string): (r: string)
    requires forall i :: 0 <= i < |s| ==> Allowed(s[i]) || s[i] == ' '
    ensures |r| == |s|
    ensures forall i :: 0 <= i < |r| ==> Allowed(r[i])
  {
    seq(|s|, i requires 0 <= i < |s| => if s[i] == ' ' then '-' else s[i])
  }

  lemma HyphenateSlug(s: string)
    requires forall i :: 0 <= i < |s| ==> Allowed(s[i])
    ensures Hyphenate(s) == s
  {
  }

  /** The length of the leading run of characters satisfying `p`. */
  function RunLength(s: string, p: char -> bool): (n: nat)
    ensures n <= |s|
    ensures forall i :: 0 <= i < n ==> p(s[i])
    ensures n < |s| ==> !p(s[n])
    decreases |s|
  {
    if s != [] && p(s[0]) then 1 + RunLength(s[1..], p) else 0
  }

  /** No two neighbouring characters both satisfy `p`. */
  predicate NoPair(s: string, p: char -> bool)
  {
    forall i :: 0 <= i < |s| - 1 ==> !(p(s[i]) && p(s[i + 1]))
  }

  /** `re.sub(pattern + '+', rep, s)` for a one-character class `p`: every
      maximal run of `p`-characters becomes one `rep`. */
  function Squeeze(s: string, p: char -> bool, rep: char): (r: string)
    requires p(rep)
    ensures |r| <= |s|
    ensures r == [] <==> s == []
    ensures r != [] ==> (p(r[0]) <==> p(s[0]))
    ensures forall i :: 0 <= i < |r| ==> r[i] == rep || (!p(r[i]) && r[i] in s)
    ensures NoPair(r, p)
    decreases |s|
  {
    if s == [] then []
    else if p(s[0]) then
      var n := RunLength(s, p);
      var rest := Squeeze(s[n..], p, rep);
      assert forall i :: 0 <= i < |rest| ==> rest[i] in s[n..] ==> rest[i] in s;
      [rep] + rest
    else
      var rest := Squeeze(s[1..], p, rep);
      assert forall i :: 0 <= i < |rest| ==> rest[i] in s[1..] ==> rest[i] in s;
      [s[0]] + rest
  }

  /** Text already squeezed comes out unchanged. */
  lemma {:induction false} SqueezeSqueezed(s: string, p: char -> bool, rep: char)
    requires p(rep)
    requires forall i :: 0 <= i < |s| ==> p(s[i]) ==> s[i] == rep
    requires NoPair(s, p)
    ensures Squeeze(s, p, rep) == s
    decreases |s|
  {
    if s != [] {
      if p(s[0]) {
        assert RunLength(s, p) == 1 by {
          if |s| > 1 { assert !p(s[1]); assert RunLength(s[1..], p) == 0; }
        }
      }
      SqueezeSqueezed(s[1..], p, rep);
      assert [s[0]] + s[1..] == s;
    }
  }

  predicate IsHyphen(c: char) { c == '-' }

  /** `\s` in a Python pattern. */
  predicate IsWhite(c: char) { IsSpace(c, Py) }

  /** A slug: lower-case letters, digits and single hyphens. */
  predicate Slug(s: string)
  {
    && (forall i :: 0 <= i < |s| ==> IsLower(s[i]) || IsDigit(s[i]) || s[i] == '-')
    && NoPair(s, IsHyphen)
  }

  /** `re.sub(r'\s+', ' ', s)` on slug characters and whitespace. */
  function Spaced(s: string): (r: string)
    requires forall i :: 0 <= i < |s| ==> Allowed(s[i]) || IsSpace(s[i])
    ensures forall i :: 0 <= i < |r| ==> Allowed(r[i]) || r[i] == ' '
  {
    var r := Squeeze(s, IsWhite, ' ');
    assert forall i :: 0 <= i < |r| ==> Allowed(r[i]) || r[i] == ' ' by {
      forall i | 0 <= i < |r| ensures Allowed(r[i]) || r[i] == ' ' {
        if r[i] != ' ' {
          var j :| 0 <= j < |s| && s[j] == r[i];
        }
      }
    }
    r
  }

  /** `re.sub(r'-+', '-', s)` on slug characters gives a slug; a slug is
      unchanged. */
  function Collapse(s: string): (r: string)
    requires forall i :: 0 <= i < |s| ==> Allowed(s[i])
    ensures Slug(r)
  {
    var r := Squeeze(s, IsHyphen, '-');
    assert forall i :: 0 <= i < |r| ==> Allowed(r[i]) by {
      forall i | 0 <= i < |r| ensures Allowed(r[i]) {
        if r[i] != '-' {
          var j :| 0 <= j < |s| && s[j] == r[i];
        }
      }
    }
    r
  }

  lemma SpacedSlug(s: string)
    requires forall i :: 0 <= i < |s| ==> Allowed(s[i])
    ensures Spaced(s) == s
  {
    SqueezeSqueezed(s, IsWhite, ' ');
  }

  lemma CollapseSlug(s: string)
    requires Slug(s)
    ensures Collapse(s) == s
  {
    SqueezeSqueezed(s, IsHyphen, '-');
  }

  /** Stripping keeps slug characters and spaces only. */
  lemma StripSpaced(s: string)
    requires forall i :: 0 <= i < |s| ==> Allowed(s[i]) || s[i] == ' '
    ensures forall i :: 0 <= i < |Strip(s)| ==> Allowed(Strip(s)[i]) || Strip(s)[i] == ' '
  {
    var k: nat :| OccursAt(s, Strip(s), k);
    forall i | 0 <= i < |Strip(s)| ensures Allowed(Strip(s)[i]) || Strip(s)[i] == ' ' {
      assert Strip(s)[i] == s[k + i];
    }
  }

  /** `slugify`: lower-case, everything but letters, digits, whitespace and
      hyphens to a space, whitespace runs to one space, strip, spaces to
      hyphens, hyphen runs to one hyphen. */
  function Slugify(text: string): (r: string)
    ensures Slug(r)
    ensures forall i :: 0 <= i < |r| ==> !IsSpace(r[i])
  {
    var spaced := Spaced(Scrub(Lower(text)));
    var stripped := Strip(spaced);
    StripSpaced(spaced);
    var r := Collapse(Hyphenate(stripped));
    assert forall i :: 0 <= i < |r| ==> !IsSpace(r[i]) by { SlugNoSpace(r); }
    r
  }

  /** A slug holds no whitespace. */
  lemma SlugNoSpace(s: string)
    requires Slug(s)
    ensures forall i :: 0 <= i < |s| ==> !IsSpace(s[i])
  {
    forall i | 0 <= i < |s| ensures !IsSpace(s[i]) {
      assert IsLower(s[i]) || IsDigit(s[i]) || s[i] == '-';
    }
  }

  /** A slug is its own slug. */
  lemma SlugifySlug(s: string)
    requires Slug(s)
    ensures Slugify(s) == s
  {
    assert Spaced(Scrub(Lower(s))) == s by { SlugSpaced(s); }
    assert Strip(s) == s by {
      assert NoEdgeSpace(s);
      StripNoSpace(s);
    }
    assert Hyphenate(s) == s by {
      SlugSpaced(s);
      HyphenateSlug(s);
    }
    assert Collapse(s) == s by { CollapseSlug(s); }
  }

  /** The first three stages leave a slug as it is. */
  lemma SlugSpaced(s: string)
    requires Slug(s)
    ensures forall i :: 0 <= i < |s| ==> Allowed(s[i])
    ensures Spaced(Scrub(Lower(s))) == s
  {
    assert forall i :: 0 <= i < |s| ==> Allowed(s[i]);
    assert forall i :: 0 <= i < |s| ==> !IsUpper(s[i]);
    LowerNoUpper(s);
    ScrubSlug(s);
    SpacedSlug(s);
  }

  /** `slugify` is idempotent. */
  lemma SlugifyIdempotent(text: string)
    ensures Slugify(Slugify(text)) == Slugify(text)
  {
    SlugifySlug(Slugify(text));
  }

  // ---------------------------------------------------------------------------
  // Initials

  /** Python's `s.split()` without arguments: the maximal runs of
      non-whitespace characters, in order. */
  function Words(s: string): (r: seq<string>)
    ensures forall k :: 0 <= k < |r| ==> IsWord(r[k])
    ensures r == [] <==> AllSpace(s)
    decreases |s|
  {
    if s == [] then []
    else if IsSpace(s[0]) then
      var r := Words(s[1..]);
      assert AllSpace(s[1..]) ==> AllSpace(s);
      r
    else
      var n := RunLength(s, NotSpace);
      [s[..n]] + Words(s[n..])
  }

  predicate NotSpace(c: char) { !IsSpace(c) }

  /** A non-empty run of non-whitespace characters. */
  predicate IsWord(w: string)
  {
    |w| > 0 && forall i :: 0 <= i < |w| ==> !IsSpace(w[i])
  }

  /** Leading whitespace does not change the words. */
  lemma {:induction false} WordsAfterSpace(x: string, y: string)
    requires AllSpace(x)
    ensures Words(x + y) == Words(y)
    decreases |x|
  {
    if x != [] {
      assert (x + y)[1..] == x[1..] + y;
      WordsAfterSpace(x[1..], y);
    } else {
      assert x + y == y;
    }
  }

  /** Trailing whitespace does not change the words. */
  lemma {:induction false} WordsBeforeSpace(x: string, y: string)
    requires AllSpace(y)
    ensures Words(x + y) == Words(x)
    decreases |x|
  {
    if x == [] {
      assert x + y == y;
      assert Words(y) == [];
    } else if IsSpace(x[0]) {
      assert (x + y)[1..] == x[1..] + y;
      WordsBeforeSpace(x[1..], y);
    } else {
      var n := RunLength(x, NotSpace);
      var m := RunLength(x + y, NotSpace);
      RunLengthPrefix(x, y, NotSpace);
      assert m == n;
      assert (x + y)[..m] == x[..n];
      assert (x + y)[m..] == x[n..] + y;
      WordsBeforeSpace(x[n..], y);
    }
  }

  /** A run that ends inside `x`, or at its end followed by a character
      outside the class, has the same length in `x + y`. */
  lemma {:induction false} RunLengthPrefix(x: string, y: string, p: char -> bool)
    requires y != [] ==> !p(y[0])
    ensures RunLength(x + y, p) == RunLength(x, p)
    decreases |x|
  {
    if x == [] {
      assert x + y == y;
    } else if p(x[0]) {
      assert (x + y)[0] == x[0] && (x + y)[1..] == x[1..] + y;
      RunLengthPrefix(x[1..], y, p);
    } else {
      assert (x + y)[0] == x[0];
    }
  }

  /** `strip()` before `split()` changes nothing. */
  lemma WordsStrip(s: string)
    ensures Words(Strip(s)) == Words(s)
  {
    WordsTrimStart(s);
    WordsTrimEnd(TrimStart(s));
  }

  lemma WordsTrimStart(s: string)
    ensures Words(TrimStart(s)) == Words(s)
  {
    var a := TrimStart(s);
    var x := s[..|s| - |a|];
    assert x + a == s;
    assert Words(x + a) == Words(a) by { WordsAfterSpace(x, a); }
  }

  lemma WordsTrimEnd(a: string)
    ensures Words(TrimEnd(a)) == Words(a)
  {
    var r := TrimEnd(a);
    assert a == r + a[|r|..];
    WordsBeforeSpace(r, a[|r|..]);
  }

  /** Words separated by single spaces split back into themselves. */
  lemma {:induction false} WordsJoin(parts: seq<string>)
    requires forall k :: 0 <= k < |parts| ==> IsWord(parts[k])
    ensures Words(Join(parts, " ")) == parts
    decreases |parts|
  {
    if |parts| == 1 {
      var p := parts[0];
      RunLengthPrefix(p, [], NotSpace);
      assert p + [] == p && p[|p|..] == [];
    } else if |parts| > 1 {
      WordsCons(parts[0], Join(parts[1..], " "));
      WordsJoin(parts[1..]);
      assert [parts[0]] + parts[1..] == parts;
    }
  }

  /** A word, a space and a text split into the word and the text's words. */
  lemma WordsCons(p: string, rest: string)
    requires IsWord(p)
    ensures Words(p + " " + rest) == [p] + Words(rest)
  {
    var s := p + " " + rest;
    assert !IsSpace(s[0]);
    var n := RunLength(s, NotSpace);
    assert n == |p| by {
      assert s == p + (" " + rest);
      RunLengthPrefix(p, " " + rest, NotSpace);
      RunLengthWhole(p, NotSpace);
    }
    assert s[..n] == p;
    assert s[n..] == " " + rest;
    WordsAfterSpace(" ", rest);
  }

  /** A string whose every character is in the class is one run. */
  lemma {:induction false} RunLengthWhole(s: string, p: char -> bool)
    requires forall i :: 0 <= i < |s| ==> p(s[i])
    ensures RunLength(s, p) == |s|
    decreases |s|
  {
    if s != [] { RunLengthWhole(s[1..], p); }
  }

  /** The shared rule: the upper-cased first letter of the first word and of
      the `second` word when there are several, else the word's own second
      letter or its first letter again; `fallback` for no words. */
  function Initials(words: seq<string>, useLast: bool, fallback: string): (r: string)
    requires forall k :: 0 <= k < |words| ==> |words[k]| > 0
    requires |fallback| == 2
    ensures |r| == 2
    ensures words == [] ==> r == fallback
    ensures words != [] ==> r[0] == ToUpperChar(words[0][0])
    ensures |words| > 1 ==> r[1] == ToUpperChar((if useLast then words[|words| - 1] else words[1])[0])
    ensures |words| == 1 ==> r[1] == ToUpperChar(if |words[0]| > 1 then words[0][1] else words[0][0])
  {
    if words == [] then fallback
    else
      var first := ToUpperChar(words[0][0]);
      if |words| > 1 then
        var other := if useLast then words[|words| - 1] else words[1];
        [first, ToUpperChar(other[0])]
      else if |words[0]| > 1 then [first, ToUpperChar(words[0][1])]
      else [first, first]
  }

  /** `get_author_initials`: first letters of the first and the last name
      part; "UN" for a blank name. */
  function AuthorInitials(name: string): (r: string)
    ensures |r| == 2
    ensures AllSpace(name) ==> r == "UN"
    ensures var w := Words(name);
      w != [] ==> (r[0] == ToUpperChar(w[0][0]) &&
                   r[1] == ToUpperChar(if |w| > 1 then w[|w| - 1][0] else if |w[0]| > 1 then w[0][1] else w[0][0]))
  {
    var w := Words(Strip(name));
    assert w == Words(name) by { WordsStrip(name); }
    Initials(w, true, "UN")
  }

  /** `get_title_initials`: first letters of the first two words; "AR" for
      a blank title. */
  function TitleInitials(title: string): (r: string)
    ensures |r| == 2
    ensures AllSpace(title) ==> r == "AR"
    ensures var w := Words(title);
      w != [] ==> (r[0] == ToUpperChar(w[0][0]) &&
                   r[1] == ToUpperChar(if |w| > 1 then w[1][0] else if |w[0]| > 1 then w[0][1] else w[0][0]))
  {
    var w := Words(Strip(title));
    assert w == Words(title) by { WordsStrip(title); }
    Initials(w, false, "AR")
  }

}

=== FILE: articles.dfy ===
/** The article routes (backend/app/controllers/article_controller.py): the
    filtered listing with its page count, slug derivation on create and
    update, the required fields of a new article, related-article scoring,
    and the like and bookmark toggles.  The article table keeps the linked
    author's name and the meta row inline.

    The `Article` model declares a `content` column while these routes read
    and write `pdf_url`; the model here keeps a `pdfUrl` field as the routes
    intend.  In `update_article` the key "pdfUrl" is written with `setattr`
    under its JSON name, which is not a column, so an update never changes
    the stored PDF address; `UpdateArticle` keeps that behaviour. */
module Articles {
  import opened Wrappers
  import opened Strs
  import opened Seqs
  import opened Library
  import opened Paging

  const DivisionByZero := "division by zero"
  const NegativeOffset := "OFFSET must not be negative"
  const NegativeLimit := "LIMIT must not be negative"

  // ---------------------------------------------------------------------------
  // Listing

  /** The filters of `get_articles`, each applied when its argument is
      non-empty: title or author name contains `search`, the category contains
      `category` (both ignoring case), and the lower-cased `tag` is one of the
      tags (the JSON text holds it in quotes).  Articles without an author row
      fall out of the inner join. */
  predicate Listed(a: Article, search: string, category: string, tag: string)
  {
    && a.author.Some?
    && (search != "" ==> ContainsCI(a.title, search) || ContainsCI(a.author.value, search))
    && (category != "" ==> ContainsCI(a.category, category))
    && (tag != "" ==> Lower(tag) in a.tags)
  }

  /** `ceil(total / per_page)` for a positive page size. */
  function PagesFor(total: nat, per: nat): (n: nat)
    requires per > 0
    ensures n * per >= total && (n == 0 || (n - 1) * per < total)
    ensures n == 0 <==> total == 0
  {
    CeilDiv(total, per)
  }

  /** `get_articles`: the page at `(page - 1) * per_page` of the matching
      articles, the match count, and the page count, which is 0 when nothing
      matches.  A negative offset or limit is read as PostgreSQL's refusal of
      it; a zero page size fails the page count. */
  function ListArticles(db: Db, page: int, per: int, search: string, category: string, tag: string): (r: Http<Page<Article>>)
    ensures r.Err? <==> per <= 0 || page < 1
    ensures r.Err? ==> r.status == 500
    ensures r.Ok? ==>
      var matching := Filter(db.articles, (a: Article) => Listed(a, search, category, tag));
      && r.value.totalCount == |matching|
      && r.value.items == Slice(matching, (page - 1) * per, page * per)
      && r.value.totalPages == PagesFor(|matching|, per)
    ensures r.Ok? ==> |r.value.items| <= per
    ensures r.Ok? ==> forall a :: a in r.value.items ==> a in db.articles && Listed(a, search, category, tag)
  {
    var matching := Filter(db.articles, (a: Article) => Listed(a, search, category, tag));
    if (page - 1) * per < 0 then Err(500, NegativeOffset)
    else if per < 0 then Err(500, NegativeLimit)
    else if per == 0 then Err(500, DivisionByZero)
    else
      var items := Slice(matching, (page - 1) * per, page * per);
      assert page * per == (page - 1) * per + per;
      assert forall a :: a in items ==> a in matching by {
        forall a | a in items ensures a in matching {
          var i :| 0 <= i < |items| && items[i] == a;
        }
      }
      Ok(Page(items, |matching|, PagesFor(|matching|, per)))
  }

  /** Walking pages 1 to `total_pages` lists every matching article exactly once, in table order. */
  lemma ListArticlesCoversAll(db: Db, per: int, search: string, category: string, tag: string)
    requires per > 0
    ensures var matching := Filter(db.articles, (a: Article) => Listed(a, search, category, tag));
      Concat(matching, per, PagesFor(|matching|, per)) == matching
  {
    var matching := Filter(db.articles, (a: Article) => Listed(a, search, category, tag));
    PagesPartition(matching, per);
  }

  // ---------------------------------------------------------------------------
  // Slugs

  /** The title lower-cased, with spaces turned into hyphens and apostrophes and commas removed. */
  function Slug(title: string): (r: string)
    ensures |r| <= |title|
    ensures forall i :: 0 <= i < |r| ==> r[i] != ' ' && r[i] != '\'' && r[i] != ',' && !IsUpper(r[i])
  {
    var lowered := Lower(title);
    var dashed := seq(|lowered|, i requires 0 <= i < |lowered| => if lowered[i] == ' ' then '-' else lowered[i]);
    var r := Filter(dashed, SlugKeeps);
    assert forall i :: 0 <= i < |r| ==> r[i] in dashed && SlugKeeps(r[i]);
    r
  }

  function SlugKeeps(c: char): bool { c != '\'' && c != ',' }

  /** A slug is its own slug. */
  lemma SlugIdempotent(title: string)
    ensures Slug(Slug(title)) == Slug(title)
  {
    var s := Slug(title);
    LowerNoUpper(s);
    var dashed := seq(|s|, i requires 0 <= i < |s| => if s[i] == ' ' then '-' else s[i]);
    assert dashed == s;
    FilterAll(s, SlugKeeps);
  }

  // ---------------------------------------------------------------------------
  // Creating and updating

  datatype AuthorInput = AuthorInput(name: Option<string>)

  datatype MetaInput = MetaInput(readTime: Option<int>, views: Option<int>, likes: Option<int>, bookmarks: Option<int>)

  /** A JSON body for create or update; a field is `Some` exactly when its key
      is present.  Create reads the cover from "coverImageUrl", update from
      "cover_image_url" (`coverImageUrlSnake`).  `otherKeys` says whether the
      body also carries some key that neither route reads. */
  datatype ArticleInput = ArticleInput(
    title: Option<string>,
    pdfUrl: Option<string>,
    category: Option<string>,
    author: Option<AuthorInput>,
    summary: Option<string>,
    coverImageUrl: Option<string>,
    coverImageUrlSnake: Option<string>,
    tags: Option<seq<string>>,
    meta: Option<MetaInput>,
    otherKeys: bool)

  predicate HasRequired(d: ArticleInput)
  {
    d.title.Some? && d.pdfUrl.Some? && d.category.Some? && d.author.Some? && d.summary.Some?
  }

  predicate SlugTaken(db: Db, slug: string)
  {
    exists i :: 0 <= i < |db.articles| && db.articles[i].slug == slug
  }

  const DuplicateSlug := "duplicate key value violates unique constraint on slug"

  /** `create_article`: 400 unless title, pdfUrl, category, author and summary
      are all present; the author's name is required; the slug must be new.
      Absent optional fields take their defaults. */
  function CreateArticle(db: Db, d: ArticleInput, now: int): (r: Http<(Db, Article)>)
    ensures !HasRequired(d) ==> r == Err(400, "Missing required fields")
    ensures r.Ok? <==> HasRequired(d) && d.author.value.name.Some? && !SlugTaken(db, Slug(d.title.value))
    ensures r.Ok? ==>
      var a := r.value.1;
      && r.value.0 == db.(articles := db.articles + [a])
      && a.title == d.title.value && a.slug == Slug(d.title.value) && a.author == d.author.value.name
      && a.pdfUrl == d.pdfUrl.value && a.category == d.category.value && a.summary == d.summary.value
      && a.coverImageUrl == d.coverImageUrl.GetOr("https://placehold.co/600x300")
      && a.tags == d.tags.GetOr([])
      && a.meta.Some? && a.meta.value.readTime == (if d.meta.Some? then d.meta.value.readTime.GetOr(5) else 5)
      && a.meta.value.views == (if d.meta.Some? then d.meta.value.views.GetOr(0) else 0)
      && a.meta.value.likes == (if d.meta.Some? then d.meta.value.likes.GetOr(0) else 0)
      && a.meta.value.bookmarks == (if d.meta.Some? then d.meta.value.bookmarks.GetOr(0) else 0)
      && a.createdAt == now
      && forall i :: 0 <= i < |db.articles| ==> db.articles[i].id != a.id
  {
    if !HasRequired(d) then Err(400, "Missing required fields")
    else if d.author.value.name.None? then Err(500, "KeyError: 'name'")
    else
      var slug := Slug(d.title.value);
      if |Filter(db.articles, (x: Article) => x.slug == slug)| > 0 then
        assert Filter(db.articles, (x: Article) => x.slug == slug)[0] in db.articles;
        Err(500, DuplicateSlug)
      else
        FilterEmpty(db.articles, (x: Article) => x.slug == slug);
        var m := d.meta.GetOr(MetaInput(None, None, None, None));
        var a := Article(NextKey(db.articles, ArticleId), d.title.value, slug,
                         d.coverImageUrl.GetOr("https://placehold.co/600x300"), d.category.value,
                         d.author.value.name, d.summary.value, d.pdfUrl.value, d.tags.GetOr([]), now,
                         Some(ArticleMeta(m.readTime.GetOr(5), m.views.GetOr(0), m.likes.GetOr(0), m.bookmarks.GetOr(0))));
        Ok((db.(articles := db.articles + [a]), a))
  }

  /** `Article.query.filter_by(slug=slug).first()`. */
  function BySlug(articles: seq<Article>, slug: string): (r: Option<nat>)
    ensures r.Some? ==> r.value < |articles| && articles[r.value].slug == slug
    ensures r.Some? ==> forall j :: 0 <= j < r.value ==> articles[j].slug != slug
    ensures r.None? ==> forall j :: 0 <= j < |articles| ==> articles[j].slug != slug
  {
    if |articles| == 0 then None
    else if articles[0].slug == slug then Some(0)
    else match BySlug(articles[1..], slug)
      case None => None
      case Some(k) => Some(k + 1)
  }

  /** `not data`: the body is the empty object. */
  predicate EmptyInput(d: ArticleInput)
  {
    d == ArticleInput(None, None, None, None, None, None, None, None, None, false)
  }

  /** The article after an update body: present fields overwrite, a new title
      brings a new slug, and present meta keys overwrite the meta row. */
  function Updated(a: Article, d: ArticleInput): Article
    requires d.author.Some? ==> d.author.value.name.Some?
    requires d.meta.Some? ==> a.meta.Some?
  {
    a.(title := d.title.GetOr(a.title),
       slug := if d.title.Some? then Slug(d.title.value) else a.slug,
       category := d.category.GetOr(a.category),
       summary := d.summary.GetOr(a.summary),
       tags := d.tags.GetOr(a.tags),
       coverImageUrl := d.coverImageUrlSnake.GetOr(a.coverImageUrl),
       author := if d.author.Some? then d.author.value.name else a.author,
       meta := if d.meta.Some? then
                 var m := a.meta.value;
                 Some(m.(readTime := d.meta.value.readTime.GetOr(m.readTime),
                         views := d.meta.value.views.GetOr(m.views),
                         likes := d.meta.value.likes.GetOr(m.likes),
                         bookmarks := d.meta.value.bookmarks.GetOr(m.bookmarks)))
               else a.meta)
  }

  /** Another row than `k` already holds `slug`. */
  predicate SlugTakenByOther(db: Db, k: nat, slug: string)
  {
    exists j :: 0 <= j < |db.articles| && j != k && db.articles[j].slug == slug
  }

  /** `update_article`: 404 for an unknown slug, 400 for an empty body; a
      missing author name or meta row fails, and so does a new title whose
      slug another article holds.  Otherwise the first article with that slug
      is rewritten and only it. */
  function UpdateArticle(db: Db, slug: string, d: ArticleInput): (r: Http<(Db, Article)>)
    ensures BySlug(db.articles, slug).None? ==> r == Err(404, "Article not found")
    ensures BySlug(db.articles, slug).Some? && EmptyInput(d) ==> r == Err(400, "No data provided")
    ensures r.Ok? <==>
      && BySlug(db.articles, slug).Some? && !EmptyInput(d)
      && (d.author.Some? ==> d.author.value.name.Some?)
      && (d.meta.Some? ==> db.articles[BySlug(db.articles, slug).value].meta.Some?)
      && (d.title.Some? ==> !SlugTakenByOther(db, BySlug(db.articles, slug).value, Slug(d.title.value)))
    ensures r.Ok? ==>
      var k := BySlug(db.articles, slug).value;
      var a := r.value.1;
      && r.value.0 == db.(articles := db.articles[k := a])
      && a.id == db.articles[k].id && a.pdfUrl == db.articles[k].pdfUrl && a.createdAt == db.articles[k].createdAt
      && (d.title.Some? ==> a.title == d.title.value && a.slug == Slug(d.title.value))
      && (d.title.None? ==> a.title == db.articles[k].title && a.slug == db.articles[k].slug)
      && (d.tags.Some? ==> a.tags == d.tags.value) && (d.tags.None? ==> a.tags == db.articles[k].tags)
      && (d.category.Some? ==> a.category == d.category.value) && (d.category.None? ==> a.category == db.articles[k].category)
      && (d.summary.Some? ==> a.summary == d.summary.value) && (d.summary.None? ==> a.summary == db.articles[k].summary)
      && (d.coverImageUrlSnake.Some? ==> a.coverImageUrl == d.coverImageUrlSnake.value)
      && (d.coverImageUrlSnake.None? ==> a.coverImageUrl == db.articles[k].coverImageUrl)
      && (d.author.Some? ==> a.author == d.author.value.name) && (d.author.None? ==> a.author == db.articles[k].author)
      && (d.meta.None? ==> a.meta == db.articles[k].meta)
      && (d.meta.Some? ==>
            var m := db.articles[k].meta.value;
            var n := d.meta.value;
            && a.meta.Some?
            && a.meta.value.readTime == n.readTime.GetOr(m.readTime)
            && a.meta.value.views == n.views.GetOr(m.views)
            && a.meta.value.likes == n.likes.GetOr(m.likes)
            && a.meta.value.bookmarks == n.bookmarks.GetOr(m.bookmarks))
  {
    match BySlug(db.articles, slug)
    case None => Err(404, "Article not found")
    case Some(k) =>
      if EmptyInput(d) then Err(400, "No data provided")
      else if d.author.Some? && d.author.value.name.None? then Err(500, "KeyError: 'name'")
      else if d.meta.Some? && db.articles[k].meta.None? then Err(500, "'NoneType' object has no attribute 'read_time'")
      else if d.title.Some? && |Filter(Others(db.articles, k), (x: Article) => x.slug == Slug(d.title.value))| > 0 then
        OthersTaken(db, k, Slug(d.title.value));
        Err(500, DuplicateSlug)
      else
        OthersFree(db, k, d.title);
        Ok((db.(articles := db.articles[k := Updated(db.articles[k], d)]), Updated(db.articles[k], d)))
  }

  /** The rows other than row `k`. */
  function Others(articles: seq<Article>, k: nat): seq<Article>
    requires k < |articles|
  {
    articles[..k] + articles[k + 1..]
  }

  lemma OthersTaken(db: Db, k: nat, slug: string)
    requires k < |db.articles|
    requires |Filter(Others(db.articles, k), (x: Article) => x.slug == slug)| > 0
    ensures SlugTakenByOther(db, k, slug)
  {
    var o := Others(db.articles, k);
    var x := Filter(o, (x: Article) => x.slug == slug)[0];
    assert x in o;
    var i :| 0 <= i < |o| && o[i] == x;
    if i < k { assert db.articles[i] == x; } else { assert db.articles[i + 1] == x; }
  }

  lemma OthersFree(db: Db, k: nat, title: Option<string>)
    requires k < |db.articles|
    requires title.Some? ==> |Filter(Others(db.articles, k), (x: Article) => x.slug == Slug(title.value))| == 0
    ensures title.Some? ==> !SlugTakenByOther(db, k, Slug(title.value))
  {
    if title.None? { return; }
    var slug := Slug(title.value);
    var o := Others(db.articles, k);
    FilterEmpty(o, (x: Article) => x.slug == slug);
    forall j | 0 <= j < |db.articles| && j != k ensures db.articles[j].slug != slug {
      if j < k { assert o[j] == db.articles[j]; } else { assert o[j - 1] == db.articles[j]; }
    }
  }

  /** A body whose only keys are ones the route does not read, such as the
      create route's "coverImageUrl", is not empty: the update succeeds and
      leaves the article as it was. */
  lemma UnreadKeysKeepArticle(db: Db, slug: string, cover: Option<string>)
    requires BySlug(db.articles, slug).Some?
    ensures var d := ArticleInput(None, None, None, None, None, cover, None, None, None, cover.None?);
      var r := UpdateArticle(db, slug, d);
      r.Ok? && r.value.1 == db.articles[BySlug(db.articles, slug).value] && r.value.0 == db
  {
  }

  /** Slugs stay unique through every successful create and update. */
  predicate SlugsUnique(db: Db)
  {
    forall i, j :: 0 <= i < j < |db.articles| ==> db.articles[i].slug != db.articles[j].slug
  }

  lemma CreateKeepsSlugsUnique(db: Db, d: ArticleInput, now: int)
    requires SlugsUnique(db) && CreateArticle(db, d, now).Ok?
    ensures SlugsUnique(CreateArticle(db, d, now).value.0)
  {
    var after := CreateArticle(db, d, now).value.0;
    forall i, j | 0 <= i < j < |after.articles| ensures after.articles[i].slug != after.articles[j].slug {
      if j < |db.articles| {
        assert after.articles[i] == db.articles[i] && after.articles[j] == db.articles[j];
      }
    }
  }

  lemma UpdateKeepsSlugsUnique(db: Db, slug: string, d: ArticleInput)
    requires SlugsUnique(db) && UpdateArticle(db, slug, d).Ok?
    ensures SlugsUnique(UpdateArticle(db, slug, d).value.0)
  {
    var k := BySlug(db.articles, slug).value;
    var after := UpdateArticle(db, slug, d).value.0;
    forall i, j | 0 <= i < j < |after.articles| ensures after.articles[i].slug != after.articles[j].slug {
      if i != k && j != k {
        assert after.articles[i] == db.articles[i] && after.articles[j] == db.articles[j];
      }
    }
  }

  /** `get_article_by_slug`: the first article with that slug, or 404. */
  function GetArticle(db: Db, slug: string): (r: Http<Article>)
    ensures r.Ok? <==> exists i :: 0 <= i < |db.articles| && db.articles[i].slug == slug
    ensures r.Ok? ==> r.value in db.articles && r.value.slug == slug
    ensures r.Err? ==> r == Err(404, "Article not found")
  {
    match BySlug(db.articles, slug)
    case None => Err(404, "Article not found")
    case Some(k) => Ok(db.articles[k])
  }

  /** `delete_article`: the first article with that slug is removed together
      with its likes and bookmarks (the cascade); every other row stays, in order. */
  function DeleteArticle(db: Db, slug: string): (r: Http<Db>)
    ensures r.Ok? <==> GetArticle(db, slug).Ok?
    ensures r.Err? ==> r == Err(404, "Article not found")
    ensures r.Ok? ==>
      var k := BySlug(db.articles, slug).value;
      var id := db.articles[k].id;
      && r.value.articles == db.articles[..k] + db.articles[k + 1..]
      && (forall p :: p in r.value.likes <==> p in db.likes && p.1 != id)
      && (forall p :: p in r.value.bookmarks <==> p in db.bookmarks && p.1 != id)
      && r.value.books == db.books && r.value.users == db.users
  {
    match BySlug(db.articles, slug)
    case None => Err(404, "Article not found")
    case Some(k) =>
      var id := db.articles[k].id;
      Ok(db.(articles := Others(db.articles, k),
             likes := (set p | p in db.likes && p.1 != id),
             bookmarks := (set p | p in db.bookmarks && p.1 != id)))
  }

  /** Whatever the body, after an update the slug is the slug of the stored title
      whenever the two agreed before or the body carried a title. */
  lemma UpdateKeepsSlugOfTitle(db: Db, slug: string, d: ArticleInput)
    requires UpdateArticle(db, slug, d).Ok?
    requires d.title.Some? || (var k := BySlug(db.articles, slug).value; db.articles[k].slug == Slug(db.articles[k].title))
    ensures var a := UpdateArticle(db, slug, d).value.1; a.slug == Slug(a.title)
  {
  }

  // ---------------------------------------------------------------------------
  // Related articles

  /** `t` is one of the pieces, stripped. */
  predicate StrippedPiece(parts: seq<string>, t: string)
  {
    exists k :: 0 <= k < |parts| && Strip(parts[k]) == t
  }

  /** The `tags` query argument: comma-separated, each piece stripped, empty
      pieces dropped.  The tags are the non-empty stripped pieces, in the order
      of the pieces; none holds a comma or surrounding whitespace. */
  function RequestedTags(raw: string): (r: seq<string>)
    ensures raw == "" ==> r == []
    ensures forall t :: t in r <==> t != "" && StrippedPiece(Split(raw, ','), t)
    ensures forall t :: t in r ==> ',' !in t && NoEdgeSpace(t)
    ensures Subseq(r, StripAll(Split(raw, ',')))
  {
    var parts := Split(raw, ',');
    StripAllPieces(parts);
    if raw == "" then
      assert parts == [""];
      []
    else Filter(StripAll(parts), (t: string) => t != "")
  }

  /** The stripped pieces are exactly the pieces' stripped forms, and
      stripping adds no comma. */
  lemma StripAllPieces(parts: seq<string>)
    requires forall k :: 0 <= k < |parts| ==> ',' !in parts[k]
    ensures forall t :: t in StripAll(parts) <==> StrippedPiece(parts, t)
    ensures forall t :: t in StripAll(parts) ==> ',' !in t
  {
    var stripped := StripAll(parts);
    forall t | t in stripped ensures StrippedPiece(parts, t) && ',' !in t {
      var k :| 0 <= k < |stripped| && stripped[k] == t;
      StripKeeps(parts[k], ',');
    }
    forall t | StrippedPiece(parts, t) ensures t in stripped {
      var k :| 0 <= k < |parts| && Strip(parts[k]) == t;
      assert stripped[k] == t;
    }
  }

  /** Tags without commas or surrounding whitespace, joined by commas, are
      read back as themselves. */
  lemma RequestedTagsJoin(tags: seq<string>)
    requires forall k :: 0 <= k < |tags| ==> tags[k] != "" && ',' !in tags[k] && NoEdgeSpace(tags[k])
    ensures RequestedTags(Join(tags, ",")) == tags
  {
    if |tags| == 0 {
      assert Join(tags, ",") == "";
    } else {
      var raw := Join(tags, ",");
      var j := JoinOccurs(tags, ",", 0);
      assert |raw| > 0;
      SplitJoin(tags, ',');
      assert Split(raw, ',') == tags;
      assert StripAll(tags) == tags by {
        forall k | 0 <= k < |tags| ensures StripAll(tags)[k] == tags[k] {
          StripNoSpace(tags[k]);
        }
      }
      FilterAll(tags, (t: string) => t != "");
      assert RequestedTags(raw) == Filter(StripAll(Split(raw, ',')), (t: string) => t != "");
    }
  }

  /** Python's `strip()` applied to each piece. */
  function StripAll(parts: seq<string>): (r: seq<string>)
    ensures |r| == |parts|
    ensures forall i :: 0 <= i < |parts| ==> r[i] == Strip(parts[i])
  {
    seq(|parts|, i requires 0 <= i < |parts| => Strip(parts[i]))
  }

  /** Tags shared with the request, plus one for the same category ignoring case. */
  function Score(tags: seq<string>, category: string, a: Article): nat
  {
    |(set t | t in tags) * (set t | t in a.tags)| + (if category != "" && Lower(a.category) == Lower(category) then 1 else 0)
  }

  function HigherScore(tags: seq<string>, category: string): (Article, Article) -> bool
  {
    (a: Article, b: Article) => Score(tags, category, a) >= Score(tags, category, b)
  }

  predicate RelatedTo(id: int, tags: seq<string>, category: string, a: Article)
  {
    a.id != id && Score(tags, category, a) > 0
  }

  /** `get_related_articles`: the other articles sharing a tag or the category,
      highest score first (equal scores in table order), cut by Python's
      `[:limit]`, which counts a negative limit from the end. */
  function RelatedArticles(db: Db, id: int, rawTags: string, category: string, limit: int): (r: Http<seq<Article>>)
    ensures r.Err? <==> Lookup(db.articles, ArticleId, id).None?
    ensures r.Ok? ==> forall a :: a in r.value ==> a in db.articles && RelatedTo(id, RequestedTags(rawTags), category, a)
    ensures r.Ok? ==> SortedBy(r.value, HigherScore(RequestedTags(rawTags), category))
    ensures r.Ok? && limit >= 0 ==> |r.value| <= limit
    ensures r.Ok? && limit >= 0 ==> forall a, b ::
      a in db.articles && RelatedTo(id, RequestedTags(rawTags), category, a) && a !in r.value && b in r.value ==>
        Score(RequestedTags(rawTags), category, b) >= Score(RequestedTags(rawTags), category, a)
    ensures r.Ok? && limit >= |db.articles| ==> forall a ::
      a in r.value <==> a in db.articles && RelatedTo(id, RequestedTags(rawTags), category, a)
  {
    if Lookup(db.articles, ArticleId, id).None? then Err(404, "Not Found")
    else
      var tags := RequestedTags(rawTags);
      var sorted := Ranked(db, id, tags, category);
      var n: nat := if limit >= 0 then limit else Bound(limit, |sorted|);
      PyHead(sorted, limit);
      SortedPrefix(sorted, n, HigherScore(tags, category));
      Ok(PySlice(sorted, 0, limit))
  }

  /** The related articles, highest score first. */
  function Ranked(db: Db, id: int, tags: seq<string>, category: string): (r: seq<Article>)
    ensures |r| <= |db.articles|
    ensures forall a :: a in r <==> a in db.articles && RelatedTo(id, tags, category, a)
    ensures SortedBy(r, HigherScore(tags, category))
  {
    var le := HigherScore(tags, category);
    var scored := Filter(db.articles, (a: Article) => RelatedTo(id, tags, category, a));
    SortBySorted(scored, le);
    SortByMembers(scored, le);
    assert |SortBy(scored, le)| == |multiset(scored)|;
    SortBy(scored, le)
  }

  /** Python's `s[:limit]` is the first `limit` elements, or for a negative
      limit all but the last `-limit`. */
  lemma PyHead<T>(s: seq<T>, limit: int)
    ensures PySlice(s, 0, limit) == Take(s, if limit >= 0 then limit else Bound(limit, |s|))
  {
  }

  /** Articles with the same score keep their table order. */
  lemma RelatedIsStable(db: Db, id: int, rawTags: string, category: string, x: Article)
    ensures var tags := RequestedTags(rawTags);
      var le := HigherScore(tags, category);
      var scored := Filter(db.articles, (a: Article) => RelatedTo(id, tags, category, a));
      Filter(SortBy(scored, le), EquivTo(le, x)) == Filter(scored, EquivTo(le, x))
  {
    var tags := RequestedTags(rawTags);
    var le := HigherScore(tags, category);
    var scored := Filter(db.articles, (a: Article) => RelatedTo(id, tags, category, a));
    SortByStable(scored, le, x);
  }

  // ---------------------------------------------------------------------------
  // Likes and bookmarks

  datatype Mark = Like | Bookmark

  function Marks(db: Db, m: Mark): set<(nat, nat)>
  {
    if m == Like then db.likes else db.bookmarks
  }

  function WithMarks(db: Db, m: Mark, s: set<(nat, nat)>): Db
  {
    if m == Like then db.(likes := s) else db.(bookmarks := s)
  }

  function Counter(meta: ArticleMeta, m: Mark): int
  {
    if m == Like then meta.likes else meta.bookmarks
  }

  function WithCounter(meta: ArticleMeta, m: Mark, c: int): ArticleMeta
  {
    if m == Like then meta.(likes := c) else meta.(bookmarks := c)
  }

  datatype Toggled = Toggled(db: Db, message: string, count: int)

  function ToggleMessage(m: Mark, added: bool): string
  {
    match m
    case Like => if added then "Article liked" else "Article unliked"
    case Bookmark => if added then "Article bookmarked" else "Article unbookmarked"
  }

  /** `like_article` / `bookmark_article`: an existing mark of (user, article)
      is removed and the counter lowered, not below 0; otherwise the mark is
      added and the counter raised.  404 for an unknown article; an article
      without a meta row fails. */
  function Toggle(db: Db, m: Mark, userId: nat, id: int): (r: Http<Toggled>)
    ensures Lookup(db.articles, ArticleId, id).None? ==> r == Err(404, "Not Found")
    ensures r.Ok? <==> Lookup(db.articles, ArticleId, id).Some? && Lookup(db.articles, ArticleId, id).value.meta.Some?
    ensures r.Ok? ==>
      var a := Lookup(db.articles, ArticleId, id).value;
      var c := Counter(a.meta.value, m);
      var had := (userId, a.id) in Marks(db, m);
      && ((userId, a.id) in Marks(r.value.db, m) <==> !had)
      && (forall p :: p != (userId, a.id) ==> (p in Marks(r.value.db, m) <==> p in Marks(db, m)))
      && r.value.count == (if had then Max(0, c - 1) else c + 1)
      && r.value.message == ToggleMessage(m, !had)
    ensures r.Ok? ==>
      var a := Lookup(db.articles, ArticleId, id).value;
      && WithMarks(r.value.db, m, Marks(db, m)) == db.(articles := r.value.db.articles)
      && |r.value.db.articles| == |db.articles|
      && (forall i :: 0 <= i < |db.articles| ==> r.value.db.articles[i].id == db.articles[i].id)
      && (forall i :: 0 <= i < |db.articles| && db.articles[i] == a ==>
            r.value.db.articles[i] == a.(meta := Some(WithCounter(a.meta.value, m, r.value.count))))
  {
    match Lookup(db.articles, ArticleId, id)
    case None => Err(404, "Not Found")
    case Some(a) =>
      if a.meta.None? then Err(500, "'NoneType' object has no attribute")
      else Ok(ToggleOn(db, m, userId, a))
  }

  /** The toggle on a found article with its meta row. */
  function ToggleOn(db: Db, m: Mark, userId: nat, a: Article): (r: Toggled)
    requires a.meta.Some?
    ensures var c := Counter(a.meta.value, m);
      var had := (userId, a.id) in Marks(db, m);
      && ((userId, a.id) in Marks(r.db, m) <==> !had)
      && (forall p :: p != (userId, a.id) ==> (p in Marks(r.db, m) <==> p in Marks(db, m)))
      && r.count == (if had then Max(0, c - 1) else c + 1)
      && r.message == ToggleMessage(m, !had)
    ensures WithMarks(r.db, m, Marks(db, m)) == db.(articles := r.db.articles)
    ensures |r.db.articles| == |db.articles|
    ensures forall i :: 0 <= i < |db.articles| ==> r.db.articles[i].id == db.articles[i].id
    ensures forall i :: 0 <= i < |db.articles| && db.articles[i] == a ==>
      r.db.articles[i] == a.(meta := Some(WithCounter(a.meta.value, m, r.count)))
  {
    var key := (userId, a.id);
    var had := key in Marks(db, m);
    var c := Counter(a.meta.value, m);
    var c' := if had then Max(0, c - 1) else c + 1;
    var marks := if had then Marks(db, m) - {key} else Marks(db, m) + {key};
    var rows := UpdateWhere(db.articles, ArticleId, a.id, (x: Article) => x.(meta := Some(WithCounter(x.meta.GetOr(a.meta.value), m, c'))));
    Toggled(WithMarks(db.(articles := rows), m, marks), ToggleMessage(m, !had), c')
  }

  /** A toggle touches only that article's counter and that mark table. */
  lemma ToggleTouchesOnlyItsArticle(db: Db, m: Mark, userId: nat, id: int, i: nat)
    requires Toggle(db, m, userId, id).Ok? && i < |db.articles| && db.articles[i].id != id
    ensures var d := Toggle(db, m, userId, id).value.db;
      |d.articles| == |db.articles| && d.articles[i] == db.articles[i]
      && d.books == db.books && d.users == db.users && Marks(d, if m == Like then Bookmark else Like) == Marks(db, if m == Like then Bookmark else Like)
  {
  }

  /** After a toggle, the same article is found again, carrying the new counter. */
  lemma ToggleThenLookup(db: Db, m: Mark, userId: nat, id: int)
    requires Toggle(db, m, userId, id).Ok? && UniqueKeys(db.articles, ArticleId)
    ensures var a := Lookup(db.articles, ArticleId, id).value;
      var once := Toggle(db, m, userId, id).value;
      Lookup(once.db.articles, ArticleId, id) == Some(a.(meta := Some(WithCounter(a.meta.value, m, once.count))))
  {
    var a := Lookup(db.articles, ArticleId, id).value;
    var once := Toggle(db, m, userId, id).value;
    var k :| 0 <= k < |db.articles| && db.articles[k] == a;
    var rows := once.db.articles;
    assert rows[k] == a.(meta := Some(WithCounter(a.meta.value, m, once.count)));
    LookupAt(rows, ArticleId, k);
  }

  /** Toggling twice restores the marks. */
  lemma ToggleTwiceRestoresMarks(db: Db, m: Mark, userId: nat, id: int)
    requires Toggle(db, m, userId, id).Ok? && UniqueKeys(db.articles, ArticleId)
    ensures var twice := Toggle(Toggle(db, m, userId, id).value.db, m, userId, id);
      twice.Ok? && Marks(twice.value.db, m) == Marks(db, m)
  {
    var a := Lookup(db.articles, ArticleId, id).value;
    var once := ToggleOn(db, m, userId, a);
    ToggleThenLookup(db, m, userId, id);
    var a1 := a.(meta := Some(WithCounter(a.meta.value, m, once.count)));
    var twice := ToggleOn(once.db, m, userId, a1);
    assert Toggle(once.db, m, userId, id) == Ok(twice);
    assert forall p :: p in Marks(twice.db, m) <==> p in Marks(db, m);
  }

  /** Toggling twice restores the counter when it was consistent:
      non-negative, and positive while the mark existed. */
  lemma ToggleTwiceRestoresCount(db: Db, m: Mark, userId: nat, id: int)
    requires Toggle(db, m, userId, id).Ok? && UniqueKeys(db.articles, ArticleId)
    requires var a := Lookup(db.articles, ArticleId, id).value;
      var c := Counter(a.meta.value, m);
      c >= 0 && ((userId, a.id) in Marks(db, m) ==> c >= 1)
    ensures var twice := Toggle(Toggle(db, m, userId, id).value.db, m, userId, id);
      twice.Ok? && twice.value.count == Counter(Lookup(db.articles, ArticleId, id).value.meta.value, m)
  {
    var a := Lookup(db.articles, ArticleId, id).value;
    var once := ToggleOn(db, m, userId, a);
    ToggleThenLookup(db, m, userId, id);
    var a1 := a.(meta := Some(WithCounter(a.meta.value, m, once.count)));
    ToggleOnTwiceCount(db, m, userId, a);
    assert Toggle(once.db, m, userId, id) == Ok(ToggleOn(once.db, m, userId, a1));
  }

  lemma ToggleOnTwiceCount(db: Db, m: Mark, userId: nat, a: Article)
    requires a.meta.Some?
    requires var c := Counter(a.meta.value, m); c >= 0 && ((userId, a.id) in Marks(db, m) ==> c >= 1)
    ensures var once := ToggleOn(db, m, userId, a);
      var a1 := a.(meta := Some(WithCounter(a.meta.value, m, once.count)));
      ToggleOn(once.db, m, userId, a1).count == Counter(a.meta.value, m)
  {
    var once := ToggleOn(db, m, userId, a);
    var a1 := a.(meta := Some(WithCounter(a.meta.value, m, once.count)));
    assert Counter(a1.meta.value, m) == once.count;
    assert ((userId, a1.id) in Marks(once.db, m)) == !((userId, a.id) in Marks(db, m));
  }
}

=== FILE: articles_page.dfy ===
/** The article listing page (frontend/src/pages/ArticlesPage.tsx): the search
    and filter state with its page reset, the request parameters it sends, the
    like and bookmark toggles applied after the server accepted them, and the
    filter options derived from the articles on the current page.  The
    page-number list and the page guard are in PageWindow. */
module ArticlesPage {
  import opened Seqs

  /** The search text, the selected category and tag ('' for none) and the page. */
  datatype Filters = Filters(search: string, category: string, tag: string, page: int)

  /** Nine articles per page. */
  const PerPage := 9

  /** `handleSearchChange`: a new search text starts again from page 1. */
  function SearchChange(f: Filters, q: string): (r: Filters)
    ensures r.search == q && r.page == 1
    ensures r.category == f.category && r.tag == f.tag
  {
    f.(search := q, page := 1)
  }

  /** Choosing a value of a single-choice filter: choosing the selected value
      again clears the choice. */
  function Pick(selected: string, chosen: string): (r: string)
    ensures r == chosen <==> selected != chosen || chosen == ""
    ensures r == "" <==> selected == chosen || chosen == ""
  {
    if chosen == selected then "" else chosen
  }

  /** `handleCategoryChange`. */
  function CategoryChange(f: Filters, c: string): (r: Filters)
    ensures r.category == Pick(f.category, c) && r.page == 1
    ensures r.search == f.search && r.tag == f.tag
  {
    f.(category := Pick(f.category, c), page := 1)
  }

  /** `handleTagChange`. */
  function TagChange(f: Filters, t: string): (r: Filters)
    ensures r.tag == Pick(f.tag, t) && r.page == 1
    ensures r.search == f.search && r.category == f.category
  {
    f.(tag := Pick(f.tag, t), page := 1)
  }

  /** Clicking the same category twice undoes the first click when nothing or
      that category was selected; the page stays reset. */
  lemma CategoryTwice(f: Filters, c: string)
    requires f.category == "" || f.category == c
    ensures var g := CategoryChange(CategoryChange(f, c), c);
      g.category == f.category && g.page == 1
  {
  }

  /** `clearFilters`: no search, no category, no tag, page 1. */
  function ClearFilters(f: Filters): (r: Filters)
    ensures r == Filters("", "", "", 1)
  {
    Filters("", "", "", 1)
  }

  /** The request parameters of the listing: page and page size always, each
      filter only when it is non-empty. */
  function Params(f: Filters, show: int -> string): (r: map<string, string>)
    ensures "page" in r && "per_page" in r
    ensures "search" in r <==> f.search != ""
    ensures "category" in r <==> f.category != ""
    ensures "tag" in r <==> f.tag != ""
    ensures forall k :: k in r ==> k in {"page", "per_page", "search", "category", "tag"}
    ensures "search" in r ==> r["search"] == f.search
    ensures "category" in r ==> r["category"] == f.category
    ensures "tag" in r ==> r["tag"] == f.tag
  {
    var base := map["page" := show(f.page), "per_page" := show(PerPage)];
    var s := if f.search != "" then base["search" := f.search] else base;
    var c := if f.category != "" then s["category" := f.category] else s;
    if f.tag != "" then c["tag" := f.tag] else c
  }

  /** After clearing, only the page and its size are requested. */
  lemma ClearedParams(f: Filters, show: int -> string)
    ensures Params(ClearFilters(f), show).Keys == {"page", "per_page"}
  {
  }

  /** The counters shown on an article card. */
  datatype Meta = Meta(readTime: int, views: int, likes: int, bookmarks: int)

  datatype Card = Card(id: string, title: string, category: string, tags: seq<string>, meta: Meta)

  /** Which counter a toggle acts on: likes or bookmarks. */
  datatype Counter = Likes | Bookmarks

  function CountOf(m: Meta, c: Counter): int
  {
    match c
    case Likes => m.likes
    case Bookmarks => m.bookmarks
  }

  function Bump(m: Meta, c: Counter, delta: int): (r: Meta)
    ensures CountOf(r, c) == CountOf(m, c) + delta
    ensures r.readTime == m.readTime && r.views == m.views
    ensures forall d :: d != c ==> CountOf(r, d) == CountOf(m, d)
  {
    match c
    case Likes => m.(likes := m.likes + delta)
    case Bookmarks => m.(bookmarks := m.bookmarks + delta)
  }

  /** The articles and the set of marked ids after a toggle of article `id`.
      The server call's outcome is the parameter `ok`; a failed call changes
      nothing.  On success the marked counter of that article goes down by one
      when it was marked and up by one otherwise, and its membership flips. */
  function Toggle(cards: seq<Card>, marked: set<string>, id: string, c: Counter, ok: bool): (r: (seq<Card>, set<string>))
    ensures !ok ==> r == (cards, marked)
    ensures |r.0| == |cards|
    ensures ok ==> forall i :: 0 <= i < |cards| ==>
      if cards[i].id == id then
        r.0[i].id == id && r.0[i].title == cards[i].title && r.0[i].tags == cards[i].tags &&
        r.0[i].category == cards[i].category &&
        CountOf(r.0[i].meta, c) == CountOf(cards[i].meta, c) + (if id in marked then -1 else 1)
      else r.0[i] == cards[i]
    ensures ok ==> (id in r.1 <==> id !in marked)
    ensures ok ==> forall x :: x != id ==> (x in r.1 <==> x in marked)
  {
    if !ok then (cards, marked)
    else
      var delta := if id in marked then -1 else 1;
      var cards' := seq(|cards|, i requires 0 <= i < |cards| =>
        if cards[i].id == id then cards[i].(meta := Bump(cards[i].meta, c, delta)) else cards[i]);
      (cards', if id in marked then marked - {id} else marked + {id})
  }

  /** Two accepted toggles of the same article restore both the list and the set. */
  lemma ToggleTwice(cards: seq<Card>, marked: set<string>, id: string, c: Counter)
    ensures var (cs, m) := Toggle(cards, marked, id, c, true);
      Toggle(cs, m, id, c, true) == (cards, marked)
  {
    var (cs, m) := Toggle(cards, marked, id, c, true);
    var (cs2, m2) := Toggle(cs, m, id, c, true);
    forall i | 0 <= i < |cards| ensures cs2[i] == cards[i] {
      if cards[i].id == id {
        assert cs2[i].meta == cards[i].meta;
      }
    }
    assert cs2 == cards;
    assert m2 == marked;
  }

  /** The flattened tags of the articles, in order. */
  function AllTags(cards: seq<Card>): (r: seq<string>)
    ensures forall t :: t in r <==> exists i :: 0 <= i < |cards| && t in cards[i].tags
  {
    if |cards| == 0 then [] else cards[0].tags + AllTags(cards[1..])
  }

  /** The filter options: the distinct categories and the distinct tags of the
      articles on the current page, each once, in order of first appearance. */
  function Options(cards: seq<Card>): (r: (seq<string>, seq<string>))
    ensures NoDup(r.0) && NoDup(r.1)
    ensures forall c :: c in r.0 <==> exists i :: 0 <= i < |cards| && cards[i].category == c
    ensures forall t :: t in r.1 <==> exists i :: 0 <= i < |cards| && t in cards[i].tags
  {
    var cats := seq(|cards|, i requires 0 <= i < |cards| => cards[i].category);
    assert forall c :: c in cats <==> exists i :: 0 <= i < |cards| && cards[i].category == c by {
      forall c | c in cats ensures exists i :: 0 <= i < |cards| && cards[i].category == c {
        var i :| 0 <= i < |cats| && cats[i] == c;
      }
      forall c | exists i :: 0 <= i < |cards| && cards[i].category == c ensures c in cats {
        var i :| 0 <= i < |cards| && cards[i].category == c;
        assert cats[i] == c;
      }
    }
    (Dedup(cats), Dedup(AllTags(cards)))
  }
}

=== FILE: auth_forms.dfy ===
/** The sign-in and registration forms: the validation schemas and their error
    formatting (frontend/src/utils/validationSchemas.ts), the login page
    (frontend/src/pages/LibraryLoginPage.tsx) and the registration page
    (frontend/src/pages/LibraryRegistrationPage.tsx).

    The schema library reports every failed check of a field in order: a
    failed length check does not stop the refinements after it, and the
    object-level refinement on the passwords runs after the field checks.
    `validateWithZod` then keeps, per field, the message of the last issue. */
module AuthForms {
  import opened Strs
  import opened Wrappers

  /** The keys of a page's error object. */
  datatype FormField = FullName | Email | Password | ConfirmPassword | Terms | Server

  datatype Issue = Issue(path: FormField, message: string)

  /** The error object built by `validateWithZod`: for each issue in order,
      `errors[path] = message`, so a later issue on a field overwrites an
      earlier one. */
  function Format(issues: seq<Issue>): (errors: map<FormField, string>)
    ensures forall k :: k in errors <==> exists i :: 0 <= i < |issues| && issues[i].path == k
    decreases |issues|
  {
    if |issues| == 0 then map[]
    else
      var last := issues[|issues| - 1];
      var m := Format(issues[..|issues| - 1]);
      assert forall i :: 0 <= i < |issues| - 1 ==> issues[..|issues| - 1][i] == issues[i];
      m[last.path := last.message]
  }

  /** Each field's message is the one of its last issue. */
  lemma {:induction false} FormatLastWins(issues: seq<Issue>, i: nat)
    requires i < |issues|
    requires forall j :: i < j < |issues| ==> issues[j].path != issues[i].path
    ensures Format(issues)[issues[i].path] == issues[i].message
    decreases |issues|
  {
    if i < |issues| - 1 {
      var init := issues[..|issues| - 1];
      assert init[i] == issues[i];
      FormatLastWins(init, i);
    }
  }

  /** Formatting issues in two batches: the second batch's messages win. */
  lemma {:induction false} FormatConcat(a: seq<Issue>, b: seq<Issue>)
    ensures Format(a + b) == Format(a) + Format(b)
    decreases |b|
  {
    if |b| == 0 {
      assert a + b == a;
    } else {
      var last := b[|b| - 1];
      assert (a + b)[..|a + b| - 1] == a + b[..|b| - 1];
      FormatConcat(a, b[..|b| - 1]);
    }
  }

  /** `validateWithZod`: without issues the callback gets `{}` and the result
      is true; otherwise it gets the formatted issues and the result is false. */
  function ValidateWithZod(issues: seq<Issue>): (r: (bool, map<FormField, string>))
    ensures r.0 <==> |issues| == 0
    ensures r.0 ==> r.1 == map[]
    ensures !r.0 ==> r.1 == Format(issues) && |r.1| > 0
  {
    if |issues| == 0 then (true, map[])
    else
      assert issues[0].path in Format(issues);
      (false, Format(issues))
  }

  /** The issues of one field whose checks are listed in order: each failed
      check gives its message. */
  function Checks(path: FormField, failed: seq<bool>, messages: seq<string>): (r: seq<Issue>)
    requires |failed| == |messages|
    ensures forall i :: 0 <= i < |r| ==> r[i].path == path
    ensures |r| == 0 <==> forall i :: 0 <= i < |failed| ==> !failed[i]
    decreases |failed|
  {
    if |failed| == 0 then []
    else
      var n := |failed| - 1;
      var init := Checks(path, failed[..n], messages[..n]);
      assert forall i :: 0 <= i < n ==> failed[..n][i] == failed[i];
      init + (if failed[n] then [Issue(path, messages[n])] else [])
  }

  /** All issues of one path: the field's error is the message of the last
      failed check. */
  lemma {:induction false} ChecksFormat(path: FormField, failed: seq<bool>, messages: seq<string>, k: nat)
    requires |failed| == |messages| && k < |failed| && failed[k]
    requires forall j :: k < j < |failed| ==> !failed[j]
    ensures Format(Checks(path, failed, messages)) == map[path := messages[k]]
    decreases |failed|
  {
    var n := |failed| - 1;
    var init := Checks(path, failed[..n], messages[..n]);
    if k == n {
      var all := init + [Issue(path, messages[n])];
      assert Checks(path, failed, messages) == all;
      assert all[..|all| - 1] == init;
      var m := Format(init);
      assert m.Keys <= {path};
      assert Format(all) == m[path := messages[n]];
      assert m[path := messages[n]] == map[path := messages[n]];
    } else {
      assert Checks(path, failed, messages) == init;
      ChecksFormat(path, failed[..n], messages[..n], k);
    }
  }

  /** Without failed checks there is no message. */
  lemma ChecksNone(path: FormField, failed: seq<bool>, messages: seq<string>)
    requires |failed| == |messages|
    requires forall i :: 0 <= i < |failed| ==> !failed[i]
    ensures Format(Checks(path, failed, messages)) == map[]
  {
  }

  lemma ChecksTwo(path: FormField, x: bool, y: bool, mx: string, my: string)
    ensures Checks(path, [x, y], [mx, my]) == [] <==> !x && !y
  {
    var f := [x, y];
    assert f[0] == x && f[1] == y;
  }

  lemma ChecksThree(path: FormField, x: bool, y: bool, z: bool, mx: string, my: string, mz: string)
    ensures Checks(path, [x, y, z], [mx, my, mz]) == [] <==> !x && !y && !z
  {
    var f := [x, y, z];
    assert f[0] == x && f[1] == y && f[2] == z;
  }

  // ---------------------------------------------------------------------------
  // The registration schema

  datatype Registration = Registration(fullName: string, email: string, password: string, confirmPassword: string)

  const NameMessage := "Name can only contain letters and spaces"
  const LengthMessage := "Password must be at least 6 characters"
  const UpperMessage := "Password must contain at least one uppercase letter"
  const DigitMessage := "Password must contain at least one number"
  const MismatchMessage := "Passwords do not match"

  /** `/^[a-zA-Z\s]+$/`. */
  predicate NameChars(s: string)
  {
    |s| > 0 && forall i :: 0 <= i < |s| ==> IsLetter(s[i]) || IsSpace(s[i], Js)
  }

  predicate HasUpper(s: string) { exists i :: 0 <= i < |s| && IsUpper(s[i]) }

  predicate HasDigit(s: string) { exists i :: 0 <= i < |s| && IsDigit(s[i]) }

  /** The password rules of the schema. */
  predicate PasswordOk(p: string) { |p| >= 6 && HasUpper(p) && HasDigit(p) }

  function NameIssues(n: string): seq<Issue>
  {
    Checks(FullName, [|n| < 1, !NameChars(n)], ["Full name is required", NameMessage])
  }

  function EmailIssues(e: string, isEmail: string -> bool): seq<Issue>
  {
    Checks(Email, [|e| < 1, !isEmail(e)], ["Email is required", "Invalid email format"])
  }

  function PasswordIssues(p: string): seq<Issue>
  {
    Checks(Password, [|p| < 6, !HasUpper(p), !HasDigit(p)], [LengthMessage, UpperMessage, DigitMessage])
  }

  function ConfirmIssues(d: Registration): seq<Issue>
  {
    Checks(ConfirmPassword, [|d.confirmPassword| < 1, d.password != d.confirmPassword],
      ["Please confirm your password", MismatchMessage])
  }

  /** The issues of `registrationSchema.parse`, in the order they are raised.
      The e-mail format check is a parameter. */
  function RegistrationIssues(d: Registration, isEmail: string -> bool): seq<Issue>
  {
    NameIssues(d.fullName) + EmailIssues(d.email, isEmail) + PasswordIssues(d.password) + ConfirmIssues(d)
  }

  /** The formatted errors of the registration schema, field by field. */
  lemma RegistrationErrors(d: Registration, isEmail: string -> bool)
    ensures Format(RegistrationIssues(d, isEmail)) ==
      Format(NameIssues(d.fullName)) + Format(EmailIssues(d.email, isEmail)) +
      Format(PasswordIssues(d.password)) + Format(ConfirmIssues(d))
  {
    var a := NameIssues(d.fullName);
    var b := EmailIssues(d.email, isEmail);
    var c := PasswordIssues(d.password);
    var e := ConfirmIssues(d);
    FormatConcat(a, b);
    FormatConcat(a + b, c);
    FormatConcat(a + b + c, e);
  }

  /** The registration data passes exactly when the name is letters and
      whitespace, the e-mail is non-empty and well formed, the password has
      six characters, an upper-case letter and a digit, and the confirmation
      is non-empty and equal to it. */
  lemma RegistrationAccepts(d: Registration, isEmail: string -> bool)
    ensures ValidateWithZod(RegistrationIssues(d, isEmail)).0 <==>
      NameChars(d.fullName) && |d.email| >= 1 && isEmail(d.email) &&
      PasswordOk(d.password) && |d.confirmPassword| >= 1 && d.password == d.confirmPassword
  {
    ChecksTwo(FullName, |d.fullName| < 1, !NameChars(d.fullName), "Full name is required", NameMessage);
    ChecksTwo(Email, |d.email| < 1, !isEmail(d.email), "Email is required", "Invalid email format");
    ChecksThree(Password, |d.password| < 6, !HasUpper(d.password), !HasDigit(d.password),
      LengthMessage, UpperMessage, DigitMessage);
    ChecksTwo(ConfirmPassword, |d.confirmPassword| < 1, d.password != d.confirmPassword,
      "Please confirm your password", MismatchMessage);
  }

  /** Whatever is wrong with the name, the message is the character rule's:
      for an empty name it is raised after "Full name is required". */
  lemma NameMessageWins(n: string)
    requires !NameChars(n)
    ensures Format(NameIssues(n)) == map[FullName := NameMessage]
  {
    ChecksFormat(FullName, [|n| < 1, !NameChars(n)], ["Full name is required", NameMessage], 1);
  }

  /** A name that passes leaves no message. */
  lemma NameAccepted(n: string)
    requires NameChars(n)
    ensures Format(NameIssues(n)) == map[]
  {
    ChecksNone(FullName, [|n| < 1, !NameChars(n)], ["Full name is required", NameMessage]);
  }

  /** The password's message names the last rule it breaks: the digit rule,
      then the upper-case rule, then the length. */
  lemma PasswordMessage(p: string)
    requires !PasswordOk(p)
    ensures Format(PasswordIssues(p)) == map[Password :=
      if !HasDigit(p) then DigitMessage else if !HasUpper(p) then UpperMessage else LengthMessage]
  {
    var failed := [|p| < 6, !HasUpper(p), !HasDigit(p)];
    var ms := [LengthMessage, UpperMessage, DigitMessage];
    if !HasDigit(p) {
      ChecksFormat(Password, failed, ms, 2);
    } else if !HasUpper(p) {
      ChecksFormat(Password, failed, ms, 1);
    } else {
      ChecksFormat(Password, failed, ms, 0);
    }
  }

  /** A mismatch is reported on the confirmation field, whatever else is wrong
      with it. */
  lemma MismatchOnConfirm(d: Registration, isEmail: string -> bool)
    requires d.password != d.confirmPassword
    ensures var (ok, errors) := ValidateWithZod(RegistrationIssues(d, isEmail));
      !ok && ConfirmPassword in errors && errors[ConfirmPassword] == MismatchMessage
  {
    ChecksFormat(ConfirmPassword, [|d.confirmPassword| < 1, d.password != d.confirmPassword],
      ["Please confirm your password", MismatchMessage], 1);
    RegistrationErrors(d, isEmail);
  }

  // ---------------------------------------------------------------------------
  // The password checklist

  /** JavaScript's line terminators, which `.` does not match. */
  predicate LineTerminator(c: char)
  {
    c == '\n' || c == '\r' || c == '\U{2028}' || c == '\U{2029}'
  }

  /** `/.{6,}/.test(s)`: six consecutive characters other than line terminators. */
  predicate SixInLine(s: string)
  {
    exists i :: 0 <= i <= |s| && LineFrom(s, i)
  }

  /** Six characters from `i` on, none a line terminator. */
  predicate LineFrom(s: string, i: nat)
  {
    i + 6 <= |s| && forall k :: i <= k < i + 6 ==> !LineTerminator(s[k])
  }

  /** The three entries of `passwordRequirements`, each met or not. */
  function Requirements(p: string): (r: seq<bool>)
    ensures |r| == 3
  {
    [SixInLine(p), HasUpper(p), HasDigit(p)]
  }

  /** On a password without line breaks, the checklist is all ticked exactly
      when the schema accepts the password. */
  lemma RequirementsMatchSchema(p: string)
    requires forall i :: 0 <= i < |p| ==> !LineTerminator(p[i])
    ensures (Requirements(p)[0] && Requirements(p)[1] && Requirements(p)[2]) <==> PasswordIssues(p) == []
  {
    ChecksThree(Password, |p| < 6, !HasUpper(p), !HasDigit(p), LengthMessage, UpperMessage, DigitMessage);
    if |p| >= 6 {
      assert LineFrom(p, 0);
    }
  }

  /** With a line break the two disagree: "Abc1\nxy" has eight characters, an
      upper-case letter and a digit, but no six-character line. */
  lemma RequirementsDisagreeOnLineBreak()
    ensures var p := "Abc1\nxy";
      PasswordIssues(p) == [] && !Requirements(p)[0]
  {
    var p := "Abc1\nxy";
    assert IsUpper(p[0]) && IsDigit(p[3]);
    assert LineTerminator(p[4]);
  }

  // ---------------------------------------------------------------------------
  // The registration page

  /** The page's state: the data, the shown errors, the terms checkbox and
      whether a submit was attempted (as last rendered). */
  datatype RegPage = RegPage(data: Registration, errors: map<FormField, string>, agreeTerms: bool, attemptedSubmit: bool)

  const TermsMessage := "You must agree to the terms"

  /** `validateForm` as it reads the page state: unchecked terms fail with the
      terms message; before an attempted submit everything passes; afterwards
      the schema decides and its messages are merged into the shown ones. */
  function ValidateForm(s: RegPage, isEmail: string -> bool): (r: (bool, map<FormField, string>))
    ensures !s.agreeTerms ==> !r.0 && r.1 == s.errors[Terms := TermsMessage]
    ensures s.agreeTerms && !s.attemptedSubmit ==> r.0 && r.1 == s.errors
    ensures s.agreeTerms && s.attemptedSubmit ==>
      r.0 == ValidateWithZod(RegistrationIssues(s.data, isEmail)).0
    ensures forall k :: k in s.errors ==> k in r.1
  {
    if !s.agreeTerms then (false, s.errors[Terms := TermsMessage])
    else if !s.attemptedSubmit then (true, s.errors)
    else
      var (ok, found) := ValidateWithZod(RegistrationIssues(s.data, isEmail));
      (ok, s.errors + found)
  }

  /** `handleSubmit` as written: the attempted flag is set, but the
      validation that follows still reads the value of the current render.
      The result says whether the registration request is sent. */
  function Submit(s: RegPage, isEmail: string -> bool): (r: (RegPage, bool))
    ensures r.0.attemptedSubmit
    ensures r.1 ==> s.agreeTerms
    ensures r.1 == ValidateForm(s, isEmail).0
  {
    var (ok, errors) := ValidateForm(s, isEmail);
    (s.(errors := errors, attemptedSubmit := true), ok)
  }

  /** The first submit with the terms checked sends the data unchecked: an
      all-empty form is sent to the server. */
  lemma FirstSubmitSkipsSchema(isEmail: string -> bool)
    ensures var s := RegPage(Registration("", "", "", ""), map[], true, false);
      Submit(s, isEmail).1 && !ValidateWithZod(RegistrationIssues(s.data, isEmail)).0
  {
    var s := RegPage(Registration("", "", "", ""), map[], true, false);
    assert !NameChars(s.data.fullName);
  }

  /** The submit as intended: the validation runs as after an attempted
      submit, so the schema always decides. */
  function SubmitIntended(s: RegPage, isEmail: string -> bool): (r: (RegPage, bool))
    ensures r.0.attemptedSubmit
    ensures r.1 <==> s.agreeTerms && ValidateWithZod(RegistrationIssues(s.data, isEmail)).0
  {
    var s' := s.(attemptedSubmit := true);
    var (ok, errors) := ValidateForm(s', isEmail);
    (s'.(errors := errors), ok)
  }

  /** With the intended submit, only data the schema accepts is ever sent. */
  lemma SubmitIntendedSendsValid(s: RegPage, isEmail: string -> bool)
    requires SubmitIntended(s, isEmail).1
    ensures NameChars(s.data.fullName) && isEmail(s.data.email) &&
      PasswordOk(s.data.password) && s.data.password == s.data.confirmPassword
  {
    RegistrationAccepts(s.data, isEmail);
  }

  /** The data field an input name edits. */
  function SetField(d: Registration, f: FormField, value: string): Registration
  {
    match f
    case FullName => d.(fullName := value)
    case Email => d.(email := value)
    case Password => d.(password := value)
    case ConfirmPassword => d.(confirmPassword := value)
    case _ => d
  }

  /** `handleChange`: the field takes the value and loses its own error; the
      other errors stay. */
  function Change(s: RegPage, f: FormField, value: string): (r: RegPage)
    ensures f !in r.errors
    ensures forall k :: k != f ==> (k in r.errors <==> k in s.errors) && (k in r.errors ==> r.errors[k] == s.errors[k])
    ensures r.agreeTerms == s.agreeTerms && r.attemptedSubmit == s.attemptedSubmit
  {
    s.(data := SetField(s.data, f, value), errors := s.errors - {f})
  }

  /** `handleTermsChange`: checking the box clears the terms error; unchecking
      leaves the errors as they are. */
  function TermsChange(s: RegPage, checked: bool): (r: RegPage)
    ensures r.agreeTerms == checked && r.data == s.data
    ensures checked ==> r.errors == s.errors - {Terms}
    ensures !checked ==> r.errors == s.errors
  {
    s.(agreeTerms := checked, errors := if checked then s.errors - {Terms} else s.errors)
  }

  /** Checking the terms after a refused submit removes exactly the message
      that refusal added. */
  lemma TermsErrorCleared(s: RegPage, isEmail: string -> bool)
    requires !s.agreeTerms && Terms !in s.errors
    ensures var (p, _) := Submit(s, isEmail);
      TermsChange(p, true).errors == s.errors
  {
    var (p, _) := Submit(s, isEmail);
    assert p.errors - {Terms} == s.errors;
  }

  // ---------------------------------------------------------------------------
  // The login page

  /** `validateForm` of the login page: each empty field gets its "required"
      message, and the result replaces all earlier errors. */
  function LoginErrors(email: string, password: string): (errors: map<FormField, string>)
    ensures Email in errors <==> email == ""
    ensures Password in errors <==> password == ""
    ensures errors.Keys <= {Email, Password}
    ensures errors == map[] <==> email != "" && password != ""
  {
    var e := if email == "" then map[Email := "Email is required"] else map[];
    if password == "" then e[Password := "Password is required"] else e
  }

  /** What the server said when a login failed: its message, if any. */
  function LoginFailure(serverMessage: Option<string>): (errors: map<FormField, string>)
    ensures errors.Keys == {Server}
    ensures serverMessage.Some? && serverMessage.value != "" ==> errors[Server] == serverMessage.value
    ensures serverMessage.None? || serverMessage.value == "" ==> errors[Server] == "Login failed"
  {
    var m := match serverMessage
      case Some(text) => if text != "" then text else "Login failed"
      case None => "Login failed";
    map[Server := m]
  }

  /** What the login call gives: success, or a failure with the server's
      message if it sent one. */
  datatype LoginOutcome = LoggedIn | Refused(serverMessage: Option<string>)

  /** `handleSubmit` of the login page.  `outcome` is what the login call
      gives: success, or a failure with the server's message if any.  The
      result is the errors shown, whether the login was attempted and whether
      the page moves on to the home page. */
  function LoginSubmit(email: string, password: string, outcome: LoginOutcome): (r: (map<FormField, string>, bool, bool))
    ensures r.1 <==> email != "" && password != ""
    ensures r.2 <==> r.1 && outcome.LoggedIn?
    ensures !r.1 ==> r.0 == LoginErrors(email, password)
    ensures r.1 && outcome.Refused? ==> r.0 == LoginFailure(outcome.serverMessage)
    ensures r.2 ==> r.0 == map[]
  {
    var errors := LoginErrors(email, password);
    if errors != map[] then (errors, false, false)
    else match outcome
      case LoggedIn => (errors, true, true)
      case Refused(msg) => (LoginFailure(msg), true, false)
  }
}

=== FILE: auth_session.dfy ===
/** The signed-in session of the frontend (frontend/src/context/AuthContext.tsx)
    and the route guard built on it (frontend/src/components/ProtectedRoute.tsx).
    The stored token stands for the browser's local storage; the server calls
    are parameters. */
module AuthSession {
  import opened Wrappers

  /** The role arrives from the server as text; the type cast does not check it. */
  datatype User = User(id: int, name: string, email: string, role: string)

  datatype Session = Session(user: Option<User>, authenticated: bool, token: Option<string>)

  const SignedOut := Session(None, false, None)

  function RoleIs(s: Session, role: string): bool
  {
    s.user.Some? && s.user.value.role == role
  }

  /** `isAdmin`. */
  function IsAdmin(s: Session): (r: bool)
    ensures r <==> s.authenticated && RoleIs(s, "admin")
  {
    s.authenticated && s.user.Some? && s.user.value.role == "admin"
  }

  /** `isUser`. */
  function IsUser(s: Session): (r: bool)
    ensures r <==> s.authenticated && RoleIs(s, "user")
  {
    s.authenticated && s.user.Some? && s.user.value.role == "user"
  }

  /** `requireRole(role)`. */
  function RequireRole(s: Session, role: string): (r: bool)
    ensures r ==> s.authenticated && s.user.Some?
  {
    s.authenticated && s.user.Some? && s.user.value.role == role
  }

  /** Nobody is both an administrator and a plain user, and the two checks
      are `requireRole` for their roles. */
  lemma RolesExclusive(s: Session)
    ensures !(IsAdmin(s) && IsUser(s))
    ensures IsAdmin(s) == RequireRole(s, "admin") && IsUser(s) == RequireRole(s, "user")
  {
  }

  /** The login answer: the user and the access token ('' when none came). */
  datatype LoginAnswer = LoginAnswer(user: User, accessToken: string)

  /** `login`: with a token the session holds the user and the token; without
      one, or when the call fails, the error is passed on and the session
      stays as it was. */
  function Login(s: Session, answer: Result<LoginAnswer>): (r: (Session, Result<User>))
    ensures r.1.Failure? ==> r.0 == s
    ensures answer.Failure? ==> r.1 == Failure(answer.error)
    ensures answer.Success? && answer.value.accessToken == "" ==> r.1 == Failure("No access token received")
    ensures r.1.Success? ==>
      r.0.authenticated && r.0.user == Some(r.1.value) &&
      r.0.token == Some(answer.value.accessToken) && answer.value.accessToken != ""
  {
    match answer
    case Failure(e) => (s, Failure(e))
    case Success(a) =>
      if a.accessToken != "" then
        var u := User(a.user.id, a.user.name, a.user.email, a.user.role);
        (Session(Some(u), true, Some(a.accessToken)), Success(u))
      else (s, Failure("No access token received"))
  }

  /** After a successful login the role checks follow the server's role. */
  lemma LoginRole(s: Session, a: LoginAnswer)
    requires a.accessToken != ""
    ensures var (t, _) := Login(s, Success(a));
      IsAdmin(t) <==> a.user.role == "admin"
  {
  }

  /** The start-up check: no token, unauthenticated; a token whose user can
      be fetched, authenticated as that user; a token that fails is removed. */
  function Initialize(token: Option<string>, fetched: Result<User>): (r: Session)
    ensures r.authenticated <==> token.Some? && fetched.Success?
    ensures r.authenticated ==> r.user == Some(fetched.value) && r.token == token
    ensures !r.authenticated ==> r == SignedOut
  {
    match token
    case None => SignedOut
    case Some(t) =>
      match fetched
      case Success(u) => Session(Some(u), true, token)
      case Failure(_) => SignedOut
  }

  /** `logout`: the token is removed and the session is signed out. */
  function Logout(s: Session): (r: Session)
    ensures !r.authenticated && r.user.None? && r.token.None?
    ensures !IsAdmin(r) && !IsUser(r)
  {
    SignedOut
  }

  /** Where a protected route leads. */
  datatype Route = ToLogin | ToHome | Render

  /** `ProtectedRoute`: signed-out visitors go to the login page whatever the
      role; a required role the user lacks sends them home; otherwise the
      page renders. */
  function Guard(s: Session, requiredRole: Option<string>): (r: Route)
    ensures !s.authenticated ==> r == ToLogin
    ensures s.authenticated && requiredRole.None? ==> r == Render
  {
    if !s.authenticated then ToLogin
    else if requiredRole.Some? && !(s.user.Some? && s.user.value.role == requiredRole.value) then ToHome
    else Render
  }

  /** The guard renders a role-restricted page exactly for the sessions
      `requireRole` accepts, and sends the other signed-in users home. */
  lemma GuardMatchesRequireRole(s: Session, role: string)
    ensures Guard(s, Some(role)) == Render <==> RequireRole(s, role)
    ensures s.authenticated && !RequireRole(s, role) ==> Guard(s, Some(role)) == ToHome
  {
  }

  /** An administrator page admits exactly the sessions `isAdmin` accepts. */
  lemma AdminPages(s: Session)
    ensures Guard(s, Some("admin")) == Render <==> IsAdmin(s)
  {
  }
}

=== FILE: book_forms.dfy ===
/** The two book forms of the administration pages: the creation form
    (frontend/src/pages/admin/CreateBookPage.tsx) with its validation, its
    list fields and its cleaned payload, and the edit form
    (frontend/src/pages/admin/EditBook.tsx), which shows authors and
    categories as comma-separated text. */
module BookForms {
  import opened Strs
  import opened Seqs
  import opened Wrappers

  /** The creation form's state.  Numbers are JavaScript numbers, so they are
      reals here. */
  datatype Form = Form(
    title: string,
    authors: seq<string>,
    categories: seq<string>,
    coverUrl: string,
    description: string,
    summary: string,
    rating: real,
    totalBooks: real,
    availableBooks: real,
    featured: bool)

  /** A blank entry: empty once trimmed, that is, all whitespace. */
  predicate Blank(s: string) { AllSpace(s, Js) }

  lemma BlankIsStripEmpty(s: string)
    ensures Blank(s) <==> Strip(s, Js) == ""
  {
  }

  /** The form the page opens with: one empty author, one empty category, one
      copy, one available. */
  const Initial := Form("", [""], [""], "", "", "", 0.0, 1.0, 1.0, false)

  /** What a valid form is: a title, some author, some category, at least one
      copy, between none and all of them available, and a rating from 0 to 5. */
  predicate Valid(f: Form)
  {
    !Blank(f.title) &&
    (exists i :: 0 <= i < |f.authors| && !Blank(f.authors[i])) &&
    (exists i :: 0 <= i < |f.categories| && !Blank(f.categories[i])) &&
    f.totalBooks >= 1.0 &&
    0.0 <= f.availableBooks <= f.totalBooks &&
    0.0 <= f.rating <= 5.0
  }

  /** `arr.every(x => !x.trim())`. */
  function AllBlank(s: seq<string>): (r: bool)
    ensures r <==> forall i :: 0 <= i < |s| ==> Blank(s[i])
  {
    if |s| == 0 then true else Blank(s[0]) && AllBlank(s[1..])
  }

  /** The fields that can carry an error message. */
  datatype Field = Title | Authors | Categories | TotalBooks | AvailableBooks | Rating

  const AvailableTooHigh := "Available books cannot exceed total books"
  const AvailableNegative := "Available books cannot be negative"

  /** The message `validateForm` leaves for one field, if any.  For the
      available count the "exceed" check runs second, so its message replaces
      the "negative" one. */
  function Check(f: Form, k: Field): (r: Option<string>)
  {
    match k
    case Title => if Blank(f.title) then Some("Title is required") else None
    case Authors => if AllBlank(f.authors) then Some("At least one author is required") else None
    case Categories => if AllBlank(f.categories) then Some("At least one category is required") else None
    case TotalBooks => if f.totalBooks < 1.0 then Some("Total books must be at least 1") else None
    case AvailableBooks =>
      if f.availableBooks > f.totalBooks then Some(AvailableTooHigh)
      else if f.availableBooks < 0.0 then Some(AvailableNegative)
      else None
    case Rating => if f.rating < 0.0 || f.rating > 5.0 then Some("Rating must be between 0 and 5") else None
  }

  /** `validateForm`: one message per failing field. */
  function Validate(f: Form): (errors: map<Field, string>)
    ensures Title in errors <==> Blank(f.title)
    ensures Authors in errors <==> forall i :: 0 <= i < |f.authors| ==> Blank(f.authors[i])
    ensures Categories in errors <==> forall i :: 0 <= i < |f.categories| ==> Blank(f.categories[i])
    ensures TotalBooks in errors <==> f.totalBooks < 1.0
    ensures AvailableBooks in errors <==> f.availableBooks < 0.0 || f.availableBooks > f.totalBooks
    ensures f.availableBooks > f.totalBooks ==> errors[AvailableBooks] == AvailableTooHigh
    ensures 0.0 > f.availableBooks && f.availableBooks <= f.totalBooks ==>
      errors[AvailableBooks] == AvailableNegative
    ensures Rating in errors <==> !(0.0 <= f.rating <= 5.0)
  {
    var e := map k: Field | Check(f, k).Some? :: Check(f, k).value;
    assert Title in e <==> Blank(f.title);
    assert Authors in e <==> AllBlank(f.authors);
    assert Categories in e <==> AllBlank(f.categories);
    assert TotalBooks in e <==> Check(f, TotalBooks).Some?;
    assert AvailableBooks in e <==> Check(f, AvailableBooks).Some?;
    assert AvailableBooks in e ==> e[AvailableBooks] == Check(f, AvailableBooks).value;
    assert Rating in e <==> Check(f, Rating).Some?;
    e
  }

  /** `Object.keys(errors).length === 0` exactly for a valid form. */
  lemma ValidateEmpty(f: Form)
    ensures Validate(f) == map[] <==> Valid(f)
  {
    var e := Validate(f);
    if Valid(f) {
      forall k | k in e ensures false {
        match k
        case Title =>
        case Authors =>
        case Categories =>
        case TotalBooks =>
        case AvailableBooks =>
        case Rating =>
      }
      assert e.Keys == {};
    } else {
      assert exists k :: k in e;
    }
  }

  /** The untouched form is not yet valid: it has no title. */
  lemma InitialInvalid()
    ensures Validate(Initial).Keys == {Title, Authors, Categories}
  {
  }

  /** The entries that are not blank, in order. */
  function DropBlank(s: seq<string>): (r: seq<string>)
    ensures Subseq(r, s)
    ensures forall x :: x in r <==> x in s && !Blank(x)
  {
    Filter(s, (x: string) => !Blank(x))
  }

  /** `handleSubmit`: an invalid form is not sent.  A valid form is sent with
      its blank authors and categories dropped, everything else as entered. */
  function Payload(f: Form): (r: Option<Form>)
    ensures r.Some? <==> Valid(f)
    ensures r.Some? ==> r.value == f.(authors := DropBlank(f.authors), categories := DropBlank(f.categories))
  {
    ValidateEmpty(f);
    if Validate(f) == map[] then Some(f.(authors := DropBlank(f.authors), categories := DropBlank(f.categories)))
    else None
  }

  /** A sent book always has at least one author and one category, none of
      them blank. */
  lemma PayloadNamesPresent(f: Form)
    requires Payload(f).Some?
    ensures var p := Payload(f).value;
      |p.authors| > 0 && |p.categories| > 0 &&
      (forall x :: x in p.authors ==> !Blank(x)) && (forall x :: x in p.categories ==> !Blank(x))
  {
    var i :| 0 <= i < |f.authors| && !Blank(f.authors[i]);
    var j :| 0 <= j < |f.categories| && !Blank(f.categories[j]);
    assert f.authors[i] in Payload(f).value.authors;
    assert f.categories[j] in Payload(f).value.categories;
  }

  /** `addField`: one more empty entry at the end. */
  function AddField(s: seq<string>): (r: seq<string>)
    ensures |r| == |s| + 1 && r[..|s|] == s && r[|s|] == ""
  {
    s + [""]
  }

  /** `removeField`: `filter((_, i) => i !== index)`. */
  function RemoveField<T>(s: seq<T>, index: int): (r: seq<T>)
    ensures 0 <= index < |s| ==> r == s[..index] + s[index + 1..]
    ensures !(0 <= index < |s|) ==> r == s
    decreases |s|
  {
    if |s| == 0 then []
    else
      var rest := RemoveField(s[1..], index - 1);
      if index == 0 then rest else [s[0]] + rest
  }

  /** Removing the entry just added gives the list back. */
  lemma RemoveAdded(s: seq<string>)
    ensures RemoveField(AddField(s), |s|) == s
  {
    assert AddField(s)[..|s|] == s;
  }

  /** `selectCategory`: the chosen name goes to entry `index` and the dropdown
      closes (`None`).  The page only offers indices of existing entries. */
  function SelectCategory(categories: seq<string>, name: string, index: nat): (r: (seq<string>, Option<nat>))
    requires index < |categories|
    ensures |r.0| == |categories| && r.0[index] == name && r.1 == None
    ensures forall k :: 0 <= k < |categories| && k != index ==> r.0[k] == categories[k]
  {
    (categories[index := name], None)
  }

  /** The effect on `total_books`: an available count above the new total is
      lowered to it. */
  function ClampAvailable(f: Form): (r: Form)
    ensures r.availableBooks <= r.totalBooks || r.availableBooks == f.availableBooks <= f.totalBooks
    ensures r.availableBooks == if f.availableBooks > f.totalBooks then f.totalBooks else f.availableBooks
    ensures r.(availableBooks := f.availableBooks) == f
  {
    if f.availableBooks > f.totalBooks then f.(availableBooks := f.totalBooks) else f
  }

  /** After the effect the "exceed" error cannot occur. */
  lemma ClampedNotTooHigh(f: Form)
    ensures var g := ClampAvailable(f);
      !(g.availableBooks > g.totalBooks) && ClampAvailable(g) == g
  {
  }

  // ---------------------------------------------------------------------------
  // The edit form

  /** The text shown for a list of names: `join(", ")`. */
  function ShowNames(names: seq<string>): string
  {
    Join(names, ", ")
  }

  /** The list read back from the text: `split(",").map(x => x.trim())`. */
  function ReadNames(text: string): (r: seq<string>)
    ensures |r| >= 1
    ensures forall k :: 0 <= k < |r| ==> ',' !in r[k] && NoEdgeSpace(r[k], Js)
  {
    var parts := Split(text, ',');
    forall k | 0 <= k < |parts| ensures ',' !in Strip(parts[k], Js) {
      StripKeeps(parts[k], ',', Js);
    }
    seq(|parts|, k requires 0 <= k < |parts| => Strip(parts[k], Js))
  }

  /** Every entry of the list, each behind a space. */
  function Padded(names: seq<string>): (r: seq<string>)
    ensures |r| == |names| && forall k :: 0 <= k < |r| ==> r[k] == " " + names[k]
  {
    if |names| == 0 then [] else [" " + names[0]] + Padded(names[1..])
  }

  lemma {:induction false} JoinPadded(names: seq<string>)
    requires |names| >= 1
    ensures " " + Join(names, ", ") == Join(Padded(names), ",")
    decreases |names|
  {
    if |names| > 1 {
      var x := Join(names[1..], ", ");
      JoinPadded(names[1..]);
      var p := Padded(names);
      assert p[0] == " " + names[0] && p[1..] == Padded(names[1..]);
      calc {
        Join(p, ",");
        p[0] + "," + Join(p[1..], ",");
        (" " + names[0]) + "," + (" " + x);
        " " + (names[0] + ", " + x);
      }
    }
  }

  /** Joining with ", " is joining with "," with a space before every later name. */
  lemma JoinCommaSpace(names: seq<string>)
    requires |names| >= 1
    ensures Join(names, ", ") == Join([names[0]] + Padded(names[1..]), ",")
  {
    var p := [names[0]] + Padded(names[1..]);
    if |names| == 1 {
      assert p == [names[0]];
    } else {
      var x := Join(names[1..], ", ");
      var q := Padded(names[1..]);
      JoinPadded(names[1..]);
      assert |p| >= 2 && p[0] == names[0] && p[1..] == q;
      assert Join(p, ",") == names[0] + "," + Join(q, ",");
      assert Join(names, ", ") == names[0] + ", " + x;
      CommaSpace(names[0], x);
    }
  }

  lemma CommaSpace(a: string, x: string)
    ensures a + "," + (" " + x) == a + ", " + x
  {
    var l := a + "," + (" " + x);
    var r := a + ", " + x;
    assert |l| == |r|;
    forall i | 0 <= i < |l| ensures l[i] == r[i] {
      if i < |a| {
      } else if i == |a| {
      } else if i == |a| + 1 {
      } else {
        assert l[i] == x[i - |a| - 2];
      }
    }
  }

  lemma StripPadded(x: string)
    requires NoEdgeSpace(x, Js)
    ensures Strip(" " + x, Js) == x
  {
    assert TrimStart(" " + x, Js) == TrimStart(x, Js) by {
      assert (" " + x)[1..] == x;
    }
    assert TrimStart(x, Js) == x;
    assert TrimEnd(x, Js) == x;
  }

  /** Editing round trip: for at least one name, none holding a comma or
      surrounding spaces, the list read back from its text is the list itself. */
  lemma NamesRoundTrip(names: seq<string>)
    requires |names| >= 1
    requires forall k :: 0 <= k < |names| ==> ',' !in names[k] && NoEdgeSpace(names[k], Js)
    ensures ReadNames(ShowNames(names)) == names
  {
    var parts := [names[0]] + Padded(names[1..]);
    JoinCommaSpace(names);
    forall k | 0 <= k < |parts| ensures ',' !in parts[k] {
      if k > 0 {
        assert parts[k] == " " + names[k];
      }
    }
    SplitJoin(parts, ',');
    StripParts(names, parts);
  }

  lemma StripParts(names: seq<string>, parts: seq<string>)
    requires |names| >= 1 && parts == [names[0]] + Padded(names[1..])
    requires forall k :: 0 <= k < |names| ==> NoEdgeSpace(names[k], Js)
    ensures seq(|parts|, k requires 0 <= k < |parts| => Strip(parts[k], Js)) == names
  {
    var r := seq(|parts|, k requires 0 <= k < |parts| => Strip(parts[k], Js));
    forall k | 0 <= k < |names| ensures r[k] == names[k] {
      if k == 0 {
        StripNoSpace(names[0], Js);
      } else {
        assert parts[k] == " " + names[k];
        StripPadded(names[k]);
      }
    }
  }

  /** An empty list shows as the empty text, which reads back as one empty name. */
  lemma EmptyNamesRead()
    ensures ShowNames([]) == "" && ReadNames(ShowNames([])) == [""]
  {
    assert Strip("", Js) == "";
  }

  /** A value of an edit-form input. */
  datatype Value = Number(x: real) | Flag(b: bool) | Text(s: string)

  /** `handleInputChange`: number inputs are parsed with `parseFloat` (a
      parameter; its NaN result is not modelled), the field `featured_book`
      compares with "true", anything else keeps the text. */
  function InputValue(name: string, value: string, isNumber: bool, parseFloat: string -> real): (r: Value)
    ensures r.Number? <==> isNumber
    ensures r.Text? ==> r.s == value
    ensures r.Flag? ==> name == "featured_book" && (r.b <==> value == "true")
  {
    if isNumber then Number(parseFloat(value))
    else if name == "featured_book" then Flag(value == "true")
    else Text(value)
  }

  /** The featured select shows "true" or "false" and reads back with `== "true"`. */
  function ShowFeatured(b: bool): string { if b then "true" else "false" }

  function ReadFeatured(value: string): (r: bool)
    ensures r <==> value == "true"
  {
    value == "true"
  }

  lemma FeaturedRoundTrip(b: bool)
    ensures ReadFeatured(ShowFeatured(b)) == b
  {
  }

  /** The edited book as sent: blank authors and categories dropped. */
  datatype Edited = Edited(title: string, authors: seq<string>, categories: seq<string>, featured: bool)

  function EditPayload(b: Edited): (r: Edited)
    ensures r.title == b.title && r.featured == b.featured
    ensures forall x :: x in r.authors <==> x in b.authors && !Blank(x)
    ensures forall x :: x in r.categories <==> x in b.categories && !Blank(x)
    ensures Subseq(r.authors, b.authors) && Subseq(r.categories, b.categories)
  {
    b.(authors := DropBlank(b.authors), categories := DropBlank(b.categories))
  }

  /** Sending an already cleaned book changes nothing. */
  lemma EditPayloadIdempotent(b: Edited)
    ensures EditPayload(EditPayload(b)) == EditPayload(b)
  {
    var p := EditPayload(b);
    FilterAll(p.authors, (x: string) => !Blank(x));
    FilterAll(p.categories, (x: string) => !Blank(x));
  }
}

=== FILE: book_routes.dfy ===
/** The book routes (backend/app/controllers/book_controller.py): the filtered
    and paginated catalog listing with its page count, and the related-books
    ranking. */
module BookRoutes {
  import opened Wrappers
  import opened Strs
  import opened Seqs
  import opened Library
  import opened Paging

  const DivisionByZero := "division by zero"

  // ---------------------------------------------------------------------------
  // get_books

  /** Some author name of the book contains the query, ignoring case. */
  predicate AuthorMatches(b: Book, search: string)
  {
    exists i :: 0 <= i < |b.authors| && ContainsCI(b.authors[i], search)
  }

  /** The filters of `get_books`.  A search joins the author table, so a book
      without authors drops out even when its title matches; a category must
      be one of the book's category names exactly. */
  predicate BookListed(b: Book, search: string, category: string)
  {
    && (search != "" ==> |b.authors| > 0 && (ContainsCI(b.title, search) || AuthorMatches(b, search)))
    && (category != "" ==> category in b.categories)
  }

  function MatchingBooks(db: Db, search: string, category: string): (r: seq<Book>)
    ensures forall b :: b in r <==> b in db.books && BookListed(b, search, category)
    ensures Subseq(r, db.books)
  {
    Filter(db.books, (b: Book) => BookListed(b, search, category))
  }

  /** `get_books`: one `paginate` page of the matching books (page and size
      normalised as `paginate(error_out=False)` does), the match count, and
      `(total + per_page - 1) // per_page` computed from the raw page size,
      which fails for 0. */
  function ListBooks(db: Db, page: int, per: int, search: string, category: string): (r: Http<Page<Book>>)
    ensures r.Err? <==> per == 0
    ensures r.Err? ==> r == Err(500, DivisionByZero)
    ensures r.Ok? ==> r.value.totalCount == |MatchingBooks(db, search, category)|
    ensures r.Ok? ==> Some(r.value.totalPages) == PageCount(r.value.totalCount, per)
    ensures r.Ok? && page >= 1 && per >= 1 ==>
      r.value.items == Slice(MatchingBooks(db, search, category), Offset(page, per), Offset(page, per) + per)
    ensures r.Ok? ==> |r.value.items| <= (if per >= 1 then per else 20)
    ensures r.Ok? ==> forall b :: b in r.value.items ==> b in db.books && BookListed(b, search, category)
  {
    var matching := MatchingBooks(db, search, category);
    if per == 0 then Err(500, DivisionByZero)
    else Ok(Page(Paginate(matching, page, per), |matching|, FloorDiv(|matching| + per - 1, per)))
  }

  /** For a positive page size, pages 1 to `total_pages` list every matching
      book exactly once, in order. */
  lemma ListBooksCoversAll(db: Db, per: int, search: string, category: string)
    requires per > 0
    ensures var matching := MatchingBooks(db, search, category);
      var pages := ListBooks(db, 1, per, search, category).value.totalPages;
      pages >= 0 && Concat(matching, per, pages) == matching
  {
    var matching := MatchingBooks(db, search, category);
    assert ListBooks(db, 1, per, search, category).value.totalPages == CeilDiv(|matching|, per);
    PagesPartition(matching, per);
  }

  // ---------------------------------------------------------------------------
  // get_related_books

  /** How many of the book's categories were requested. */
  function MatchCount(b: Book, requested: seq<string>): nat
  {
    Count(b.categories, (c: string) => c in requested)
  }

  /** The query's rows: a requested category, and not the excluded id unless
      that id is absent or 0 (Python treats 0 as "no exclusion"). */
  predicate Candidate(b: Book, requested: seq<string>, exclude: Option<int>)
  {
    && MatchCount(b, requested) > 0
    && (exclude.Some? && exclude.value != 0 ==> b.id != exclude.value)
  }

  /** `(matching count, borrow_count)` descending: `a` may be listed before `b`. */
  function Ranks(requested: seq<string>): (Book, Book) -> bool
  {
    (a: Book, b: Book) =>
      MatchCount(a, requested) > MatchCount(b, requested)
      || (MatchCount(a, requested) == MatchCount(b, requested) && a.borrowCount >= b.borrowCount)
  }

  lemma RanksTotal(requested: seq<string>)
    ensures TotalPreorder(Ranks(requested))
  {
  }

  const NoCategories := "No categories provided"

  /** `get_related_books`: 400 without categories; otherwise the candidates in
      table order, ranked by how many requested categories they carry and then
      by borrow count, both descending, equal ranks keeping table order, and
      cut by Python's `[:limit]`. */
  function RelatedBooks(db: Db, requested: seq<string>, exclude: Option<int>, limit: int): (r: Http<seq<Book>>)
    ensures r.Err? <==> requested == []
    ensures r.Err? ==> r == Err(400, NoCategories)
    ensures r.Ok? ==> forall b :: b in r.value ==> b in db.books && Candidate(b, requested, exclude)
    ensures r.Ok? ==> SortedBy(r.value, Ranks(requested))
    ensures r.Ok? && limit >= 0 ==> |r.value| <= limit
    ensures r.Ok? && limit >= 0 ==> forall a, b ::
      a in db.books && Candidate(a, requested, exclude) && a !in r.value && b in r.value ==> Ranks(requested)(b, a)
    ensures r.Ok? && limit >= |db.books| ==> forall b ::
      b in r.value <==> b in db.books && Candidate(b, requested, exclude)
  {
    if requested == [] then Err(400, NoCategories)
    else
      var le := Ranks(requested);
      var candidates := Filter(db.books, (b: Book) => Candidate(b, requested, exclude));
      RanksTotal(requested);
      var sorted := SortBy(candidates, le);
      SortBySorted(candidates, le);
      SortByMembers(candidates, le);
      assert |sorted| == |multiset(candidates)|;
      var n := Bound(limit, |sorted|);
      SortedPrefix(sorted, n, le);
      var cut := PySlice(sorted, 0, limit);
      assert cut == Take(sorted, n);
      assert forall b :: b in cut ==> b in sorted;
      Ok(cut)
  }

  /** No book carries a requested category (or only the excluded one does):
      the answer is the empty list. */
  lemma NoCandidatesNoBooks(db: Db, requested: seq<string>, exclude: Option<int>, limit: int)
    requires requested != []
    requires forall i :: 0 <= i < |db.books| ==> !Candidate(db.books[i], requested, exclude)
    ensures RelatedBooks(db, requested, exclude, limit) == Ok([])
  {
    FilterNone(db.books, (b: Book) => Candidate(b, requested, exclude));
  }

  /** Books with the same rank keep their table order. */
  lemma RelatedBooksStable(db: Db, requested: seq<string>, exclude: Option<int>, x: Book)
    ensures var le := Ranks(requested);
      var candidates := Filter(db.books, (b: Book) => Candidate(b, requested, exclude));
      Filter(SortBy(candidates, le), EquivTo(le, x)) == Filter(candidates, EquivTo(le, x))
  {
    RanksTotal(requested);
    var candidates := Filter(db.books, (b: Book) => Candidate(b, requested, exclude));
    SortByStable(candidates, Ranks(requested), x);
  }
}

=== FILE: books.dfy ===
/** BookService (backend/app/services/BookService.py): the field-wise book
    update, the six most borrowed books, and the title and category searches. */
module Books {
  import opened Wrappers
  import opened Strs
  import opened Seqs
  import opened Library

  /** The JSON body of an update: a field is `Some` exactly when its key is present. */
  datatype BookPatch = BookPatch(
    title: Option<string>,
    coverUrl: Option<string>,
    description: Option<string>,
    rating: Option<real>,
    summary: Option<string>,
    borrowCount: Option<int>,
    totalBooks: Option<int>,
    availableBooks: Option<int>,
    featured: Option<bool>,
    authors: Option<seq<string>>,
    categories: Option<seq<string>>)

  const NoChanges := BookPatch(None, None, None, None, None, None, None, None, None, None, None)

  /** `Model.name.in_(names)`: the stored names listed in `names`, in table order. */
  function NamedIn(table: seq<string>, names: seq<string>): (r: seq<string>)
    ensures forall n :: n in r <==> n in table && n in names
    ensures Subseq(r, table)
  {
    Filter(table, (n: string) => n in names)
  }

  /** The book after the patch: each present scalar field overwrites the
      stored one, and present name lists are resolved against the tables. */
  function Patched(db: Db, b: Book, p: BookPatch): Book
  {
    b.(title := p.title.GetOr(b.title),
       coverUrl := p.coverUrl.GetOr(b.coverUrl),
       description := p.description.GetOr(b.description),
       rating := p.rating.GetOr(b.rating),
       summary := p.summary.GetOr(b.summary),
       borrowCount := p.borrowCount.GetOr(b.borrowCount),
       totalBooks := p.totalBooks.GetOr(b.totalBooks),
       availableBooks := p.availableBooks.GetOr(b.availableBooks),
       featured := p.featured.GetOr(b.featured),
       authors := if p.authors.Some? then NamedIn(db.authors, p.authors.value) else b.authors,
       categories := if p.categories.Some? then NamedIn(db.categories, p.categories.value) else b.categories)
  }

  /** `update_book`: `None` for an unknown id, with nothing changed; otherwise
      only that book is rewritten, and the stored row is the book returned.
      A present key always wins over the stored value; an absent key keeps it;
      author and category names without a row are dropped silently. */
  function UpdateBook(db: Db, id: int, p: BookPatch): (r: (Db, Option<Book>))
    ensures r.1.None? <==> Lookup(db.books, BookId, id).None?
    ensures r.1.None? ==> r.0 == db
    ensures r.1.Some? ==>
      var b := Lookup(db.books, BookId, id).value;
      var u := r.1.value;
      && u.id == b.id
      && (p.title.Some? ==> u.title == p.title.value) && (p.title.None? ==> u.title == b.title)
      && (p.coverUrl.Some? ==> u.coverUrl == p.coverUrl.value) && (p.coverUrl.None? ==> u.coverUrl == b.coverUrl)
      && (p.description.Some? ==> u.description == p.description.value) && (p.description.None? ==> u.description == b.description)
      && (p.summary.Some? ==> u.summary == p.summary.value) && (p.summary.None? ==> u.summary == b.summary)
      && (p.rating.Some? ==> u.rating == p.rating.value) && (p.rating.None? ==> u.rating == b.rating)
      && (p.borrowCount.Some? ==> u.borrowCount == p.borrowCount.value) && (p.borrowCount.None? ==> u.borrowCount == b.borrowCount)
      && (p.totalBooks.Some? ==> u.totalBooks == p.totalBooks.value) && (p.totalBooks.None? ==> u.totalBooks == b.totalBooks)
      && (p.availableBooks.Some? ==> u.availableBooks == p.availableBooks.value) && (p.availableBooks.None? ==> u.availableBooks == b.availableBooks)
      && (p.featured.Some? ==> u.featured == p.featured.value) && (p.featured.None? ==> u.featured == b.featured)
      && (p.authors.None? ==> u.authors == b.authors)
      && (p.authors.Some? ==> forall a :: a in u.authors <==> a in db.authors && a in p.authors.value)
      && (p.categories.None? ==> u.categories == b.categories)
      && (p.categories.Some? ==> forall c :: c in u.categories <==> c in db.categories && c in p.categories.value)
    ensures r.1.Some? ==> Lookup(r.0.books, BookId, id) == r.1
    ensures r.0 == db.(books := r.0.books) && |r.0.books| == |db.books|
    ensures forall i :: 0 <= i < |db.books| && db.books[i].id != id ==> r.0.books[i] == db.books[i]
  {
    match Lookup(db.books, BookId, id)
    case None => (db, None)
    case Some(b) =>
      var f := (x: Book) => Patched(db, x, p);
      LookupUpdated(db.books, BookId, b.id, f);
      (db.(books := UpdateWhere(db.books, BookId, b.id, f)), Some(f(b)))
  }

  /** An update that carries no keys changes nothing. */
  lemma UpdateWithoutKeysKeepsBooks(db: Db, id: int)
    ensures UpdateBook(db, id, NoChanges).0 == db
  {
    var r := UpdateBook(db, id, NoChanges).0;
    assert r.books == db.books;
  }

  /** Sending the same update twice has the effect of sending it once. */
  lemma UpdateBookIdempotent(db: Db, id: int, p: BookPatch)
    ensures var once := UpdateBook(db, id, p).0; UpdateBook(once, id, p).0 == once
  {
    var once := UpdateBook(db, id, p).0;
    var twice := UpdateBook(once, id, p).0;
    assert twice.books == once.books;
  }

  // ---------------------------------------------------------------------------
  // Listings

  /** `borrow_count` descending: `a` may be listed before `b`. */
  function MoreBorrowed(a: Book, b: Book): bool { a.borrowCount >= b.borrowCount }

  const PopularLimit := 6

  /** `get_popular_books`: the six most borrowed books, most borrowed first;
      books with equal counts keep table order. */
  function PopularBooks(db: Db): (r: seq<Book>)
    ensures |r| == Min(PopularLimit, |db.books|)
    ensures forall b :: b in r ==> b in db.books
    ensures SortedBy(r, MoreBorrowed)
    ensures forall b, c :: b in db.books && b !in r && c in r ==> c.borrowCount >= b.borrowCount
  {
    var sorted := SortBy(db.books, MoreBorrowed);
    SortBySorted(db.books, MoreBorrowed);
    SortByMembers(db.books, MoreBorrowed);
    SortedPrefix(sorted, PopularLimit, MoreBorrowed);
    assert |sorted| == |multiset(db.books)|;
    assert forall b :: b in Take(sorted, PopularLimit) ==> b in sorted;
    Take(sorted, PopularLimit)
  }

  /** `search_books`: the books whose title contains the query, ignoring case. */
  function SearchBooks(db: Db, query: string): (r: seq<Book>)
    ensures forall b :: b in r <==> b in db.books && ContainsCI(b.title, query)
    ensures Subseq(r, db.books)
  {
    Filter(db.books, (b: Book) => ContainsCI(b.title, query))
  }

  /** Some category name of the book contains the query, ignoring case. */
  predicate InMatchingCategory(b: Book, query: string)
  {
    exists i :: 0 <= i < |b.categories| && ContainsCI(b.categories[i], query)
  }

  /** `search_books_by_category`: each book with a matching category name,
      once (the joined rows are folded into their book). */
  function SearchBooksByCategory(db: Db, query: string): (r: seq<Book>)
    ensures forall b :: b in r <==> b in db.books && InMatchingCategory(b, query)
    ensures Subseq(r, db.books)
  {
    Filter(db.books, (b: Book) => InMatchingCategory(b, query))
  }

  /** The empty query matches every title and every book with a category. */
  lemma EmptyQueryMatchesAll(db: Db)
    ensures SearchBooks(db, "") == db.books
    ensures forall b :: b in SearchBooksByCategory(db, "") <==> b in db.books && |b.categories| > 0
  {
    forall b | b in db.books ensures ContainsCI(b.title, "") {
      ContainsEmpty(Lower(b.title));
    }
    FilterAll(db.books, (b: Book) => ContainsCI(b.title, ""));
    forall b | b in db.books && |b.categories| > 0 ensures InMatchingCategory(b, "") {
      ContainsEmpty(Lower(b.categories[0]));
    }
  }
}

=== FILE: chat_catalog_tools.dfy ===
/** The agent's catalog tools in backend/app/services/ChatBot.py that take
    no user: `get_categories`, `search_by_category` and `system_info`.  The
    JSON rendering of a tool's answer is left to the caller: each tool here
    returns the structure it serialises. */
module ChatCatalogTools {
  import opened Wrappers
  import opened Strs
  import opened Seqs
  import opened Library
  import opened Paging

  /** Which halves of the catalog an `item_type` argument selects. */
  predicate WantsBooks(itemType: string) { Lower(itemType) == "books" || Lower(itemType) == "all" }
  predicate WantsArticles(itemType: string) { Lower(itemType) == "articles" || Lower(itemType) == "all" }

  // ---------------------------------------------------------------------------
  // get_categories

  /** One `{"name", "count", "type"}` entry of the category listing. */
  datatype CatEntry = CatEntry(name: string, count: int, kind: string)

  /** The entry named `name`, as the tool's dictionary lookup sees it. */
  function Find(es: seq<CatEntry>, name: string): Option<CatEntry>
  {
    if |es| == 0 then None
    else if es[0].name == name then Some(es[0])
    else Find(es[1..], name)
  }

  ghost predicate DistinctNames(es: seq<CatEntry>)
  {
    forall i, j :: 0 <= i < j < |es| ==> es[i].name != es[j].name
  }

  /** `if name not in categories: categories[name] = {"count": 0, "type": kind}`
      followed by `categories[name]["count"] += count`: an existing entry keeps
      its place and its type; a new one is appended. */
  function Upsert(es: seq<CatEntry>, e: CatEntry): seq<CatEntry>
    decreases |es|
  {
    if |es| == 0 then [e]
    else if es[0].name == e.name then [es[0].(count := es[0].count + e.count)] + es[1..]
    else [es[0]] + Upsert(es[1..], e)
  }

  /** The dictionary after one update, name by name. */
  lemma {:induction false} UpsertFind(es: seq<CatEntry>, e: CatEntry, m: string)
    ensures Find(Upsert(es, e), m) ==
      if m != e.name then Find(es, m)
      else match Find(es, m)
        case Some(prev) => Some(prev.(count := prev.count + e.count))
        case None => Some(e)
    decreases |es|
  {
    if |es| > 0 && es[0].name != e.name {
      UpsertFind(es[1..], e, m);
      assert Upsert(es, e)[1..] == Upsert(es[1..], e);
    } else if |es| > 0 {
      assert Upsert(es, e)[1..] == es[1..];
    }
  }

  /** Every name after an update was there before or is the updated one. */
  lemma {:induction false} UpsertNames(es: seq<CatEntry>, e: CatEntry, j: nat)
    requires j < |Upsert(es, e)|
    ensures Upsert(es, e)[j].name == e.name || exists k :: 0 <= k < |es| && es[k].name == Upsert(es, e)[j].name
    decreases |es|
  {
    if |es| > 0 && es[0].name != e.name && j > 0 {
      UpsertNames(es[1..], e, j - 1);
      var r := Upsert(es, e);
      assert r[j] == Upsert(es[1..], e)[j - 1];
      if r[j].name != e.name {
        var k :| 0 <= k < |es[1..]| && es[1..][k].name == r[j].name;
        assert es[k + 1].name == r[j].name;
      }
    } else if |es| > 0 && es[0].name != e.name {
      assert Upsert(es, e)[0] == es[0];
    } else if |es| > 0 && j > 0 {
      assert Upsert(es, e)[j] == es[j];
    }
  }

  lemma {:induction false} UpsertDistinct(es: seq<CatEntry>, e: CatEntry)
    requires DistinctNames(es)
    ensures DistinctNames(Upsert(es, e))
    decreases |es|
  {
    var r := Upsert(es, e);
    if |es| > 0 && es[0].name != e.name {
      UpsertDistinct(es[1..], e);
      var rest := Upsert(es[1..], e);
      assert r == [es[0]] + rest;
      forall j | 0 <= j < |rest| ensures rest[j].name != es[0].name {
        UpsertNames(es[1..], e, j);
        if rest[j].name != e.name {
          var k :| 0 <= k < |es[1..]| && es[1..][k].name == rest[j].name;
          assert es[k + 1].name == rest[j].name;
        }
      }
    } else if |es| > 0 {
      assert r == [es[0].(count := es[0].count + e.count)] + es[1..];
    } else {
      assert r == [e];
    }
  }

  /** Adds the entries one after another. */
  function AddAll(es: seq<CatEntry>, items: seq<CatEntry>): seq<CatEntry>
    decreases |items|
  {
    if |items| == 0 then es else AddAll(Upsert(es, items[0]), items[1..])
  }

  /** The sum of the counts `items` carries for `m`. */
  function SumFor(items: seq<CatEntry>, m: string): int
    decreases |items|
  {
    if |items| == 0 then 0
    else (if items[0].name == m then items[0].count else 0) + SumFor(items[1..], m)
  }

  /** Some item is named `m`. */
  predicate Mentions(items: seq<CatEntry>, m: string)
    decreases |items|
  {
    |items| > 0 && (items[0].name == m || Mentions(items[1..], m))
  }

  /** The type of the first item named `m`. */
  function FirstKind(items: seq<CatEntry>, m: string): string
    decreases |items|
  {
    if |items| == 0 then "" else if items[0].name == m then items[0].kind else FirstKind(items[1..], m)
  }

  /** What the dictionary holds for `m` after `items`, given what it held before. */
  function AfterAll(prev: Option<CatEntry>, items: seq<CatEntry>, m: string): Option<CatEntry>
  {
    match prev
    case Some(p) => Some(p.(count := p.count + SumFor(items, m)))
    case None => if Mentions(items, m) then Some(CatEntry(m, SumFor(items, m), FirstKind(items, m))) else None
  }

  /** Folding entries into the dictionary adds up the counts per name and
      keeps the type of whichever entry created the name. */
  lemma {:induction false} AddAllFind(es: seq<CatEntry>, items: seq<CatEntry>, m: string)
    ensures Find(AddAll(es, items), m) == AfterAll(Find(es, m), items, m)
    decreases |items|
  {
    if |items| > 0 {
      var e := items[0];
      var t := items[1..];
      var es' := Upsert(es, e);
      AddAllFind(es', t, m);
      UpsertFind(es, e, m);
      assert AddAll(es, items) == AddAll(es', t);
      assert SumFor(items, m) == (if e.name == m then e.count else 0) + SumFor(t, m);
      if e.name != m {
        assert Mentions(items, m) == Mentions(t, m);
        assert FirstKind(items, m) == FirstKind(t, m);
      } else {
        assert Mentions(items, m);
        assert FirstKind(items, m) == e.kind;
      }
    } else {
      assert SumFor(items, m) == 0;
      assert !Mentions(items, m);
    }
  }

  lemma {:induction false} AddAllDistinct(es: seq<CatEntry>, items: seq<CatEntry>)
    requires DistinctNames(es)
    ensures DistinctNames(AddAll(es, items))
    decreases |items|
  {
    if |items| > 0 {
      UpsertDistinct(es, items[0]);
      AddAllDistinct(Upsert(es, items[0]), items[1..]);
    }
  }

  lemma {:induction false} SumForConcat(a: seq<CatEntry>, b: seq<CatEntry>, m: string)
    ensures SumFor(a + b, m) == SumFor(a, m) + SumFor(b, m)
    ensures Mentions(a + b, m) <==> Mentions(a, m) || Mentions(b, m)
    ensures FirstKind(a + b, m) == if Mentions(a, m) then FirstKind(a, m) else FirstKind(b, m)
    decreases |a|
  {
    if |a| > 0 {
      assert (a + b)[1..] == a[1..] + b;
      SumForConcat(a[1..], b, m);
      assert (a + b)[0] == a[0];
    } else {
      assert a + b == b;
    }
  }

  /** `len(cat.books)`: the books filed under the category. */
  function BooksIn(books: seq<Book>, name: string): (r: seq<Book>)
    ensures forall b :: b in r <==> b in books && name in b.categories
  {
    Filter(books, (b: Book) => name in b.categories)
  }

  /** The book half: one entry per row of the category table, in table order. */
  function BookItems(cats: seq<string>, books: seq<Book>): seq<CatEntry>
    decreases |cats|
  {
    if |cats| == 0 then []
    else [CatEntry(cats[0], |BooksIn(books, cats[0])|, "book")] + BookItems(cats[1..], books)
  }

  /** `cat_name and cat_name.strip()`. */
  predicate NonBlank(s: string) { !AllSpace(s) }

  function ArticleCategories(articles: seq<Article>): (r: seq<string>)
    ensures |r| == |articles|
    ensures forall i :: 0 <= i < |articles| ==> r[i] == articles[i].category
  {
    seq(|articles|, i requires 0 <= i < |articles| => articles[i].category)
  }

  function ArticlesIn(articles: seq<Article>, name: string): seq<Article>
  {
    Filter(articles, (a: Article) => a.category == name)
  }

  /** The article half: one entry per non-blank group. */
  function GroupItems(groups: seq<string>, articles: seq<Article>): seq<CatEntry>
    decreases |groups|
  {
    if |groups| == 0 then []
    else
      (if NonBlank(groups[0]) then [CatEntry(groups[0], |ArticlesIn(articles, groups[0])|, "article")] else [])
      + GroupItems(groups[1..], articles)
  }

  /** How many times `m` occurs in `s`. */
  function Occurrences(s: seq<string>, m: string): nat
    decreases |s|
  {
    if |s| == 0 then 0 else (if s[0] == m then 1 else 0) + Occurrences(s[1..], m)
  }

  lemma MulSucc(k: nat, n: nat)
    ensures (k + 1) * n == k * n + n
  {
  }

  lemma {:induction false} BookItemsSum(cats: seq<string>, books: seq<Book>, m: string)
    ensures SumFor(BookItems(cats, books), m) == Occurrences(cats, m) * |BooksIn(books, m)|
    decreases |cats|
  {
    if |cats| > 0 {
      BookItemsSum(cats[1..], books, m);
      var items := BookItems(cats, books);
      assert items[1..] == BookItems(cats[1..], books);
      var n := |BooksIn(books, m)|;
      var k := Occurrences(cats[1..], m);
      assert SumFor(items, m) == (if cats[0] == m then n else 0) + k * n;
      if cats[0] == m {
        assert Occurrences(cats, m) == k + 1;
        MulSucc(k, n);
      } else {
        assert Occurrences(cats, m) == k;
      }
    }
  }

  lemma {:induction false} BookItemsKind(cats: seq<string>, books: seq<Book>, m: string)
    ensures Mentions(BookItems(cats, books), m) <==> m in cats
    ensures m in cats ==> FirstKind(BookItems(cats, books), m) == "book"
    decreases |cats|
  {
    if |cats| > 0 {
      BookItemsKind(cats[1..], books, m);
      var items := BookItems(cats, books);
      var rest := BookItems(cats[1..], books);
      assert items == [CatEntry(cats[0], |BooksIn(books, cats[0])|, "book")] + rest;
      assert items[1..] == rest;
      assert cats == [cats[0]] + cats[1..];
      assert m in cats <==> cats[0] == m || m in cats[1..];
    }
  }

  lemma {:induction false} GroupItemsSum(groups: seq<string>, articles: seq<Article>, m: string)
    requires forall i, j :: 0 <= i < j < |groups| ==> groups[i] != groups[j]
    ensures SumFor(GroupItems(groups, articles), m) == if m in groups && NonBlank(m) then |ArticlesIn(articles, m)| else 0
    ensures Mentions(GroupItems(groups, articles), m) <==> m in groups && NonBlank(m)
    ensures FirstKind(GroupItems(groups, articles), m) == if m in groups && NonBlank(m) then "article" else ""
    decreases |groups|
  {
    if |groups| > 0 {
      var head: seq<CatEntry> := if NonBlank(groups[0]) then [CatEntry(groups[0], |ArticlesIn(articles, groups[0])|, "article")] else [];
      GroupItemsSum(groups[1..], articles, m);
      SumForConcat(head, GroupItems(groups[1..], articles), m);
      assert SumFor(head, m) == if groups[0] == m && NonBlank(m) then |ArticlesIn(articles, m)| else 0 by {
        if |head| > 0 { assert head[1..] == []; }
      }
      if m in groups && groups[0] != m {
        var i :| 0 <= i < |groups| && groups[i] == m;
        assert groups[1..][i - 1] == m;
      }
      if groups[0] == m {
        assert m !in groups[1..] by {
          forall i | 0 <= i < |groups[1..]| ensures groups[1..][i] != m {
            assert groups[i + 1] != groups[0];
          }
        }
      }
    }
  }

  /** `get_categories`: the listing in dictionary insertion order.  An
      `item_type` that is neither "books", "articles" nor "all" (in any case)
      selects nothing and yields an empty listing. */
  function Categories(db: Db, itemType: string): (r: seq<CatEntry>)
    ensures !WantsBooks(itemType) && !WantsArticles(itemType) ==> r == []
  {
    var books := if WantsBooks(itemType) then BookItems(db.categories, db.books) else [];
    var arts := if WantsArticles(itemType) then GroupItems(Dedup(ArticleCategories(db.articles)), db.articles) else [];
    AddAll([], books + arts)
  }

  /** The listing's meaning, name by name: a name is listed iff a selected
      half has it (blank article categories never); its count is the sum over
      both halves; its type is "book" iff the book half created it. */
  lemma CategoriesSpec(db: Db, itemType: string, m: string)
    ensures DistinctNames(Categories(db, itemType))
    ensures var e := Find(Categories(db, itemType), m);
      var inBooks := WantsBooks(itemType) && m in db.categories;
      var inArticles := WantsArticles(itemType) && NonBlank(m) && exists a :: a in db.articles && a.category == m;
      && (e.Some? <==> inBooks || inArticles)
      && (e.Some? ==>
           && e.value.count ==
                (if WantsBooks(itemType) then Occurrences(db.categories, m) * |BooksIn(db.books, m)| else 0)
                + (if inArticles then |ArticlesIn(db.articles, m)| else 0)
           && e.value.kind == if inBooks then "book" else "article")
  {
    var books := if WantsBooks(itemType) then BookItems(db.categories, db.books) else [];
    var cats := ArticleCategories(db.articles);
    var groups := Dedup(cats);
    var arts := if WantsArticles(itemType) then GroupItems(groups, db.articles) else [];
    AddAllDistinct([], books + arts);
    AddAllFind([], books + arts, m);
    SumForConcat(books, arts, m);
    if WantsBooks(itemType) {
      BookItemsSum(db.categories, db.books, m);
      BookItemsKind(db.categories, db.books, m);
    } else {
      assert Occurrences(db.categories, m) * 0 == 0;
    }
    if WantsArticles(itemType) {
      GroupItemsSum(groups, db.articles, m);
    }
    CategoryGroups(db.articles, m);
  }

  /** A name is an article group exactly when some article has that category. */
  lemma CategoryGroups(articles: seq<Article>, m: string)
    ensures m in Dedup(ArticleCategories(articles)) <==> exists a :: a in articles && a.category == m
  {
    var cats := ArticleCategories(articles);
    if m in cats {
      var i :| 0 <= i < |cats| && cats[i] == m;
      assert articles[i] in articles;
    }
    if exists a :: a in articles && a.category == m {
      var a :| a in articles && a.category == m;
      var i :| 0 <= i < |articles| && articles[i] == a;
      assert cats[i] == m;
    }
  }

  // ---------------------------------------------------------------------------
  // search_by_category

  /** `_format_book_data`. */
  datatype BookSummary = BookSummary(id: string, title: string, author: string, category: string, rating: real, coverUrl: string)

  /** `_format_article_data`. */
  datatype ArticleSummary = ArticleSummary(id: string, slug: string, title: string, author: string, category: string, views: int, likes: int)

  function NamesOr(names: seq<string>): string
  {
    if |names| == 0 then "Unknown" else Join(names, ", ")
  }

  function BookSummaryOf(b: Book): BookSummary
  {
    BookSummary(NatToString(b.id), if b.title == "" then "Unknown" else b.title,
      NamesOr(b.authors), NamesOr(b.categories), b.rating, b.coverUrl)
  }

  function ArticleSummaryOf(a: Article): ArticleSummary
  {
    ArticleSummary(NatToString(a.id), if a.slug == "" then "unknown" else a.slug,
      if a.title == "" then "Unknown" else a.title,
      match a.author case Some(n) => n case None => "Unknown",
      if a.category == "" then "Unknown" else a.category,
      match a.meta case Some(m) => m.views case None => 0,
      match a.meta case Some(m) => m.likes case None => 0)
  }

  function BookSummaries(bs: seq<Book>): (r: seq<BookSummary>)
    ensures |r| == |bs|
    ensures forall i :: 0 <= i < |bs| ==> r[i] == BookSummaryOf(bs[i])
  {
    seq(|bs|, i requires 0 <= i < |bs| => BookSummaryOf(bs[i]))
  }

  function ArticleSummaries(xs: seq<Article>): (r: seq<ArticleSummary>)
    ensures |r| == |xs|
    ensures forall i :: 0 <= i < |xs| ==> r[i] == ArticleSummaryOf(xs[i])
  {
    seq(|xs|, i requires 0 <= i < |xs| => ArticleSummaryOf(xs[i]))
  }

  /** `Category.name.ilike(f"%{category}%")`, with the argument's characters taken literally. */
  predicate Matches(name: string, query: string) { ContainsCI(name, query) }

  /** The matching categories in table order. */
  function MatchingCategories(cats: seq<string>, query: string): (r: seq<string>)
    ensures forall c :: c in r <==> c in cats && Matches(c, query)
  {
    Filter(cats, (c: string) => Matches(c, query))
  }

  /** `cat.books[:limit]`. */
  function FirstBooksIn(books: seq<Book>, cat: string, limit: int): (r: seq<Book>)
    ensures limit >= 0 ==> |r| <= limit
    ensures forall i :: 0 <= i < |r| ==> r[i] in books && cat in r[i].categories
  {
    var all := BooksIn(books, cat);
    var r := PySlice(all, 0, limit);
    assert forall i :: 0 <= i < |r| ==> r[i] in all by {
      forall i | 0 <= i < |r| ensures r[i] in all {
        if limit >= 0 { assert r[i] == all[i]; }
        else { assert r == all[..Bound(limit, |all|)] || r == []; }
      }
    }
    r
  }

  /** The books loop: `cat.books[:limit]` for every matching category, one
      after another. */
  function CategoryBooks(cats: seq<string>, books: seq<Book>, limit: int): (r: seq<Book>)
    ensures limit >= 0 ==> |r| <= |cats| * limit
    decreases |cats|
  {
    if |cats| == 0 then []
    else
      var rest := CategoryBooks(cats[1..], books, limit);
      assert limit >= 0 ==> |rest| + limit <= |cats| * limit by {
        if limit >= 0 { assert (|cats| - 1) * limit + limit == |cats| * limit; }
      }
      FirstBooksIn(books, cats[0], limit) + rest
  }

  /** Every book the loop lists is a catalog book filed under one of the categories. */
  lemma {:induction false} CategoryBooksFrom(cats: seq<string>, books: seq<Book>, limit: int, i: nat)
    requires i < |CategoryBooks(cats, books, limit)|
    ensures CategoryBooks(cats, books, limit)[i] in books
    ensures exists c :: c in cats && c in CategoryBooks(cats, books, limit)[i].categories
    decreases |cats|
  {
    var here := FirstBooksIn(books, cats[0], limit);
    var r := CategoryBooks(cats, books, limit);
    if i < |here| {
      assert r[i] == here[i];
      assert cats[0] in cats;
    } else {
      CategoryBooksFrom(cats[1..], books, limit, i - |here|);
      assert r[i] == CategoryBooks(cats[1..], books, limit)[i - |here|];
      var c :| c in cats[1..] && c in r[i].categories;
      assert c in cats;
    }
  }

  datatype CategoryResults = CategoryResults(books: seq<BookSummary>, articles: seq<ArticleSummary>)

  const CategorySearchError := "Error searching by category."

  /** The articles query: matching category, at most `limit` rows, in table order. */
  function CategoryArticles(articles: seq<Article>, category: string, limit: nat): (r: seq<Article>)
    ensures |r| <= limit
    ensures forall i :: 0 <= i < |r| ==> r[i] in articles && Matches(r[i].category, category)
  {
    var f := Filter(articles, (a: Article) => Matches(a.category, category));
    var r := Take(f, limit);
    assert forall i :: 0 <= i < |r| ==> r[i] in f by {
      forall i | 0 <= i < |r| ensures r[i] in f { assert r[i] == f[i]; }
    }
    r
  }

  /** `search_by_category`.  The books half takes `limit` books from each
      matching category, so it can exceed `limit`; the articles half is one
      SQL `LIMIT`, which PostgreSQL refuses for a negative value, making the
      whole tool answer its error text. */
  function SearchByCategory(db: Db, category: string, itemType: string, limit: int): (r: Result<CategoryResults>)
    ensures r.Failure? <==> WantsArticles(itemType) && limit < 0
    ensures r.Failure? ==> r.error == CategorySearchError
    ensures r.Success? && WantsArticles(itemType) ==> |r.value.articles| <= limit
    ensures r.Success? && limit >= 0 ==> |r.value.books| <= |MatchingCategories(db.categories, category)| * limit
    ensures r.Success? && !WantsBooks(itemType) ==> r.value.books == []
    ensures r.Success? && !WantsArticles(itemType) ==> r.value.articles == []
  {
    var cats := MatchingCategories(db.categories, category);
    var bs := if WantsBooks(itemType) then CategoryBooks(cats, db.books, limit) else [];
    assert limit >= 0 ==> |bs| <= |cats| * limit;
    if WantsArticles(itemType) && limit < 0 then Failure(CategorySearchError)
    else
      var arts := if WantsArticles(itemType) then CategoryArticles(db.articles, category, limit as nat) else [];
      Success(CategoryResults(BookSummaries(bs), ArticleSummaries(arts)))
  }

  /** Every listed item comes from the catalog and matches the category:
      an article by its own category, a book through a matching category it
      is filed under. */
  lemma SearchByCategoryGrounded(db: Db, category: string, itemType: string, limit: int)
    requires SearchByCategory(db, category, itemType, limit).Success?
    ensures var r := SearchByCategory(db, category, itemType, limit).value;
      forall i :: 0 <= i < |r.articles| ==>
        exists a :: a in db.articles && Matches(a.category, category) && r.articles[i] == ArticleSummaryOf(a)
    ensures var r := SearchByCategory(db, category, itemType, limit).value;
      forall i :: 0 <= i < |r.books| ==>
        exists b, c ::
          b in db.books && c in db.categories && Matches(c, category) && c in b.categories && r.books[i] == BookSummaryOf(b)
  {
    var r := SearchByCategory(db, category, itemType, limit).value;
    var cats := MatchingCategories(db.categories, category);
    if WantsArticles(itemType) {
      var arts := CategoryArticles(db.articles, category, limit as nat);
      forall i | 0 <= i < |r.articles|
        ensures exists a :: a in db.articles && Matches(a.category, category) && r.articles[i] == ArticleSummaryOf(a)
      {
        assert r.articles[i] == ArticleSummaryOf(arts[i]);
      }
    }
    if WantsBooks(itemType) {
      var bs := CategoryBooks(cats, db.books, limit);
      forall i | 0 <= i < |r.books|
        ensures exists b, c ::
          b in db.books && c in db.categories && Matches(c, category) && c in b.categories && r.books[i] == BookSummaryOf(b)
      {
        CategoryBooksFrom(cats, db.books, limit, i);
        var c :| c in cats && c in bs[i].categories;
        assert r.books[i] == BookSummaryOf(bs[i]);
      }
    }
  }

  /** The per-category limit bounds each category's share, not the total:
      two matching categories with one book each give two books under `limit` 1. */
  lemma BooksMayExceedLimit()
    ensures var b1 := Book(1, "A", "", "", 0.0, "", 0, 1, 1, false, [], ["science"]);
      var b2 := Book(2, "B", "", "", 0.0, "", 0, 1, 1, false, [], ["social science"]);
      var db := Db([b1, b2], [], ["science", "social science"], [], [], [], [], [], [], {}, {});
      |SearchByCategory(db, "science", "books", 1).value.books| == 2
  {
    var b1 := Book(1, "A", "", "", 0.0, "", 0, 1, 1, false, [], ["science"]);
    var b2 := Book(2, "B", "", "", 0.0, "", 0, 1, 1, false, [], ["social science"]);
    LowerNoUpper("books");
    assert WantsBooks("books") && !WantsArticles("books");
    ScienceMatches();
    ScienceBooks(b1, b2);
  }

  lemma ScienceMatches()
    ensures MatchingCategories(["science", "social science"], "science") == ["science", "social science"]
  {
    LowerNoUpper("science");
    LowerNoUpper("social science");
    assert Matches("science", "science") by { ContainsAt("science", "science", 0); }
    assert Matches("social science", "science") by {
      assert "social science"[7..14] == "science";
      ContainsAt("social science", "science", 7);
    }
  }

  lemma ScienceBooks(b1: Book, b2: Book)
    requires b1.categories == ["science"] && b2.categories == ["social science"]
    ensures |CategoryBooks(["science", "social science"], [b1, b2], 1)| == 2
  {
    var cats := ["science", "social science"];
    assert "science" !in b2.categories;
    assert "social science" !in b1.categories;
    assert BooksIn([b1, b2], "science") == [b1];
    assert BooksIn([b1, b2], "social science") == [b2];
    assert |FirstBooksIn([b1, b2], "science", 1)| == 1;
    assert |FirstBooksIn([b1, b2], "social science", 1)| == 1;
    assert cats[1..] == ["social science"];
    assert |CategoryBooks(cats[1..], [b1, b2], 1)| == 1;
  }

  // ---------------------------------------------------------------------------
  // system_info

  /** The sections of the system information, in declaration order. */
  const InfoKeys: seq<string> := ["urls", "library", "chatbot", "hours", "developers", "markdown_templates"]

  datatype Info = Everything | Section(key: string) | Invalid(text: string)

  /** `system_info`: everything for "all", one section for a known key (both
      compared after lower-casing), otherwise an error text listing the keys. */
  function SystemInfo(infoType: string): (r: Info)
    ensures r == Everything <==> Lower(infoType) == "all"
    ensures r.Section? <==> Lower(infoType) in InfoKeys
    ensures r.Section? ==> r.key == Lower(infoType)
    ensures r.Invalid? ==> forall k :: k in InfoKeys ==> Contains(r.text, k)
  {
    var t := Lower(infoType);
    if t == "all" then Everything
    else if t in InfoKeys then Section(t)
    else
      var text := "Invalid info_type '" + infoType + "'. Available types: " + Join(InfoKeys, ", ");
      InvalidListsKeys(infoType, text);
      Invalid(text)
  }

  lemma InvalidListsKeys(infoType: string, text: string)
    requires text == "Invalid info_type '" + infoType + "'. Available types: " + Join(InfoKeys, ", ")
    ensures forall k :: k in InfoKeys ==> Contains(text, k)
  {
    var prefix := "Invalid info_type '" + infoType + "'. Available types: ";
    forall k | k in InfoKeys ensures Contains(text, k) {
      var n :| 0 <= n < |InfoKeys| && InfoKeys[n] == k;
      var j := JoinOccurs(InfoKeys, ", ", n);
      OccursAfter(prefix, Join(InfoKeys, ", "), k, j);
      ContainsAt(text, k, |prefix| + j);
    }
  }
}

=== FILE: chat_message.dfy ===
/** A stored chat exchange and its `to_dict` (backend/app/model/ChatMessage.py):
    the recommendation columns hold JSON text that is decoded and normalised
    defensively into lists of records with every field present. */
module ChatMessages {
  import opened Wrappers
  import opened Strs
  import opened Seqs

  /** A decoded JSON value as Python's `json.loads` returns it: integers and
      floats are distinct, objects are dicts. */
  datatype Json =
    | JNull
    | JBool(b: bool)
    | JInt(i: int)
    | JFloat(x: real)
    | JStr(s: string)
    | JList(items: seq<Json>)
    | JObject(fields: map<string, Json>)

  /** The conversions `to_dict` relies on: `json.loads` (`None` on a decode
      error), `float()` of a text (`None` where it raises) and `str()` of a
      value that is not a text (Python's own rendering). */
  datatype Codec = Codec(decode: string -> Option<Json>, parseFloat: string -> Option<real>, show: Json -> string)

  /** `str(v)`: a text is itself. */
  function Str(v: Json, c: Codec): (r: string)
    ensures v.JStr? ==> r == v.s
  {
    if v.JStr? then v.s else c.show(v)
  }

  /** `d.get(key, default)`. */
  function Get(d: map<string, Json>, key: string, default: Json): (r: Json)
    ensures key in d ==> r == d[key]
    ensures key !in d ==> r == default
  {
    if key in d then d[key] else default
  }

  /** Python's truthiness of a JSON value. */
  predicate Truthy(v: Json)
  {
    match v
    case JNull => false
    case JBool(b) => b
    case JInt(i) => i != 0
    case JFloat(x) => x != 0.0
    case JStr(s) => s != ""
    case JList(items) => items != []
    case JObject(fields) => |fields| != 0
  }

  /** `int(x)` on a finite float truncates toward zero. */
  function Trunc(x: real): (r: int)
    ensures x >= 0.0 ==> r as real <= x < r as real + 1.0
    ensures x < 0.0 ==> r as real - 1.0 < x <= r as real
  {
    if x >= 0.0 then x.Floor else -((-x).Floor)
  }

  /** `float(v)`, `None` where Python raises ValueError or TypeError
      (`bool` counts as an integer). */
  function ToFloat(v: Json, c: Codec): (r: Option<real>)
    ensures v.JInt? ==> r == Some(v.i as real)
    ensures v.JFloat? ==> r == Some(v.x)
    ensures v.JNull? || v.JList? || v.JObject? ==> r == None
  {
    match v
    case JBool(b) => Some(if b then 1.0 else 0.0)
    case JInt(i) => Some(i as real)
    case JFloat(x) => Some(x)
    case JStr(s) => c.parseFloat(s)
    case _ => None
  }

  /** `int(v)`, `None` where Python raises ValueError or TypeError. */
  function ToInt(v: Json): (r: Option<int>)
    ensures v.JInt? ==> r == Some(v.i)
    ensures v.JStr? ==> r == PyInt(v.s)
    ensures v.JNull? || v.JList? || v.JObject? ==> r == None
  {
    match v
    case JBool(b) => Some(if b then 1 else 0)
    case JInt(i) => Some(i)
    case JFloat(x) => Some(Trunc(x))
    case JStr(s) => PyInt(s)
    case _ => None
  }

  // ---------------------------------------------------------------------------
  // Decoding a column

  /** A recommendation column read as a list: an empty column is `[]`, a
      decoded list is itself, a decoded object becomes a one-element list,
      any other decoded value `[]`; undecodable text fails. */
  function Listed(column: Option<string>, c: Codec): (r: Result<seq<Json>>)
    ensures column.None? || column == Some("") ==> r == Success([])
    ensures column.Some? && column.value != "" ==> (r.Failure? <==> c.decode(column.value).None?)
    ensures column.Some? && column.value != "" && c.decode(column.value).Some? ==>
      match c.decode(column.value).value
      case JList(items) => r == Success(items)
      case JObject(_) => r == Success([c.decode(column.value).value])
      case _ => r == Success([])
  {
    if column.None? || column.value == "" then Success([])
    else match c.decode(column.value)
      case None => Failure("JSONDecodeError")
      case Some(JList(items)) => Success(items)
      case Some(JObject(fields)) => Success([JObject(fields)])
      case Some(_) => Success([])
  }

  // ---------------------------------------------------------------------------
  // Book recommendations

  /** A normalised book recommendation: every field present and typed. */
  datatype BookRec = BookRec(
    title: string, author: string, category: string, rating: real,
    bookId: int, coverUrl: string, reason: string)

  /** One dict entry: texts through `str()` with their defaults, the rating
      through `float()` and the id through `int()`, 0.0 and 0 where those
      raise. */
  function BookEntry(d: map<string, Json>, c: Codec): (r: BookRec)
    ensures "title" !in d ==> r.title == "Unknown Title"
    ensures "author" !in d ==> r.author == "Unknown Author"
    ensures "category" !in d ==> r.category == "Uncategorized"
    ensures "cover_url" !in d ==> r.coverUrl == "/default_cover.jpg"
    ensures "reason" !in d ==> r.reason == "Recommended based on your interests"
    ensures "rating" !in d ==> r.rating == 0.0
    ensures "book_id" !in d ==> r.bookId == 0
    ensures "rating" in d && ToFloat(d["rating"], c).None? ==> r.rating == 0.0
    ensures "book_id" in d && ToInt(d["book_id"]).None? ==> r.bookId == 0
  {
    BookRec(
      Str(Get(d, "title", JStr("Unknown Title")), c),
      Str(Get(d, "author", JStr("Unknown Author")), c),
      Str(Get(d, "category", JStr("Uncategorized")), c),
      ToFloat(Get(d, "rating", JFloat(0.0)), c).GetOr(0.0),
      ToInt(Get(d, "book_id", JInt(0))).GetOr(0),
      Str(Get(d, "cover_url", JStr("/default_cover.jpg")), c),
      Str(Get(d, "reason", JStr("Recommended based on your interests")), c))
  }

  /** The number of entries that are dicts. */
  function Dicts(items: seq<Json>): (n: nat)
    ensures n <= |items|
  {
    if items == [] then 0 else (if items[0].JObject? then 1 else 0) + Dicts(items[1..])
  }

  /** The book loop: entries that are not dicts are skipped, each dict gives
      one record, in order. */
  function BookRecs(items: seq<Json>, c: Codec): (r: seq<BookRec>)
    ensures |r| == Dicts(items)
    decreases |items|
  {
    if items == [] then []
    else
      var rest := BookRecs(items[1..], c);
      if items[0].JObject? then [BookEntry(items[0].fields, c)] + rest else rest
  }

  /** Records are produced entry by entry, in order. */
  lemma {:induction false} BookRecsConcat(a: seq<Json>, b: seq<Json>, c: Codec)
    ensures BookRecs(a + b, c) == BookRecs(a, c) + BookRecs(b, c)
    decreases |a|
  {
    if a == [] {
      assert a + b == b;
    } else {
      assert (a + b)[0] == a[0] && (a + b)[1..] == a[1..] + b;
      BookRecsConcat(a[1..], b, c);
    }
  }

  /** A record written back as the dict it came from. */
  function BookDict(r: BookRec): map<string, Json>
  {
    map["title" := JStr(r.title), "author" := JStr(r.author), "category" := JStr(r.category),
        "rating" := JFloat(r.rating), "book_id" := JInt(r.bookId),
        "cover_url" := JStr(r.coverUrl), "reason" := JStr(r.reason)]
  }

  /** Normalising a normalised record written back gives it again. */
  lemma BookEntryRoundTrip(r: BookRec, c: Codec)
    ensures BookEntry(BookDict(r), c) == r
  {
    var d := BookDict(r);
    assert d["title"] == JStr(r.title);
    assert d["author"] == JStr(r.author);
    assert d["category"] == JStr(r.category);
    assert d["rating"] == JFloat(r.rating);
    assert d["book_id"] == JInt(r.bookId);
    assert d["cover_url"] == JStr(r.coverUrl);
  }

  /** An empty dict gives the all-defaults record. */
  lemma BookEntryDefaults(c: Codec)
    ensures BookEntry(map[], c) == BookRec("Unknown Title", "Unknown Author", "Uncategorized", 0.0, 0,
      "/default_cover.jpg", "Recommended based on your interests")
  {
  }

  // ---------------------------------------------------------------------------
  // Article recommendations

  /** The counters of a `meta` dict. */
  datatype Meta = Meta(readTime: int, views: int, likes: int)

  /** A normalised article recommendation; the counters are present only
      when the entry carried a `meta` dict. */
  datatype ArticleRec = ArticleRec(
    title: string, author: string, category: string, articleId: int,
    coverImageUrl: string, pdfUrl: string, summary: string, reason: string,
    meta: Option<Meta>)

  /** The author: a dict gives its `name`; any other value `str(author or
      "Unknown Author")`, so a falsy one becomes the default. */
  function ArticleAuthor(author: Json, c: Codec): (r: string)
    ensures author.JObject? && "name" !in author.fields ==> r == "Unknown Author"
    ensures !author.JObject? && !Truthy(author) ==> r == "Unknown Author"
    ensures author.JStr? && author.s != "" ==> r == author.s
  {
    match author
    case JObject(fields) => Str(Get(fields, "name", JStr("Unknown Author")), c)
    case _ => if Truthy(author) then Str(author, c) else "Unknown Author"
  }

  /** The `meta` counters, read with `int()` outside any handler: a value
      `int()` refuses fails the whole conversion. */
  function MetaOf(meta: Json): (r: Result<Option<Meta>>)
    ensures !meta.JObject? ==> r == Success(None)
    ensures meta.JObject? && r.Success? ==> r.value.Some?
    ensures meta == JObject(map[]) ==> r == Success(Some(Meta(5, 0, 0)))
  {
    match meta
    case JObject(m) =>
      var rt := ToInt(Get(m, "readTime", JInt(5)));
      var vs := ToInt(Get(m, "views", JInt(0)));
      var lk := ToInt(Get(m, "likes", JInt(0)));
      if rt.None? || vs.None? || lk.None? then Failure("ValueError")
      else Success(Some(Meta(rt.value, vs.value, lk.value)))
    case _ => Success(None)
  }

  /** One dict entry of the article loop. */
  function ArticleEntry(d: map<string, Json>, c: Codec): (r: Result<ArticleRec>)
    ensures r.Failure? <==> MetaOf(Get(d, "meta", JObject(map[]))).Failure?
    ensures r.Success? ==> r.value.meta == MetaOf(Get(d, "meta", JObject(map[]))).value
    ensures r.Success? && "article_id" in d && ToInt(d["article_id"]).None? ==> r.value.articleId == 0
    ensures r.Success? && "article_id" !in d ==> r.value.articleId == 0
    ensures r.Success? && "meta" !in d ==> r.value.meta == Some(Meta(5, 0, 0))
  {
    match MetaOf(Get(d, "meta", JObject(map[])))
    case Failure(e) => Failure(e)
    case Success(meta) =>
      Success(ArticleRec(
        Str(Get(d, "title", JStr("Unknown Title")), c),
        ArticleAuthor(Get(d, "author", JObject(map[])), c),
        Str(Get(d, "category", JStr("Uncategorized")), c),
        ToInt(Get(d, "article_id", JInt(0))).GetOr(0),
        Str(Get(d, "cover_image_url", JStr("/default_article_cover.jpg")), c),
        Str(Get(d, "pdf_url", JStr("")), c),
        Str(Get(d, "summary", JStr("No summary available")), c),
        Str(Get(d, "reason", JStr("Recommended based on your interests")), c),
        meta))
  }

  /** The article loop: non-dicts skipped, the first failing entry fails
      the loop. */
  function ArticleRecs(items: seq<Json>, c: Codec): (r: Result<seq<ArticleRec>>)
    ensures r.Success? ==> |r.value| == Dicts(items)
    ensures r.Failure? <==> exists k :: 0 <= k < |items| && items[k].JObject? && ArticleEntry(items[k].fields, c).Failure?
    decreases |items|
  {
    if items == [] then Success([])
    else
      var rest := ArticleRecs(items[1..], c);
      assert forall k :: 1 <= k < |items| ==> items[k] == items[1..][k - 1];
      if items[0].JObject? then
        match ArticleEntry(items[0].fields, c)
        case Failure(e) => Failure(e)
        case Success(a) => if rest.Failure? then rest else Success([a] + rest.value)
      else rest
  }

  /** The counters written back under `meta` with their stored key names;
      no counters as a value that is not a dict. */
  function MetaJson(m: Option<Meta>): Json
  {
    match m
    case None => JNull
    case Some(m) => JObject(map["readTime" := JInt(m.readTime), "views" := JInt(m.views), "likes" := JInt(m.likes)])
  }

  lemma MetaRoundTrip(m: Option<Meta>)
    ensures MetaOf(MetaJson(m)) == Success(m)
  {
    if m.Some? {
      var mm := map["readTime" := JInt(m.value.readTime), "views" := JInt(m.value.views), "likes" := JInt(m.value.likes)];
      assert MetaJson(m) == JObject(mm);
      assert mm["readTime"] == JInt(m.value.readTime) && mm["views"] == JInt(m.value.views) && mm["likes"] == JInt(m.value.likes);
    }
  }

  /** A record written back in the stored shape: the author as a dict with
      its name, the counters under `meta`. */
  function ArticleDict(a: ArticleRec): map<string, Json>
  {
    map[
      "title" := JStr(a.title), "author" := JObject(map["name" := JStr(a.author)]),
      "category" := JStr(a.category), "article_id" := JInt(a.articleId),
      "cover_image_url" := JStr(a.coverImageUrl), "pdf_url" := JStr(a.pdfUrl),
      "summary" := JStr(a.summary), "reason" := JStr(a.reason), "meta" := MetaJson(a.meta)]
  }

  /** The text fields of a written-back record read back unchanged. */
  lemma ArticleDictTexts(a: ArticleRec)
    ensures var d := ArticleDict(a);
      Get(d, "title", JStr("Unknown Title")) == JStr(a.title) &&
      Get(d, "category", JStr("Uncategorized")) == JStr(a.category) &&
      Get(d, "cover_image_url", JStr("/default_article_cover.jpg")) == JStr(a.coverImageUrl) &&
      Get(d, "pdf_url", JStr("")) == JStr(a.pdfUrl) &&
      Get(d, "summary", JStr("No summary available")) == JStr(a.summary) &&
      Get(d, "reason", JStr("Recommended based on your interests")) == JStr(a.reason)
  {
    var d := ArticleDict(a);
    assert Get(d, "title", JStr("Unknown Title")) == JStr(a.title) by { assert d["title"] == JStr(a.title); }
    assert Get(d, "category", JStr("Uncategorized")) == JStr(a.category) by { assert d["category"] == JStr(a.category); }
    assert Get(d, "cover_image_url", JStr("/default_article_cover.jpg")) == JStr(a.coverImageUrl) by {
      assert d["cover_image_url"] == JStr(a.coverImageUrl);
    }
    assert Get(d, "pdf_url", JStr("")) == JStr(a.pdfUrl) by { assert d["pdf_url"] == JStr(a.pdfUrl); }
    assert Get(d, "summary", JStr("No summary available")) == JStr(a.summary) by { assert d["summary"] == JStr(a.summary); }
    assert Get(d, "reason", JStr("Recommended based on your interests")) == JStr(a.reason) by {
      assert d["reason"] == JStr(a.reason);
    }
  }

  /** Normalising a normalised article written back gives it again. */
  lemma ArticleEntryRoundTrip(a: ArticleRec, c: Codec)
    ensures ArticleEntry(ArticleDict(a), c) == Success(a)
  {
    var d := ArticleDict(a);
    assert MetaOf(Get(d, "meta", JObject(map[]))) == Success(a.meta) by {
      assert d["meta"] == MetaJson(a.meta);
      MetaRoundTrip(a.meta);
    }
    assert ArticleAuthor(Get(d, "author", JObject(map[])), c) == a.author by {
      var author := map["name" := JStr(a.author)];
      assert d["author"] == JObject(author) && author["name"] == JStr(a.author);
    }
    assert ToInt(Get(d, "article_id", JInt(0))) == Some(a.articleId) by { assert d["article_id"] == JInt(a.articleId); }
    ArticleDictTexts(a);
  }

  // ---------------------------------------------------------------------------
  // to_dict

  /** A stored exchange; `createdAt` is the timestamp already in ISO form. */
  datatype ChatMessage = ChatMessage(
    id: int, userId: int, message: string, response: string, language: string,
    createdAt: Option<string>, bookColumn: Option<string>, articleColumn: Option<string>)

  datatype MessageDict = MessageDict(
    id: int, userId: int, message: string, response: string, language: string,
    createdAt: Option<string>, books: seq<BookRec>, articles: seq<ArticleRec>)

  /** Both recommendation lists, or the failure that aborts the conversion. */
  function Recommendations(m: ChatMessage, c: Codec): (r: Result<(seq<BookRec>, seq<ArticleRec>)>)
    ensures r.Failure? <==>
      || Listed(m.bookColumn, c).Failure?
      || Listed(m.articleColumn, c).Failure?
      || ArticleRecs(Listed(m.articleColumn, c).value, c).Failure?
    ensures r.Success? ==> r.value.0 == BookRecs(Listed(m.bookColumn, c).value, c)
    ensures r.Success? ==> r.value.1 == ArticleRecs(Listed(m.articleColumn, c).value, c).value
  {
    match Listed(m.bookColumn, c)
    case Failure(e) => Failure(e)
    case Success(bookItems) =>
      match Listed(m.articleColumn, c)
      case Failure(e) => Failure(e)
      case Success(articleItems) =>
        match ArticleRecs(articleItems, c)
        case Failure(e) => Failure(e)
        case Success(articles) => Success((BookRecs(bookItems, c), articles))
  }

  /** `to_dict`: the scalar fields as stored, and both lists, both emptied
      when anything in the conversion fails. */
  function ToDict(m: ChatMessage, c: Codec): (r: MessageDict)
    ensures r.id == m.id && r.userId == m.userId && r.message == m.message
    ensures r.response == m.response && r.language == m.language && r.createdAt == m.createdAt
    ensures Recommendations(m, c).Failure? ==> r.books == [] && r.articles == []
    ensures Recommendations(m, c).Success? ==> (r.books, r.articles) == Recommendations(m, c).value
    ensures |r.books| <= |Listed(m.bookColumn, c).GetOr([])|
  {
    var (books, articles) := Recommendations(m, c).GetOr(([], []));
    MessageDict(m.id, m.userId, m.message, m.response, m.language, m.createdAt, books, articles)
  }

  /** A message without recommendations converts to empty lists. */
  lemma NoColumnsNoRecommendations(m: ChatMessage, c: Codec)
    requires m.bookColumn.None? && m.articleColumn.None?
    ensures ToDict(m, c).books == [] && ToDict(m, c).articles == []
  {
  }
}

=== FILE: chat_service.dfy ===
/** The older chat service (backend/app/services/ChatBotService.py): the text
    parsers and filters around one language-model reply.  A reply is searched
    for tagged recommendation blocks (or, failing that, loose `field: value`
    lines), the proposed books are checked against the catalog and the
    retrieved ids, the reply text is cleaned, a fallback list is drawn from
    the retrieved ids when the reply promises recommendations it does not
    carry, and an identity question is answered with the assistant's name.
    The similarity search, the language model and `float()` are inputs; the
    conversation memories are maps keyed by user id. */
module ChatService {
  import opened Wrappers
  import opened Strs
  import opened Seqs
  import opened Library

  // ---------------------------------------------------------------------------
  // Delimited spans

  /** Where the first `open … close` span lies: `open` starts at `at`, the
      enclosed text runs from `from` to `to`, and `close` ends at `end`. */
  datatype Span = Span(at: nat, from: nat, to: nat, end: nat)

  /** The leftmost `open` and the first `close` after it, as the lazy
      `open(.*?)close` finds them; `None` when either is missing. */
  function FirstSpan(s: string, open: string, close: string): (r: Option<Span>)
    requires |open| > 0 && |close| > 0
    ensures r.Some? ==> r.value.at + |open| == r.value.from <= r.value.to
    ensures r.Some? ==> r.value.to + |close| == r.value.end <= |s|
    ensures r.Some? ==> OccursAt(s, open, r.value.at) && OccursAt(s, close, r.value.to)
    ensures r.Some? ==> !Contains(s[r.value.from..r.value.to], close)
    ensures !Contains(s, open) ==> r.None?
  {
    match IndexOf(s, open)
    case None => None
    case Some(i) =>
      var rest := s[i + |open|..];
      match IndexOf(rest, close)
      case None => None
      case Some(j) =>
        FirstOccurrenceBefore(rest, close, j);
        assert s[i + |open|..i + |open| + j] == rest[..j];
        assert s[i + |open| + j..i + |open| + j + |close|] == rest[j..j + |close|];
        Some(Span(i, i + |open|, i + |open| + j, i + |open| + j + |close|))
  }

  /** The texts between each `open` and the first `close` after it, scanning
      left to right: `re.findall(open + "(.*?)" + close, s, re.DOTALL)`.  An
      `open` with no `close` after it ends the scan. */
  function Enclosed(s: string, open: string, close: string): (r: seq<string>)
    requires |open| > 0 && |close| > 0
    ensures forall k :: 0 <= k < |r| ==> !Contains(r[k], close)
    decreases |s|
  {
    match FirstSpan(s, open, close)
    case None => []
    case Some(sp) => [s[sp.from..sp.to]] + Enclosed(s[sp.end..], open, close)
  }

  /** `re.sub(open + ".*?" + close, "", s, flags=re.DOTALL)`: every span that
      `Enclosed` reports is removed together with its delimiters. */
  function RemoveEnclosed(s: string, open: string, close: string): (r: string)
    requires |open| > 0 && |close| > 0
    ensures |r| <= |s|
    ensures !Contains(s, open) ==> r == s
    decreases |s|
  {
    match FirstSpan(s, open, close)
    case None => s
    case Some(sp) => s[..sp.at] + RemoveEnclosed(s[sp.end..], open, close)
  }

  /** The prefix before the first occurrence of `p` does not contain `p`. */
  lemma FirstOccurrenceBefore(s: string, p: string, j: nat)
    requires |p| > 0 && IndexOf(s, p) == Some(j)
    ensures !Contains(s[..j], p)
  {
    forall k: nat | OccursAt(s[..j], p, k) ensures false {
      assert k < j;
      assert s[k..k + |p|] == s[..j][k..k + |p|];
      assert OccursAt(s, p, k);
    }
  }

  /** What the removal drops is exactly the reported spans with their
      delimiters: the lengths add up. */
  lemma {:induction false} RemoveEnclosedAccounts(s: string, open: string, close: string)
    requires |open| > 0 && |close| > 0
    ensures |RemoveEnclosed(s, open, close)| + SpanLength(Enclosed(s, open, close), |open| + |close|) == |s|
    decreases |s|
  {
    match FirstSpan(s, open, close)
    case None =>
    case Some(sp) =>
      RemoveEnclosedAccounts(s[sp.end..], open, close);
  }

  /** The total length of `spans`, each with `extra` delimiter characters. */
  function SpanLength(spans: seq<string>, extra: nat): nat
  {
    if spans == [] then 0 else |spans[0]| + extra + SpanLength(spans[1..], extra)
  }

  // ---------------------------------------------------------------------------
  // Newline runs

  /** No three consecutive newlines. */
  predicate NoTripleNewline(s: string)
  {
    forall i :: 0 <= i && i + 2 < |s| ==> !(s[i] == '\n' && s[i + 1] == '\n' && s[i + 2] == '\n')
  }

  /** The length of the run of newlines that starts `s`. */
  function NewlineRun(s: string): (n: nat)
    ensures n <= |s|
    ensures forall k :: 0 <= k < n ==> s[k] == '\n'
    ensures n < |s| ==> s[n] != '\n'
  {
    if |s| > 0 && s[0] == '\n' then 1 + NewlineRun(s[1..]) else 0
  }

  /** `re.sub(r"\n{3,}", "\n\n", s)`: each run of three or more newlines
      becomes two; shorter runs and every other character stay. */
  function CollapseNewlines(s: string): (r: string)
    ensures NoTripleNewline(r)
    ensures |s| > 0 ==> |r| > 0 && (r[0] == '\n' <==> s[0] == '\n')
    decreases |s|
  {
    if s == [] then []
    else if s[0] != '\n' then
      var t := CollapseNewlines(s[1..]);
      NoTriplePrepend([s[0]], t);
      [s[0]] + t
    else
      var n := NewlineRun(s);
      var head := if n >= 3 then "\n\n" else s[..n];
      var t := CollapseNewlines(s[n..]);
      NoTriplePrepend(head, t);
      head + t
  }

  /** Up to two newlines, or one non-newline character, before a text that
      has no triple newline and does not start with a newline after a run. */
  lemma NoTriplePrepend(head: string, t: string)
    requires |head| <= 2
    requires NoTripleNewline(t)
    requires (|head| == 1 && head[0] != '\n') || ((forall k :: 0 <= k < |head| ==> head[k] == '\n') && (|t| > 0 ==> t[0] != '\n'))
    ensures NoTripleNewline(head + t)
  {
    var s := head + t;
    forall i | 0 <= i && i + 2 < |s|
      ensures !(s[i] == '\n' && s[i + 1] == '\n' && s[i + 2] == '\n')
    {
      if i >= |head| {
        assert s[i] == t[i - |head|] && s[i + 1] == t[i - |head| + 1] && s[i + 2] == t[i - |head| + 2];
      }
    }
  }

  function NotNewline(c: char): bool { c != '\n' }

  /** Collapsing only shortens newline runs: the other characters are
      exactly those of the input, in order. */
  lemma {:induction false} CollapseKeepsText(s: string)
    ensures Filter(CollapseNewlines(s), NotNewline) == Filter(s, NotNewline)
    decreases |s|
  {
    if s != [] {
      if s[0] != '\n' {
        CollapseKeepsText(s[1..]);
        FilterConcat([s[0]], CollapseNewlines(s[1..]), NotNewline);
        assert s == [s[0]] + s[1..];
        FilterConcat([s[0]], s[1..], NotNewline);
      } else {
        var n := NewlineRun(s);
        var head := if n >= 3 then "\n\n" else s[..n];
        CollapseKeepsText(s[n..]);
        FilterConcat(head, CollapseNewlines(s[n..]), NotNewline);
        FilterNone(head, NotNewline);
        assert s == s[..n] + s[n..];
        FilterConcat(s[..n], s[n..], NotNewline);
        FilterNone(s[..n], NotNewline);
      }
    }
  }

  /** A text without triple newlines is left as it is. */
  lemma {:induction false} CollapseNoTriple(s: string)
    requires NoTripleNewline(s)
    ensures CollapseNewlines(s) == s
    decreases |s|
  {
    if s != [] {
      if s[0] != '\n' {
        NoTripleSuffix(s, 1);
        CollapseNoTriple(s[1..]);
      } else {
        var n := NewlineRun(s);
        if |s| > 2 { assert !(s[0] == '\n' && s[1] == '\n' && s[2] == '\n'); }
        assert n < 3;
        NoTripleSuffix(s, n);
        CollapseNoTriple(s[n..]);
        assert s[..n] + s[n..] == s;
      }
    }
  }

  lemma NoTripleSuffix(s: string, n: nat)
    requires n <= |s| && NoTripleNewline(s)
    ensures NoTripleNewline(s[n..])
  {
    forall i | 0 <= i && i + 2 < |s[n..]|
      ensures !(s[n..][i] == '\n' && s[n..][i + 1] == '\n' && s[n..][i + 2] == '\n')
    {
      assert s[n..][i] == s[n + i] && s[n..][i + 1] == s[n + i + 1] && s[n..][i + 2] == s[n + i + 2];
    }
  }

  /** A piece of a text without triple newlines has none either. */
  lemma NoTripleOccurs(s: string, r: string, j: nat)
    requires OccursAt(s, r, j) && NoTripleNewline(s)
    ensures NoTripleNewline(r)
  {
    forall i | 0 <= i && i + 2 < |r|
      ensures !(r[i] == '\n' && r[i + 1] == '\n' && r[i + 2] == '\n')
    {
      assert r[i] == s[j + i] && r[i + 1] == s[j + i + 1] && r[i + 2] == s[j + i + 2];
    }
  }

  // ---------------------------------------------------------------------------
  // Cleaning the reply

  const Start := "RECOMMENDATION_START"
  const End := "RECOMMENDATION_END"
  const FormatOpen := "When recommending books, use the following format"
  const FormatClose := "recommendations for display."

  /** `_clean_response_text`: the tagged blocks and any echoed format
      instructions removed, newline runs collapsed, and the ends stripped. */
  function CleanResponse(text: string): (r: string)
    ensures NoTripleNewline(r)
    ensures NoEdgeSpace(r)
    ensures |r| <= |text|
  {
    var collapsed := CollapseNewlines(RemoveEnclosed(RemoveEnclosed(text, Start, End), FormatOpen, FormatClose));
    CollapseLength(RemoveEnclosed(RemoveEnclosed(text, Start, End), FormatOpen, FormatClose));
    var r := Strip(collapsed);
    var j :| OccursAt(collapsed, r, j);
    NoTripleOccurs(collapsed, r, j);
    r
  }

  lemma {:induction false} CollapseLength(s: string)
    ensures |CollapseNewlines(s)| <= |s|
    decreases |s|
  {
    if s != [] {
      if s[0] != '\n' { CollapseLength(s[1..]); }
      else { CollapseLength(s[NewlineRun(s)..]); }
    }
  }

  /** A reply without tags, echoed instructions or triple newlines is only stripped. */
  lemma CleanPlainReply(text: string)
    requires !Contains(text, Start) && !Contains(text, FormatOpen) && NoTripleNewline(text)
    ensures CleanResponse(text) == Strip(text)
  {
    CollapseNoTriple(text);
  }

  // ---------------------------------------------------------------------------
  // Field lines

  predicate NoNewline(s: string)
  {
    forall k :: 0 <= k < |s| ==> s[k] != '\n'
  }

  /** The index of the first `c` in `t`, or `|t|` when there is none. */
  function FirstIndex(t: string, c: char): (n: nat)
    ensures n <= |t|
    ensures forall k :: 0 <= k < n ==> t[k] != c
    ensures n < |t| ==> t[n] == c
  {
    if |t| == 0 || t[0] == c then 0 else 1 + FirstIndex(t[1..], c)
  }

  /** A piece of a text without newlines has none either. */
  lemma NoNewlineOccurs(s: string, r: string, j: nat)
    requires OccursAt(s, r, j) && NoNewline(s)
    ensures NoNewline(r)
  {
    forall k | 0 <= k < |r| ensures r[k] != '\n' {
      assert r[k] == s[j + k];
    }
  }

  /** Stripping a line keeps it a line. */
  lemma StripLine(v: string)
    requires NoNewline(v)
    ensures NoNewline(Strip(v))
  {
    var j :| OccursAt(v, Strip(v), j);
    NoNewlineOccurs(v, Strip(v), j);
  }

  /** `re.search(key + r"\s*(.*?)(?:\n|$)", s, re.IGNORECASE)` for a
      lower-case `key`: the captured value and the position just after the
      match. */
  function FieldMatch(s: string, key: string): (r: Option<(string, nat)>)
    requires |key| > 0
    ensures r.Some? <==> Contains(Lower(s), key)
    ensures r.Some? ==> NoNewline(r.value.0) && 0 < r.value.1 <= |s|
  {
    match IndexOf(Lower(s), key)
    case None => None
    case Some(i) => Some(LineAfter(s, i + |key|))
  }

  /** The text after position `from`: the whitespace run is skipped (it may
      cross newlines), then the lazy group stops at the first newline, which
      the match consumes.  Returns the value and the position after it. */
  function LineAfter(s: string, from: nat): (r: (string, nat))
    requires 0 < from <= |s|
    ensures NoNewline(r.0)
    ensures from <= r.1 <= |s|
  {
    var u := s[from..];
    var t := TrimStart(u);
    var n := FirstIndex(t, '\n');
    BeforeNewline(t, n);
    (t[..n], if n < |t| then |s| - |t| + n + 1 else |s|)
  }

  lemma BeforeNewline(t: string, n: nat)
    requires n <= |t| && forall k :: 0 <= k < n ==> t[k] != '\n'
    ensures NoNewline(t[..n])
  {
    forall k | 0 <= k < n ensures t[..n][k] != '\n' {
      assert t[..n][k] == t[k];
    }
  }

  /** Every value is a single line. */
  predicate Lines(values: seq<string>)
  {
    forall k :: 0 <= k < |values| ==> NoNewline(values[k])
  }

  lemma LinesCons(v: string, rest: seq<string>)
    requires NoNewline(v) && Lines(rest)
    ensures Lines([v] + rest)
  {
    forall k | 0 < k < |[v] + rest| ensures NoNewline(([v] + rest)[k]) {
      assert ([v] + rest)[k] == rest[k - 1];
    }
  }

  /** `re.findall` of the same pattern with `re.MULTILINE`: every captured
      value, left to right. */
  function FindAll(s: string, key: string): (r: seq<string>)
    requires |key| > 0
    ensures Lines(r)
    ensures r == [] <==> !Contains(Lower(s), key)
    decreases |s|
  {
    match FieldMatch(s, key)
    case None => []
    case Some((v, e)) =>
      var rest := FindAll(s[e..], key);
      LinesCons(v, rest);
      [v] + rest
  }

  /** The stripped value after `key` (a field name and its colon) in
      `block`, when `key` occurs in it ignoring case. */
  function FieldValue(block: string, key: string): (r: Option<string>)
    requires |key| > 0
    ensures r.Some? <==> Contains(Lower(block), key)
    ensures IsLine(r)
  {
    match FieldMatch(block, key)
    case None => None
    case Some((v, _)) => StripLine(v); Some(Strip(v))
  }

  /** A present value is a single line without surrounding whitespace. */
  predicate IsLine(v: Option<string>)
  {
    v.Some? ==> NoNewline(v.value) && NoEdgeSpace(v.value)
  }

  /** A parsed recommendation: the dictionary with keys title, author,
      category, rating, book_id, cover_url and reason, each present or not. */
  datatype Entry = Entry(
    title: Option<string>,
    author: Option<string>,
    category: Option<string>,
    rating: Option<string>,
    bookId: Option<string>,
    coverUrl: Option<string>,
    reason: Option<string>)
  {
    /** Every present value is a stripped line. */
    predicate WellFormed()
    {
      IsLine(title) && IsLine(author) && IsLine(category) && IsLine(rating)
      && IsLine(bookId) && IsLine(coverUrl) && IsLine(reason)
    }

    /** The dictionary is empty. */
    predicate Empty()
    {
      title.None? && author.None? && category.None? && rating.None?
      && bookId.None? && coverUrl.None? && reason.None?
    }

    /** All seven keys are present. */
    predicate Complete()
    {
      title.Some? && author.Some? && category.Some? && rating.Some?
      && bookId.Some? && coverUrl.Some? && reason.Some?
    }
  }

  /** The seven search keys, a field name and its colon each; a parameter
      so that the parser's proofs do not depend on their spelling. */
  datatype Keys = Keys(
    title: string, author: string, category: string, rating: string,
    bookId: string, coverUrl: string, reason: string)
  {
    predicate Valid()
    {
      |title| > 0 && |author| > 0 && |category| > 0 && |rating| > 0
      && |bookId| > 0 && |coverUrl| > 0 && |reason| > 0
    }
  }

  const FieldKeys := Keys("title:", "author:", "category:", "rating:", "book_id:", "cover_url:", "reason:")

  /** The fields one tagged block yields: a key is present exactly when it
      occurs in the block, ignoring case. */
  function BlockEntry(block: string, keys: Keys): (r: Entry)
    requires keys.Valid()
    ensures r.WellFormed()
    ensures r.title.Some? <==> Contains(Lower(block), keys.title)
    ensures r.bookId.Some? <==> Contains(Lower(block), keys.bookId)
  {
    Entry(FieldValue(block, keys.title), FieldValue(block, keys.author), FieldValue(block, keys.category),
      FieldValue(block, keys.rating), FieldValue(block, keys.bookId), FieldValue(block, keys.coverUrl),
      FieldValue(block, keys.reason))
  }

  /** Each block parsed on its own, in order. */
  function ParseBlocks(blocks: seq<string>, keys: Keys): (r: seq<Entry>)
    requires keys.Valid()
    ensures |r| == |blocks|
    ensures forall k :: 0 <= k < |r| ==> r[k].WellFormed()
  {
    if blocks == [] then [] else [BlockEntry(blocks[0], keys)] + ParseBlocks(blocks[1..], keys)
  }

  lemma {:induction false} ParseBlocksConcat(a: seq<string>, b: seq<string>, keys: Keys)
    requires keys.Valid()
    ensures ParseBlocks(a + b, keys) == ParseBlocks(a, keys) + ParseBlocks(b, keys)
    decreases |a|
  {
    if a == [] {
      assert a + b == b;
    } else {
      assert (a + b)[0] == a[0] && (a + b)[1..] == a[1..] + b;
      ParseBlocksConcat(a[1..], b, keys);
    }
  }

  /** The entries that hold at least one field, in order. */
  function NonEmpty(es: seq<Entry>): (r: seq<Entry>)
    ensures |r| <= |es|
    ensures forall k :: 0 <= k < |r| ==> !r[k].Empty()
    ensures (forall k :: 0 <= k < |es| ==> es[k].WellFormed()) ==> forall k :: 0 <= k < |r| ==> r[k].WellFormed()
  {
    if es == [] then []
    else if es[0].Empty() then NonEmpty(es[1..])
    else [es[0]] + NonEmpty(es[1..])
  }

  lemma {:induction false} NonEmptyConcat(a: seq<Entry>, b: seq<Entry>)
    ensures NonEmpty(a + b) == NonEmpty(a) + NonEmpty(b)
    decreases |a|
  {
    if a == [] {
      assert a + b == b;
    } else {
      assert (a + b)[0] == a[0] && (a + b)[1..] == a[1..] + b;
      NonEmptyConcat(a[1..], b);
    }
  }

  /** The entries of the tagged blocks, in block order, skipping blocks that
      yield no field. */
  function BlockEntries(blocks: seq<string>, keys: Keys): (r: seq<Entry>)
    requires keys.Valid()
    ensures |r| <= |blocks|
    ensures forall k :: 0 <= k < |r| ==> r[k].WellFormed() && !r[k].Empty()
  {
    NonEmpty(ParseBlocks(blocks, keys))
  }

  /** Blocks are parsed one by one: the entries of consecutive runs of blocks
      are concatenated in order. */
  lemma BlockEntriesConcat(a: seq<string>, b: seq<string>, keys: Keys)
    requires keys.Valid()
    ensures BlockEntries(a + b, keys) == BlockEntries(a, keys) + BlockEntries(b, keys)
  {
    ParseBlocksConcat(a, b, keys);
    NonEmptyConcat(ParseBlocks(a, keys), ParseBlocks(b, keys));
  }

  /** The seven value lists of the loose parse. */
  datatype Lists = Lists(
    titles: seq<string>, authors: seq<string>, categories: seq<string>, ratings: seq<string>,
    bookIds: seq<string>, coverUrls: seq<string>, reasons: seq<string>)
  {
    /** `min` of the seven lengths. */
    function Count(): (n: nat)
      ensures n <= |titles| && n <= |authors| && n <= |categories| && n <= |ratings|
      ensures n <= |bookIds| && n <= |coverUrls| && n <= |reasons|
      ensures n == |titles| || n == |authors| || n == |categories| || n == |ratings|
        || n == |bookIds| || n == |coverUrls| || n == |reasons|
    {
      Min(Min(Min(|titles|, |authors|), Min(|categories|, |ratings|)),
        Min(Min(|bookIds|, |coverUrls|), |reasons|))
    }

    /** Every listed value is a stripped line. */
    predicate Lines()
    {
      StrippedLines(titles) && StrippedLines(authors) && StrippedLines(categories) && StrippedLines(ratings)
      && StrippedLines(bookIds) && StrippedLines(coverUrls) && StrippedLines(reasons)
    }
  }

  /** The seven `findall` lists of a reply, each value stripped. */
  function LooseLists(text: string, keys: Keys): (l: Lists)
    requires keys.Valid()
    ensures l.Lines()
  {
    Lists(StripValues(FindAll(text, keys.title)), StripValues(FindAll(text, keys.author)),
      StripValues(FindAll(text, keys.category)), StripValues(FindAll(text, keys.rating)),
      StripValues(FindAll(text, keys.bookId)), StripValues(FindAll(text, keys.coverUrl)),
      StripValues(FindAll(text, keys.reason)))
  }

  /** Every value is a stripped line. */
  predicate StrippedLines(values: seq<string>)
  {
    forall k :: 0 <= k < |values| ==> NoNewline(values[k]) && NoEdgeSpace(values[k])
  }

  /** `v.strip()` for every captured value. */
  function StripValues(values: seq<string>): (r: seq<string>)
    requires Lines(values)
    ensures |r| == |values|
    ensures StrippedLines(r)
  {
    var r := seq(|values|, k requires 0 <= k < |values| => Strip(values[k]));
    StripLines(values, r);
    r
  }

  lemma StripLines(values: seq<string>, r: seq<string>)
    requires Lines(values)
    requires |r| == |values| && forall k :: 0 <= k < |r| ==> r[k] == Strip(values[k])
    ensures StrippedLines(r)
  {
    forall k | 0 <= k < |r| ensures NoNewline(r[k]) {
      StripLine(values[k]);
    }
  }

  /** The loose parse: the i-th values of the seven lists, stripped, for
      every i below the shortest list's length. */
  function LooseEntries(text: string, keys: Keys): (r: seq<Entry>)
    requires keys.Valid()
    ensures |r| == LooseLists(text, keys).Count()
    ensures forall i :: 0 <= i < |r| ==> r[i].WellFormed() && r[i].Complete()
  {
    LooseFrom(LooseLists(text, keys), 0)
  }

  /** The zipped entries from index `i` on. */
  function LooseFrom(l: Lists, i: nat): (r: seq<Entry>)
    requires i <= l.Count() && l.Lines()
    ensures |r| == l.Count() - i
    ensures forall k :: 0 <= k < |r| ==> r[k].WellFormed() && r[k].Complete()
    decreases l.Count() - i
  {
    if i == l.Count() then []
    else
      [Entry(Some(l.titles[i]), Some(l.authors[i]), Some(l.categories[i]), Some(l.ratings[i]),
        Some(l.bookIds[i]), Some(l.coverUrls[i]), Some(l.reasons[i]))]
      + LooseFrom(l, i + 1)
  }

  /** `_extract_book_recommendations`: one entry per tagged block that yields
      a field; without tagged blocks but with a `title:` somewhere, the loose
      parse; otherwise nothing. */
  function ExtractRecommendations(text: string, keys: Keys): (r: seq<Entry>)
    requires keys.Valid()
    ensures forall k :: 0 <= k < |r| ==> r[k].WellFormed()
    ensures Enclosed(text, Start, End) != [] ==> r == BlockEntries(Enclosed(text, Start, End), keys)
    ensures Enclosed(text, Start, End) == [] && Contains(Lower(text), keys.title) ==>
      |r| == LooseLists(text, keys).Count() && forall k :: 0 <= k < |r| ==> r[k].Complete()
    ensures Enclosed(text, Start, End) == [] && !Contains(Lower(text), keys.title) ==> r == []
  {
    var blocks := Enclosed(text, Start, End);
    if blocks == [] && Contains(Lower(text), keys.title) then LooseEntries(text, keys)
    else BlockEntries(blocks, keys)
  }

  // ---------------------------------------------------------------------------
  // Validating the proposals

  predicate NoChar(s: string, c: char)
  {
    forall k :: 0 <= k < |s| ==> s[k] != c
  }

  /** Where the line ending at position `k` starts: just after the last
      newline before `k`, or 0. */
  function LineStart(s: string, k: nat): (r: nat)
    requires k <= |s|
    ensures r <= k
    ensures forall p :: r <= p < k ==> s[p] != '\n'
    ensures r > 0 ==> s[r - 1] == '\n'
  {
    if k == 0 || s[k - 1] == '\n' then k else LineStart(s, k - 1)
  }

  /** `re.sub(r'#.*$', '', s)`.  `.` stops at a newline and `$` matches only
      at the end or before a final newline, so the only comment removed is
      the one on the last line: from its first `#` to the end of that line.
      On a single line this cuts everything from the first `#`. */
  function CutComment(s: string): (r: string)
    ensures |r| <= |s|
    ensures NoNewline(s) ==> r == s[..|r|] && NoChar(r, '#')
    ensures NoNewline(s) && |r| < |s| ==> s[|r|] == '#'
  {
    var last := if |s| > 0 && s[|s| - 1] == '\n' then |s| - 1 else |s|;
    var start := LineStart(s, last);
    var j := FirstIndex(s[start..last], '#');
    if start + j == last then s else s[..start + j] + s[last..]
  }

  /** A recommendation as the service returns it. */
  datatype Recommendation = Recommendation(
    title: string,
    author: string,
    category: string,
    rating: real,
    bookId: int,
    coverUrl: string,
    reason: string)

  /** The texts the validator substitutes for absent fields; a parameter so
      that the proofs do not depend on their spelling. */
  datatype Defaults = Defaults(
    title: string, author: string, category: string, rating: string,
    bookId: string, coverUrl: string, reason: string, fallbackReason: string)

  const EntryDefaults := Defaults("Unknown Title", "Unknown Author", "Uncategorized", "0", "0",
    "/default_cover.jpg", "Recommended based on your interests", "This book matches your interests")

  /** The validator's coercions: `int(re.sub(r'#.*$', '', s).strip())` for
      ids and `float(...)` of the same text for ratings, `None` where the
      conversion raises, and the plain `int(s)` applied to string ids of
      the retrieved documents.  They are parameters here; `Coercions` builds
      the service's own from `float()`. */
  datatype Coerce = Coerce(id: string -> Option<int>, rating: string -> Option<real>, toInt: string -> Option<int>)

  function Coercions(parseFloat: string -> Option<real>): Coerce
  {
    Coerce(s => PyInt(Strip(CutComment(s))), s => parseFloat(Strip(CutComment(s))), PyInt)
  }

  /** The id an entry names: its `book_id` text (the default when absent)
      coerced. */
  function EntryId(e: Entry, d: Defaults, c: Coerce): Option<int>
  {
    c.id(e.bookId.GetOr(d.bookId))
  }

  /** The book exists, and it was retrieved when any ids were retrieved. */
  predicate Accepted(db: Db, validIds: seq<int>, id: int)
  {
    Lookup(db.books, BookId, id).Some? && (validIds == [] || id in validIds)
  }

  /** One entry through `_validate_book_recommendations`: kept exactly when
      its id parses and is accepted; absent texts take their defaults, and a
      rating `float()` refuses becomes the book's own rating. */
  function ValidateEntry(db: Db, validIds: seq<int>, c: Coerce, d: Defaults, e: Entry): (r: Option<Recommendation>)
    ensures r.Some? <==> EntryId(e, d, c).Some? && Accepted(db, validIds, EntryId(e, d, c).value)
    ensures r.Some? ==> r.value.bookId == EntryId(e, d, c).value
  {
    match EntryId(e, d, c)
    case None => None
    case Some(id) =>
      match Lookup(db.books, BookId, id)
      case None => None
      case Some(b) =>
        if validIds != [] && id !in validIds then None
        else
          var rating := c.rating(e.rating.GetOr(d.rating)).GetOr(b.rating);
          Some(Recommendation(e.title.GetOr(d.title), e.author.GetOr(d.author), e.category.GetOr(d.category),
            rating, id, e.coverUrl.GetOr(d.coverUrl), e.reason.GetOr(d.reason)))
  }

  /** `_validate_book_recommendations`: the kept entries, in order. */
  function ValidateAll(db: Db, validIds: seq<int>, c: Coerce, d: Defaults, es: seq<Entry>): (r: seq<Recommendation>)
    ensures |r| <= |es|
    ensures forall k :: 0 <= k < |r| ==> Accepted(db, validIds, r[k].bookId)
  {
    if es == [] then []
    else
      var rest := ValidateAll(db, validIds, c, d, es[1..]);
      match ValidateEntry(db, validIds, c, d, es[0])
      case None => rest
      case Some(v) => [v] + rest
  }

  /** Entries are validated one by one and in order. */
  lemma {:induction false} ValidateAllConcat(db: Db, validIds: seq<int>, c: Coerce, d: Defaults, a: seq<Entry>, b: seq<Entry>)
    ensures ValidateAll(db, validIds, c, d, a + b) == ValidateAll(db, validIds, c, d, a) + ValidateAll(db, validIds, c, d, b)
    decreases |a|
  {
    if a == [] {
      assert a + b == b;
    } else {
      assert (a + b)[0] == a[0] && (a + b)[1..] == a[1..] + b;
      ValidateAllConcat(db, validIds, c, d, a[1..], b);
    }
  }

  /** Nothing survives validation exactly when no entry names an accepted book. */
  lemma {:induction false} ValidateAllEmpty(db: Db, validIds: seq<int>, c: Coerce, d: Defaults, es: seq<Entry>)
    ensures ValidateAll(db, validIds, c, d, es) == [] <==>
      forall k :: 0 <= k < |es| ==> !(EntryId(es[k], d, c).Some? && Accepted(db, validIds, EntryId(es[k], d, c).value))
    decreases |es|
  {
    if es != [] {
      ValidateAllEmpty(db, validIds, c, d, es[1..]);
      assert forall k :: 1 <= k < |es| ==> es[k] == es[1..][k - 1];
    }
  }

  // ---------------------------------------------------------------------------
  // The fallback list

  /** A fallback recommendation for a retrieved book: `x or default` for each
      text, names joined with ", ". */
  function FallbackEntry(b: Book, id: int, d: Defaults): (r: Recommendation)
    ensures r.bookId == id && r.rating == b.rating
  {
    Recommendation(
      if b.title == "" then d.title else b.title,
      if b.authors == [] then d.author else Join(b.authors, ", "),
      if b.categories == [] then d.category else Join(b.categories, ", "),
      b.rating, id,
      if b.coverUrl == "" then d.coverUrl else b.coverUrl,
      d.fallbackReason)
  }

  /** Some recommendation names `id`. */
  predicate Names(r: seq<Recommendation>, id: int)
  {
    exists k :: 0 <= k < |r| && r[k].bookId == id
  }

  /** No two recommendations name the same book. */
  predicate DistinctIds(r: seq<Recommendation>)
  {
    forall j, k :: 0 <= j < k < |r| ==> r[j].bookId != r[k].bookId
  }

  /** The loop over `ids`: an id not yet found whose book exists is added
      and marked found. */
  function FallbackFrom(db: Db, ids: seq<int>, found: set<int>, d: Defaults): (r: seq<Recommendation>)
    ensures |r| <= |ids|
    ensures DistinctIds(r)
    ensures forall k :: 0 <= k < |r| ==> r[k].bookId in ids && r[k].bookId !in found
    ensures forall id :: Names(r, id) <==> id in ids && id !in found && Lookup(db.books, BookId, id).Some?
    decreases |ids|
  {
    if ids == [] then []
    else
      var id := ids[0];
      if id in found then FallbackFrom(db, ids[1..], found, d)
      else match Lookup(db.books, BookId, id)
        case None => FallbackFrom(db, ids[1..], found, d)
        case Some(b) =>
          var rest := FallbackFrom(db, ids[1..], found + {id}, d);
          var e := FallbackEntry(b, id, d);
          FallbackCons(e, rest, ids, found);
          [e] + rest
  }

  /** Putting the entry of the first id in front of the entries of the
      others keeps the ids distinct and adds exactly that id. */
  lemma FallbackCons(e: Recommendation, rest: seq<Recommendation>, ids: seq<int>, found: set<int>)
    requires |ids| > 0 && e.bookId == ids[0] && ids[0] !in found
    requires DistinctIds(rest)
    requires forall k :: 0 <= k < |rest| ==> rest[k].bookId in ids[1..] && rest[k].bookId !in found + {ids[0]}
    ensures DistinctIds([e] + rest)
    ensures forall k :: 0 <= k < |[e] + rest| ==> ([e] + rest)[k].bookId in ids && ([e] + rest)[k].bookId !in found
    ensures forall x :: Names([e] + rest, x) <==> x == ids[0] || Names(rest, x)
  {
    var r := [e] + rest;
    assert forall k :: 1 <= k < |r| ==> r[k] == rest[k - 1];
    forall x | Names(r, x) && x != ids[0] ensures Names(rest, x) {
      var k :| 0 <= k < |r| && r[k].bookId == x;
      assert rest[k - 1].bookId == x;
    }
    forall x | Names(rest, x) ensures Names(r, x) {
      var k :| 0 <= k < |rest| && rest[k].bookId == x;
      assert r[k + 1].bookId == x;
    }
    assert r[0].bookId == ids[0];
  }

  /** The reply promises recommendations. */
  predicate Promises(clean: string)
  {
    Contains(Lower(clean), "recommend") || Contains(Lower(clean), "here are")
  }

  /** The fallback of `get_chatbot_response`: when the cleaned reply promises
      recommendations, none was validated and some ids were retrieved, the
      existing books among the first three retrieved ids replace the empty
      list. */
  function WithFallback(db: Db, d: Defaults, clean: string, validated: seq<Recommendation>, validIds: seq<int>): (r: seq<Recommendation>)
    ensures r == validated || (validated == [] && Promises(clean) && |r| <= 3 && DistinctIds(r))
    ensures r != validated ==> forall k :: 0 <= k < |r| ==> r[k].bookId in Take(validIds, 3) && Accepted(db, validIds, r[k].bookId)
    ensures validated == [] && Promises(clean) ==> forall id :: id in Take(validIds, 3) && Lookup(db.books, BookId, id).Some? ==> Names(r, id)
  {
    if Promises(clean) && validated == [] && validIds != [] then
      var fallback := FallbackFrom(db, Take(validIds, 3), {}, d);
      assert forall id :: id in Take(validIds, 3) ==> id in validIds;
      if fallback != [] then fallback else validated
    else validated
  }

  // ---------------------------------------------------------------------------
  // The assistant's name and the canned replies

  /** A text in each language the service answers in. */
  datatype Phrase<T> = Phrase(en: T, fr: T, ar: T)
  {
    /** `texts.get(language, texts["en"])`: French and Arabic by their
        codes, English for every other language. */
    function In(language: string): T
    {
      if language == "fr" then fr else if language == "ar" then ar else en
    }
  }

  const Ayo := "AYO+"

  /** The fixed texts of the reply filters.  Every canned reply is built
      around the assistant's name: the off-topic reply is
      `offTopicLead + AYO+ + offTopicTail`, the identity prefix
      `intro + AYO+ + role`, and the name reply that prefix followed by
      `offer`.  The self-introductions the name check accepts are
      `intro + AYO+` and `lead + AYO+` for each of `otherLeads`.  The
      keyword lists are matched against lower-cased text. */
  datatype Texts = Texts(
    offTopicLead: Phrase<string>, offTopicTail: Phrase<string>,
    intro: Phrase<string>, role: Phrase<string>, offer: Phrase<string>,
    otherLeads: Phrase<seq<string>>,
    offTopicWords: seq<string>, nameQuestions: seq<string>, identityWords: seq<string>,
    apology: string)

  const ServiceTexts := Texts(
    Phrase("I'm ", "Je suis ", "أنا "),
    Phrase(
      ", and I can only help with questions about our library collection, book recommendations, or library services. Please ask me about our books, authors, or how I can help you find reading materials.",
      ", et je ne peux répondre qu'aux questions concernant notre collection de bibliothèque, les recommandations de livres ou les services de bibliothèque. Veuillez me poser des questions sur nos livres, nos auteurs ou comment je peux vous aider à trouver des documents de lecture.",
      "، ويمكنني فقط المساعدة في الأسئلة المتعلقة بمجموعة مكتبتنا، أو توصيات الكتب، أو خدمات المكتبة. يرجى طرح أسئلة حول كتبنا، أو المؤلفين، أو كيف يمكنني مساعدتك في العثور على مواد القراءة."),
    Phrase("I am ", "Je suis ", "أنا "),
    Phrase(", your library assistant. ", ", votre assistant de bibliothèque. ", "، مساعد المكتبة الخاص بك. "),
    Phrase(
      "I can help you find books, authors, and answer questions about our library services.",
      "Je peux vous aider à trouver des livres, des auteurs et répondre aux questions sur les services de notre bibliothèque.",
      "يمكنني مساعدتك في العثور على الكتب والمؤلفين والإجابة على الأسئلة حول خدمات مكتبتنا."),
    Phrase(["my name is ", "I'm "], ["Mon nom est "], ["اسمي "]),
    ["weather", "politics", "sports", "movie", "film", "tv show", "television",
     "news", "music", "song", "restaurant", "recipe", "food", "diet", "exercise",
     "workout", "game", "travel", "stock", "investment", "crypto"],
    ["who are you", "what's your name", "what is your name", "your name", "chatbot name"],
    ["your name", "who are you", "call you", "what are you"],
    "I'm sorry, I encountered an error while processing your request. Please try again.")

  /** A text contains whatever is spliced into its middle. */
  lemma ContainsMiddle(a: string, b: string, c: string)
    ensures Contains(a + b + c, b)
  {
    assert (a + b + c)[|a|..|a| + |b|] == b;
    ContainsAt(a + b + c, b, |a|);
  }

  /** Some word of the list occurs in `s`. */
  predicate AnyIn(s: string, words: seq<string>)
  {
    exists k :: 0 <= k < |words| && Contains(s, words[k])
  }

  /** Each lead followed by the name. */
  function Suffixed(leads: seq<string>, name: string): (r: seq<string>)
    ensures |r| == |leads|
    ensures forall k :: 0 <= k < |r| ==> r[k] == leads[k] + name
  {
    if leads == [] then [] else [leads[0] + name] + Suffixed(leads[1..], name)
  }

  /** The self-introductions the name check accepts in `language`; each
      one names the assistant. */
  function NameMentions(t: Texts, language: string): (r: seq<string>)
    ensures |r| > 0 && r[0] == t.intro.In(language) + Ayo
    ensures forall k :: 0 <= k < |r| ==> Contains(r[k], Ayo)
  {
    var r := [t.intro.In(language) + Ayo] + Suffixed(t.otherLeads.In(language), Ayo);
    forall k | 0 <= k < |r| ensures Contains(r[k], Ayo) {
      ContainsMiddle(if k == 0 then t.intro.In(language) else t.otherLeads.In(language)[k - 1], Ayo, "");
      assert r[k] + "" == r[k];
    }
    r
  }

  /** The reply talks about something other than the library. */
  predicate OffTopic(t: Texts, response: string)
  {
    AnyIn(Lower(response), t.offTopicWords)
  }

  /** The reply talks about the assistant's name. */
  predicate AsksName(t: Texts, response: string)
  {
    AnyIn(Lower(response), t.nameQuestions)
  }

  /** The reply introduces the assistant as the language's name check wants. */
  predicate Introduces(t: Texts, response: string, language: string)
  {
    AnyIn(response, NameMentions(t, language))
  }

  /** The user's message asks who the assistant is. */
  predicate AsksIdentity(t: Texts, message: string)
  {
    AnyIn(Lower(message), t.identityWords)
  }

  /** The canned off-topic reply of `language`; it names the assistant. */
  function OffTopicReply(t: Texts, language: string): (r: string)
    ensures Contains(r, Ayo)
  {
    ContainsMiddle(t.offTopicLead.In(language), Ayo, t.offTopicTail.In(language));
    t.offTopicLead.In(language) + Ayo + t.offTopicTail.In(language)
  }

  /** The prefix that makes a reply name the assistant. */
  function IdentityPrefix(t: Texts, language: string): (r: string)
    ensures Contains(r, Ayo)
  {
    ContainsMiddle(t.intro.In(language), Ayo, t.role.In(language));
    t.intro.In(language) + Ayo + t.role.In(language)
  }

  /** The canned answer to a name question: it passes the language's own
      name check. */
  function NameReply(t: Texts, language: string): (r: string)
    ensures Introduces(t, r, language)
    ensures Contains(r, Ayo)
  {
    var mention := t.intro.In(language) + Ayo;
    var r := mention + (t.role.In(language) + t.offer.In(language));
    assert r == t.intro.In(language) + Ayo + t.role.In(language) + t.offer.In(language);
    ContainsMiddle([], mention, t.role.In(language) + t.offer.In(language));
    assert [] + mention + (t.role.In(language) + t.offer.In(language)) == r;
    assert NameMentions(t, language)[0] == mention;
    ContainsMiddle(t.intro.In(language), Ayo, t.role.In(language) + t.offer.In(language));
    r
  }

  // ---------------------------------------------------------------------------
  // Retrieved documents

  /** A metadata value: the index stores book ids as integers or as text. */
  datatype MetaValue = IntValue(n: int) | StrValue(s: string)

  type Metadata = map<string, MetaValue>

  const BookIdKey := "book_id"

  /** The `book_id` values of the documents that carry one, in retrieval
      order and as stored. */
  function DocIds(docs: seq<Metadata>): (r: seq<MetaValue>)
    ensures |r| <= |docs|
    ensures forall v :: v in r <==> exists k :: 0 <= k < |docs| && BookIdKey in docs[k] && docs[k][BookIdKey] == v
  {
    if docs == [] then []
    else
      var rest := DocIds(docs[1..]);
      assert forall k :: 1 <= k < |docs| ==> docs[k] == docs[1..][k - 1];
      if BookIdKey in docs[0] then [docs[0][BookIdKey]] + rest else rest
  }

  /** An id as `get_chatbot_response` reads it: an integer as is, a text
      through `int()`, anything `int()` refuses skipped. */
  function AsId(v: MetaValue, toInt: string -> Option<int>): Option<int>
  {
    match v
    case IntValue(n) => Some(n)
    case StrValue(s) => toInt(s)
  }

  /** The valid ids of `get_chatbot_response`: the documents' ids converted
      to integers, in retrieval order. */
  function ValidIds(docs: seq<Metadata>, toInt: string -> Option<int>): (r: seq<int>)
    ensures |r| <= |docs|
    ensures forall n :: n in r <==> exists k :: 0 <= k < |docs| && BookIdKey in docs[k] && AsId(docs[k][BookIdKey], toInt) == Some(n)
  {
    if docs == [] then []
    else
      var rest := ValidIds(docs[1..], toInt);
      assert forall k :: 1 <= k < |docs| ==> docs[k] == docs[1..][k - 1];
      if BookIdKey in docs[0] && AsId(docs[0][BookIdKey], toInt).Some? then
        [AsId(docs[0][BookIdKey], toInt).value] + rest
      else rest
  }

  /** An integer id stored as such is valid for both readers; a text id is
      valid for `get_chatbot_response` only, since the reply filter compares
      it with integer ids unconverted. */
  lemma {:induction false} IntIdsAgree(docs: seq<Metadata>, toInt: string -> Option<int>, n: int)
    ensures IntValue(n) in DocIds(docs) ==> n in ValidIds(docs, toInt)
    decreases |docs|
  {
    if docs != [] {
      IntIdsAgree(docs[1..], toInt, n);
    }
  }

  // ---------------------------------------------------------------------------
  // _validate_and_filter_response

  /** The reply filter of the conversation graph: recommendations whose id
      is among the retrieved documents' ids (compared as stored) are kept in
      order; an off-topic reply is replaced by the canned one; a reply that
      talks about the assistant's name without introducing it is replaced
      by the name reply. */
  function FilterResponse<R(==, !new)>(t: Texts, response: string, recs: seq<R>, idOf: R -> MetaValue,
      docs: seq<Metadata>, language: string): (r: (string, seq<R>))
    ensures forall x :: x in r.1 <==> x in recs && idOf(x) in DocIds(docs)
    ensures Subseq(r.1, recs)
    ensures OffTopic(t, response) ==> r.0 == OffTopicReply(t, language)
    ensures !OffTopic(t, response) && AsksName(t, response) ==> Introduces(t, r.0, language)
    ensures !OffTopic(t, response) && (!AsksName(t, response) || Introduces(t, response, language)) ==> r.0 == response
    ensures r.0 == response || Contains(r.0, Ayo)
  {
    var ids := DocIds(docs);
    var kept := Filter(recs, (x: R) => idOf(x) in ids);
    if OffTopic(t, response) then (OffTopicReply(t, language), kept)
    else if AsksName(t, response) && !Introduces(t, response, language) then (NameReply(t, language), kept)
    else (response, kept)
  }

  // ---------------------------------------------------------------------------
  // get_chatbot_response

  /** After a question about the assistant's identity, a reply that does
      not name the assistant gets the identity prefix of the language. */
  function WithIdentity(t: Texts, message: string, language: string, clean: string): (r: string)
    ensures AsksIdentity(t, message) ==> Contains(r, Ayo)
    ensures !AsksIdentity(t, message) || Contains(clean, Ayo) ==> r == clean
    ensures r == clean || r == IdentityPrefix(t, language) + clean
  {
    if AsksIdentity(t, message) && !Contains(clean, Ayo) then
      var p := IdentityPrefix(t, language);
      var i: nat :| OccursAt(p, Ayo, i);
      assert (p + clean)[i..i + |Ayo|] == p[i..i + |Ayo|];
      ContainsAt(p + clean, Ayo, i);
      p + clean
    else clean
  }

  /** The prefix is added at most once. */
  lemma WithIdentityOnce(t: Texts, message: string, language: string, clean: string)
    ensures WithIdentity(t, message, language, WithIdentity(t, message, language, clean))
      == WithIdentity(t, message, language, clean)
  {
  }

  /** `s` ends with `x`. */
  predicate EndsWith(s: string, x: string)
  {
    |x| <= |s| && s[|s| - |x|..] == x
  }

  /** The service's answer: its text and its recommendations. */
  datatype Reply = Reply(response: string, recommendations: seq<Recommendation>)

  /** `get_chatbot_response` with the model's reply given.  `context` is
      the retrieval (documents' metadata, or the failure that aborts it) and
      `llm` the model's reply or its failure; either failure answers the
      apology with no recommendations.  Otherwise the recommendations are
      extracted, validated against the catalog and the retrieved ids, and
      replaced by the fallback list when the cleaned reply promises
      recommendations and none survived; the text is the cleaned reply,
      prefixed after an identity question. */
  function ChatbotResponse(db: Db, t: Texts, keys: Keys, d: Defaults, c: Coerce,
      message: string, language: string, context: Result<seq<Metadata>>, llm: Result<string>): (r: Reply)
    requires keys.Valid()
    ensures context.Failure? || llm.Failure? ==> r == Reply(t.apology, [])
    ensures context.Success? && llm.Success? ==>
      var validIds := ValidIds(context.value, c.toInt);
      var validated := ValidateAll(db, validIds, c, d, ExtractRecommendations(llm.value, keys));
      && EndsWith(r.response, CleanResponse(llm.value))
      && (AsksIdentity(t, message) ==> Contains(r.response, Ayo))
      && (forall k :: 0 <= k < |r.recommendations| ==> Accepted(db, validIds, r.recommendations[k].bookId))
      && (r.recommendations == validated || (validated == [] && |r.recommendations| <= 3 && DistinctIds(r.recommendations)))
  {
    match (context, llm)
    case (Success(docs), Success(full)) =>
      var validIds := ValidIds(docs, c.toInt);
      Answer(db, t, d, message, language, validIds,
        ValidateAll(db, validIds, c, d, ExtractRecommendations(full, keys)), CleanResponse(full))
    case _ => Reply(t.apology, [])
  }

  /** The successful path once the recommendations are validated and the
      reply cleaned: the fallback list and the identity prefix. */
  function Answer(db: Db, t: Texts, d: Defaults, message: string, language: string,
      validIds: seq<int>, validated: seq<Recommendation>, clean: string): (r: Reply)
    requires forall k :: 0 <= k < |validated| ==> Accepted(db, validIds, validated[k].bookId)
    ensures EndsWith(r.response, clean)
    ensures AsksIdentity(t, message) ==> Contains(r.response, Ayo)
    ensures forall k :: 0 <= k < |r.recommendations| ==> Accepted(db, validIds, r.recommendations[k].bookId)
    ensures r.recommendations == validated || (validated == [] && |r.recommendations| <= 3 && DistinctIds(r.recommendations))
  {
    var recs := WithFallback(db, d, clean, validated, validIds);
    var response := WithIdentity(t, message, language, clean);
    assert response[|response| - |clean|..] == clean;
    Reply(response, recs)
  }

  /** The service's own field names meet the parser's precondition; it
      runs `ChatbotResponse` with `ServiceTexts`, `FieldKeys`,
      `EntryDefaults` and `Coercions(float)`. */
  lemma FieldKeysValid()
    ensures FieldKeys.Valid()
  {
  }

  // ---------------------------------------------------------------------------
  // Conversation memories

  /** The last activity of `user` lies more than `maxAgeHours` hours before `now`. */
  predicate Stale(last: map<int, real>, now: real, maxAgeHours: int, user: int)
    requires user in last
  {
    now - last[user] > (maxAgeHours * 3600) as real
  }

  /** `_cleanup_old_conversations`: every user whose last activity is stale
      loses both the activity entry and the memory; everything else stays. */
  function CleanupOld<M>(memories: map<int, M>, last: map<int, real>, now: real, maxAgeHours: int): (r: (map<int, M>, map<int, real>))
    ensures forall u :: u in r.1 <==> u in last && !Stale(last, now, maxAgeHours, u)
    ensures forall u :: u in r.0 <==> u in memories && !(u in last && Stale(last, now, maxAgeHours, u))
    ensures forall u :: u in r.0 ==> r.0[u] == memories[u]
    ensures forall u :: u in r.1 ==> r.1[u] == last[u]
  {
    var gone := set u | u in last && Stale(last, now, maxAgeHours, u);
    (memories - gone, last - gone)
  }

  /** A second cleanup at the same moment removes nothing more. */
  lemma CleanupOnce<M>(memories: map<int, M>, last: map<int, real>, now: real, maxAgeHours: int)
    ensures var (m, l) := CleanupOld(memories, last, now, maxAgeHours);
      CleanupOld(m, l, now, maxAgeHours) == (m, l)
  {
    var (m, l) := CleanupOld(memories, last, now, maxAgeHours);
    var (m2, l2) := CleanupOld(m, l, now, maxAgeHours);
    assert m2.Keys == m.Keys;
    assert forall u :: u in m2 ==> m2[u] == m[u];
    assert m2 == m;
    assert l2.Keys == l.Keys;
    assert forall u :: u in l2 ==> l2[u] == l[u];
    assert l2 == l;
  }

  /** `clear_conversation_memory`: the user's memory is gone, every other
      one stays, and the answer is always true. */
  function ClearMemory<M>(memories: map<int, M>, user: int): (r: (map<int, M>, bool))
    ensures r.1
    ensures forall u :: u in r.0 <==> u in memories && u != user
    ensures forall u :: u in r.0 ==> r.0[u] == memories[u]
  {
    (memories - {user}, true)
  }

  /** Clearing twice is clearing once. */
  lemma ClearMemoryOnce<M>(memories: map<int, M>, user: int)
    ensures ClearMemory(ClearMemory(memories, user).0, user) == ClearMemory(memories, user)
  {
    var once := ClearMemory(memories, user).0;
    var twice := ClearMemory(once, user).0;
    assert twice.Keys == once.Keys;
    assert forall u :: u in twice ==> twice[u] == once[u];
    assert twice == once;
  }
}

=== FILE: chat_user_tools.dfy ===
/** The agent's user-scoped tools in backend/app/services/ChatBot.py:
    `user_preferences`, `borrow_book`, `cancel_borrow_request`,
    `get_user_borrow_requests`, `feedback_submission` and
    `event_recommendations`.  Each acts only on the user id bound to the agent;
    with none bound (or the falsy id 0) it answers a login message and writes
    nothing.  Chat-message rows the tools store are kept in a log next to the
    database. */
module ChatUserTools {
  import opened Wrappers
  import opened Strs
  import opened Seqs
  import opened Library
  import opened Paging
  import RentalRequests
  import Notifications

  /** A `ChatMessage(user_id, message, response)` row written by a tool. */
  datatype Logged = Logged(userId: nat, message: string, response: string)

  datatype Agent = Agent(db: Db, log: seq<Logged>)

  /** A tool's answer text and the state after the call. */
  datatype Reply = Reply(agent: Agent, text: string)

  /** `if not self.user_id`. */
  predicate Bound(user: Option<nat>) { user.Some? && user.value != 0 }

  const NoUser := "No user associated with this chatbot. Please ensure you're logged in."
  const LoginToCancel := "You need to be logged in to cancel borrow requests."
  const LoginToView := "You need to be logged in to view your borrow requests."

  /** `UserService` has no `get_user_profile`, so every call to it raises
      AttributeError with this text. */
  const NoProfileMethod := "type object 'UserService' has no attribute 'get_user_profile'"

  /** Stores a notification for the user. */
  function Notify(s: Agent, userId: nat, kind: string, message: string, now: int): Agent
  {
    s.(db := Notifications.CreateNotification(s.db, userId, kind, message, now).0)
  }

  // ---------------------------------------------------------------------------
  // user_preferences

  /** `user_preferences`.  `preferences` is the JSON text of a non-empty
      dictionary, or `None` for a missing or empty one. */
  function UserPreferences(s: Agent, user: Option<nat>, action: string, preferences: Option<string>): (r: Reply)
    ensures !Bound(user) ==> r == Reply(s, NoUser)
    ensures r.agent != s ==>
      && Bound(user) && action == "set" && preferences.Some?
      && r.agent == s.(log := s.log + [Logged(user.value, "User updated preferences", preferences.value)])
      && r.text == "Preferences updated successfully."
    ensures Bound(user) && Lookup(s.db.users, UserId, user.value).Some? && action == "get" ==>
      r == Reply(s, "Error managing preferences: " + NoProfileMethod)
  {
    if !Bound(user) then Reply(s, NoUser)
    else if Lookup(s.db.users, UserId, user.value).None? then Reply(s, "User not found.")
    else if action == "get" then Reply(s, "Error managing preferences: " + NoProfileMethod)
    else if action == "set" && preferences.Some? then
      Reply(s.(log := s.log + [Logged(user.value, "User updated preferences", preferences.value)]),
            "Preferences updated successfully.")
    else Reply(s, "Invalid action or missing preferences.")
  }

  // ---------------------------------------------------------------------------
  // borrow_book

  const EmailCredentialsMissing := "Missing required EmailJS credentials"

  /** `borrow_book`.  `emailConfigured` says whether the EmailJS credentials
      are present; without them `EmailService()` raises after the request and
      its notification are stored, so the tool reports an error for a request
      that was in fact submitted. */
  function BorrowBook(s: Agent, user: Option<nat>, bookId: int, emailConfigured: bool, now: int): (r: Reply)
    ensures !Bound(user) ==> r == Reply(s, NoUser)
    ensures Bound(user) && RentalRequests.CreateRequest(s.db, user.value, bookId, now).Failure? ==>
      r == Reply(s, "Error: " + RentalRequests.CreateRequest(s.db, user.value, bookId, now).error)
    ensures Bound(user) && RentalRequests.CreateRequest(s.db, user.value, bookId, now).Success? ==>
      var o := RentalRequests.CreateRequest(s.db, user.value, bookId, now).value;
      && r.agent.log == s.log
      && r.agent.db.requests == s.db.requests + [o.request]
      && |r.agent.db.notifications| == |s.db.notifications| + 1
      && r.agent.db.notifications[|s.db.notifications|].userId == user.value
      && !r.agent.db.notifications[|s.db.notifications|].read
      && r.text == if emailConfigured then "Borrow request for book ID " + IntToString(bookId) + " submitted successfully."
                   else "Error: " + EmailCredentialsMissing
  {
    if !Bound(user) then Reply(s, NoUser)
    else match RentalRequests.CreateRequest(s.db, user.value, bookId, now)
      case Failure(e) => Reply(s, "Error: " + e)
      case Success(o) =>
        var title := Lookup(o.db.books, BookId, o.request.bookId).value.title;
        var s' := Notify(s.(db := o.db), user.value, "info", "Your request to borrow '" + title + "' has been submitted.", now);
        if !emailConfigured then Reply(s', "Error: " + EmailCredentialsMissing)
        else Reply(s', "Borrow request for book ID " + IntToString(bookId) + " submitted successfully.")
  }

  // ---------------------------------------------------------------------------
  // cancel_borrow_request

  /** `cancel_borrow_request`. */
  function CancelBorrowRequest(s: Agent, user: Option<nat>, requestId: int, now: int): (r: Reply)
    ensures !Bound(user) ==> r == Reply(s, LoginToCancel)
    ensures Bound(user) && RentalRequests.CancelRequest(s.db, requestId, user.value).Failure? ==>
      r == Reply(s, "Error: " + RentalRequests.CancelRequest(s.db, requestId, user.value).error)
    ensures Bound(user) && RentalRequests.CancelRequest(s.db, requestId, user.value).Success? ==>
      && r.agent.db.requests == RentalRequests.CancelRequest(s.db, requestId, user.value).value.requests
      && |r.agent.db.notifications| == |s.db.notifications| + 1
      && r.text == "Borrow request (ID: " + IntToString(requestId) + ") cancelled successfully."
  {
    if !Bound(user) then Reply(s, LoginToCancel)
    else match RentalRequests.CancelRequest(s.db, requestId, user.value)
      case Failure(e) => Reply(s, "Error: " + e)
      case Success(db') =>
        var msg := "Your borrow request (ID: " + IntToString(requestId) + ") has been cancelled successfully.";
        Reply(Notify(s.(db := db'), user.value, "info", msg, now),
              "Borrow request (ID: " + IntToString(requestId) + ") cancelled successfully.")
  }

  /** A user can cancel only their own requests: another user's pending
      request survives every cancellation attempt made through the tool. */
  lemma CancelOnlyOwn(s: Agent, user: Option<nat>, requestId: int, now: int, q: RentalRequest)
    requires q in s.db.requests && Bound(user) && q.userId != user.value
    requires UniqueKeys(s.db.requests, RequestId)
    ensures q in CancelBorrowRequest(s, user, requestId, now).agent.db.requests
  {
  }

  // ---------------------------------------------------------------------------
  // get_user_borrow_requests

  /** One formatted entry of the listing. */
  datatype RequestLine = RequestLine(requestId: nat, bookTitle: string, status: string, requestedAt: int)

  datatype Listing = Listing(requests: seq<RequestLine>, totalCount: nat, totalPages: int, currentPage: int)

  const ZeroDivision := "integer division or modulo by zero"
  const NoneSubscript := "'NoneType' object is not subscriptable"

  /** The requests of the page whose status text is `status` ("all" keeps every one). */
  function WithStatus(page: seq<RentalRequest>, status: string): (r: seq<RentalRequest>)
    ensures forall q :: q in r <==> q in page && (status != "all" ==> StatusName(q.status) == status)
  {
    if status == "all" then page else Filter(page, (q: RentalRequest) => StatusName(q.status) == status)
  }

  /** Formats the page; `None` when a request's book row is gone (its `book` is `None`). */
  function Lines(qs: seq<RentalRequest>, books: seq<Book>): (r: Option<seq<RequestLine>>)
    ensures r.Some? ==> |r.value| == |qs|
    ensures r.Some? ==> forall i :: 0 <= i < |qs| ==>
      r.value[i].requestId == qs[i].id && r.value[i].status == StatusName(qs[i].status)
      && r.value[i].requestedAt == qs[i].requestedAt
    ensures r.None? <==> exists i :: 0 <= i < |qs| && Lookup(books, BookId, qs[i].bookId).None?
    decreases |qs|
  {
    if |qs| == 0 then Some([])
    else match Lookup(books, BookId, qs[0].bookId)
      case None => None
      case Some(b) =>
        match Lines(qs[1..], books)
        case None =>
          assert exists i :: 0 <= i < |qs| && Lookup(books, BookId, qs[i].bookId).None? by {
            var i :| 0 <= i < |qs[1..]| && Lookup(books, BookId, qs[1..][i].bookId).None?;
            assert qs[i + 1] == qs[1..][i];
          }
          None
        case Some(rest) =>
          assert forall i :: 1 <= i < |qs| ==> Lookup(books, BookId, qs[i].bookId).Some? by {
            forall i | 1 <= i < |qs| ensures Lookup(books, BookId, qs[i].bookId).Some? {
              assert qs[i] == qs[1..][i - 1];
            }
          }
          Some([RequestLine(qs[0].id, b.title, StatusName(qs[0].status), qs[0].requestedAt)] + rest)
  }

  /** A listed entry stands for one of the user's requests, with that
      request's id and status text, which is `status` unless that is "all". */
  ghost predicate Describes(l: RequestLine, requests: seq<RentalRequest>, userId: nat, status: string)
  {
    exists q :: q in requests && q.userId == userId && q.id == l.requestId
      && StatusName(q.status) == l.status && (status != "all" ==> l.status == status)
  }

  lemma LinesDescribe(kept: seq<RentalRequest>, books: seq<Book>, lines: seq<RequestLine>,
                      requests: seq<RentalRequest>, userId: nat, status: string)
    requires Lines(kept, books) == Some(lines)
    requires forall q :: q in kept ==> q in requests && q.userId == userId && (status != "all" ==> StatusName(q.status) == status)
    ensures forall l :: l in lines ==> Describes(l, requests, userId, status)
  {
    forall l | l in lines ensures Describes(l, requests, userId, status) {
      var i :| 0 <= i < |lines| && lines[i] == l;
      assert kept[i] in kept;
    }
  }

  /** `get_user_borrow_requests`: the user's requests of one page, kept when
      their status text equals `status` (unless "all"); the total is then the
      number kept on the page, not in the table. */
  function UserBorrowRequests(s: Agent, user: Option<nat>, status: string, page: int, perPage: int): (r: Result<Listing>)
    ensures !Bound(user) ==> r == Failure(LoginToView)
    ensures Bound(user) && perPage == 0 ==> r == Failure("Error fetching your borrow requests: " + ZeroDivision)
    ensures r.Success? ==> Bound(user) && r.value.currentPage == page
    ensures r.Success? && status != "all" ==> r.value.totalCount == |r.value.requests|
    ensures r.Success? ==> forall l :: l in r.value.requests ==> Describes(l, s.db.requests, user.value, status)
  {
    if !Bound(user) then Failure(LoginToView)
    else match RentalRequests.UserRequests(s.db, user.value, page, perPage)
      case Failure(e) => Failure("Error fetching your borrow requests: " + e)
      case Success(p) =>
        var kept := WithStatus(p.items, status);
        match Lines(kept, s.db.books)
        case None => Failure("Error fetching your borrow requests: " + NoneSubscript)
        case Some(lines) =>
          LinesDescribe(kept, s.db.books, lines, s.db.requests, user.value, status);
          Success(Listing(lines, if status == "all" then p.totalCount else |lines|, p.totalPages, page))
  }

  // ---------------------------------------------------------------------------
  // feedback_submission

  const RatingOutOfRange := "Rating must be between 1 and 5."

  /** `feedback_submission`: a rating outside 1..5 is refused before anything is written. */
  function Feedback(s: Agent, user: Option<nat>, message: string, rating: int, now: int): (r: Reply)
    ensures !Bound(user) ==> r == Reply(s, NoUser)
    ensures Bound(user) && !(1 <= rating <= 5) ==> r == Reply(s, RatingOutOfRange)
    ensures Bound(user) && 1 <= rating <= 5 ==>
      && r.agent.log == s.log + [Logged(user.value, "Feedback: " + message, "Rating: " + IntToString(rating))]
      && |r.agent.db.notifications| == |s.db.notifications| + 1
      && r.agent.db.notifications[|s.db.notifications|].userId == user.value
      && r.agent.db.requests == s.db.requests
      && r.text == "Feedback submitted successfully."
  {
    if !Bound(user) then Reply(s, NoUser)
    else if !(1 <= rating <= 5) then Reply(s, RatingOutOfRange)
    else
      var logged := s.(log := s.log + [Logged(user.value, "Feedback: " + message, "Rating: " + IntToString(rating))]);
      Reply(Notify(logged, user.value, "info", "Thank you for your feedback!", now), "Feedback submitted successfully.")
  }

  // ---------------------------------------------------------------------------
  // event_recommendations

  /** `event_recommendations` (past the login check, it asks `UserService`
      for a profile it does not provide, so it always answers its error text). */
  function EventRecommendations(s: Agent, user: Option<nat>, limit: int): (r: Reply)
    ensures r.agent == s
    ensures !Bound(user) ==> r.text == NoUser
    ensures Bound(user) ==> r.text == "Error fetching events: " + NoProfileMethod
  {
    if !Bound(user) then Reply(s, NoUser) else Reply(s, "Error fetching events: " + NoProfileMethod)
  }

  // ---------------------------------------------------------------------------

  /** Without a bound user no tool writes anything. */
  lemma UnboundWritesNothing(s: Agent, user: Option<nat>, bookId: int, requestId: int, action: string,
                             preferences: Option<string>, message: string, rating: int, limit: int,
                             emailConfigured: bool, now: int)
    requires !Bound(user)
    ensures BorrowBook(s, user, bookId, emailConfigured, now).agent == s
    ensures CancelBorrowRequest(s, user, requestId, now).agent == s
    ensures Feedback(s, user, message, rating, now).agent == s
    ensures UserPreferences(s, user, action, preferences).agent == s
    ensures EventRecommendations(s, user, limit).agent == s
  {
  }
}

=== FILE: chatbot_ui.dfy ===
/** The chat widget (frontend/src/components/chatbot/Chatbot.tsx): the stored
    conversation turned into messages, the text shown for an answer with a
    follow-up question, the recommendations read from a reply with their
    defaults, the welcome message, and what sending, clearing and opening do.
    The clock and the browser's date parsing are parameters. */
module ChatbotUi {
  import opened Wrappers
  import opened Strs
  import opened Seqs

  datatype Role = Reader | Assistant

  datatype Language = En | Fr | Ar

  /** A book recommendation as the widget shows it. */
  datatype BookRec = BookRec(id: int, title: string, author: string, category: string,
                             rating: real, coverUrl: string, reason: string)

  /** An article recommendation as the widget shows it. */
  datatype ArticleRec = ArticleRec(id: int, slug: string, title: string, author: string, category: string,
                                   summary: string, pdfUrl: string, coverImageUrl: string,
                                   readTime: int, views: int, likes: int, reason: string)

  /** A message of the conversation; `time` is the timestamp in milliseconds. */
  datatype Message = Message(id: string, content: string, role: Role, time: int,
                             books: seq<BookRec>, articles: seq<ArticleRec>, followUp: Option<string>)

  /** A stored exchange as the history endpoint sends it. */
  datatype Row = Row(id: int, message: string, response: string, createdAt: string,
                     followUp: Option<string>, books: seq<BookRec>, articles: seq<ArticleRec>)

  function Plain(id: string, content: string, role: Role, time: int): Message
  {
    Message(id, content, role, time, [], [], None)
  }

  // ---------------------------------------------------------------------------
  // History

  /** The row carries a non-empty follow-up question. */
  predicate HasFollowUp(row: Row)
  {
    row.followUp.Some? && row.followUp.value != ""
  }

  /** The answer's text: with a follow-up, its first occurrence is cut out and
      the rest trimmed; without one, the stored response as it is. */
  function MainResponse(row: Row): (r: string)
    ensures !HasFollowUp(row) ==> r == row.response
    ensures HasFollowUp(row) ==> NoEdgeSpace(r, Js) && |r| <= |row.response|
    ensures HasFollowUp(row) && !Contains(row.response, row.followUp.value) ==> r == Strip(row.response, Js)
  {
    if HasFollowUp(row) then Strip(RemoveFirst(row.response, row.followUp.value), Js) else row.response
  }

  /** A follow-up appended to the answer is split off again. */
  lemma FollowUpSplitOff(body: string, f: string)
    requires f != "" && NoEdgeSpace(body, Js)
    requires forall j: nat :: j < |body| ==> !OccursAt(body + f, f, j)
    ensures MainResponse(Row(0, "", body + f, "", Some(f), [], [])) == body
  {
    var s := body + f;
    assert OccursAt(s, f, |body|) by { assert s[|body|..|body| + |f|] == f; }
    assert IndexOf(s, f) == Some(|body|);
    assert s[..|body|] == body && s[|body| + |f|..] == [];
    assert RemoveFirst(s, f) == body;
    StripNoSpace(body, Js);
  }

  /** One row becomes the reader's message, the answer and, when there is a
      follow-up, the follow-up question 100 ms later. */
  function Expand(row: Row, parse: string -> int): (r: seq<Message>)
    ensures |r| == if HasFollowUp(row) then 3 else 2
    ensures r[0].role == Reader && r[0].content == row.message
    ensures r[1].role == Assistant && r[1].content == MainResponse(row) && r[1].followUp == row.followUp
    ensures r[0].time == r[1].time == parse(row.createdAt)
    ensures HasFollowUp(row) ==> r[2].content == row.followUp.value && r[2].time == r[1].time + 100
  {
    var t := parse(row.createdAt);
    var reader := Plain("user-" + IntToString(row.id), row.message, Reader, t);
    var answer := Message(IntToString(row.id), MainResponse(row), Assistant, t, row.books, row.articles, row.followUp);
    if HasFollowUp(row) then
      [reader, answer, Plain("follow-up-" + IntToString(row.id), row.followUp.value, Assistant, t + 100)]
    else [reader, answer]
  }

  function ExpandAll(rows: seq<Row>, parse: string -> int): seq<Message>
    decreases |rows|
  {
    if |rows| == 0 then [] else Expand(rows[0], parse) + ExpandAll(rows[1..], parse)
  }

  /** `n` rows make `2n + f` messages, `f` the rows with a follow-up. */
  lemma {:induction false} ExpandAllLength(rows: seq<Row>, parse: string -> int)
    ensures |ExpandAll(rows, parse)| == 2 * |rows| + Count(rows, HasFollowUp)
    decreases |rows|
  {
    if |rows| > 0 {
      ExpandAllLength(rows[1..], parse);
    }
  }

  /** Messages ordered by timestamp. */
  function ByTime(a: Message, b: Message): bool
  {
    a.time <= b.time
  }

  /** The history as shown: every row expanded, then sorted by timestamp. */
  function History(rows: seq<Row>, parse: string -> int): (r: seq<Message>)
    ensures multiset(r) == multiset(ExpandAll(rows, parse))
  {
    SortBy(ExpandAll(rows, parse), ByTime)
  }

  /** The history holds `2n + f` messages, the expanded ones, in time order;
      messages with the same timestamp keep their expansion order, so a
      reader's message stays before the answer it got. */
  lemma HistoryShape(rows: seq<Row>, parse: string -> int, x: Message)
    ensures var r := History(rows, parse);
      |r| == 2 * |rows| + Count(rows, HasFollowUp) &&
      multiset(r) == multiset(ExpandAll(rows, parse)) &&
      (forall i, j :: 0 <= i < j < |r| ==> r[i].time <= r[j].time) &&
      Filter(r, EquivTo(ByTime, x)) == Filter(ExpandAll(rows, parse), EquivTo(ByTime, x))
  {
    var e := ExpandAll(rows, parse);
    ExpandAllLength(rows, parse);
    assert |History(rows, parse)| == |multiset(e)|;
    assert TotalPreorder(ByTime);
    SortBySorted(e, ByTime);
    SortByStable(e, ByTime, x);
  }

  // ---------------------------------------------------------------------------
  // Recommendations read from a reply

  /** JavaScript's `parseInt` in base ten: leading whitespace, an optional
      sign, then the longest run of digits; no digits gives `NaN`. */
  function DigitRun(s: string): (r: string)
    ensures |r| <= |s| && r == s[..|r|] && AllDigits(r)
    ensures |r| < |s| ==> !IsDigit(s[|r|])
    decreases |s|
  {
    if |s| > 0 && IsDigit(s[0]) then
      var t := DigitRun(s[1..]);
      assert s[..|t| + 1] == [s[0]] + s[1..][..|t|];
      [s[0]] + t
    else []
  }

  /** A digit of base sixteen, in either case. */
  predicate IsHexDigit(c: char)
  {
    IsDigit(c) || 'a' <= c <= 'f' || 'A' <= c <= 'F'
  }

  function HexDigitValue(c: char): (v: nat)
    requires IsHexDigit(c)
    ensures v < 16
  {
    if IsDigit(c) then DigitValue(c)
    else if 'a' <= c <= 'f' then (c - 'a') as nat + 10
    else (c - 'A') as nat + 10
  }

  /** The longest leading run of hexadecimal digits. */
  function HexRun(s: string): (r: string)
    ensures |r| <= |s| && r == s[..|r|]
    ensures forall i :: 0 <= i < |r| ==> IsHexDigit(r[i])
    ensures |r| < |s| ==> !IsHexDigit(s[|r|])
    decreases |s|
  {
    if |s| > 0 && IsHexDigit(s[0]) then
      var t := HexRun(s[1..]);
      assert s[..|t| + 1] == [s[0]] + s[1..][..|t|];
      [s[0]] + t
    else []
  }

  /** The value of a run of hexadecimal digits, most significant first. */
  function HexValue(s: string): nat
    requires forall i :: 0 <= i < |s| ==> IsHexDigit(s[i])
    decreases |s|
  {
    if |s| == 0 then 0 else HexValue(s[..|s| - 1]) * 16 + HexDigitValue(s[|s| - 1])
  }

  /** `parseInt` with no radix reads a `0x` or `0X` after the sign as base
      sixteen, and anything else as base ten. */
  predicate HexPrefixed(u: string)
  {
    |u| >= 2 && u[0] == '0' && (u[1] == 'x' || u[1] == 'X')
  }

  function ParseInt(s: string): Option<int>
  {
    var t := TrimStart(s, Js);
    var signed := |t| > 0 && (t[0] == '-' || t[0] == '+');
    var u := if signed then t[1..] else t;
    var d := if HexPrefixed(u) then HexRun(u[2..]) else DigitRun(u);
    var v: nat := if HexPrefixed(u) then HexValue(d) else DigitsValue(d);
    if |d| == 0 then None
    else if signed && t[0] == '-' then Some(-(v as int))
    else Some(v)
  }

  /** After `0x`, a run of hexadecimal digits reads as its base-sixteen value. */
  lemma ParseIntHex(h: string)
    requires |h| > 0 && forall i :: 0 <= i < |h| ==> IsHexDigit(h[i])
    ensures ParseInt("0x" + h) == Some(HexValue(h))
  {
    var s := "0x" + h;
    assert !IsSpace(s[0], Js);
    assert TrimStart(s, Js) == s;
    assert s[2..] == h;
    HexRunAll(h);
  }

  /** A string of hexadecimal digits is its own run. */
  lemma {:induction false} HexRunAll(h: string)
    requires forall i :: 0 <= i < |h| ==> IsHexDigit(h[i])
    ensures HexRun(h) == h
    decreases |h|
  {
    if |h| > 0 {
      HexRunAll(h[1..]);
    }
  }

  /** Digits alone are neither trimmed nor signed nor hex-prefixed, and form one run. */
  lemma DigitsParse(s: string)
    requires IsDigitString(s)
    ensures TrimStart(s, Js) == s && DigitRun(s) == s && !HexPrefixed(s)
  {
    assert !IsSpace(s[0], Js);
    assert |s| >= 2 ==> IsDigit(s[1]);
  }

  /** A run of digits reads as its decimal value. */
  lemma ParseIntDigits(s: string)
    requires IsDigitString(s)
    ensures ParseInt(s) == Some(DigitsValue(s))
  {
    DigitsParse(s);
  }

  /** A minus sign before a run of digits negates its value. */
  lemma ParseIntNegative(s: string)
    requires IsDigitString(s)
    ensures ParseInt("-" + s) == Some(-(DigitsValue(s) as int))
  {
    DigitsParse(s);
    var t := "-" + s;
    assert !IsSpace(t[0], Js);
    assert TrimStart(t, Js) == t;
    assert t[1..] == s;
    assert !HexPrefixed(t[1..]) && DigitRun(t[1..]) == s;
  }

  /** Integers read back from their decimal form. */
  lemma ParseIntToString(n: int)
    ensures ParseInt(IntToString(n)) == Some(n)
  {
    var m: nat := if n >= 0 then n else -n;
    ParseNatToString(m);
    var s := NatToString(m);
    assert DigitsValue(s) == m;
    if n < 0 {
      ParseIntNegative(s);
    } else {
      ParseIntDigits(s);
    }
  }

  /** An id sent back in its decimal form reads as itself. */
  lemma RecIdToString(n: int)
    ensures RecId(Some(IntToString(n))) == n
  {
    ParseIntToString(n);
  }

  /** `parseInt(x.id || '0') || 0`: a missing or empty id reads as `'0'`, and
      text without leading digits gives 0. */
  function RecId(id: Option<string>): (r: int)
    ensures id.None? || id.value == "" ==> r == 0
  {
    ParseIntDigits("0");
    var text := if id.Some? && id.value != "" then id.value else "0";
    match ParseInt(text)
    case None => 0
    case Some(n) => n
  }

  /** `x || ''` on a text field. */
  function TextOr(s: Option<string>): string
  {
    if s.Some? then s.value else ""
  }

  /** `x || d` on a number: a missing value or zero becomes `d`. */
  function IntOr(v: Option<int>, d: int): (r: int)
    ensures r == d || (v.Some? && r == v.value && r != 0)
  {
    if v.Some? && v.value != 0 then v.value else d
  }

  function RealOr(v: Option<real>, d: real): (r: real)
    ensures r == d || (v.Some? && r == v.value && r != 0.0)
  {
    if v.Some? && v.value != 0.0 then v.value else d
  }

  datatype RawBook = RawBook(id: Option<string>, title: Option<string>, author: Option<string>,
                             category: Option<string>, rating: Option<real>, coverUrl: Option<string>,
                             reason: Option<string>)

  datatype RawArticle = RawArticle(id: Option<string>, slug: Option<string>, title: Option<string>,
                                   author: Option<string>, category: Option<string>, summary: Option<string>,
                                   pdfUrl: Option<string>, coverImageUrl: Option<string>,
                                   readTime: Option<int>, views: Option<int>, likes: Option<int>,
                                   reason: Option<string>)

  /** A book recommendation with every missing field defaulted: texts to
      empty, the rating to 0. */
  function MapBook(b: RawBook): (r: BookRec)
    ensures b.title.None? ==> r.title == ""
    ensures b.title.Some? ==> r.title == b.title.value
    ensures b.rating.None? ==> r.rating == 0.0
    ensures b.rating.Some? ==> r.rating == b.rating.value
    ensures b.id.None? ==> r.id == 0
  {
    BookRec(RecId(b.id), TextOr(b.title), TextOr(b.author), TextOr(b.category),
            RealOr(b.rating, 0.0), TextOr(b.coverUrl), TextOr(b.reason))
  }

  /** An article recommendation with every missing field defaulted: texts to
      empty, the reading time to 5 and the counters to 0. */
  function MapArticle(a: RawArticle): (r: ArticleRec)
    ensures a.readTime.None? ==> r.readTime == 5
    ensures a.readTime.Some? && a.readTime.value != 0 ==> r.readTime == a.readTime.value
    ensures a.readTime == Some(0) ==> r.readTime == 5
    ensures a.views.None? ==> r.views == 0
    ensures a.likes.None? ==> r.likes == 0
    ensures a.slug.None? ==> r.slug == ""
    ensures a.id.None? ==> r.id == 0
  {
    ArticleRec(RecId(a.id), TextOr(a.slug), TextOr(a.title), TextOr(a.author), TextOr(a.category),
               TextOr(a.summary), TextOr(a.pdfUrl), TextOr(a.coverImageUrl),
               IntOr(a.readTime, 5), IntOr(a.views, 0), IntOr(a.likes, 0), TextOr(a.reason))
  }

  /** A shown recommendation sent back in full is shown unchanged. */
  lemma MapBookRoundTrip(b: BookRec)
    ensures MapBook(RawBook(Some(IntToString(b.id)), Some(b.title), Some(b.author), Some(b.category),
                            Some(b.rating), Some(b.coverUrl), Some(b.reason))) == b
  {
    RecIdToString(b.id);
  }

  /** The same for articles, except that a reading time of zero shows as 5. */
  lemma MapArticleRoundTrip(a: ArticleRec)
    ensures var raw := RawArticle(Some(IntToString(a.id)), Some(a.slug), Some(a.title), Some(a.author),
                                  Some(a.category), Some(a.summary), Some(a.pdfUrl), Some(a.coverImageUrl),
                                  Some(a.readTime), Some(a.views), Some(a.likes), Some(a.reason));
      MapArticle(raw) == (if a.readTime == 0 then a.(readTime := 5) else a)
  {
    RecIdToString(a.id);
  }

  /** A missing list reads as empty. */
  function MapBooks(bs: Option<seq<RawBook>>): (r: seq<BookRec>)
    ensures bs.None? ==> r == []
    ensures bs.Some? ==> |r| == |bs.value| && forall i :: 0 <= i < |r| ==> r[i] == MapBook(bs.value[i])
  {
    if bs.None? then [] else seq(|bs.value|, i requires 0 <= i < |bs.value| => MapBook(bs.value[i]))
  }

  function MapArticles(as_: Option<seq<RawArticle>>): (r: seq<ArticleRec>)
    ensures as_.None? ==> r == []
    ensures as_.Some? ==> |r| == |as_.value| && forall i :: 0 <= i < |r| ==> r[i] == MapArticle(as_.value[i])
  {
    if as_.None? then [] else seq(|as_.value|, i requires 0 <= i < |as_.value| => MapArticle(as_.value[i]))
  }

  // ---------------------------------------------------------------------------
  // A live reply

  /** The message endpoint's reply; any field may be absent. */
  datatype Reply = Reply(response: string, followUp: Option<string>,
                         books: Option<seq<RawBook>>, articles: Option<seq<RawArticle>>)

  /** The answer's text as written: `replace(follow_up_question, '')` then
      trimmed. With no follow-up in the reply, `replace` looks for the text
      "undefined" and cuts its first occurrence. */
  function LiveContentAsWritten(rep: Reply): (r: string)
    ensures NoEdgeSpace(r, Js)
  {
    var pattern := if rep.followUp.Some? then rep.followUp.value else "undefined";
    Strip(RemoveFirst(rep.response, pattern), Js)
  }

  /** A reply without a follow-up that says "undefined" loses the word. */
  lemma LiveContentLosesWord()
    ensures LiveContentAsWritten(Reply("undefined", None, None, None)) == ""
  {
    assert OccursAt("undefined", "undefined", 0);
  }

  /** The answer's text as the history shows the same exchange: the follow-up
      is cut out only when there is one. */
  function LiveContent(rep: Reply): (r: string)
    ensures rep.followUp.None? || rep.followUp.value == "" ==> r == rep.response
    ensures rep.followUp.Some? && rep.followUp.value != "" ==> NoEdgeSpace(r, Js)
  {
    MainResponse(Row(0, "", rep.response, "", rep.followUp, [], []))
  }

  /** With a non-empty follow-up the code as written and the intended reading
      agree; they part only when the reply has no follow-up. */
  lemma LiveContentAgreesWithFollowUp(rep: Reply)
    requires rep.followUp.Some? && rep.followUp.value != ""
    ensures LiveContentAsWritten(rep) == LiveContent(rep)
  {
  }

  /** A live answer reads the same as when it is reloaded from the history. */
  lemma LiveContentMatchesHistory(rep: Reply, row: Row, parse: string -> int)
    requires row.response == rep.response && row.followUp == rep.followUp
    ensures Expand(row, parse)[1].content == LiveContent(rep)
  {
  }

  // ---------------------------------------------------------------------------
  // The widget

  /** The widget's state. */
  datatype Chat = Chat(open: bool, messages: seq<Message>, input: string, loading: bool,
                       firstOpen: bool, loaded: bool)

  /** The welcome name: the user's name, or a word for "user" in the language. */
  function Who(lang: Language, name: Option<string>): (r: string)
    ensures r != ""
    ensures name.Some? && name.value != "" ==> r == name.value
  {
    if name.Some? && name.value != "" then name.value
    else match lang
      case En => "User"
      case Fr => "Utilisateur"
      case Ar => "\U{0645}\U{0633}\U{062A}\U{062E}\U{062F}\U{0645}"
  }

  /** The welcome message; `greeting` fills the language's text with the name. */
  function Welcome(lang: Language, name: Option<string>, greeting: (Language, string) -> string, now: int): (r: Message)
    ensures r.id == "welcome" && r.role == Assistant && r.books == [] && r.articles == []
    ensures r.content == greeting(lang, Who(lang, name))
  {
    Plain("welcome", greeting(lang, Who(lang, name)), Assistant, now)
  }

  /** `toggleChat`: a signed-out reader cannot open the widget; opening asks
      for the history again. */
  function Toggle(c: Chat, signedIn: bool): (r: Chat)
    ensures !c.open && !signedIn ==> r == c
    ensures (c.open || signedIn) ==> r.open == !c.open && r.messages == c.messages
    ensures !c.open && signedIn ==> !r.loaded
  {
    if !c.open && !signedIn then c
    else if !c.open then c.(open := true, loaded := false)
    else c.(open := false)
  }

  /** Closing and reopening keeps the conversation and reloads the history. */
  lemma ToggleTwice(c: Chat)
    requires c.open
    ensures var r := Toggle(Toggle(c, true), true);
      r.open && r.messages == c.messages && !r.loaded
  {
  }

  /** The first opening with nothing shown shows the welcome message. */
  function GreetOnOpen(c: Chat, welcome: Message): (r: Chat)
    ensures c.open && c.firstOpen && |c.messages| == 0 ==> r.messages == [welcome] && !r.firstOpen
    ensures !(c.open && c.firstOpen && |c.messages| == 0) ==> r == c
  {
    if c.open && c.firstOpen && |c.messages| == 0 then c.(messages := [welcome], firstOpen := false) else c
  }

  /** The history request's outcome, once the widget is open and the history
      not yet loaded: a non-empty history replaces what is shown; an empty or
      failed one shows the welcome message if nothing is shown. */
  function LoadHistory(c: Chat, fetched: Result<seq<Row>>, parse: string -> int, welcome: Message): (r: Chat)
    ensures !c.open || c.loaded ==> r == c
    ensures c.open && !c.loaded ==> r.loaded && r.open == c.open && r.input == c.input
    ensures c.open && !c.loaded && fetched.Success? && |fetched.value| > 0 ==>
      r.messages == History(fetched.value, parse) && !r.firstOpen
    ensures c.open && !c.loaded && !(fetched.Success? && |fetched.value| > 0) ==>
      r.messages == (if |c.messages| == 0 then [welcome] else c.messages) && r.firstOpen == c.firstOpen
  {
    if !c.open || c.loaded then c
    else if fetched.Success? && |fetched.value| > 0 then
      c.(messages := History(fetched.value, parse), firstOpen := false, loaded := true)
    else
      c.(messages := if |c.messages| == 0 then [welcome] else c.messages, loaded := true)
  }

  /** With nothing shown and no history to load, exactly one message shows:
      the welcome. */
  lemma EmptyHistoryWelcomes(c: Chat, fetched: Result<seq<Row>>, parse: string -> int, welcome: Message)
    requires c.open && !c.loaded && |c.messages| == 0
    requires fetched.Failure? || fetched.value == []
    ensures LoadHistory(c, fetched, parse, welcome).messages == [welcome]
  {
  }

  /** The moments the clock is read: when sending, when the reply arrives,
      and when the follow-up's timer fires. */
  datatype Clock = Clock(sent: int, answered: int, later: int)

  /** The outcome of the message request: a reply, or an HTTP status. */
  datatype Outcome = Answered(reply: Reply) | Failed(status: int)

  /** `handleSendMessage`: blank input or a signed-out reader sends nothing;
      otherwise the reader's message is appended and the input cleared, then
      the answer (with its recommendations) and, after a delay, the follow-up
      question; a 401 closes the widget, any other failure adds nothing. */
  function Send(c: Chat, signedIn: bool, clock: Clock, outcome: Outcome): (r: Chat)
    ensures AllSpace(c.input, Js) || !signedIn ==> r == c
    ensures !(AllSpace(c.input, Js) || !signedIn) ==>
      && |r.messages| > |c.messages|
      && r.messages[..|c.messages|] == c.messages
      && r.messages[|c.messages|].role == Reader && r.messages[|c.messages|].content == c.input
      && r.input == "" && !r.loading
    ensures !(AllSpace(c.input, Js) || !signedIn) && outcome.Answered? ==>
      |r.messages| > |c.messages| + 1 && r.messages[|c.messages| + 1].content == LiveContentAsWritten(outcome.reply)
  {
    if AllSpace(c.input, Js) || !signedIn then c
    else
      var mine := Plain(IntToString(clock.sent), c.input, Reader, clock.sent);
      var tail := Answers(outcome, clock);
      var ms := c.messages + [mine] + tail;
      assert ms[..|c.messages|] == c.messages && ms[|c.messages|] == mine;
      assert outcome.Answered? ==> ms[|c.messages| + 1] == tail[0];
      c.(messages := ms, input := "", loading := false,
         open := c.open && !(outcome.Failed? && outcome.status == 401))
  }

  /** What a reply adds after the reader's message: the answer with its
      recommendations, its text built as the code builds it (see
      `LiveContentAsWritten`), then the follow-up question when there is one. */
  function Answers(outcome: Outcome, clock: Clock): (r: seq<Message>)
    ensures outcome.Failed? ==> r == []
    ensures outcome.Answered? ==> |r| == (if outcome.reply.followUp.Some? && outcome.reply.followUp.value != "" then 2 else 1)
    ensures outcome.Answered? ==> r[0].role == Assistant && r[0].content == LiveContentAsWritten(outcome.reply)
  {
    match outcome
    case Failed(_) => []
    case Answered(rep) =>
      var answer := Message(IntToString(clock.answered), LiveContentAsWritten(rep), Assistant, clock.answered,
                            MapBooks(rep.books), MapArticles(rep.articles), rep.followUp);
      if rep.followUp.Some? && rep.followUp.value != "" then
        [answer, Plain("follow-up-" + IntToString(clock.later), rep.followUp.value, Assistant, clock.later + 500)]
      else [answer]
  }

  /** A sent message adds one message on failure, and on a reply two, or three
      when the reply carries a follow-up question; only a 401 closes the widget. */
  lemma SendGrowth(c: Chat, clock: Clock, outcome: Outcome)
    requires !AllSpace(c.input, Js)
    ensures var r := Send(c, true, clock, outcome);
      |r.messages| - |c.messages| ==
        (if outcome.Failed? then 1
         else if outcome.reply.followUp.Some? && outcome.reply.followUp.value != "" then 3
         else 2) &&
      (r.open <==> c.open && !(outcome.Failed? && outcome.status == 401))
  {
  }

  /** `handleClearConversation`: once the server has cleared the history only
      the welcome message remains; a failure changes nothing. */
  function Clear(c: Chat, cleared: bool, welcome: Message): (r: Chat)
    ensures cleared ==> r.messages == [welcome] && r.firstOpen
    ensures !cleared ==> r == c
    ensures r.open == c.open && r.input == c.input
  {
    if cleared then c.(messages := [welcome], firstOpen := true) else c
  }

  /** Clearing twice is clearing once. */
  lemma ClearTwice(c: Chat, welcome: Message)
    ensures Clear(Clear(c, true, welcome), true, welcome) == Clear(c, true, welcome)
  {
  }
}

=== FILE: email.dfy ===
/** EmailService (backend/app/services/EmailService.py): the credential check
    of the constructor, the action labels, and the template and parameter
    selection of `send_email`.  The environment is a map of variables; the
    HTTP post is a parameter standing for its outcome.  Template parameters
    are a string map (a JSON object's key order carries no meaning). */
module Email {
  import opened Wrappers
  import opened Strs

  type Params = map<string, string>

  datatype Service = Service(
    userId: string, serviceId: string, template1: string, template2: string,
    accessToken: string, fromEmail: string)

  /** `os.environ.get(name)`; an unset variable and an empty one are both falsy. */
  function Env(env: map<string, string>, name: string): string
  {
    if name in env then env[name] else ""
  }

  const MissingCredentials := "Missing required EmailJS credentials"

  /** `EmailService()`: fails unless the user id, service id and access token are all set and non-empty. */
  function NewService(env: map<string, string>): (r: Result<Service>)
    ensures r.Failure? <==>
      Env(env, "EMAILJS_USER_ID") == "" || Env(env, "EMAILJS_SERVICE_ID") == "" || Env(env, "EMAILJS_ACCESS_TOKEN") == ""
    ensures r.Failure? ==> r.error == MissingCredentials
    ensures r.Success? ==> r.value.userId != "" && r.value.serviceId != "" && r.value.accessToken != ""
    ensures r.Success? ==> ("EMAIL_FROM" in env ==> r.value.fromEmail == env["EMAIL_FROM"])
  {
    var s := Service(
      Env(env, "EMAILJS_USER_ID"), Env(env, "EMAILJS_SERVICE_ID"),
      Env(env, "EMAILJS_TEMPLATE_1_ID"), Env(env, "EMAILJS_TEMPLATE_2_ID"),
      Env(env, "EMAILJS_ACCESS_TOKEN"),
      if "EMAIL_FROM" in env then env["EMAIL_FROM"] else "no-reply@yourdomain.com");
    if s.userId == "" || s.serviceId == "" || s.accessToken == "" then Failure(MissingCredentials)
    else Success(s)
  }

  // ---------------------------------------------------------------------------
  // Action labels

  /** The fixed label of a lower-case verb, if it has one. */
  function ActionLabel(verb: string): Option<string>
  {
    if verb == "register" then Some("Registered")
    else if verb == "approve" then Some("Approved")
    else if verb == "reject" then Some("Rejected")
    else if verb == "delete" then Some("Deleted")
    else if verb == "set-pending" then Some("Set to Pending")
    else if verb == "borrow" then Some("Borrowed")
    else if verb == "return" then Some("Returned")
    else if verb == "deadline" then Some("Due Soon")
    else if verb == "remove" then Some("Removed")
    else None
  }

  /** `transform_action`: the label of a known verb, matched without regard
      to case; any other action is capitalized. */
  function TransformAction(action: string): (r: string)
    ensures ActionLabel(Lower(action)).Some? ==> r == ActionLabel(Lower(action)).value
    ensures ActionLabel(Lower(action)).None? ==> r == PyCapitalize(action)
  {
    ActionLabel(Lower(action)).GetOr(PyCapitalize(action))
  }

  /** Verbs differing only in case get the same label. */
  lemma TransformIgnoresCase(a: string, b: string)
    requires Lower(a) == Lower(b) && ActionLabel(Lower(a)).Some?
    ensures TransformAction(a) == TransformAction(b)
  {
  }

  /** An unknown action keeps its length, starts upper-case when it starts
      with a letter, and has no other upper-case letter. */
  lemma CapitalizedShape(action: string)
    requires ActionLabel(Lower(action)).None?
    ensures var r := TransformAction(action);
      && |r| == |action|
      && (|action| > 0 && IsLetter(action[0]) ==> IsUpper(r[0]))
      && forall i :: 1 <= i < |r| ==> !IsUpper(r[i])
  {
    var r := TransformAction(action);
    if |action| > 0 {
      assert r == [ToUpperChar(action[0])] + Lower(action[1..]);
      forall i | 1 <= i < |r| ensures !IsUpper(r[i]) {
        assert r[i] == Lower(action[1..])[i - 1];
      }
    }
  }

  // ---------------------------------------------------------------------------
  // Template selection

  /** Template 1 serves the account notifications; template 2 everything else. */
  predicate UsesAccountTemplate(kind: string)
  {
    kind in {"registration", "account_approved", "account_action"}
  }

  /** The keys `send_email` writes on top of the caller's parameters. */
  const StyleKeys: set<string> := {
    "showLoginButton", "headerColor", "additionalMessage",
    "headerColorDark", "accentColor", "accentColorDark", "statusText"}

  /** The closing sentences of the account messages. */
  datatype Notes = Notes(submitted: string, welcome: string, rejected: string, removed: string, pendingAgain: string, thanks: string)

  const AccountNotes := Notes(
    "Your account request has been submitted and is pending admin approval. We will notify you once it has been reviewed.",
    "Please log in to explore our digital collection and start borrowing books. If you have any questions, feel free to contact our support team.",
    "Unfortunately, your account request has been rejected. If you believe this is a mistake, please contact our support team for assistance.",
    "Your account request has been removed from our system. If you wish to apply again, please submit a new registration.",
    "Your account request has been set to pending status and will be reviewed by our administrators soon.",
    "Thank you for using our service.")

  /** The look of a template-1 message, closing with one of `notes`. */
  function AccountStyle(kind: string, action: string, notes: Notes): (m: Params)
    requires UsesAccountTemplate(kind)
    ensures forall k :: k in m ==> k in StyleKeys
    ensures "showLoginButton" in m && m["showLoginButton"] == if kind == "account_approved" then "visible" else "hidden"
  {
    if kind == "registration" then map[
      "showLoginButton" := "hidden", "headerColor" := "#1e293b",
      "additionalMessage" := notes.submitted]
    else if kind == "account_approved" then map[
      "showLoginButton" := "visible", "headerColor" := "#047857",
      "additionalMessage" := notes.welcome]
    else if action == "reject" then map[
      "showLoginButton" := "hidden", "headerColor" := "#b91c1c",
      "additionalMessage" := notes.rejected]
    else if action == "delete" then map[
      "showLoginButton" := "hidden", "headerColor" := "#6b7280",
      "additionalMessage" := notes.removed]
    else if action == "set-pending" then map[
      "showLoginButton" := "hidden", "headerColor" := "#f59e0b",
      "additionalMessage" := notes.pendingAgain]
    else map[
      "showLoginButton" := "hidden", "headerColor" := "#1e293b",
      "additionalMessage" := notes.thanks]
  }

  function Colours(header: string, headerDark: string, accent: string, accentDark: string, status: string): (m: Params)
    ensures forall k :: k in m ==> k in StyleKeys
    ensures "statusText" in m && m["statusText"] == status
  {
    map["headerColor" := header, "headerColorDark" := headerDark, "accentColor" := accent,
        "accentColorDark" := accentDark, "statusText" := status]
  }

  /** The status line template 2 shows for a lower-cased action. */
  function StatusText(action: string): string
  {
    if action == "borrow" || action == "borrowed" then "Book Borrowed"
    else if action == "return" || action == "returned" then "Book Returned"
    else if action in {"delete", "deleted", "remove", "removed"} then "Request Removed"
    else if action == "reject" || action == "rejected" then "Request Rejected"
    else if action == "approve" || action == "approved" then "Request Approved"
    else "Status Update"
  }

  /** The look of a template-2 message, chosen from the lower-cased action. */
  function ActivityStyle(action: string): (m: Params)
    ensures "statusText" in m && m["statusText"] == StatusText(action)
    ensures forall k :: k in m ==> k in StyleKeys
  {
    var status := StatusText(action);
    if status == "Book Borrowed" then Colours("#047857", "#065f46", "#10b981", "#059669", status)
    else if status == "Book Returned" then Colours("#1d4ed8", "#1e40af", "#3b82f6", "#2563eb", status)
    else if status == "Request Removed" then Colours("#6b7280", "#4b5563", "#9ca3af", "#6b7280", status)
    else if status == "Request Rejected" then Colours("#b91c1c", "#991b1b", "#ef4444", "#dc2626", status)
    else if status == "Request Approved" then Colours("#047857", "#065f46", "#10b981", "#059669", status)
    else Colours("#f59e0b", "#d97706", "#f59e0b", "#d97706", status)
  }

  /** The verbs that have both a label and a status line of their own. */
  datatype Verb = Borrow | Return | Delete | Remove | Reject | Approve

  function VerbText(v: Verb): string
  {
    match v
    case Borrow => "borrow" case Return => "return" case Delete => "delete"
    case Remove => "remove" case Reject => "reject" case Approve => "approve"
  }

  /** Template 2 reads the caller's action, not its label; since the label
      of every such verb is its past tense, which the style accepts too,
      labelling first would pick the same style, and that style is not the
      generic "Status Update". */
  lemma LabelKeepsStyle(v: Verb)
    ensures StatusText(Lower(TransformAction(VerbText(v)))) == StatusText(VerbText(v)) != "Status Update"
  {
    match v
    case Borrow => BorrowLabelKeepsStyle();
    case Return => ReturnLabelKeepsStyle();
    case Delete => DeleteLabelKeepsStyle();
    case Remove => RemoveLabelKeepsStyle();
    case Reject => RejectLabelKeepsStyle();
    case Approve => ApproveLabelKeepsStyle();
  }

  lemma BorrowLabelKeepsStyle()
    ensures StatusText(Lower(TransformAction("borrow"))) == StatusText("borrow") == "Book Borrowed"
  {
    LabelLowered("borrow", "borrowed");
  }

  lemma ReturnLabelKeepsStyle()
    ensures StatusText(Lower(TransformAction("return"))) == StatusText("return") == "Book Returned"
  {
    LabelLowered("return", "returned");
  }

  lemma DeleteLabelKeepsStyle()
    ensures StatusText(Lower(TransformAction("delete"))) == StatusText("delete") == "Request Removed"
  {
    LabelLowered("delete", "deleted");
  }

  lemma RemoveLabelKeepsStyle()
    ensures StatusText(Lower(TransformAction("remove"))) == StatusText("remove") == "Request Removed"
  {
    LabelLowered("remove", "removed");
  }

  lemma RejectLabelKeepsStyle()
    ensures StatusText(Lower(TransformAction("reject"))) == StatusText("reject") == "Request Rejected"
  {
    LabelLowered("reject", "rejected");
  }

  lemma ApproveLabelKeepsStyle()
    ensures StatusText(Lower(TransformAction("approve"))) == StatusText("approve") == "Request Approved"
  {
    LabelLowered("approve", "approved");
  }

  /** The label of a lower-case verb, lower-cased. */
  lemma LabelLowered(verb: string, past: string)
    requires ActionLabel(verb).Some? && Lower(ActionLabel(verb).value) == past
    requires forall i :: 0 <= i < |verb| ==> !IsUpper(verb[i])
    ensures Lower(TransformAction(verb)) == past
  {
    LowerNoUpper(verb);
  }

  /** The template id and parameters `send_email` posts. */
  datatype Payload = Payload(serviceId: string, templateId: string, userId: string, accessToken: string, templateParams: Params)

  /** The style keys for a kind of message and the caller's original action. */
  function Style(kind: string, action: string): (m: Params)
    ensures forall k :: k in m ==> k in StyleKeys
  {
    if UsesAccountTemplate(kind) then AccountStyle(kind, action, AccountNotes) else ActivityStyle(Lower(action))
  }

  /** The parameters after labelling and styling: the caller's map is copied,
      its action relabelled, and the style keys written over it. */
  function TemplateParams(kind: string, params: Params): (r: Params)
    ensures "action" in params ==> "action" in r && r["action"] == TransformAction(params["action"])
    ensures "action" !in params ==> "action" !in r
    ensures forall k :: k in params && k != "action" && k !in StyleKeys ==> k in r && r[k] == params[k]
    ensures forall k :: k in r ==> k in params || k in StyleKeys
    ensures kind in {"registration", "account_action"} ==> "showLoginButton" in r && r["showLoginButton"] == "hidden"
    ensures kind == "account_approved" ==> "showLoginButton" in r && r["showLoginButton"] == "visible"
    ensures !UsesAccountTemplate(kind) ==>
      "statusText" in r && r["statusText"] == StatusText(Lower(if "action" in params then params["action"] else ""))
  {
    var copied := if "action" in params then params["action" := TransformAction(params["action"])] else params;
    var original := if "action" in params then params["action"] else "";
    assert "action" !in StyleKeys;
    copied + Style(kind, original)
  }

  lemma RecipientKeysUnstyled()
    ensures "to_email" !in StyleKeys && "email" !in StyleKeys
  {
    assert "to_email" !in StyleKeys;
    assert "email" !in StyleKeys;
  }

  /** The payload: template 1 exactly for the account kinds.  The recipient
      fields come first, so a caller parameter named `email` or `to_email`
      overrides them. */
  function MakePayload(s: Service, toEmail: string, kind: string, params: Params): (p: Payload)
    ensures p.templateId == if UsesAccountTemplate(kind) then s.template1 else s.template2
    ensures "to_email" in p.templateParams
      && p.templateParams["to_email"] == (if "to_email" in params then params["to_email"] else s.fromEmail)
    ensures "email" in p.templateParams
      && p.templateParams["email"] == (if "email" in params then params["email"] else toEmail)
  {
    var styled := TemplateParams(kind, params);
    RecipientKeysUnstyled();
    Payload(s.serviceId, if UsesAccountTemplate(kind) then s.template1 else s.template2, s.userId, s.accessToken,
            map["to_email" := s.fromEmail, "email" := toEmail] + styled)
  }

  /** What the post did: delivered, or a request error with its text and,
      when a response arrived, the response body. */
  datatype PostOutcome = Delivered | RequestError(text: string, body: Option<string>)

  datatype SendResult = SendResult(success: bool, message: string)

  /** `send_email`'s answer: it reports a failed post instead of raising. */
  function SendEmail(s: Service, toEmail: string, kind: string, params: Params, post: Payload -> PostOutcome): (r: SendResult)
    ensures r.success <==> post(MakePayload(s, toEmail, kind, params)).Delivered?
    ensures r.success ==> r.message == "Email sent successfully"
    ensures !r.success ==>
      var e := post(MakePayload(s, toEmail, kind, params));
      r.message == "Failed to send email: " + e.text + (if e.body.Some? then " - Response: " + e.body.value else "")
  {
    match post(MakePayload(s, toEmail, kind, params))
    case Delivered => SendResult(true, "Email sent successfully")
    case RequestError(text, body) =>
      SendResult(false, "Failed to send email: " + text + (if body.Some? then " - Response: " + body.value else ""))
  }
}

=== FILE: grounding.dfy ===
/** The validation half of the agent's `generate` step
    (backend/app/services/ChatBot.py).  The language model proposes book and
    article ids; each proposal is resolved first against the artifacts the
    tools returned (indexed by their string id) and then, for an all-digit id,
    against the catalog; anything else is dropped.  The model's answer and the
    artifacts the tools produced are explicit inputs here. */
module Grounding {
  import opened Wrappers
  import opened Strs
  import opened Seqs
  import opened Library
  import opened IndexSync
  import opened Retrieval

  // ---------------------------------------------------------------------------
  // Artifact indexes

  /** `{str(x["id"]): x for x in xs}`: a later entry with the same id
      replaces an earlier one. */
  function IndexBy<T>(cards: seq<T>, id: T -> string): (r: map<string, T>)
    ensures forall k :: k in r <==> exists i :: 0 <= i < |cards| && id(cards[i]) == k
    ensures forall k :: k in r ==> id(r[k]) == k && r[k] in cards
    decreases |cards|
  {
    if |cards| == 0 then map[]
    else
      var last := cards[|cards| - 1];
      var r := IndexBy(cards[..|cards| - 1], id)[id(last) := last];
      assert forall k :: k in r && k != id(last) ==> r[k] in cards[..|cards| - 1];
      r
  }

  function BookCardId(c: BookCard): string { c.id }
  function ArticleCardId(c: ArticleCard): string { c.id }

  function BookIndex(cards: seq<BookCard>): map<string, BookCard> { IndexBy(cards, BookCardId) }
  function ArticleIndex(cards: seq<ArticleCard>): map<string, ArticleCard> { IndexBy(cards, ArticleCardId) }

  /** The entry that wins for an id is its last occurrence. */
  lemma {:induction false} IndexLastWins<T>(cards: seq<T>, id: T -> string, i: nat)
    requires i < |cards|
    requires forall j :: i < j < |cards| ==> id(cards[j]) != id(cards[i])
    ensures IndexBy(cards, id)[id(cards[i])] == cards[i]
    decreases |cards|
  {
    if i < |cards| - 1 {
      IndexLastWins(cards[..|cards| - 1], id, i);
    }
  }

  // ---------------------------------------------------------------------------
  // Resolving proposals

  /** A proposed book id: the artifact with that id, else the catalog row for
      an all-digit id (its cover falls back to "" on this path), else nothing. */
  function ResolveProposedBook(p: string, index: map<string, BookCard>, books: seq<Book>): Option<BookCard>
  {
    if p in index then Some(index[p])
    else if IsDigitString(p) then
      match Lookup(books, BookId, DigitsValue(p))
      case Some(b) => Some(BookCardOf(b, ""))
      case None => None
    else None
  }

  function ResolveProposedArticle(p: string, index: map<string, ArticleCard>, articles: seq<Article>): Option<ArticleCard>
  {
    if p in index then Some(index[p])
    else if IsDigitString(p) then
      match Lookup(articles, ArticleId, DigitsValue(p))
      case Some(a) => Some(ArticleCardOf(a, "", false))
      case None => None
    else None
  }

  /** Grounded: the artifact entry filed under that very id, or, for a
      proposal no artifact carries, the card of a catalog row whose id is the
      proposal's decimal value. */
  ghost predicate GroundedBook(c: BookCard, p: string, index: map<string, BookCard>, books: seq<Book>)
  {
    (p in index && c == index[p] && c.id == p)
    || (p !in index && IsDigitString(p) && exists b :: b in books && b.id == DigitsValue(p) && c == BookCardOf(b, ""))
  }

  ghost predicate GroundedArticle(c: ArticleCard, p: string, index: map<string, ArticleCard>, articles: seq<Article>)
  {
    (p in index && c == index[p] && c.id == p)
    || (p !in index && IsDigitString(p) && exists a :: a in articles && a.id == DigitsValue(p) && c == ArticleCardOf(a, "", false))
  }

  lemma {:induction false} DigitsRoundTrip(p: string)
    requires IsDigitString(p)
    ensures NatToString(DigitsValue(p)) == p || (|p| > 1 && p[0] == '0')
  {
    NoLeadingZeroDigits(p);
  }

  /** A digit string without a leading zero is the rendering of its value. */
  lemma {:induction false} NoLeadingZeroDigits(p: string)
    requires IsDigitString(p)
    ensures !(|p| > 1 && p[0] == '0') ==> NatToString(DigitsValue(p)) == p
    decreases |p|
  {
    if |p| > 1 && p[0] != '0' {
      var init := p[..|p| - 1];
      NoLeadingZeroDigits(init);
      assert init[0] == p[0];
      PositiveValue(init);
      assert DigitsValue(p) / 10 == DigitsValue(init);
      assert DigitsValue(p) % 10 == DigitValue(p[|p| - 1]);
      assert p == init + [p[|p| - 1]];
    } else if |p| == 1 {
      assert DigitsValue(p) == DigitValue(p[0]);
    }
  }

  /** A digit string with a non-zero first digit has a value of at least 10^(|p|-1) >= 10 when |p| >= 2. */
  lemma {:induction false} PositiveValue(p: string)
    requires IsDigitString(p) && p[0] != '0'
    ensures DigitsValue(p) >= 1
    ensures |p| > 1 ==> DigitsValue(p) >= 10
    decreases |p|
  {
    if |p| > 1 {
      var init := p[..|p| - 1];
      assert init[0] == p[0];
      PositiveValue(init);
    } else {
      assert DigitsValue(p) == DigitValue(p[0]);
    }
  }

  /** Every resolved proposal is grounded.  A catalog card carries the
      proposal itself as its id unless the proposal has leading zeros
      ("007" reaches row 7, whose card says "7"). */
  lemma ResolveBookGrounded(p: string, index: map<string, BookCard>, books: seq<Book>)
    requires forall k :: k in index ==> index[k].id == k
    requires ResolveProposedBook(p, index, books).Some?
    ensures GroundedBook(ResolveProposedBook(p, index, books).value, p, index, books)
    ensures !(|p| > 1 && p[0] == '0') ==> ResolveProposedBook(p, index, books).value.id == p
  {
    if p !in index {
      NoLeadingZeroDigits(p);
    }
  }

  lemma ResolveArticleGrounded(p: string, index: map<string, ArticleCard>, articles: seq<Article>)
    requires forall k :: k in index ==> index[k].id == k
    requires ResolveProposedArticle(p, index, articles).Some?
    ensures GroundedArticle(ResolveProposedArticle(p, index, articles).value, p, index, articles)
    ensures !(|p| > 1 && p[0] == '0') ==> ResolveProposedArticle(p, index, articles).value.id == p
  {
    if p !in index {
      NoLeadingZeroDigits(p);
    }
  }

  /** `validated_books`: the proposals' resolutions in proposal order, with
      no deduplication and no cap. */
  function ValidateBooks(proposed: seq<string>, index: map<string, BookCard>, books: seq<Book>): (r: seq<BookCard>)
    ensures |r| <= |proposed|
    decreases |proposed|
  {
    if |proposed| == 0 then []
    else
      var rest := ValidateBooks(proposed[1..], index, books);
      match ResolveProposedBook(proposed[0], index, books)
      case Some(c) => [c] + rest
      case None => rest
  }

  function ValidateArticles(proposed: seq<string>, index: map<string, ArticleCard>, articles: seq<Article>): (r: seq<ArticleCard>)
    ensures |r| <= |proposed|
    decreases |proposed|
  {
    if |proposed| == 0 then []
    else
      var rest := ValidateArticles(proposed[1..], index, articles);
      match ResolveProposedArticle(proposed[0], index, articles)
      case Some(c) => [c] + rest
      case None => rest
  }

  /** Validation works proposal by proposal: it distributes over concatenation. */
  lemma {:induction false} ValidateBooksAppend(p1: seq<string>, p2: seq<string>, index: map<string, BookCard>, books: seq<Book>)
    ensures ValidateBooks(p1 + p2, index, books) == ValidateBooks(p1, index, books) + ValidateBooks(p2, index, books)
    decreases |p1|
  {
    if |p1| > 0 {
      assert (p1 + p2)[1..] == p1[1..] + p2;
      ValidateBooksAppend(p1[1..], p2, index, books);
    } else {
      assert p1 + p2 == p2;
    }
  }

  /** When every proposal resolves, nothing is dropped, duplicates included. */
  lemma {:induction false} ValidateBooksKeepsAll(proposed: seq<string>, index: map<string, BookCard>, books: seq<Book>)
    requires forall i :: 0 <= i < |proposed| ==> ResolveProposedBook(proposed[i], index, books).Some?
    ensures |ValidateBooks(proposed, index, books)| == |proposed|
    ensures forall i :: 0 <= i < |proposed| ==>
      ValidateBooks(proposed, index, books)[i] == ResolveProposedBook(proposed[i], index, books).value
    decreases |proposed|
  {
    if |proposed| > 0 {
      ValidateBooksKeepsAll(proposed[1..], index, books);
    }
  }

  /** Every validated book is grounded in some proposal. */
  lemma {:induction false} ValidateBooksGrounded(proposed: seq<string>, index: map<string, BookCard>, books: seq<Book>)
    requires forall k :: k in index ==> index[k].id == k
    ensures forall c :: c in ValidateBooks(proposed, index, books) ==>
      exists i :: 0 <= i < |proposed| && GroundedBook(c, proposed[i], index, books)
    decreases |proposed|
  {
    if |proposed| > 0 {
      ValidateBooksGrounded(proposed[1..], index, books);
      var rest := ValidateBooks(proposed[1..], index, books);
      forall c | c in ValidateBooks(proposed, index, books)
        ensures exists i :: 0 <= i < |proposed| && GroundedBook(c, proposed[i], index, books)
      {
        if c in rest {
          var i :| 0 <= i < |proposed[1..]| && GroundedBook(c, proposed[1..][i], index, books);
          assert proposed[1..][i] == proposed[i + 1];
        } else {
          ResolveBookGrounded(proposed[0], index, books);
        }
      }
    }
  }

  /** Every validated article is grounded in some proposal. */
  lemma {:induction false} ValidateArticlesGrounded(proposed: seq<string>, index: map<string, ArticleCard>, articles: seq<Article>)
    requires forall k :: k in index ==> index[k].id == k
    ensures forall c :: c in ValidateArticles(proposed, index, articles) ==>
      exists i :: 0 <= i < |proposed| && GroundedArticle(c, proposed[i], index, articles)
    decreases |proposed|
  {
    if |proposed| > 0 {
      ValidateArticlesGrounded(proposed[1..], index, articles);
      var rest := ValidateArticles(proposed[1..], index, articles);
      forall c | c in ValidateArticles(proposed, index, articles)
        ensures exists i :: 0 <= i < |proposed| && GroundedArticle(c, proposed[i], index, articles)
      {
        if c in rest {
          var i :| 0 <= i < |proposed[1..]| && GroundedArticle(c, proposed[1..][i], index, articles);
          assert proposed[1..][i] == proposed[i + 1];
        } else {
          ResolveArticleGrounded(proposed[0], index, articles);
        }
      }
    }
  }

  // ---------------------------------------------------------------------------
  // The secondary article search

  ghost predicate FromCatalog(c: ArticleCard, articles: seq<Article>)
  {
    exists a :: a in articles && c == ArticleCardOf(a, "", false)
  }

  /** The catalog cards of the article hits of the secondary search, in hit order. */
  function SecondaryCards(hits: seq<Doc>, articles: seq<Article>): (r: seq<ArticleCard>)
    ensures |r| <= |hits|
    ensures forall i :: 0 <= i < |r| ==> FromCatalog(r[i], articles)
    decreases |hits|
  {
    if |hits| == 0 then []
    else
      var rest := SecondaryCards(hits[1..], articles);
      match ResolveArticle(hits[0], articles)
      case Some(a) => [ArticleCardOf(a, "", false)] + rest
      case None => rest
  }

  /** The secondary loop appends a resolved article only while fewer than
      three are held, so it appends the first `3 - |acc|` of them. */
  function TopUpArticles(acc: seq<ArticleCard>, hits: seq<Doc>, articles: seq<Article>): (r: seq<ArticleCard>)
    ensures |acc| <= |r| && r[..|acc|] == acc
    ensures |r| <= Max(|acc|, 3)
    ensures forall i :: |acc| <= i < |r| ==> FromCatalog(r[i], articles)
  {
    if |acc| >= 3 then acc
    else
      var extra := Take(SecondaryCards(hits, articles), 3 - |acc|);
      assert (acc + extra)[..|acc|] == acc;
      acc + extra
  }

  /** What the model returned; `None` stands for a call that raised. */
  datatype ModelAnswer = ModelAnswer(answer: string, followUp: string, bookIds: seq<string>, articleIds: seq<string>)

  datatype Reply = Reply(answer: string, followUp: string, books: seq<BookCard>, articles: seq<ArticleCard>)

  const Apology := "Sorry, I couldn't process your request due to an internal error."

  /** The text handed to the model: "Tool output: " before each tool message, blank-line separated. */
  function ToolsOutput(contents: seq<string>): string
  {
    Join(seq(|contents|, i requires 0 <= i < |contents| => "Tool output: " + contents[i]), "\n\n")
  }

  /** `generate` after the model call.  `artBooks` / `artArticles` are the
      artifact lists of all tool messages in order; `secondary` is the ranking
      of the search for "article" (`None` when it raised). */
  function Generate(toolContents: seq<string>, artBooks: seq<BookCard>, artArticles: seq<ArticleCard>,
                    answer: Option<ModelAnswer>, secondary: Option<seq<Doc>>, cat: Catalog): (r: Reply)
    ensures answer.None? ==> r == Reply(Apology, "", [], [])
    ensures answer.Some? ==> r.books == ValidateBooks(answer.value.bookIds, BookIndex(artBooks), cat.books)
    ensures answer.Some? ==> r.answer == answer.value.answer && r.followUp == answer.value.followUp
    ensures answer.Some? && |ValidateArticles(answer.value.articleIds, ArticleIndex(artArticles), cat.articles)| == 0
            ==> |r.articles| <= 3 && forall i :: 0 <= i < |r.articles| ==> FromCatalog(r.articles[i], cat.articles)
    ensures answer.Some? && |ValidateArticles(answer.value.articleIds, ArticleIndex(artArticles), cat.articles)| > 0
            ==> r.articles == ValidateArticles(answer.value.articleIds, ArticleIndex(artArticles), cat.articles)
  {
    match answer
    case None => Reply(Apology, "", [], [])
    case Some(m) =>
      var books := ValidateBooks(m.bookIds, BookIndex(artBooks), cat.books);
      var articles := ValidateArticles(m.articleIds, ArticleIndex(artArticles), cat.articles);
      var topped :=
        if |m.articleIds| > 0 && |articles| == 0 && Contains(Lower(ToolsOutput(toolContents)), "article") then
          match secondary
          case None => articles
          case Some(all) => TopUpArticles(articles, Take(all, 5), cat.articles)
        else articles;
      Reply(m.answer, m.followUp, books, topped)
  }

  /** The secondary search runs only when the model proposed articles, none
      survived, and the tool output mentions articles. */
  lemma SecondaryOnlyWhenNeeded(toolContents: seq<string>, artBooks: seq<BookCard>, artArticles: seq<ArticleCard>,
                                m: ModelAnswer, secondary: Option<seq<Doc>>, cat: Catalog)
    requires |m.articleIds| == 0 || !Contains(Lower(ToolsOutput(toolContents)), "article")
    ensures Generate(toolContents, artBooks, artArticles, Some(m), secondary, cat).articles
         == ValidateArticles(m.articleIds, ArticleIndex(artArticles), cat.articles)
  {
  }

  /** Whatever the model proposes, `generate` reports only grounded entries:
      every book is an artifact or catalog row named by a proposed id, and
      every article is one named by a proposed id or a catalog article found
      by the secondary search. */
  lemma GenerateGrounded(toolContents: seq<string>, artBooks: seq<BookCard>, artArticles: seq<ArticleCard>,
                         m: ModelAnswer, secondary: Option<seq<Doc>>, cat: Catalog)
    ensures var r := Generate(toolContents, artBooks, artArticles, Some(m), secondary, cat);
      (forall c :: c in r.books ==>
        exists i :: 0 <= i < |m.bookIds| && GroundedBook(c, m.bookIds[i], BookIndex(artBooks), cat.books)) &&
      (forall c :: c in r.articles ==>
        (exists i :: 0 <= i < |m.articleIds| && GroundedArticle(c, m.articleIds[i], ArticleIndex(artArticles), cat.articles))
        || FromCatalog(c, cat.articles))
  {
    ValidateBooksGrounded(m.bookIds, BookIndex(artBooks), cat.books);
    ValidateArticlesGrounded(m.articleIds, ArticleIndex(artArticles), cat.articles);
  }
}

=== FILE: index_sync.dfy ===
/** Keeping the recommendation agent's vector index in step with the catalog
    (backend/app/services/ChatBot.py).  Database change events are queued as
    `(tag, id)` pairs in a set; every event (re)arms a single flush timer; the
    flush takes a snapshot of the set, empties it, and hands each snapshot entry
    to the handler for its tag.  Handlers delete an index entry by its metadata
    id (`book_N` / `article_N`) and, for a change, re-add the document built
    from the current catalog row when that row exists.

    The index is a map keyed by metadata id.  That is the code's own
    assumption: it deletes entries by metadata id but adds documents without
    passing ids. */
module IndexSync {
  import opened Wrappers
  import opened Strs
  import opened Library
  import Seqs

  // ---------------------------------------------------------------------------
  // Change events and the pending set

  datatype Kind = BookKind | ArticleKind

  datatype Tag = Changed(kind: Kind) | Deleted(kind: Kind)

  /** The tag text the queue stores. */
  function TagName(t: Tag): string
  {
    match t
    case Changed(BookKind) => "book"
    case Deleted(BookKind) => "book_delete"
    case Changed(ArticleKind) => "article"
    case Deleted(ArticleKind) => "article_delete"
  }

  lemma TagNameInjective(a: Tag, b: Tag)
    ensures TagName(a) == TagName(b) <==> a == b
  {
  }

  datatype Event = Event(tag: Tag, id: nat)

  /** The queue state: the pending set, the armed timer (by serial number),
      the set of timers that are still live, and the next serial to hand out. */
  datatype Sync = Sync(pending: set<Event>, timer: Option<nat>, live: set<nat>, nextTimer: nat)

  /** The only live timer is the armed one. */
  predicate Valid(s: Sync)
  {
    && s.live == (if s.timer.Some? then {s.timer.value} else {})
    && (s.timer.Some? ==> s.timer.value < s.nextTimer)
  }

  function Initial(): (s: Sync)
    ensures Valid(s) && s.pending == {}
  {
    Sync({}, None, {}, 0)
  }

  lemma AtMostOneTimer(s: Sync)
    requires Valid(s)
    ensures |s.live| <= 1
  {
  }

  /** `_schedule_updates`: cancel the armed timer, if any, then arm a fresh one. */
  function Schedule(s: Sync): (r: Sync)
    ensures r.pending == s.pending
    ensures Valid(s) ==> Valid(r) && r.timer.Some? && r.live == {r.timer.value}
    ensures Valid(s) && s.timer.Some? ==> s.timer.value !in r.live
  {
    var cancelled := if s.timer.Some? then s.live - {s.timer.value} else s.live;
    Sync(s.pending, Some(s.nextTimer), cancelled + {s.nextTimer}, s.nextTimer + 1)
  }

  /** `_queue_update_book`, `_queue_delete_book`, `_queue_update_article`,
      `_queue_delete_article`: add the event to the set and re-arm the timer. */
  function Queue(s: Sync, e: Event): (r: Sync)
    ensures r.pending == s.pending + {e}
    ensures Valid(s) ==> Valid(r) && r.timer.Some?
  {
    Schedule(s.(pending := s.pending + {e}))
  }

  /** Repeating an event before a flush leaves the pending set as it was. */
  lemma QueueCollapses(s: Sync, e: Event)
    ensures Queue(Queue(s, e), e).pending == Queue(s, e).pending
  {
  }

  /** A change and a deletion of the same row carry different tags, so both stay queued. */
  lemma QueueChangeAndDelete(s: Sync, k: Kind, id: nat)
    ensures var r := Queue(Queue(s, Event(Changed(k), id)), Event(Deleted(k), id));
      && Event(Changed(k), id) in r.pending
      && Event(Deleted(k), id) in r.pending
      && Event(Changed(k), id) != Event(Deleted(k), id)
  {
  }

  // ---------------------------------------------------------------------------
  // Index ids

  function Prefix(k: Kind): (p: string)
    ensures |p| > 0 && forall i :: 0 <= i < |p| ==> !IsDigit(p[i])
  {
    match k
    case BookKind => "book_"
    case ArticleKind => "article_"
  }

  /** The metadata id `book_N` / `article_N` of a document. */
  function Key(k: Kind, n: nat): string
  {
    Prefix(k) + NatToString(n)
  }

  /** `retrieve`'s decoding: `int(doc_id.replace(prefix, ""))`. */
  function DecodeKey(k: Kind, docId: string): Option<int>
  {
    PyInt(RemoveAll(docId, Prefix(k)))
  }

  lemma {:induction false} DecodeEncode(k: Kind, n: nat)
    ensures DecodeKey(k, Key(k, n)) == Some(n)
  {
    var digits := NatToString(n);
    RemoveAllPrefix(Prefix(k), digits);
    ParseNatToString(n);
  }

  lemma KeyInjective(k1: Kind, n1: nat, k2: Kind, n2: nat)
    ensures Key(k1, n1) == Key(k2, n2) <==> k1 == k2 && n1 == n2
  {
    if Key(k1, n1) == Key(k2, n2) {
      assert Key(k1, n1)[0] == Prefix(k1)[0];
      assert Key(k2, n2)[0] == Prefix(k2)[0];
      DecodeEncode(k1, n1);
      DecodeEncode(k2, n2);
    }
  }

  // ---------------------------------------------------------------------------
  // Documents and the index

  datatype Doc = Doc(meta: map<string, string>, content: string)

  type Index = map<string, Doc>

  datatype Catalog = Catalog(books: seq<Book>, articles: seq<Article>)

  /** How a row's page text is rendered; the text itself is outside the model. */
  datatype Renderer = Renderer(book: Book -> string, article: Article -> string)

  function OrUnknown(s: string): string { if s == "" then "Unknown" else s }

  /** `book_to_document`: the metadata records title, id and type. */
  function BookDocument(b: Book, rd: Renderer): (d: Doc)
    ensures d.meta.Keys == {"title", "id", "type"}
    ensures d.meta["id"] == Key(BookKind, b.id) && d.meta["type"] == "book"
  {
    Doc(map["title" := OrUnknown(b.title), "id" := Key(BookKind, b.id), "type" := "book"], rd.book(b))
  }

  /** `article_to_document`. */
  function ArticleDocument(a: Article, rd: Renderer): (d: Doc)
    ensures d.meta.Keys == {"title", "id", "type"}
    ensures d.meta["id"] == Key(ArticleKind, a.id) && d.meta["type"] == "article"
  {
    Doc(map["title" := OrUnknown(a.title), "id" := Key(ArticleKind, a.id), "type" := "article"], rd.article(a))
  }

  /** The document for catalog row `id`, when the row exists. */
  function RowDoc(cat: Catalog, rd: Renderer, k: Kind, id: nat): Option<Doc>
  {
    match k
    case BookKind =>
      (match Lookup(cat.books, BookId, id) case Some(b) => Some(BookDocument(b, rd)) case None => None)
    case ArticleKind =>
      (match Lookup(cat.articles, ArticleId, id) case Some(a) => Some(ArticleDocument(a, rd)) case None => None)
  }

  /** One handler call: `remove_*_from_vector_store` deletes the key;
      `update_*_in_vector_store` deletes it and re-adds the row's document only
      when the row exists, and otherwise leaves the index alone. */
  function Apply(idx: Index, e: Event, cat: Catalog, rd: Renderer): (r: Index)
    ensures forall key :: key != Key(e.tag.kind, e.id) ==> (key in r <==> key in idx)
    ensures forall key :: key != Key(e.tag.kind, e.id) && key in r ==> r[key] == idx[key]
    ensures e.tag.Deleted? ==> Key(e.tag.kind, e.id) !in r
    ensures e.tag.Changed? && RowDoc(cat, rd, e.tag.kind, e.id).None? ==> r == idx
    ensures e.tag.Changed? && RowDoc(cat, rd, e.tag.kind, e.id).Some? ==>
      Key(e.tag.kind, e.id) in r && r[Key(e.tag.kind, e.id)] == RowDoc(cat, rd, e.tag.kind, e.id).value
  {
    var key := Key(e.tag.kind, e.id);
    if e.tag.Deleted? then idx - {key}
    else match RowDoc(cat, rd, e.tag.kind, e.id)
      case None => idx
      case Some(d) => (idx - {key})[key := d]
  }

  /** The handlers applied in log order. */
  function ApplyAll(idx: Index, log: seq<Event>, cat: Catalog, rd: Renderer): Index
    decreases |log|
  {
    if |log| == 0 then idx
    else Apply(ApplyAll(idx, log[..|log| - 1], cat, rd), log[|log| - 1], cat, rd)
  }

  /** `_process_updates`.  Python iterates a set in an order the model does not
      fix, so the loop picks any remaining snapshot entry.  Every snapshot
      entry is dispatched exactly once, the pending set ends empty and the
      timer is cleared. */
  method Flush(s: Sync, idx: Index, cat: Catalog, rd: Renderer) returns (r: Sync, out: Index, log: seq<Event>)
    requires Valid(s)
    ensures Valid(r) && r.pending == {} && r.timer.None?
    ensures Seqs.NoDup(log)
    ensures forall e :: e in log <==> e in s.pending
    ensures |log| == |s.pending|
    ensures out == ApplyAll(idx, log, cat, rd)
  {
    var snapshot := s.pending;
    var todo := snapshot;
    log := [];
    out := idx;
    while todo != {}
      invariant todo <= snapshot
      invariant forall e :: e in log <==> e in snapshot && e !in todo
      invariant Seqs.NoDup(log)
      invariant |log| + |todo| == |snapshot|
      invariant out == ApplyAll(idx, log, cat, rd)
      decreases |todo|
    {
      var e :| e in todo;
      out := Apply(out, e, cat, rd);
      assert (log + [e])[..|log|] == log;
      log := log + [e];
      todo := todo - {e};
    }
    r := Sync({}, None, {}, s.nextTimer);
  }

  /** The outcome of a flush for one row does not depend on the order in
      which the snapshot is walked, provided a deleted row is absent from the
      catalog by the time the flush runs: the row's entry is gone if it was
      deleted, holds the row's document if it changed and still exists, and
      is otherwise as before. */
  lemma {:induction false} FlushOutcome(idx: Index, log: seq<Event>, cat: Catalog, rd: Renderer, k: Kind, n: nat)
    requires forall i :: 0 <= i < |log| && log[i].tag.Deleted? ==>
      RowDoc(cat, rd, log[i].tag.kind, log[i].id).None?
    ensures var out := ApplyAll(idx, log, cat, rd);
      && (Key(k, n) in out <==>
           Event(Deleted(k), n) !in log &&
           ((Event(Changed(k), n) in log && RowDoc(cat, rd, k, n).Some?) || Key(k, n) in idx))
      && (Key(k, n) in out && Event(Changed(k), n) in log && RowDoc(cat, rd, k, n).Some? ==>
           out[Key(k, n)] == RowDoc(cat, rd, k, n).value)
      && (Key(k, n) in out && Event(Changed(k), n) !in log ==> out[Key(k, n)] == idx[Key(k, n)])
    decreases |log|
  {
    if |log| > 0 {
      var init := log[..|log| - 1];
      var e := log[|log| - 1];
      assert log == init + [e];
      FlushOutcome(idx, init, cat, rd, k, n);
      KeyInjective(e.tag.kind, e.id, k, n);
      if e.tag.Deleted? && e.tag.kind == k && e.id == n {
        assert RowDoc(cat, rd, k, n).None?;
      }
    }
  }

  /** Flushing a deletion removes the row's entry, however the snapshot is walked. */
  lemma FlushRemovesDeleted(s: Sync, idx: Index, cat: Catalog, rd: Renderer, log: seq<Event>, k: Kind, n: nat)
    requires forall e :: e in log <==> e in s.pending
    requires forall e :: e in s.pending && e.tag.Deleted? ==> RowDoc(cat, rd, e.tag.kind, e.id).None?
    requires Event(Deleted(k), n) in s.pending
    ensures Key(k, n) !in ApplyAll(idx, log, cat, rd)
  {
    FlushOutcome(idx, log, cat, rd, k, n);
  }
}

=== FILE: library.dfy ===
/** The library's persistent entities (books, articles, users, rentals, rental
    requests, account requests, notifications) as immutable records, and the
    lookups every service performs on a table.  A table is a sequence in
    primary-key order; a nullable text or number column whose `None` and empty
    value the code treats alike (`x or default`) is a plain `string` / `int`. */
module Library {
  import opened Wrappers

  datatype Book = Book(
    id: nat,
    title: string,
    coverUrl: string,
    description: string,
    rating: real,
    summary: string,
    borrowCount: int,
    totalBooks: int,
    availableBooks: int,
    featured: bool,
    authors: seq<string>,      // author names, in association order
    categories: seq<string>)   // category names, in association order

  datatype ArticleMeta = ArticleMeta(readTime: int, views: int, likes: int, bookmarks: int)

  datatype Article = Article(
    id: nat,
    title: string,
    slug: string,
    coverImageUrl: string,
    category: string,
    author: Option<string>,    // the linked author's name, when an author row is linked
    summary: string,
    pdfUrl: string,
    tags: seq<string>,
    createdAt: int,
    meta: Option<ArticleMeta>)

  datatype User = User(id: nat, name: string, email: string, passwordHash: string, role: string)

  datatype Rental = Rental(id: nat, userId: nat, bookId: nat, rentedAt: int, returnedAt: Option<int>)

  datatype RequestStatus = Pending | Approved | Rejected

  /** The status text stored in the `status` column. */
  function StatusName(s: RequestStatus): (r: string)
    ensures r in {"pending", "approved", "rejected"}
  {
    match s
    case Pending => "pending"
    case Approved => "approved"
    case Rejected => "rejected"
  }

  lemma StatusNameInjective(a: RequestStatus, b: RequestStatus)
    ensures StatusName(a) == StatusName(b) <==> a == b
  {
  }

  datatype RentalRequest = RentalRequest(id: nat, userId: nat, bookId: nat, requestedAt: int, status: RequestStatus)

  datatype AccountRequest = AccountRequest(
    id: nat, name: string, email: string, passwordHash: string, status: string, createdAt: int)

  datatype Notification = Notification(
    id: nat, userId: nat, kind: string, message: string, read: bool, createdAt: int)

  /** The database: one sequence per table, in primary-key order.  The
      category and author tables list names; likes and bookmarks are (user id, article
      id) pairs. */
  datatype Db = Db(
    books: seq<Book>,
    articles: seq<Article>,
    categories: seq<string>,
    authors: seq<string>,
    users: seq<User>,
    rentals: seq<Rental>,
    requests: seq<RentalRequest>,
    accountRequests: seq<AccountRequest>,
    notifications: seq<Notification>,
    likes: set<(nat, nat)>,
    bookmarks: set<(nat, nat)>)

  // ---------------------------------------------------------------------------
  // Table lookups

  /** `Model.query.get(id)`: the row with that primary key, if any. */
  function Lookup<T>(rows: seq<T>, key: T -> nat, id: int): (r: Option<T>)
    ensures r.Some? ==> r.value in rows && key(r.value) == id
    ensures r.None? ==> forall i :: 0 <= i < |rows| ==> key(rows[i]) != id
  {
    if |rows| == 0 then None
    else if key(rows[0]) == id then Some(rows[0])
    else Lookup(rows[1..], key, id)
  }

  /** Primary keys are unique. */
  ghost predicate UniqueKeys<T>(rows: seq<T>, key: T -> nat)
  {
    forall i, j :: 0 <= i < j < |rows| ==> key(rows[i]) != key(rows[j])
  }

  /** Replaces the row with primary key `id` by `f` of itself; every other row is kept. */
  function UpdateWhere<T>(rows: seq<T>, key: T -> nat, id: nat, f: T -> T): (r: seq<T>)
    ensures |r| == |rows|
    ensures forall i :: 0 <= i < |rows| ==> r[i] == if key(rows[i]) == id then f(rows[i]) else rows[i]
  {
    seq(|rows|, i requires 0 <= i < |rows| => if key(rows[i]) == id then f(rows[i]) else rows[i])
  }

  /** After updating the rows with key `id` by a key-preserving `f`, looking
      `id` up finds the updated first row: the stored row is the one returned. */
  lemma {:induction false} LookupUpdated<T>(rows: seq<T>, key: T -> nat, id: nat, f: T -> T)
    requires Lookup(rows, key, id).Some?
    requires key(f(Lookup(rows, key, id).value)) == id
    ensures Lookup(UpdateWhere(rows, key, id, f), key, id) == Some(f(Lookup(rows, key, id).value))
    decreases |rows|
  {
    var u := UpdateWhere(rows, key, id, f);
    if key(rows[0]) != id {
      assert u[1..] == UpdateWhere(rows[1..], key, id, f);
      LookupUpdated(rows[1..], key, id, f);
    }
  }

  /** Deletes the row(s) with primary key `id`, keeping the others in order. */
  function DeleteWhere<T(!new)>(rows: seq<T>, key: T -> nat, id: nat): (r: seq<T>)
    ensures |r| <= |rows|
    ensures forall x :: x in r <==> x in rows && key(x) != id
    decreases |rows|
  {
    if |rows| == 0 then []
    else if key(rows[0]) == id then DeleteWhere(rows[1..], key, id)
    else [rows[0]] + DeleteWhere(rows[1..], key, id)
  }

  /** The key one past the largest stored key: what an auto-increment column hands out next. */
  function NextKey<T>(rows: seq<T>, key: T -> nat): (n: nat)
    ensures forall i :: 0 <= i < |rows| ==> key(rows[i]) < n
  {
    if |rows| == 0 then 1
    else
      var m := NextKey(rows[1..], key);
      if key(rows[0]) < m then m else key(rows[0]) + 1
  }

  /** With unique keys, looking up a row's key finds that row. */
  lemma {:induction false} LookupAt<T>(rows: seq<T>, key: T -> nat, k: nat)
    requires UniqueKeys(rows, key) && k < |rows|
    ensures Lookup(rows, key, key(rows[k])) == Some(rows[k])
  {
    if k > 0 {
      assert key(rows[0]) != key(rows[k]);
      assert rows[1..][k - 1] == rows[k];
      LookupAt(rows[1..], key, k - 1);
    }
  }

  lemma AppendFreshUnique<T>(rows: seq<T>, key: T -> nat, x: T)
    requires UniqueKeys(rows, key)
    requires key(x) == NextKey(rows, key)
    ensures UniqueKeys(rows + [x], key)
  {
  }

  function BookId(b: Book): nat { b.id }
  function ArticleId(a: Article): nat { a.id }
  function UserId(u: User): nat { u.id }
  function RentalId(r: Rental): nat { r.id }
  function RequestId(r: RentalRequest): nat { r.id }
  function AccountRequestId(r: AccountRequest): nat { r.id }
  function NotificationId(n: Notification): nat { n.id }
}

=== FILE: notification_ui.dfy ===
/** The notification bell of the frontend: the relative time and the icon of
    each entry (frontend/src/components/notification/NotificationDropDown.tsx)
    and the shared notification state with its read markers and unread count
    (frontend/src/context/NotificationContext.tsx).  Times are milliseconds
    since the epoch; whether a token is stored and how each server call ends
    are parameters. */
module NotificationUi {
  import opened Strs
  import opened Seqs

  // ---------------------------------------------------------------------------
  // Relative time

  datatype Unit = Sec | Min | Hour | Day

  function UnitName(u: Unit): string
  {
    match u
    case Sec => "sec"
    case Min => "min"
    case Hour => "hour"
    case Day => "day"
  }

  /** "just now", or a count of one unit. */
  datatype Age = JustNow | Ago(count: nat, unit: Unit)

  const MsPerMin := 60000
  const MsPerHour := 3600000
  const MsPerDay := 86400000

  /** Repeated flooring: whole minutes of whole seconds are whole minutes. */
  lemma FloorTwice(x: nat, a: nat, b: nat)
    requires a > 0 && b > 0
    ensures (x / a) / b == x / (a * b)
  {
    var y, r1 := x / a, x % a;
    var z, r2 := y / b, y % b;
    assert x == y * a + r1;
    assert y == z * b + r2;
    MulLe(r2, b - 1, a);
    assert x == z * (a * b) + (r2 * a + r1) by {
      calc {
        x;
        y * a + r1;
        (z * b + r2) * a + r1;
        z * (a * b) + (r2 * a + r1);
      }
    }
    assert r2 * a + r1 < a * b by {
      assert (b - 1) * a == a * b - a;
    }
    DivUnique(x, a * b, z, r2 * a + r1);
  }

  lemma MulLe(x: int, y: int, a: int)
    requires 0 <= x <= y && a >= 0
    ensures x * a <= y * a
  {
    assert y * a == x * a + (y - x) * a;
  }

  /** Division is determined by quotient and remainder. */
  lemma DivUnique(x: int, m: int, q: int, r: int)
    requires m > 0 && 0 <= r < m && x == q * m + r
    ensures x / m == q
  {
    var q', r' := x / m, x % m;
    assert x == q' * m + r';
    if q' > q {
      MulLe(1, q' - q, m);
    } else if q' < q {
      MulLe(1, q - q', m);
    }
  }

  /** `formatDate`: the elapsed time, clamped at zero, in the largest unit
      below the next one, with floor division throughout; up to five seconds
      read "just now". */
  function AgeOf(now: int, stamp: int): (r: Age)
    ensures stamp >= now ==> r == JustNow
    ensures var d := if now - stamp > 0 then now - stamp else 0;
      (r == JustNow <==> d < 6000) &&
      (r.Ago? && r.unit == Sec <==> 6000 <= d < MsPerMin) &&
      (r.Ago? && r.unit == Min <==> MsPerMin <= d < MsPerHour) &&
      (r.Ago? && r.unit == Hour <==> MsPerHour <= d < MsPerDay) &&
      (r.Ago? && r.unit == Day <==> MsPerDay <= d) &&
      (r.Ago? && r.unit == Sec ==> r.count == d / 1000) &&
      (r.Ago? && r.unit == Min ==> r.count == d / MsPerMin) &&
      (r.Ago? && r.unit == Hour ==> r.count == d / MsPerHour) &&
      (r.Ago? && r.unit == Day ==> r.count == d / MsPerDay)
  {
    var diff: nat := if now - stamp > 0 then now - stamp else 0;
    var secs := diff / 1000;
    var mins := secs / 60;
    var hours := mins / 60;
    var days := hours / 24;
    FloorTwice(diff, 1000, 60);
    FloorTwice(diff, 60000, 60);
    FloorTwice(diff, 3600000, 24);
    if secs < 60 then (if secs <= 5 then JustNow else Ago(secs, Sec))
    else if mins < 60 then Ago(mins, Min)
    else if hours < 24 then Ago(hours, Hour)
    else Ago(days, Day)
  }

  /** The text of an age: the count, the unit with an "s" unless the count is
      one, and "ago". */
  function AgeText(a: Age): string
  {
    match a
    case JustNow => "just now"
    case Ago(n, u) => NatToString(n) + " " + UnitName(u) + (if n != 1 then "s" else "") + " ago"
  }

  /** The unit is plural exactly when the count is not one. */
  lemma PluralUnlessOne(n: nat, u: Unit)
    ensures var t := AgeText(Ago(n, u));
      var stem := NatToString(n) + " " + UnitName(u);
      (n != 1 <==> t == stem + "s ago") && (n == 1 <==> t == stem + " ago")
  {
    var stem := NatToString(n) + " " + UnitName(u);
    if n == 1 {
      assert stem + "s ago" != stem + " ago" by {
        assert (stem + "s ago")[|stem|] == 's';
        assert (stem + " ago")[|stem|] == ' ';
      }
    } else {
      assert stem + "s ago" != stem + " ago" by {
        assert (stem + "s ago")[|stem|] == 's';
        assert (stem + " ago")[|stem|] == ' ';
      }
    }
  }

  /** Once past "just now" the count is at least one, and every unit's count
      stays below the next unit. */
  lemma AgeCounts(now: int, stamp: int)
    ensures var r := AgeOf(now, stamp);
      r.Ago? ==>
        r.count >= 1 &&
        (r.unit == Sec ==> 6 <= r.count < 60) &&
        (r.unit == Min ==> r.count < 60) &&
        (r.unit == Hour ==> r.count < 24)
  {
  }

  // ---------------------------------------------------------------------------
  // Icons

  datatype Icon = CheckIcon | CrossIcon | AlertIcon | BellIcon

  /** `getNotificationIcon`. */
  function IconOf(kind: string): (r: Icon)
    ensures r == CheckIcon <==> kind == "welcome" || kind == "borrow-accepted"
    ensures r == CrossIcon <==> kind == "borrow-rejected"
    ensures r == AlertIcon <==> kind == "info"
  {
    if kind == "welcome" || kind == "borrow-accepted" then CheckIcon
    else if kind == "borrow-rejected" then CrossIcon
    else if kind == "info" then AlertIcon
    else BellIcon
  }

  /** The four declared notification types never get the plain bell. */
  lemma DeclaredTypesHaveIcons(kind: string)
    requires kind in {"welcome", "borrow-accepted", "borrow-rejected", "info"}
    ensures IconOf(kind) != BellIcon
  {
  }

  // ---------------------------------------------------------------------------
  // The shared state

  datatype Note = Note(id: string, kind: string, message: string, read: bool)

  datatype Bell = Bell(notes: seq<Note>, unreadCount: int)

  /** The number of unread notes, `notifications.filter(n => !n.read).length`. */
  function Unread(notes: seq<Note>): (r: nat)
    ensures r <= |notes|
  {
    if |notes| == 0 then 0 else (if notes[0].read then 0 else 1) + Unread(notes[1..])
  }

  /** A list whose notes are all read has none unread. */
  lemma {:induction false} AllReadNoneUnread(notes: seq<Note>)
    requires forall i :: 0 <= i < |notes| ==> notes[i].read
    ensures Unread(notes) == 0
    decreases |notes|
  {
    if |notes| > 0 {
      assert forall i :: 0 <= i < |notes| - 1 ==> notes[1..][i] == notes[i + 1];
      AllReadNoneUnread(notes[1..]);
    }
  }

  /** The count agrees with the list. */
  predicate Consistent(b: Bell)
  {
    b.unreadCount == Unread(b.notes)
  }

  /** Ids are unique within the list. */
  predicate UniqueIds(notes: seq<Note>)
  {
    forall i, j :: 0 <= i < j < |notes| ==> notes[i].id != notes[j].id
  }

  function MarkNote(n: Note, id: string): Note
  {
    if n.id == id then n.(read := true) else n
  }

  function MarkAll(notes: seq<Note>, id: string): (r: seq<Note>)
    ensures |r| == |notes|
    ensures forall i :: 0 <= i < |r| ==> r[i] == MarkNote(notes[i], id)
  {
    if |notes| == 0 then [] else [MarkNote(notes[0], id)] + MarkAll(notes[1..], id)
  }

  /** `markAsRead`: with a token and an accepted call, the note with that id
      becomes read and the counter drops by one, not below zero, whether or
      not the note was unread.  Otherwise nothing changes. */
  function MarkAsRead(b: Bell, id: string, hasToken: bool, ok: bool): (r: Bell)
    ensures !(hasToken && ok) ==> r == b
    ensures hasToken && ok ==>
      |r.notes| == |b.notes| &&
      (forall i :: 0 <= i < |b.notes| ==>
        r.notes[i] == if b.notes[i].id == id then b.notes[i].(read := true) else b.notes[i])
    ensures hasToken && ok ==> r.unreadCount == Max(0, b.unreadCount - 1)
  {
    if !(hasToken && ok) then b
    else Bell(MarkAll(b.notes, id), Max(0, b.unreadCount - 1))
  }

  /** Marking the note at `k` read removes it from the unread count when it
      was unread, and changes nothing when it was read; no other note may
      carry its id. */
  lemma {:induction false} UnreadAfterMark(notes: seq<Note>, k: nat)
    requires k < |notes|
    requires forall j :: 0 <= j < |notes| && j != k ==> notes[j].id != notes[k].id
    ensures Unread(MarkAll(notes, notes[k].id)) == Unread(notes) - (if notes[k].read then 0 else 1)
    decreases |notes|
  {
    var id := notes[k].id;
    var rest := notes[1..];
    var m := MarkAll(notes, id);
    assert m[1..] == MarkAll(rest, id);
    if k == 0 {
      assert MarkAll(rest, id) == rest by {
        forall i | 0 <= i < |rest| ensures rest[i].id != id {
          assert rest[i] == notes[i + 1];
        }
        MarkNoOther(rest, id);
      }
    } else {
      assert m[0] == notes[0];
      assert rest[k - 1] == notes[k];
      forall j | 0 <= j < |rest| && j != k - 1 ensures rest[j].id != rest[k - 1].id {
        assert rest[j] == notes[j + 1];
      }
      UnreadAfterMark(rest, k - 1);
    }
  }

  lemma {:induction false} MarkNoOther(notes: seq<Note>, id: string)
    requires forall i :: 0 <= i < |notes| ==> notes[i].id != id
    ensures MarkAll(notes, id) == notes
    decreases |notes|
  {
    if |notes| > 0 {
      MarkNoOther(notes[1..], id);
    }
  }

  /** Marking an unread note keeps the counter in step with the list; marking
      a note that was already read makes the counter fall below it. */
  lemma MarkAsReadConsistency(b: Bell, k: nat)
    requires Consistent(b) && UniqueIds(b.notes) && k < |b.notes|
    ensures !b.notes[k].read ==> Consistent(MarkAsRead(b, b.notes[k].id, true, true))
    ensures b.notes[k].read && b.unreadCount > 0 ==>
      MarkAsRead(b, b.notes[k].id, true, true).unreadCount == Unread(b.notes) - 1
  {
    UnreadAfterMark(b.notes, k);
  }

  function ReadAll(notes: seq<Note>): (r: seq<Note>)
    ensures |r| == |notes|
    ensures forall i :: 0 <= i < |r| ==> r[i] == notes[i].(read := true)
  {
    if |notes| == 0 then [] else [notes[0].(read := true)] + ReadAll(notes[1..])
  }

  /** `markAllAsRead`: with a token and an accepted call every note is read
      and the counter is zero; otherwise nothing changes. */
  function MarkAllAsRead(b: Bell, hasToken: bool, ok: bool): (r: Bell)
    ensures !(hasToken && ok) ==> r == b
    ensures hasToken && ok ==>
      r.unreadCount == 0 && |r.notes| == |b.notes| &&
      forall i :: 0 <= i < |r.notes| ==> r.notes[i].read && r.notes[i].id == b.notes[i].id
  {
    if !(hasToken && ok) then b else Bell(ReadAll(b.notes), 0)
  }

  /** After marking everything read, the counter agrees with the list. */
  lemma MarkAllConsistent(b: Bell)
    ensures Consistent(MarkAllAsRead(b, true, true))
  {
    AllReadNoneUnread(ReadAll(b.notes));
  }

  /** What a fetch returned: the list and the counter, or a failure. */
  datatype Fetched = Fetched(notes: seq<Note>, count: int) | FetchFailed

  /** The storage listener: a change of the `token` key either fetches again
      (a new value) or clears the list and the counter (the token removed);
      other keys change nothing.  A failed fetch keeps the state. */
  function StorageChange(b: Bell, key: string, newValue: string, fetched: Fetched): (r: Bell)
    ensures key != "token" ==> r == b
    ensures key == "token" && newValue == "" ==> r == Bell([], 0) && Consistent(r)
    ensures key == "token" && newValue != "" && fetched.Fetched? ==>
      r == Bell(fetched.notes, fetched.count)
    ensures fetched.FetchFailed? && newValue != "" ==> r == b
  {
    if key != "token" then b
    else if newValue == "" then Bell([], 0)
    else match fetched
      case Fetched(notes, count) => Bell(notes, count)
      case FetchFailed => b
  }
}

=== FILE: notifications.dfy ===
/** NotificationService (backend/app/services/NotificationService.py): a
    per-user store of read/unread messages.  The creation time is a parameter. */
module Notifications {
  import opened Wrappers
  import opened Seqs
  import opened Library

  /** `create_notification`: one new unread notification for the user. */
  function CreateNotification(db: Db, userId: nat, kind: string, message: string, now: int): (r: (Db, Notification))
    ensures r.0 == db.(notifications := db.notifications + [r.1])
    ensures r.1.userId == userId && r.1.kind == kind && r.1.message == message
    ensures !r.1.read && r.1.createdAt == now
    ensures forall i :: 0 <= i < |db.notifications| ==> db.notifications[i].id != r.1.id
  {
    var n := Notification(NextKey(db.notifications, NotificationId), userId, kind, message, false, now);
    (db.(notifications := db.notifications + [n]), n)
  }

  /** `created_at` descending: `a` may be listed before `b`. */
  function NewestFirst(a: Notification, b: Notification): bool { a.createdAt >= b.createdAt }

  /** The rows `get_user_notifications` selects before ordering. */
  function Selected(userId: int, unreadOnly: bool): Notification -> bool
  {
    (n: Notification) => n.userId == userId && (unreadOnly ==> !n.read)
  }

  /** `get_user_notifications`: the user's notifications (unread ones only
      when asked), newest first, cut to `limit` when it is non-zero.  Rows with
      the same creation time keep table order. */
  function UserNotifications(db: Db, userId: int, limit: nat, unreadOnly: bool): (r: seq<Notification>)
    ensures forall n :: n in r ==> n in db.notifications && n.userId == userId && (unreadOnly ==> !n.read)
    ensures SortedBy(r, NewestFirst)
    ensures limit > 0 ==> |r| == Min(limit, Count(db.notifications, Selected(userId, unreadOnly)))
    ensures limit == 0 ==> |r| == Count(db.notifications, Selected(userId, unreadOnly))
    ensures limit == 0 ==> forall n :: n in r <==> n in db.notifications && n.userId == userId && (unreadOnly ==> !n.read)
    ensures forall n, m ::
      n in db.notifications && Selected(userId, unreadOnly)(n) && n !in r && m in r ==> m.createdAt >= n.createdAt
  {
    var mine := Filter(db.notifications, Selected(userId, unreadOnly));
    var sorted := SortBy(mine, NewestFirst);
    assert |sorted| == |mine| by { assert |multiset(sorted)| == |multiset(mine)|; }
    SortBySorted(mine, NewestFirst);
    SortByMembers(mine, NewestFirst);
    SortedPrefix(sorted, limit, NewestFirst);
    assert forall n :: n in Take(sorted, limit) ==> n in sorted;
    if limit > 0 then Take(sorted, limit) else sorted
  }

  /** `mark_as_read`: sets `read` on that notification only; `None` for an unknown id. */
  function MarkAsRead(db: Db, id: int): (r: (Db, Option<Notification>))
    ensures r.1.None? <==> Lookup(db.notifications, NotificationId, id).None?
    ensures r.1.None? ==> r.0 == db
    ensures r.1.Some? ==> r.1.value.id == id && r.1.value.read
    ensures r.0.(notifications := db.notifications) == db
    ensures |r.0.notifications| == |db.notifications|
    ensures forall i :: 0 <= i < |db.notifications| ==>
      r.0.notifications[i] == if db.notifications[i].id == id then db.notifications[i].(read := true) else db.notifications[i]
  {
    match Lookup(db.notifications, NotificationId, id)
    case None => (db, None)
    case Some(n) =>
      (db.(notifications := UpdateWhere(db.notifications, NotificationId, n.id, (x: Notification) => x.(read := true))),
       Some(n.(read := true)))
  }

  /** Marking the same notification twice is the same as marking it once. */
  lemma MarkAsReadIdempotent(db: Db, id: int)
    ensures MarkAsRead(MarkAsRead(db, id).0, id).0 == MarkAsRead(db, id).0
  {
    var once := MarkAsRead(db, id).0;
    var twice := MarkAsRead(once, id).0;
    assert twice.notifications == once.notifications;
  }

  function IsUnreadOf(userId: int): Notification -> bool
  {
    (n: Notification) => n.userId == userId && !n.read
  }

  /** `mark_all_as_read`: marks the user's unread notifications and returns how many there were. */
  function MarkAllAsRead(db: Db, userId: int): (r: (Db, nat))
    ensures r.1 == Count(db.notifications, IsUnreadOf(userId))
    ensures r.0.(notifications := db.notifications) == db
    ensures |r.0.notifications| == |db.notifications|
    ensures forall i :: 0 <= i < |db.notifications| ==>
      && r.0.notifications[i].id == db.notifications[i].id
      && (db.notifications[i].userId != userId ==> r.0.notifications[i] == db.notifications[i])
      && (db.notifications[i].userId == userId ==> r.0.notifications[i] == db.notifications[i].(read := true))
  {
    var rows := seq(|db.notifications|, i requires 0 <= i < |db.notifications| =>
      var n := db.notifications[i];
      if n.userId == userId then n.(read := true) else n);
    (db.(notifications := rows), |Filter(db.notifications, IsUnreadOf(userId))|)
  }

  /** Afterwards none of the user's notifications is unread. */
  lemma MarkAllAsReadLeavesNoneUnread(db: Db, userId: int)
    ensures Count(MarkAllAsRead(db, userId).0.notifications, IsUnreadOf(userId)) == 0
  {
    var rows := MarkAllAsRead(db, userId).0.notifications;
    FilterNone(rows, IsUnreadOf(userId));
  }

  /** `delete_notification`: `true` iff the id existed; only that notification goes. */
  function DeleteNotification(db: Db, id: int): (r: (Db, bool))
    ensures r.1 <==> Lookup(db.notifications, NotificationId, id).Some?
    ensures !r.1 ==> r.0 == db
    ensures r.0.(notifications := db.notifications) == db
    ensures forall n :: n in r.0.notifications <==> n in db.notifications && n.id != id
  {
    match Lookup(db.notifications, NotificationId, id)
    case None => (db, false)
    case Some(n) => (db.(notifications := DeleteWhere(db.notifications, NotificationId, n.id)), true)
  }
}

=== FILE: page_window.dfy ===
/** The page navigation of the frontend (frontend/src/components/common/Pagination.tsx
    and the copy in frontend/src/pages/ArticlesPage.tsx): a window of at most
    five page numbers around the current page, the ellipsis variant that also
    shows the first and the last page, the "Showing a-b" label, and the guard
    every page applies before it changes the current page. */
module PageWindow {
  import opened Seqs

  /** At most five page numbers are shown. */
  const MaxShown := 5

  /** The marker the article listing uses for an ellipsis. */
  const Ellipsis := -1

  /** The pages `a, a + 1, ..., b` (empty when `b < a`). */
  function Run(a: int, b: int): (r: seq<int>)
    ensures |r| == if b < a then 0 else b - a + 1
    ensures forall i :: 0 <= i < |r| ==> r[i] == a + i
    decreases b - a
  {
    if b < a then [] else [a] + Run(a + 1, b)
  }

  /** The first and last page of the window: centred two pages either side of
      the current page, cut at the last page, then pulled back so that five
      pages show whenever there are five. */
  function Bounds(current: int, total: int): (r: (int, int))
    ensures r.0 >= 1 && r.1 <= total
  {
    var start := Max(1, current - MaxShown / 2);
    var end := Min(total, start + MaxShown - 1);
    if end - start + 1 < MaxShown then (Max(1, end - MaxShown + 1), end) else (start, end)
  }

  /** `getPageNumbers` of the shared pagination bar: a run of consecutive
      pages inside `[1, totalPages]`, as many as five or the number of pages,
      whichever is smaller. */
  function Window(current: int, total: nat): (r: seq<int>)
    ensures |r| == Min(MaxShown, total)
    ensures forall i :: 0 <= i < |r| ==> r[i] == r[0] + i
    ensures forall i :: 0 <= i < |r| ==> 1 <= r[i] <= total
  {
    var (a, b) := Bounds(current, total);
    Run(a, b)
  }

  /** A page number from 1 to `totalPages` always appears in its own window. */
  lemma WindowHasCurrent(current: int, total: nat)
    requires 1 <= current <= total
    ensures current in Window(current, total)
  {
    var w := Window(current, total);
    var (a, b) := Bounds(current, total);
    assert a <= current <= b;
    assert w[current - a] == current;
  }

  /** Near the end (the current page at most two before the last) the window
      is the last `min(5, totalPages)` pages. */
  lemma WindowAtEnd(current: int, total: nat)
    requires total >= 1 && current + MaxShown / 2 >= total
    ensures var w := Window(current, total);
      w[|w| - 1] == total && w[0] == Max(1, total - MaxShown + 1)
  {
  }

  /** Near the start (the current page at most three) the window is the first
      `min(5, totalPages)` pages. */
  lemma WindowAtStart(current: int, total: nat)
    requires total >= 1 && current <= MaxShown / 2 + 1
    ensures Window(current, total) == Run(1, Min(MaxShown, total))
  {
  }

  /** The ellipsis variant of the article listing: the window, preceded by
      page 1 and a marker when the window starts after page 1, and followed by
      a marker and the last page when it ends before the last page. */
  function WithEllipses(current: int, total: int): (r: seq<int>)
    ensures var (a, b) := Bounds(current, total);
      (a > 1 ==> |r| >= 2 && r[0] == 1 && r[1] == Ellipsis) &&
      (b < total ==> |r| >= 2 && r[|r| - 2] == Ellipsis && r[|r| - 1] == total)
  {
    var (a, b) := Bounds(current, total);
    Lead(a) + Run(a, b) + Trail(b, total)
  }

  function Lead(a: int): seq<int> { if a > 1 then [1, Ellipsis] else [] }

  function Trail(b: int, total: int): seq<int> { if b < total then [Ellipsis, total] else [] }

  /** The page numbers of a list, markers left out. */
  function Numbers(s: seq<int>): seq<int>
  {
    Filter(s, (x: int) => x != Ellipsis)
  }

  predicate Increasing(s: seq<int>)
  {
    forall i, j :: 0 <= i < j < |s| ==> s[i] < s[j]
  }

  lemma IncreasingConcat(x: seq<int>, y: seq<int>)
    requires Increasing(x) && Increasing(y)
    requires |x| > 0 && |y| > 0 ==> x[|x| - 1] < y[0]
    ensures Increasing(x + y)
  {
    var z := x + y;
    forall i, j | 0 <= i < j < |z| ensures z[i] < z[j] {
      if i < |x| && j >= |x| {
        assert x[i] <= x[|x| - 1];
        assert y[0] <= y[j - |x|];
      }
    }
  }

  lemma NumbersOfRun(a: int, b: int)
    requires a >= 1
    ensures Numbers(Run(a, b)) == Run(a, b)
  {
    FilterAll(Run(a, b), (x: int) => x != Ellipsis);
  }

  /** The markers dropped, the list is page 1 when shown, the window, and the
      last page when shown. */
  lemma NumbersOfEllipses(current: int, total: int)
    ensures var (a, b) := Bounds(current, total);
      Numbers(WithEllipses(current, total)) ==
        (if a > 1 then [1] else []) + Run(a, b) + (if b < total then [total] else [])
  {
    var (a, b) := Bounds(current, total);
    var p := (x: int) => x != Ellipsis;
    NumbersOfRun(a, b);
    assert Filter(Lead(a), p) == (if a > 1 then [1] else []) by {
      if a > 1 {
        assert Lead(a) == [1] + [Ellipsis];
        FilterConcat([1], [Ellipsis], p);
      }
    }
    assert Filter(Trail(b, total), p) == (if b < total then [total] else []) by {
      if b < total {
        assert Trail(b, total) == [Ellipsis] + [total];
        FilterConcat([Ellipsis], [total], p);
      }
    }
    FilterConcat(Lead(a), Run(a, b), p);
    FilterConcat(Lead(a) + Run(a, b), Trail(b, total), p);
  }

  /** Page 1 when the run starts after it, the run, and the last page when the
      run ends before it, rise strictly from 1 to the last page. */
  lemma FramedRun(a: int, b: int, total: int)
    requires 1 <= a <= b <= total
    ensures var n := (if a > 1 then [1] else []) + Run(a, b) + (if b < total then [total] else []);
      Increasing(n) && |n| >= 1 && n[0] == 1 && n[|n| - 1] == total &&
      (forall i :: 0 <= i < |n| ==> 1 <= n[i] <= total)
  {
    var w := Run(a, b);
    var nh := if a > 1 then [1] else [];
    var nt := if b < total then [total] else [];
    var n := nh + w + nt;
    assert Increasing(n) by {
      assert Increasing(w) && w[0] == a && w[|w| - 1] == b;
      IncreasingConcat(nh, w);
      IncreasingConcat(nh + w, nt);
    }
    assert n[0] == 1 by {
      if a <= 1 { assert n[0] == w[0]; }
    }
    assert n[|n| - 1] == total by {
      if b >= total { assert n[|n| - 1] == w[|w| - 1]; }
    }
    assert forall i :: 0 <= i < |n| ==> 1 <= n[i] <= total by {
      forall i | 0 <= i < |n| ensures 1 <= n[i] <= total {
        if |nh| <= i < |nh| + |w| { assert n[i] == w[i - |nh|]; }
      }
    }
  }

  /** Leaving out the markers, the article listing's page list rises strictly
      from 1 to `totalPages` (for at least one page), every entry a real page;
      it holds at most nine entries. */
  lemma WithEllipsesShape(current: int, total: int)
    requires total >= 1
    ensures var r := WithEllipses(current, total);
      var n := Numbers(r);
      Increasing(n) && |n| >= 1 && n[0] == 1 && n[|n| - 1] == total &&
      (forall i :: 0 <= i < |n| ==> 1 <= n[i] <= total) && |r| <= 9
  {
    var (a, b) := Bounds(current, total);
    assert |Run(a, b)| == |Window(current, total)| == Min(MaxShown, total);
    NumbersOfEllipses(current, total);
    FramedRun(a, b, total);
  }

  /** The leading marker appears exactly when the window starts after page 1,
      and the trailing one exactly when it ends before the last page. */
  lemma EllipsisPlacement(current: int, total: int)
    requires total >= 1
    ensures var r := WithEllipses(current, total);
      var (a, b) := Bounds(current, total);
      (|r| >= 2 && r[1] == Ellipsis <==> a > 1) &&
      (|r| >= 2 && r[|r| - 2] == Ellipsis <==> b < total)
  {
    var (a, b) := Bounds(current, total);
    var w := Run(a, b);
    var r := WithEllipses(current, total);
    assert |w| == Min(MaxShown, total);
    if a <= 1 && b < total {
      assert |w| == MaxShown;
      assert r[1] == w[1];
    }
    if a > 1 && b >= total {
      assert |w| == MaxShown;
      assert r[|r| - 2] == w[|w| - 2];
    }
    if a <= 1 && b >= total && |r| >= 2 {
      assert r == w;
      assert r[1] == w[1] && r[|r| - 2] == w[|w| - 2];
    }
  }

  /** The "Showing a-b" label; `None` stands for the "0" shown with no items. */
  datatype Shown = NoneShown | Showing(first: int, last: int)

  function Label(current: int, perPage: int, totalItems: int): (r: Shown)
    ensures r.NoneShown? <==> totalItems <= 0
    ensures r.Showing? ==> r.last <= totalItems
  {
    if totalItems > 0 then Showing((current - 1) * perPage + 1, Min(current * perPage, totalItems))
    else NoneShown
  }

  /** On a page that holds items, the label spans exactly that page's items:
      it starts right after the earlier pages and counts `perPage` items, or
      the rest of the list on the last page. */
  lemma LabelCountsPage(current: nat, perPage: nat, totalItems: nat)
    requires current >= 1 && perPage >= 1
    requires (current - 1) * perPage < totalItems
    ensures var r := Label(current, perPage, totalItems);
      r.Showing? && 1 <= r.first <= r.last &&
      r.last - r.first + 1 == Min(perPage, totalItems - (current - 1) * perPage)
  {
    assert current * perPage == (current - 1) * perPage + perPage;
  }

  /** `handlePageChange`: a page outside `[1, totalPages]` is ignored. */
  function ChangePage(current: int, page: int, total: int): (r: int)
    ensures r == page <==> (1 <= page <= total || page == current)
    ensures r != page ==> r == current
  {
    if 1 <= page <= total then page else current
  }

  /** Starting from a valid page, only valid pages are ever reached. */
  lemma ChangePageStaysValid(current: int, page: int, total: int)
    requires 1 <= current <= total
    ensures 1 <= ChangePage(current, page, total) <= total
  {
  }
}

=== FILE: paging.dfy ===
/** Page arithmetic shared by the backend: Python's floor division, the
    `(total + per_page - 1) // per_page` page count, Python slicing with
    possibly negative bounds, and Flask-SQLAlchemy's `paginate(...,
    error_out=False)`, which (in its 3.x releases) treats a page below 1 as
    page 1 and a page size below 1 as 20. */
module Paging {
  import opened Wrappers
  import opened Seqs

  /** One page of a listing with the number of matching rows and of pages. */
  datatype Page<T> = Page(items: seq<T>, totalCount: nat, totalPages: int)

  /** Python's `a // b`: rounds toward negative infinity. */
  function FloorDiv(a: int, b: int): (q: int)
    requires b != 0
    ensures b > 0 ==> b * q <= a < b * q + b
    ensures b < 0 ==> b * q + b < a <= b * q
  {
    if b > 0 then a / b else (-a) / (-b)
  }

  /** `(total + per_page - 1) // per_page`; `None` is the ZeroDivisionError of a zero page size. */
  function PageCount(total: nat, per: int): (r: Option<int>)
    ensures r.None? <==> per == 0
    ensures per > 0 ==> r == Some(CeilDiv(total, per))
  {
    if per == 0 then None else Some(FloorDiv(total + per - 1, per))
  }

  /** For a positive page size the count is the least number of pages holding every item. */
  lemma PageCountLeast(total: nat, per: int)
    requires per > 0
    ensures var p := PageCount(total, per).value;
      p >= 0 && p * per >= total && (p == 0 || (p - 1) * per < total)
  {
  }

  /** Normalises one Python slice bound against a length. */
  function Bound(i: int, n: nat): (b: nat)
    ensures b <= n
  {
    if i < 0 then (if i + n < 0 then 0 else i + n) else if i > n then n else i
  }

  /** Python's `s[start:stop]`: negative bounds count from the end, and
      out-of-range bounds are cut back. */
  function PySlice<T>(s: seq<T>, start: int, stop: int): (r: seq<T>)
    ensures |r| <= |s|
    ensures 0 <= start <= stop ==> r == Slice(s, start, stop)
  {
    var a := Bound(start, |s|);
    var b := Bound(stop, |s|);
    if a < b then s[a..b] else []
  }

  /** Where page `page` of size `per` starts: `(page - 1) * per`. */
  function Offset(page: int, per: int): (o: nat)
    requires page >= 1 && per >= 1
    ensures o + per == page * per
  {
    MulNat(page - 1, per);
    (page - 1) * per
  }

  lemma MulNat(a: nat, b: nat)
    ensures a * b >= 0
  {
  }

  /** `query.paginate(page=page, per_page=per_page, error_out=False).items`. */
  function Paginate<T>(s: seq<T>, page: int, per: int): (r: seq<T>)
    ensures page >= 1 && per >= 1 ==> r == Slice(s, Offset(page, per), Offset(page, per) + per)
    ensures |r| <= (if per >= 1 then per else 20)
    ensures forall x :: x in r ==> x in s
  {
    var p := if page < 1 then 1 else page;
    var n := if per < 1 then 20 else per;
    var r := Slice(s, Offset(p, n), Offset(p, n) + n);
    assert forall x :: x in r ==> x in s by {
      forall x | x in r ensures x in s {
        var i :| 0 <= i < |r| && r[i] == x;
      }
    }
    r
  }

  /** The pages 1..count of a positive page size cover the items in order. */
  lemma {:induction false} PagesConcat<T>(s: seq<T>, per: nat, k: nat)
    requires per > 0
    ensures Concat(s, per, k) == s[..if k * per < |s| then k * per else |s|]
    decreases k
  {
    if k > 0 {
      PagesConcat(s, per, k - 1);
      var lo := (k - 1) * per;
      var hi := k * per;
      if lo < |s| {
        assert s[..if hi < |s| then hi else |s|] == s[..lo] + s[lo..Min(hi, |s|)];
      } else {
        assert hi >= lo;
      }
    }
  }

  /** Pages 1..k joined. */
  function Concat<T>(s: seq<T>, per: nat, k: nat): seq<T>
    requires per > 0
    decreases k
  {
    if k == 0 then [] else Concat(s, per, k - 1) + Slice(s, (k - 1) * per, k * per)
  }

  /** Joining pages 1..⌈n/per⌉ gives back the whole list: the pages partition it in order. */
  lemma PagesPartition<T>(s: seq<T>, per: nat)
    requires per > 0
    ensures Concat(s, per, CeilDiv(|s|, per)) == s
  {
    PagesConcat(s, per, CeilDiv(|s|, per));
  }
}

=== FILE: rental_requests.dfy ===
/** RentalRequestService (backend/app/services/RentalRequestService.py): the
    life cycle of a borrow request.  A request is created pending; an
    administrator approves or rejects it; its owner may cancel it while it is
    pending.  Approval creates a rental and moves one copy from available to
    borrowed.  Each service error is a `Failure` carrying the `ValueError`
    text, and a failing call leaves the database as it was. */
module RentalRequests {
  import opened Wrappers
  import opened Seqs
  import opened Library
  import opened Paging
  import Rentals

  datatype Outcome = Outcome(db: Db, request: RentalRequest)

  predicate IsPending(q: RentalRequest) { q.status == Pending }

  /** The user already has a pending request for the book. */
  predicate HasPending(requests: seq<RentalRequest>, userId: int, bookId: int)
  {
    exists i :: 0 <= i < |requests| && requests[i].userId == userId
      && requests[i].bookId == bookId && requests[i].status == Pending
  }

  /** At most one pending request per (user, book) pair. */
  ghost predicate AtMostOnePending(requests: seq<RentalRequest>)
  {
    forall i, j :: 0 <= i < j < |requests| && requests[i].status == Pending && requests[j].status == Pending
      ==> (requests[i].userId, requests[i].bookId) != (requests[j].userId, requests[j].bookId)
  }

  /** `create_request`: book exists, a copy is available, user exists, no
      pending request for the pair, checked in that order. */
  function CreateRequest(db: Db, userId: int, bookId: int, now: int): (r: Result<Outcome>)
    ensures Lookup(db.books, BookId, bookId).None? ==> r == Failure("Book not found")
    ensures r.Success? <==>
      && Lookup(db.books, BookId, bookId).Some?
      && Lookup(db.books, BookId, bookId).value.availableBooks > 0
      && Lookup(db.users, UserId, userId).Some?
      && !HasPending(db.requests, userId, bookId)
    ensures r.Success? ==>
      && r.value.db == db.(requests := db.requests + [r.value.request])
      && r.value.request.userId == userId && r.value.request.bookId == bookId
      && r.value.request.status == Pending
      && forall i :: 0 <= i < |db.requests| ==> db.requests[i].id != r.value.request.id
  {
    match Lookup(db.books, BookId, bookId)
    case None => Failure("Book not found")
    case Some(book) =>
      if book.availableBooks <= 0 then Failure("No copies available for this book")
      else match Lookup(db.users, UserId, userId)
        case None => Failure("User not found")
        case Some(user) =>
          if HasPending(db.requests, userId, bookId) then Failure("You already have a pending request for this book")
          else
            var q := RentalRequest(NextKey(db.requests, RequestId), user.id, book.id, now, Pending);
            Success(Outcome(db.(requests := db.requests + [q]), q))
  }

  /** Sequential creation never yields a second pending request for a pair. */
  lemma CreateKeepsAtMostOnePending(db: Db, userId: int, bookId: int, now: int)
    requires AtMostOnePending(db.requests)
    requires CreateRequest(db, userId, bookId, now).Success?
    ensures AtMostOnePending(CreateRequest(db, userId, bookId, now).value.db.requests)
  {
    var rs := CreateRequest(db, userId, bookId, now).value.db.requests;
    var n := |db.requests|;
    forall i, j | 0 <= i < j < |rs| && rs[i].status == Pending && rs[j].status == Pending
      ensures (rs[i].userId, rs[i].bookId) != (rs[j].userId, rs[j].bookId)
    {
      if j == n {
        assert rs[i] == db.requests[i];
      }
    }
  }

  function SetStatus(requests: seq<RentalRequest>, id: nat, s: RequestStatus): (r: seq<RentalRequest>)
    ensures |r| == |requests|
    ensures forall i :: 0 <= i < |requests| ==>
      r[i] == if requests[i].id == id then requests[i].(status := s) else requests[i]
  {
    UpdateWhere(requests, RequestId, id, (q: RentalRequest) => q.(status := s))
  }

  /** `approve_request`.  `createRentalReturns` says whether the call to
      `RentalService.create_rental` returns.  As wired it does not: the call
      passes `update_book=True`, a parameter `create_rental` does not take, so
      it raises TypeError, the session rolls back and the caller sees
      "Internal server error". */
  function ApproveRequest(db: Db, requestId: int, createRentalReturns: bool, now: int): (r: Result<Outcome>)
    ensures r.Success? ==>
      && Lookup(db.requests, RequestId, requestId).Some?
      && Lookup(db.books, BookId, Lookup(db.requests, RequestId, requestId).value.bookId).Some?
      && var q := Lookup(db.requests, RequestId, requestId).value;
         var b := Lookup(db.books, BookId, q.bookId).value;
         && q.status == Pending && b.availableBooks > 0 && createRentalReturns
         && r.value.request == q.(status := Approved)
         && r.value.db.requests == SetStatus(db.requests, q.id, Approved)
         && |r.value.db.rentals| == |db.rentals| + 1
         && r.value.db.rentals[|db.rentals|].userId == q.userId
         && r.value.db.rentals[|db.rentals|].bookId == q.bookId
         && r.value.db.rentals[|db.rentals|].returnedAt.None?
         && r.value.db.books == UpdateWhere(db.books, BookId, b.id, (x: Book) =>
              x.(availableBooks := x.availableBooks - 1, borrowCount := x.borrowCount + 1))
    ensures Lookup(db.requests, RequestId, requestId).None? ==> r == Failure("Rental request not found")
    ensures Lookup(db.requests, RequestId, requestId).Some? && Lookup(db.requests, RequestId, requestId).value.status != Pending
      ==> r == Failure("Request is not pending")
    ensures !createRentalReturns ==> r.Failure?
  {
    match Lookup(db.requests, RequestId, requestId)
    case None => Failure("Rental request not found")
    case Some(q) =>
      if q.status != Pending then Failure("Request is not pending")
      else match Lookup(db.books, BookId, q.bookId)
        case None => Failure("Book not found")
        case Some(b) =>
          if b.availableBooks <= 0 then Failure("No copies available for this book")
          else if !createRentalReturns then Failure("Internal server error")
          else
            var withRental := Rentals.CreateRental(db, q.userId, q.bookId, now).0;
            var books := UpdateWhere(db.books, BookId, b.id, (x: Book) =>
              x.(availableBooks := x.availableBooks - 1, borrowCount := x.borrowCount + 1));
            Success(Outcome(withRental.(requests := SetStatus(db.requests, q.id, Approved), books := books),
                            q.(status := Approved)))
  }

  ghost predicate NoNegativeStock(books: seq<Book>)
  {
    forall i :: 0 <= i < |books| ==> books[i].availableBooks >= 0
  }

  /** Approval never drives a book's available copies below zero. */
  lemma ApproveKeepsStock(db: Db, requestId: int, createRentalReturns: bool, now: int)
    requires UniqueKeys(db.books, BookId)
    requires NoNegativeStock(db.books)
    requires ApproveRequest(db, requestId, createRentalReturns, now).Success?
    ensures NoNegativeStock(ApproveRequest(db, requestId, createRentalReturns, now).value.db.books)
  {
    var q := Lookup(db.requests, RequestId, requestId).value;
    var b := Lookup(db.books, BookId, q.bookId).value;
    var after := ApproveRequest(db, requestId, createRentalReturns, now).value.db.books;
    forall i | 0 <= i < |after| ensures after[i].availableBooks >= 0 {
      if db.books[i].id == b.id {
        var j :| 0 <= j < |db.books| && db.books[j] == b;
        assert db.books[i] == b;
      }
    }
  }

  /** `reject_request`: only a pending request, which becomes rejected. */
  function RejectRequest(db: Db, requestId: int): (r: Result<Outcome>)
    ensures r.Success? <==> Lookup(db.requests, RequestId, requestId).Some? && Lookup(db.requests, RequestId, requestId).value.status == Pending
    ensures r.Success? ==>
      var q := Lookup(db.requests, RequestId, requestId).value;
      r.value.request == q.(status := Rejected) && r.value.db == db.(requests := SetStatus(db.requests, q.id, Rejected))
  {
    match Lookup(db.requests, RequestId, requestId)
    case None => Failure("Rental request not found")
    case Some(q) =>
      if q.status != Pending then Failure("Request is not pending")
      else Success(Outcome(db.(requests := SetStatus(db.requests, q.id, Rejected)), q.(status := Rejected)))
  }

  /** `cancel_request`: only the owner, only while pending; the request is deleted. */
  function CancelRequest(db: Db, requestId: int, userId: int): (r: Result<Db>)
    ensures r.Success? <==>
      && Lookup(db.requests, RequestId, requestId).Some?
      && Lookup(db.requests, RequestId, requestId).value.userId == userId
      && Lookup(db.requests, RequestId, requestId).value.status == Pending
    ensures r.Success? ==> r.value == db.(requests := DeleteWhere(db.requests, RequestId, requestId as nat))
  {
    match Lookup(db.requests, RequestId, requestId)
    case None => Failure("Rental request not found")
    case Some(q) =>
      if q.userId != userId then Failure("You can only cancel your own requests")
      else if q.status != Pending then Failure("Only pending requests can be canceled")
      else Success(db.(requests := DeleteWhere(db.requests, RequestId, q.id)))
  }

  /** The text `cancel_request` returns on success. */
  const Canceled := "Rental request canceled"

  /** A settled request (approved or rejected) keeps its status in every
      transition: no operation moves a request out of a non-pending status. */
  ghost predicate SettledKept(before: seq<RentalRequest>, after: seq<RentalRequest>)
  {
    forall q :: q in before && q.status != Pending ==> q in after
  }

  lemma SettledIsTerminal(db: Db, requestId: int, userId: int, createRentalReturns: bool, now: int)
    requires UniqueKeys(db.requests, RequestId)
    ensures var r := ApproveRequest(db, requestId, createRentalReturns, now);
      r.Success? ==> SettledKept(db.requests, r.value.db.requests)
    ensures var r := RejectRequest(db, requestId);
      r.Success? ==> SettledKept(db.requests, r.value.db.requests)
    ensures var r := CancelRequest(db, requestId, userId);
      r.Success? ==> SettledKept(db.requests, r.value.requests)
    ensures var r := CreateRequest(db, userId, requestId, now);
      r.Success? ==> SettledKept(db.requests, r.value.db.requests)
  {
    var a := ApproveRequest(db, requestId, createRentalReturns, now);
    if a.Success? {
      var q := Lookup(db.requests, RequestId, requestId).value;
      forall x | x in db.requests && x.status != Pending ensures x in a.value.db.requests {
        var i :| 0 <= i < |db.requests| && db.requests[i] == x;
        assert a.value.db.requests[i] == x;
      }
    }
    var j := RejectRequest(db, requestId);
    if j.Success? {
      forall x | x in db.requests && x.status != Pending ensures x in j.value.db.requests {
        var i :| 0 <= i < |db.requests| && db.requests[i] == x;
        assert j.value.db.requests[i] == x;
      }
    }
  }

  /** `get_pending_requests`: exactly the pending requests, in table order. */
  function PendingRequests(db: Db): (r: seq<RentalRequest>)
    ensures forall q :: q in r <==> q in db.requests && q.status == Pending
    ensures Subseq(r, db.requests)
  {
    Filter(db.requests, IsPending)
  }

  /** `get_all_requests` / `get_user_requests`: one page of the selected
      requests with the total count and `(total + per_page - 1) // per_page`
      pages.  A zero page size fails the page count. */
  function PageOf(selected: seq<RentalRequest>, page: int, perPage: int): (r: Result<Page<RentalRequest>>)
    ensures r.Success? <==> perPage != 0
    ensures r.Success? ==> r.value.totalCount == |selected|
    ensures r.Success? && perPage > 0 ==> r.value.totalPages == CeilDiv(|selected|, perPage)
    ensures r.Success? && page >= 1 && perPage >= 1 ==>
      r.value.items == Slice(selected, Offset(page, perPage), Offset(page, perPage) + perPage)
  {
    match PageCount(|selected|, perPage)
    case None => Failure("integer division or modulo by zero")
    case Some(pages) => Success(Page(Paginate(selected, page, perPage), |selected|, pages))
  }

  function AllRequests(db: Db, page: int, perPage: int): Result<Page<RentalRequest>>
  {
    PageOf(db.requests, page, perPage)
  }

  function UserRequests(db: Db, userId: int, page: int, perPage: int): (r: Result<Page<RentalRequest>>)
    ensures r.Success? ==> forall q :: q in r.value.items ==> q in db.requests && q.userId == userId
  {
    var mine := Filter(db.requests, (q: RentalRequest) => q.userId == userId);
    var r := PageOf(mine, page, perPage);
    if r.Success? then
      assert forall q :: q in r.value.items ==> q in mine by {
        forall q | q in r.value.items ensures q in mine {
          var i :| 0 <= i < |r.value.items| && r.value.items[i] == q;
        }
      }
      r
    else r
  }

  /** `get_all_requested_books`: the distinct books with at least one pending request. */
  function RequestedBooks(db: Db): (r: seq<Book>)
    ensures forall b :: b in r <==> b in db.books && exists q :: q in db.requests && q.bookId == b.id && q.status == Pending
    ensures Subseq(r, db.books)
  {
    Filter(db.books, (b: Book) => exists i :: 0 <= i < |db.requests| && db.requests[i].bookId == b.id && db.requests[i].status == Pending)
  }
}

=== FILE: rental_routes.dfy ===
/** The rental routes (backend/app/controllers/rental_controller.py): the status
    check of the admin listing and the hand-made pagination of a user's own
    rentals. */
module RentalRoutes {
  import opened Wrappers
  import opened Strs
  import opened Seqs
  import opened Library
  import opened Paging
  import Rentals

  const ValidStatuses: seq<string> := ["all", "active", "returned"]

  const InternalError := "Internal server error"

  /** `get_all_rentals`: a status outside all/active/returned is refused with
      400 and the list of valid values.  A valid status reaches
      `RentalService.get_all_rentals(page, per_page, status, search)`, which
      takes no arguments; the resulting TypeError lands in the route's generic
      handler, so every valid request answers 500. */
  function AllRentals(status: string): (r: Http<()>)
    ensures r.Err?
    ensures r.status == 400 <==> status !in ValidStatuses
    ensures status !in ValidStatuses ==> r.message == "Invalid status. Must be one of: " + ("all" + ", " + ("active" + ", " + "returned"))
  {
    if status !in ValidStatuses then
      StatusList();
      Err(400, "Invalid status. Must be one of: " + Join(ValidStatuses, ", "))
    else Err(500, InternalError)
  }

  /** The valid statuses as the refusal lists them. */
  lemma StatusList()
    ensures Join(ValidStatuses, ", ") == "all" + ", " + ("active" + ", " + "returned")
  {
    assert ValidStatuses[1..][1..] == ["returned"];
  }

  /** `get_my_rentals`: the user's rentals `[(page-1)*per_page : (page-1)*per_page + per_page]`
      with Python's slice semantics, the count, and `(total + per_page - 1) // per_page`;
      a zero page size fails into the generic 500. */
  function MyRentals(db: Db, userId: nat, page: int, per: int): (r: Http<Page<Rental>>)
    ensures r.Err? <==> per == 0
    ensures r.Err? ==> r == Err(500, InternalError)
    ensures r.Ok? ==> r.value.totalCount == |Rentals.UserRentals(db, userId)|
    ensures r.Ok? ==> Some(r.value.totalPages) == PageCount(r.value.totalCount, per)
    ensures r.Ok? && page >= 1 && per >= 1 ==>
      r.value.items == Slice(Rentals.UserRentals(db, userId), Offset(page, per), Offset(page, per) + per)
    ensures r.Ok? ==> forall x :: x in r.value.items ==> x in db.rentals && x.userId == userId
  {
    var rentals := Rentals.UserRentals(db, userId);
    if per == 0 then Err(500, InternalError)
    else Ok(Page(ManualPage(rentals, page, per), |rentals|, FloorDiv(|rentals| + per - 1, per)))
  }

  /** `rentals[start:start + per_page]` with `start = (page - 1) * per_page`. */
  function ManualPage<T>(s: seq<T>, page: int, per: int): (r: seq<T>)
    ensures page >= 1 && per >= 1 ==> r == Slice(s, Offset(page, per), Offset(page, per) + per)
    ensures forall x :: x in r ==> x in s
  {
    var start := (page - 1) * per;
    var r := PySlice(s, start, start + per);
    PageSlice(s, page, per);
    assert forall x :: x in r ==> x in s by {
      forall x | x in r ensures x in s {
        var i :| 0 <= i < |r| && r[i] == x;
        PySliceFrom(s, start, start + per, i);
      }
    }
    r
  }

  /** For a page from 1 on, the Python slice is the plain one. */
  lemma PageSlice<T>(s: seq<T>, page: int, per: int)
    ensures page >= 1 && per >= 1 ==>
      PySlice(s, (page - 1) * per, (page - 1) * per + per) == Slice(s, Offset(page, per), Offset(page, per) + per)
  {
  }

  /** Every element of a Python slice comes from the sliced sequence. */
  lemma PySliceFrom<T>(s: seq<T>, a: int, b: int, i: nat)
    requires i < |PySlice(s, a, b)|
    ensures PySlice(s, a, b)[i] in s
  {
    var lo := Bound(a, |s|);
    assert PySlice(s, a, b)[i] == s[lo + i];
  }

  /** A page before the first (page 0, or any page below it down to
      `-(total / per_page)`) is empty: its slice ends at or before where it starts. */
  lemma PageZeroIsEmpty(db: Db, userId: nat, per: int)
    requires per > 0
    ensures MyRentals(db, userId, 0, per).value.items == []
  {
  }

  /** For a positive page size, pages 1 to `total_pages` list every one of the
      user's rentals exactly once, in table order. */
  lemma MyRentalsPartition(db: Db, userId: nat, per: int)
    requires per > 0
    ensures var rentals := Rentals.UserRentals(db, userId);
      var pages := MyRentals(db, userId, 1, per).value.totalPages;
      pages >= 0 && Concat(rentals, per, pages) == rentals
  {
    var rentals := Rentals.UserRentals(db, userId);
    assert MyRentals(db, userId, 1, per).value.totalPages == CeilDiv(|rentals|, per);
    PagesPartition(rentals, per);
  }
}

=== FILE: rentals.dfy ===
/** RentalService (backend/app/services/RentalService.py): creating and
    returning rentals, and listing them per user or per book.  The clock is a
    parameter. */
module Rentals {
  import opened Wrappers
  import opened Seqs
  import opened Library

  /** `create_rental`: one new open rental for (user, book). */
  function CreateRental(db: Db, userId: nat, bookId: nat, now: int): (r: (Db, Rental))
    ensures r.0 == db.(rentals := db.rentals + [r.1])
    ensures r.1.userId == userId && r.1.bookId == bookId && r.1.returnedAt.None?
    ensures forall i :: 0 <= i < |db.rentals| ==> db.rentals[i].id != r.1.id
  {
    var rental := Rental(NextKey(db.rentals, RentalId), userId, bookId, now, None);
    (db.(rentals := db.rentals + [rental]), rental)
  }

  lemma CreateRentalKeepsKeysUnique(db: Db, userId: nat, bookId: nat, now: int)
    requires UniqueKeys(db.rentals, RentalId)
    ensures UniqueKeys(CreateRental(db, userId, bookId, now).0.rentals, RentalId)
  {
  }

  /** `return_book`: stamps the rental's `returned_at`; an unknown id yields
      `None` and leaves everything as it was. */
  function ReturnBook(db: Db, rentalId: int, now: int): (r: (Db, Option<Rental>))
    ensures r.1.None? <==> Lookup(db.rentals, RentalId, rentalId).None?
    ensures r.1.None? ==> r.0 == db
    ensures r.1.Some? ==> r.1.value.id == rentalId && r.1.value.returnedAt == Some(now)
    ensures r.0.(rentals := db.rentals) == db
    ensures |r.0.rentals| == |db.rentals|
    ensures forall i :: 0 <= i < |db.rentals| ==>
      r.0.rentals[i] == if db.rentals[i].id == rentalId then db.rentals[i].(returnedAt := Some(now)) else db.rentals[i]
  {
    match Lookup(db.rentals, RentalId, rentalId)
    case None =>
      (db, None)
    case Some(x) =>
      var rows := UpdateWhere(db.rentals, RentalId, x.id, (y: Rental) => y.(returnedAt := Some(now)));
      (db.(rentals := rows), Some(x.(returnedAt := Some(now))))
  }

  /** Returning a rental changes nothing but its return time: user, book and
      start time of every rental stay as they were. */
  lemma ReturnBookOnlyStamps(db: Db, rentalId: int, now: int, i: nat)
    requires i < |db.rentals|
    ensures var x := ReturnBook(db, rentalId, now).0.rentals[i];
      x.id == db.rentals[i].id && x.userId == db.rentals[i].userId
      && x.bookId == db.rentals[i].bookId && x.rentedAt == db.rentals[i].rentedAt
  {
  }

  /** `get_user_rentals`: exactly the rentals of that user, in table order. */
  function UserRentals(db: Db, userId: int): (r: seq<Rental>)
    ensures forall x :: x in r <==> x in db.rentals && x.userId == userId
    ensures Subseq(r, db.rentals)
  {
    Filter(db.rentals, (x: Rental) => x.userId == userId)
  }

  /** `get_book_rentals`: exactly the rentals of that book, in table order. */
  function BookRentals(db: Db, bookId: int): (r: seq<Rental>)
    ensures forall x :: x in r <==> x in db.rentals && x.bookId == bookId
    ensures Subseq(r, db.rentals)
  {
    Filter(db.rentals, (x: Rental) => x.bookId == bookId)
  }
}

=== FILE: requests_page.dfy ===
/** The administrator's rental-request table (frontend/src/pages/admin/Requests.tsx):
    the query it sends, the page count it keeps, the status label, which rows
    offer the approve and reject buttons, and the local update after either. */
module RequestsPage {
  import opened Strs
  import opened Tables

  /** A row; the status is the server's text ('pending', 'approved', 'rejected'). */
  datatype RentalRequest = RentalRequest(id: int, userId: int, bookId: int, requestedAt: string, status: string)

  /** The query string's pairs: page and page size, and the status unless the
      filter is 'all'. */
  function Query(page: nat, perPage: nat, status: string): (r: seq<(string, string)>)
    ensures |r| >= 2 && r[0] == ("page", NatToString(page)) && r[1] == ("per_page", NatToString(perPage))
    ensures (exists i :: 0 <= i < |r| && r[i].0 == "status") <==> status != "all"
    ensures status != "all" ==> r[|r| - 1] == ("status", status)
  {
    var base := [("page", NatToString(page)), ("per_page", NatToString(perPage))];
    assert |"page"| != |"status"| && |"per_page"| != |"status"|;
    if status != "all" then
      var r := base + [("status", status)];
      assert r[2].0 == "status";
      r
    else base
  }

  /** `data.total_pages || 1`: a missing or zero page count counts as one page. */
  function PageCount(totalPages: int): (r: int)
    ensures totalPages != 0 ==> r == totalPages
    ensures totalPages == 0 ==> r == 1
  {
    if totalPages != 0 then totalPages else 1
  }

  /** The label: the status with its first letter upper-cased. */
  function Label(status: string): (r: string)
    ensures |r| == |status|
    ensures |r| > 0 ==> IsUpper(r[0]) || !IsLower(status[0])
    ensures |r| > 0 ==> r[1..] == status[1..]
  {
    UpperFirst(status)
  }

  /** A lower-case status is read back from its label by lower-casing. */
  lemma LabelLowersBack(status: string)
    requires forall i :: 0 <= i < |status| ==> !IsUpper(status[i])
    ensures Lower(Label(status)) == status
  {
    var r := Label(status);
    forall i | 0 <= i < |status| ensures ToLowerChar(r[i]) == status[i] {
      if i > 0 {
        assert r[i] == status[i];
      }
    }
  }

  /** The approve and reject buttons show only on pending rows. */
  function HasActions(q: RentalRequest): (r: bool)
    ensures r <==> q.status == "pending"
  {
    q.status == "pending"
  }

  datatype Action = Approve | Reject

  function Outcome(a: Action): string
  {
    if a == Approve then "approved" else "rejected"
  }

  function RequestId(q: RentalRequest): int { q.id }

  /** `handleAction` after the server agreed: that request becomes approved
      or rejected, and nothing else changes. */
  function Act(requests: seq<RentalRequest>, id: int, a: Action): (r: seq<RentalRequest>)
    ensures |r| == |requests|
    ensures forall i :: 0 <= i < |r| && requests[i].id == id ==>
      r[i] == requests[i].(status := if a == Approve then "approved" else "rejected")
    ensures forall i :: 0 <= i < |r| && requests[i].id != id ==> r[i] == requests[i]
  {
    UpdateWhere(requests, id, RequestId, (q: RentalRequest) => q.(status := Outcome(a)))
  }

  /** Once acted on, a request offers no more buttons, and the rows that did
      not match keep theirs. */
  lemma ActedLosesActions(requests: seq<RentalRequest>, id: int, a: Action)
    ensures var r := Act(requests, id, a);
      forall i :: 0 <= i < |r| ==>
        (HasActions(r[i]) <==> HasActions(requests[i]) && requests[i].id != id)
  {
  }
}

=== FILE: retrieval.dfy ===
/** The agent's `retrieve` tool (backend/app/services/ChatBot.py): the top
    five index hits for a query become text for the model plus two artifact
    lists, books and articles, each entry built from the catalog row the hit's
    metadata id names.  The similarity search is an oracle: the model receives
    its ranked hits, or `None` when the search raised. */
module Retrieval {
  import opened Wrappers
  import opened Strs
  import opened Seqs
  import opened Library
  import opened IndexSync

  /** A book as the agent reports it to the client. */
  datatype BookCard = BookCard(
    id: string, title: string, author: string, category: string,
    description: string, summary: string, rating: real,
    borrowCount: int, totalBooks: int, availableBooks: int, featured: bool,
    coverUrl: string)

  /** An article as the agent reports it to the client. */
  datatype ArticleCard = ArticleCard(
    id: string, slug: string, title: string, author: string, category: string,
    summary: string, pdfUrl: string, coverImageUrl: string,
    readTime: int, views: int, likes: int)

  function Or(s: string, default: string): string { if s == "" then default else s }

  /** `", ".join(names)` when there are names, else "Unknown". */
  function NamesOrUnknown(names: seq<string>): string
  {
    if |names| == 0 then "Unknown" else Join(names, ", ")
  }

  /** A catalog book as a card; `coverDefault` replaces an empty cover URL. */
  function BookCardOf(b: Book, coverDefault: string): (c: BookCard)
    ensures c.id == NatToString(b.id)
  {
    BookCard(NatToString(b.id), Or(b.title, "Unknown"), NamesOrUnknown(b.authors),
      NamesOrUnknown(b.categories), Or(b.description, "No description"),
      Or(b.summary, "No summary"), b.rating, b.borrowCount, b.totalBooks,
      b.availableBooks, b.featured, Or(b.coverUrl, coverDefault))
  }

  /** A catalog article as a card.  `readTimeOr5` says whether a zero
      read time is also replaced by 5 (as `retrieve` does) or only a missing
      meta row (as the database path of `generate` does). */
  function ArticleCardOf(a: Article, coverDefault: string, readTimeOr5: bool): (c: ArticleCard)
    ensures c.id == NatToString(a.id)
    ensures a.meta.None? ==> c.readTime == 5 && c.views == 0 && c.likes == 0
  {
    ArticleCard(NatToString(a.id), Or(a.slug, "unknown"), Or(a.title, "Unknown"),
      AuthorOr(a.author), Or(a.category, "Unknown"), Or(a.summary, "No summary"), a.pdfUrl,
      Or(a.coverImageUrl, coverDefault), ReadTimeOf(a.meta, readTimeOr5),
      ViewsOf(a.meta), LikesOf(a.meta))
  }

  function AuthorOr(author: Option<string>): string
  {
    match author case Some(n) => n case None => "Unknown"
  }

  /** The read time shown: 5 without a meta row, and also for a zero read
      time when `readTimeOr5` holds. */
  function ReadTimeOf(meta: Option<ArticleMeta>, readTimeOr5: bool): int
  {
    match meta
    case None => 5
    case Some(m) => if readTimeOr5 && m.readTime == 0 then 5 else m.readTime
  }

  function ViewsOf(meta: Option<ArticleMeta>): int
  {
    match meta case Some(m) => m.views case None => 0
  }

  function LikesOf(meta: Option<ArticleMeta>): int
  {
    match meta case Some(m) => m.likes case None => 0
  }

  const BookCover := "https://placehold.co/600x400"
  const ArticleCover := "https://placehold.co/600x300"

  /** `metadata.get(key, default)`. */
  function MetaGet(d: Doc, key: string, default: string): string
  {
    if key in d.meta then d.meta[key] else default
  }

  /** The catalog row a hit of the given kind names, if its id decodes and the row exists. */
  function ResolveBook(d: Doc, books: seq<Book>): (r: Option<Book>)
    ensures r.Some? ==> r.value in books
  {
    if MetaGet(d, "type", "unknown") != "book" then None
    else match DecodeKey(BookKind, MetaGet(d, "id", "unknown"))
      case None => None
      case Some(n) => Lookup(books, BookId, n)
  }

  function ResolveArticle(d: Doc, articles: seq<Article>): (r: Option<Article>)
    ensures r.Some? ==> r.value in articles
  {
    if MetaGet(d, "type", "unknown") != "article" then None
    else match DecodeKey(ArticleKind, MetaGet(d, "id", "unknown"))
      case None => None
      case Some(n) => Lookup(articles, ArticleId, n)
  }

  /** The books pass over the hits: one card per resolvable book hit, in hit order. */
  function BookCards(hits: seq<Doc>, books: seq<Book>): (r: seq<BookCard>)
    ensures |r| <= |hits|
    decreases |hits|
  {
    if |hits| == 0 then []
    else
      var rest := BookCards(hits[1..], books);
      match ResolveBook(hits[0], books)
      case Some(b) => [BookCardOf(b, BookCover)] + rest
      case None => rest
  }

  /** The articles pass over the hits. */
  function ArticleCards(hits: seq<Doc>, articles: seq<Article>): (r: seq<ArticleCard>)
    ensures |r| <= |hits|
    decreases |hits|
  {
    if |hits| == 0 then []
    else
      var rest := ArticleCards(hits[1..], articles);
      match ResolveArticle(hits[0], articles)
      case Some(a) => [ArticleCardOf(a, ArticleCover, true)] + rest
      case None => rest
  }

  /** The card of every catalog book, in catalog order. */
  function CatalogBookCards(books: seq<Book>): (r: seq<BookCard>)
    ensures |r| == |books|
  {
    if |books| == 0 then [] else [BookCardOf(books[0], BookCover)] + CatalogBookCards(books[1..])
  }

  function CatalogArticleCards(articles: seq<Article>): (r: seq<ArticleCard>)
    ensures |r| == |articles|
  {
    if |articles| == 0 then [] else [ArticleCardOf(articles[0], ArticleCover, true)] + CatalogArticleCards(articles[1..])
  }

  lemma {:induction false} CatalogBookCard(b: Book, books: seq<Book>)
    requires b in books
    ensures BookCardOf(b, BookCover) in CatalogBookCards(books)
  {
    if books[0] != b {
      CatalogBookCard(b, books[1..]);
    }
  }

  lemma {:induction false} CatalogArticleCard(a: Article, articles: seq<Article>)
    requires a in articles
    ensures ArticleCardOf(a, ArticleCover, true) in CatalogArticleCards(articles)
  {
    if articles[0] != a {
      CatalogArticleCard(a, articles[1..]);
    }
  }

  /** Every book card is the card of a catalog book. */
  lemma {:induction false} BookCardsFromCatalog(hits: seq<Doc>, books: seq<Book>)
    ensures forall c :: c in BookCards(hits, books) ==> c in CatalogBookCards(books)
    decreases |hits|
  {
    if |hits| > 0 {
      BookCardsFromCatalog(hits[1..], books);
      match ResolveBook(hits[0], books)
      case Some(b) => CatalogBookCard(b, books);
      case None =>
    }
  }

  /** Every article card is the card of a catalog article. */
  lemma {:induction false} ArticleCardsFromCatalog(hits: seq<Doc>, articles: seq<Article>)
    ensures forall c :: c in ArticleCards(hits, articles) ==> c in CatalogArticleCards(articles)
    decreases |hits|
  {
    if |hits| > 0 {
      ArticleCardsFromCatalog(hits[1..], articles);
      match ResolveArticle(hits[0], articles)
      case Some(a) => CatalogArticleCard(a, articles);
      case None =>
    }
  }

  /** A hit is a book or an article, never both, so the two passes together
      report at most one entry per hit. */
  lemma {:induction false} CardsWithinHits(hits: seq<Doc>, cat: Catalog)
    ensures |BookCards(hits, cat.books)| + |ArticleCards(hits, cat.articles)| <= |hits|
    decreases |hits|
  {
    if |hits| > 0 {
      CardsWithinHits(hits[1..], cat);
    }
  }

  /** The text part: one "Type/Title/Content" block per hit. */
  function HitText(d: Doc): string
  {
    "Type: " + MetaGet(d, "type", "unknown") + "\nTitle: " + MetaGet(d, "title", "Unknown")
      + "\nContent: " + d.content
  }

  function HitTexts(hits: seq<Doc>): (r: seq<string>)
    ensures |r| == |hits|
    ensures forall i :: 0 <= i < |hits| ==> r[i] == HitText(hits[i])
  {
    seq(|hits|, i requires 0 <= i < |hits| => HitText(hits[i]))
  }

  datatype ToolResult = ToolResult(text: string, books: seq<BookCard>, articles: seq<ArticleCard>)

  const SearchErrorText := "No results found due to search error."
  const NoResultsText := "No results found."

  /** `retrieve`: `ranked` is the similarity search's ranking, of which the
      tool asks for five (`k=5`); `None` means the search raised. */
  function Retrieve(ranked: Option<seq<Doc>>, cat: Catalog): (r: ToolResult)
    ensures ranked.None? ==> r == ToolResult(SearchErrorText, [], [])
    ensures ranked.Some? ==> |r.books| + |r.articles| <= Min(5, |ranked.value|)
    ensures ranked.Some? && |ranked.value| == 0 ==> r == ToolResult(NoResultsText, [], [])
  {
    match ranked
    case None => ToolResult(SearchErrorText, [], [])
    case Some(all) =>
      var hits := Take(all, 5);
      CardsWithinHits(hits, cat);
      ToolResult(
        if |hits| == 0 then NoResultsText else Join(HitTexts(hits), "\n\n"),
        BookCards(hits, cat.books),
        ArticleCards(hits, cat.articles))
  }

  /** The cards `retrieve` reports are those of its first five hits. */
  lemma RetrieveCards(hits: seq<Doc>, cat: Catalog)
    ensures Retrieve(Some(hits), cat).books == BookCards(Take(hits, 5), cat.books)
    ensures Retrieve(Some(hits), cat).articles == ArticleCards(Take(hits, 5), cat.articles)
  {
  }

  /** The cards of a single hit: the card of the row it resolves to, if any. */
  lemma SingleHitCards(d: Doc, cat: Catalog)
    ensures Retrieve(Some([d]), cat).books == OptionSeq(ResolveBook(d, cat.books), BookCover, BookCardOf)
    ensures Retrieve(Some([d]), cat).articles ==
      OptionSeq(ResolveArticle(d, cat.articles), ArticleCover, (a: Article, cover: string) => ArticleCardOf(a, cover, true))
  {
    assert Take([d], 5) == [d];
    RetrieveCards([d], cat);
    assert [d][1..] == [];
  }

  function OptionSeq<T, C>(o: Option<T>, cover: string, card: (T, string) -> C): seq<C>
  {
    match o case Some(x) => [card(x, cover)] case None => []
  }

  /** Round trip with the index: a hit for a document that was built from a
      catalog book resolves back to that book, so its card is reported. */
  lemma RetrieveIndexedBook(b: Book, cat: Catalog, rd: Renderer)
    requires Lookup(cat.books, BookId, b.id) == Some(b)
    ensures Retrieve(Some([BookDocument(b, rd)]), cat).books == [BookCardOf(b, BookCover)]
    ensures Retrieve(Some([BookDocument(b, rd)]), cat).articles == []
  {
    var d := BookDocument(b, rd);
    SingleHitCards(d, cat);
    assert ResolveBook(d, cat.books) == Some(b) by { DecodeEncode(BookKind, b.id); }
    assert ResolveArticle(d, cat.articles) == None;
  }

  lemma RetrieveIndexedArticle(a: Article, cat: Catalog, rd: Renderer)
    requires Lookup(cat.articles, ArticleId, a.id) == Some(a)
    ensures Retrieve(Some([ArticleDocument(a, rd)]), cat).articles == [ArticleCardOf(a, ArticleCover, true)]
    ensures Retrieve(Some([ArticleDocument(a, rd)]), cat).books == []
  {
    var d := ArticleDocument(a, rd);
    SingleHitCards(d, cat);
    assert ResolveArticle(d, cat.articles) == Some(a) by { DecodeEncode(ArticleKind, a.id); }
    assert ResolveBook(d, cat.books) == None;
  }

  /** A hit whose row has left the catalog is dropped. */
  lemma RetrieveDropsMissing(d: Doc, cat: Catalog, n: nat)
    requires MetaGet(d, "id", "unknown") == Key(BookKind, n) && MetaGet(d, "type", "unknown") == "book"
    requires Lookup(cat.books, BookId, n).None?
    ensures Retrieve(Some([d]), cat).books == []
  {
    SingleHitCards(d, cat);
    assert ResolveBook(d, cat.books).None? by { DecodeEncode(BookKind, n); }
  }
}

=== FILE: seed.dfy ===
/** The data-seeding script (backend/seed.py): unique article slugs drawn with
    random suffixes, the read-time estimate of articles without meta data,
    and the counters the sample rentals and likes adjust.  The random
    suffixes are a parameter: the sequence of 4-character strings that
    `random.choices` returns, in the order the script asks for them. */
module Seed {
  import opened Wrappers
  import opened Strs
  import opened Seqs

  // ---------------------------------------------------------------------------
  // generate_unique_slug

  /** `t` begins with `p`. */
  predicate StartsWith(t: string, p: string)
  {
    |p| <= |t| && t[..|p|] == p
  }

  /** The strings of `used` at least `n` characters long. */
  function AtLeast(used: set<string>, n: nat): (r: set<string>)
    ensures r <= used
    ensures forall s :: s in r <==> s in used && |s| >= n
  {
    set s | s in used && |s| >= n
  }

  /** `generate_unique_slug(base, used)` with the suffixes it draws: the base
      when unused, else the base with "-" and the next suffix appended, tried
      again.  The answer carries the slug and the number of suffixes drawn;
      `None` when the given suffixes run out before an unused slug appears. */
  function UniqueSlug(base: string, used: set<string>, draws: seq<string>): (r: Option<(string, nat)>)
    ensures r.Some? ==> r.value.0 !in used && StartsWith(r.value.0, base) && r.value.1 <= |draws|
    ensures base !in used ==> r == Some((base, 0))
    ensures r.Some? && r.value.0 != base ==> base in used && |r.value.0| > |base|
    decreases |draws|
  {
    if base !in used then Some((base, 0))
    else if draws == [] then None
    else
      var next := base + "-" + draws[0];
      match UniqueSlug(next, used, draws[1..])
      case None => None
      case Some((slug, n)) =>
        assert slug[..|base|] == next[..|base|];
        Some((slug, n + 1))
  }

  /** Every candidate after the base is longer than it, so only used slugs
      at least as long as the base matter. */
  lemma {:induction false} UniqueSlugLonger(base: string, used: set<string>, draws: seq<string>, n: nat)
    requires n <= |base|
    ensures UniqueSlug(base, used, draws) == UniqueSlug(base, AtLeast(used, n), draws)
    decreases |draws|
  {
    if base in used && draws != [] {
      UniqueSlugLonger(base + "-" + draws[0], used, draws[1..], n);
    }
  }

  /** As many suffixes as there are used slugs always suffice: each
      candidate is longer than the last, so each used slug can block at
      most one of them. */
  lemma {:induction false} UniqueSlugFound(base: string, used: set<string>, draws: seq<string>)
    requires |draws| >= |used|
    ensures UniqueSlug(base, used, draws).Some?
    decreases |draws|
  {
    if base in used {
      var next := base + "-" + draws[0];
      var longer := AtLeast(used, |next|);
      assert longer <= used - {base};
      assert |used - {base}| == |used| - 1;
      SubsetCard(longer, used - {base});
      UniqueSlugLonger(next, used, draws[1..], |next|);
      UniqueSlugFound(next, longer, draws[1..]);
    }
  }

  lemma SubsetCard(a: set<string>, b: set<string>)
    requires a <= b
    ensures |a| <= |b|
  {
    assert b == a + (b - a);
  }

  // ---------------------------------------------------------------------------
  // The slug loop

  /** An article's base slug: its own `slug` when non-empty, else the
      `slugify` of its title ("Untitled" when absent). */
  function BaseSlug(slug: Option<string>, title: Option<string>, slugify: string -> string): (r: string)
    ensures slug.Some? && slug.value != "" ==> r == slug.value
    ensures slug.None? || slug.value == "" ==> r == slugify(title.GetOr("Untitled"))
  {
    if slug.Some? && slug.value != "" then slug.value else slugify(title.GetOr("Untitled"))
  }

  /** Each suffix drawn was blocked by a different used slug, so no more
      suffixes are drawn than there are used slugs. */
  lemma {:induction false} UniqueSlugDraws(base: string, used: set<string>, draws: seq<string>)
    ensures UniqueSlug(base, used, draws).Some? ==> UniqueSlug(base, used, draws).value.1 <= |used|
    decreases |draws|
  {
    if base in used && draws != [] {
      var next := base + "-" + draws[0];
      var longer := AtLeast(used, |next|);
      assert longer <= used - {base};
      assert |used - {base}| == |used| - 1;
      SubsetCard(longer, used - {base});
      UniqueSlugLonger(next, used, draws[1..], |next|);
      UniqueSlugDraws(next, longer, draws[1..]);
    }
  }

  /** One call of `generate_unique_slug`: enough suffixes always give a
      slug, and no more suffixes are drawn than there are used slugs. */
  method NextSlug(base: string, used: set<string>, draws: seq<string>) returns (r: Option<(string, nat)>)
    ensures r == UniqueSlug(base, used, draws)
    ensures |draws| >= |used| ==> r.Some?
    ensures r.Some? ==> r.value.1 <= |used|
  {
    r := UniqueSlug(base, used, draws);
    if |draws| >= |used| {
      UniqueSlugFound(base, used, draws);
    }
    UniqueSlugDraws(base, used, draws);
  }

  /** The slugs assigned to the first `|slugs|` articles, article by
      article: each slug is new, begins with its article's base, and equals
      that base exactly when no earlier article took it. */
  predicate Assigned(bases: seq<string>, slugs: seq<string>)
    decreases |slugs|
  {
    |slugs| <= |bases| &&
    (|slugs| == 0 ||
     var k := |slugs| - 1;
     Assigned(bases, slugs[..k]) && slugs[k] !in slugs[..k] && StartsWith(slugs[k], bases[k]) &&
     (slugs[k] == bases[k] <==> bases[k] !in slugs[..k]))
  }

  /** The last slug of an assignment, and the assignment before it. */
  lemma AssignedLast(bases: seq<string>, slugs: seq<string>)
    requires Assigned(bases, slugs) && |slugs| > 0
    ensures Assigned(bases, slugs[..|slugs| - 1])
    ensures slugs[|slugs| - 1] !in slugs[..|slugs| - 1]
    ensures StartsWith(slugs[|slugs| - 1], bases[|slugs| - 1])
    ensures slugs[|slugs| - 1] == bases[|slugs| - 1] <==> bases[|slugs| - 1] !in slugs[..|slugs| - 1]
  {
  }

  /** The slugs of an assignment are distinct. */
  lemma {:induction false} AssignedDistinct(bases: seq<string>, slugs: seq<string>)
    requires Assigned(bases, slugs)
    ensures NoDup(slugs)
    decreases |slugs|
  {
    if |slugs| > 0 {
      var k := |slugs| - 1;
      var init := slugs[..k];
      AssignedLast(bases, slugs);
      AssignedDistinct(bases, init);
      forall i, j | 0 <= i < j < |slugs| ensures slugs[i] != slugs[j] {
        assert slugs[i] == init[i];
        if j < k {
          assert slugs[j] == init[j];
        }
      }
    }
  }

  /** Each slug of an assignment begins with its base. */
  lemma {:induction false} AssignedStarts(bases: seq<string>, slugs: seq<string>)
    requires Assigned(bases, slugs)
    ensures forall k :: 0 <= k < |slugs| ==> StartsWith(slugs[k], bases[k])
    decreases |slugs|
  {
    if |slugs| > 0 {
      var init := slugs[..|slugs| - 1];
      AssignedLast(bases, slugs);
      AssignedStarts(bases, init);
      forall i | 0 <= i < |init| ensures StartsWith(slugs[i], bases[i]) {
        assert slugs[i] == init[i];
      }
    }
  }

  /** Each slug of an assignment is its base exactly when no earlier slug is
      that base. */
  lemma {:induction false} AssignedFirstUse(bases: seq<string>, slugs: seq<string>)
    requires Assigned(bases, slugs)
    ensures forall k :: 0 <= k < |slugs| ==> (slugs[k] == bases[k] <==> bases[k] !in slugs[..k])
    decreases |slugs|
  {
    if |slugs| > 0 {
      var init := slugs[..|slugs| - 1];
      AssignedLast(bases, slugs);
      AssignedFirstUse(bases, init);
      forall i | 0 <= i < |slugs| ensures slugs[i] == bases[i] <==> bases[i] !in slugs[..i] {
        if i < |init| {
          assert slugs[..i] == init[..i];
          assert slugs[i] == init[i];
          assert init[i] == bases[i] <==> bases[i] !in init[..i];
        }
      }
    }
  }

  /** What holds before article `i`: the first `i` slugs are assigned, `used`
      holds exactly them, and at most `Pairs(i)` suffixes were drawn. */
  ghost predicate Progress(bases: seq<string>, draws: seq<string>, i: nat, slugs: seq<string>,
                     used: set<string>, rest: seq<string>)
  {
    i <= |bases| && |slugs| == i && Assigned(bases, slugs) &&
    (forall x :: x in used <==> x in slugs) && |used| == i &&
    |rest| <= |draws| && |draws| - |rest| <= Pairs(i)
  }

  /** Adding the unique slug of article `i` moves on to article `i + 1`. */
  lemma ProgressStep(bases: seq<string>, draws: seq<string>, i: nat, slugs: seq<string>,
                     used: set<string>, rest: seq<string>, slug: string, n: nat)
    requires Progress(bases, draws, i, slugs, used, rest) && i < |bases|
    requires UniqueSlug(bases[i], used, rest) == Some((slug, n)) && n <= |used|
    ensures Progress(bases, draws, i + 1, slugs + [slug], used + {slug}, rest[n..])
  {
    assert (slugs + [slug])[..i] == slugs;
    BudgetStep(|draws|, |rest|, i, n);
  }

  /** The article loop: each base slug is made unique against the slugs
      assigned so far, and the result is added before the next article.
      `ok` is false when the suffixes run out, which `Pairs(n)` suffixes
      for `n` articles rule out. */
  method AssignSlugs(bases: seq<string>, draws: seq<string>) returns (slugs: seq<string>, ok: bool)
    ensures ok ==> |slugs| == |bases| && NoDup(slugs)
    ensures ok ==> forall k :: 0 <= k < |slugs| ==> StartsWith(slugs[k], bases[k])
    ensures ok ==> forall k :: 0 <= k < |slugs| ==> (slugs[k] == bases[k] <==> bases[k] !in slugs[..k])
    ensures |draws| >= Pairs(|bases|) ==> ok
  {
    var used: set<string> := {};
    var rest := draws;
    slugs := [];
    var i := 0;
    while i < |bases|
      invariant Progress(bases, draws, i, slugs, used, rest)
    {
      if |draws| >= Pairs(|bases|) {
        BudgetLeft(|draws|, |rest|, i, |bases|);
      }
      var next := NextSlug(bases[i], used, rest);
      match next
      case None =>
        return slugs, false;
      case Some((slug, n)) =>
        ProgressStep(bases, draws, i, slugs, used, rest, slug, n);
        slugs := slugs + [slug];
        used := used + {slug};
        rest := rest[n..];
        i := i + 1;
    }
    AssignedDistinct(bases, slugs);
    AssignedStarts(bases, slugs);
    AssignedFirstUse(bases, slugs);
    ok := true;
  }

  /** The number of pairs among `n` items: `0 + 1 + ... + (n - 1)`. */
  function Pairs(n: nat): nat
  {
    if n == 0 then 0 else Pairs(n - 1) + (n - 1)
  }

  /** The closed form the script's bound is usually written in. */
  lemma {:induction false} PairsClosed(n: nat)
    ensures 2 * Pairs(n) == n * (n - 1)
  {
    if n > 0 {
      PairsClosed(n - 1);
      assert n * (n - 1) == (n - 1) * (n - 2) + 2 * (n - 1);
    }
  }

  lemma PairsStep(i: nat)
    ensures Pairs(i + 1) == Pairs(i) + i
  {
  }

  lemma {:induction false} PairsMono(m: nat, n: nat)
    requires m <= n
    ensures Pairs(m) <= Pairs(n)
    decreases n - m
  {
    if m < n {
      PairsMono(m + 1, n);
      PairsStep(m);
    }
  }

  /** Before article `i` of `n` at most `Pairs(i)` suffixes are used, so at
      least `i` remain when `Pairs(n)` were drawn. */
  lemma Triangle(i: nat, n: nat)
    requires i < n
    ensures Pairs(n) - Pairs(i) >= i
  {
    PairsStep(i);
    PairsMono(i + 1, n);
  }

  /** With `Pairs(n)` suffixes and at most `Pairs(i)` of them drawn before
      article `i`, at least `i` are left. */
  lemma BudgetLeft(total: nat, left: nat, i: nat, n: nat)
    requires left <= total && total - left <= Pairs(i)
    requires i < n && total >= Pairs(n)
    ensures left >= i
  {
    Triangle(i, n);
  }

  /** Drawing at most `i` suffixes for article `i` keeps within `Pairs(i + 1)`. */
  lemma BudgetStep(total: nat, left: nat, i: nat, d: nat)
    requires left <= total && total - left <= Pairs(i)
    requires d <= i && d <= left
    ensures left - d <= total && total - (left - d) <= Pairs(i + 1)
  {
    PairsStep(i);
  }

  // ---------------------------------------------------------------------------
  // Article meta data

  /** An article's `meta` as scraped: a dict with whichever counters it
      carries, or some other value. */
  datatype MetaIn = MetaDict(readTime: Option<int>, views: Option<int>, likes: Option<int>, bookmarks: Option<int>) | NotDict

  datatype SeedMeta = SeedMeta(readTime: int, views: int, likes: int, bookmarks: int)

  /** The seeded meta: a dict's counters with defaults 5/0/0/0; otherwise
      `max(5, int(len(summary) / 200))` minutes and no counts. */
  function MetaFor(meta: MetaIn, summaryLength: nat): (r: SeedMeta)
    ensures meta.NotDict? ==> r.readTime >= 5 && r.readTime >= summaryLength / 200
    ensures meta.NotDict? ==> r.readTime == 5 || r.readTime * 200 <= summaryLength < (r.readTime + 1) * 200
    ensures meta.NotDict? ==> r.views == 0 && r.likes == 0 && r.bookmarks == 0
    ensures meta == MetaDict(None, None, None, None) ==> r == SeedMeta(5, 0, 0, 0)
  {
    match meta
    case MetaDict(rt, v, l, b) => SeedMeta(rt.GetOr(5), v.GetOr(0), l.GetOr(0), b.GetOr(0))
    case NotDict =>
      var estimate := summaryLength / 200;
      SeedMeta(if estimate > 5 then estimate else 5, 0, 0, 0)
  }

  // ---------------------------------------------------------------------------
  // Sample rentals and likes

  /** A seeded book's counters. */
  datatype Counters = Counters(borrowCount: int, availableBooks: int)

  /** How many of the sample rentals fall on the book at `i`, and how many
      of those are still out: the first three books are rented once each,
      the second one already returned. */
  function Rented(i: nat, n: nat): nat
  {
    if i < 3 && i < n then 1 else 0
  }

  function StillOut(i: nat, n: nat): nat
  {
    if (i == 0 || i == 2) && i < n then 1 else 0
  }

  /** The sample rentals' effect: each rented book's borrow count rises by
      one, and its available copies drop by one unless the rental is
      returned. */
  function SeedRentals(books: seq<Counters>): (r: seq<Counters>)
    ensures |r| == |books|
    ensures forall i :: 0 <= i < |r| ==> r[i].borrowCount == books[i].borrowCount + Rented(i, |books|)
    ensures forall i :: 0 <= i < |r| ==> r[i].availableBooks == books[i].availableBooks - StillOut(i, |books|)
  {
    seq(|books|, i requires 0 <= i < |books| =>
      Counters(books[i].borrowCount + Rented(i, |books|), books[i].availableBooks - StillOut(i, |books|)))
  }

  /** Over the whole catalog the borrow counts rise by the number of sample
      rentals and the available copies fall by the number still out. */
  lemma SeedRentalsTotals(books: seq<Counters>)
    ensures SumBorrow(SeedRentals(books)) == SumBorrow(books) + (if |books| < 3 then |books| else 3)
    ensures SumAvailable(SeedRentals(books)) == SumAvailable(books) - (if |books| == 0 then 0 else if |books| < 3 then 1 else 2)
  {
    var r := SeedRentals(books);
    SumSplit(books, r, |books|);
  }

  function SumBorrow(s: seq<Counters>): int
  {
    if s == [] then 0 else SumBorrow(s[..|s| - 1]) + s[|s| - 1].borrowCount
  }

  function SumAvailable(s: seq<Counters>): int
  {
    if s == [] then 0 else SumAvailable(s[..|s| - 1]) + s[|s| - 1].availableBooks
  }

  /** The totals over the first `k` books. */
  lemma {:induction false} SumSplit(books: seq<Counters>, r: seq<Counters>, k: nat)
    requires r == SeedRentals(books) && k <= |books|
    ensures SumBorrow(r[..k]) == SumBorrow(books[..k]) + (if k < 3 then k else 3)
    ensures SumAvailable(r[..k]) == SumAvailable(books[..k]) - (if k == 0 then 0 else if k < 3 then 1 else 2)
    ensures k == |books| ==> r[..k] == r && books[..k] == books
    decreases k
  {
    if k > 0 {
      SumSplit(books, r, k - 1);
      assert r[..k][..k - 1] == r[..k - 1];
      assert books[..k][..k - 1] == books[..k - 1];
    }
  }

  /** The sample likes: user 1 likes the first and second article, user 2
      the third, and user 1 bookmarks the first. */
  datatype Like = Like(user: int, article: nat)

  function SampleLikes(articles: nat): (r: seq<Like>)
    ensures |r| == if articles < 3 then articles else 3
    ensures forall k :: 0 <= k < |r| ==> r[k].article == k && r[k].article < articles
    ensures forall j, k :: 0 <= j < k < |r| ==> r[j] != r[k]
  {
    (if articles > 0 then [Like(1, 0)] else [])
    + (if articles > 1 then [Like(1, 1)] else [])
    + (if articles > 2 then [Like(2, 2)] else [])
  }

  function SampleBookmarks(articles: nat): (r: seq<Like>)
    ensures |r| == if articles > 0 then 1 else 0
    ensures forall k :: 0 <= k < |r| ==> r[k].article < articles
  {
    if articles > 0 then [Like(1, 0)] else []
  }
}

=== FILE: seqs.dfy ===
/** Sequence helpers: order-preserving filtering, counting, ceiling division
    for page counts, and a stable insertion sort under a caller-supplied total
    preorder (the model of Python's `sorted` and JavaScript's `Array.sort`, both
    of which are stable). */
module Seqs {

  /** `a` is an order-preserving subsequence of `b`. */
  ghost predicate Subseq<T>(a: seq<T>, b: seq<T>)
    decreases |b|
  {
    |a| == 0 || (|b| > 0 && ((a[0] == b[0] && Subseq(a[1..], b[1..])) || Subseq(a, b[1..])))
  }

  lemma {:induction false} SubseqRefl<T>(a: seq<T>)
    ensures Subseq(a, a)
    decreases |a|
  {
    if |a| > 0 { SubseqRefl(a[1..]); }
  }

  /** JavaScript's `filter` / a Python list comprehension with a condition. */
  function Filter<T(!new)>(s: seq<T>, p: T -> bool): (r: seq<T>)
    ensures |r| <= |s|
    ensures forall x :: x in r <==> x in s && p(x)
    ensures Subseq(r, s)
    decreases |s|
  {
    if |s| == 0 then []
    else if p(s[0]) then [s[0]] + Filter(s[1..], p)
    else Filter(s[1..], p)
  }

  lemma {:induction false} FilterAll<T(!new)>(s: seq<T>, p: T -> bool)
    requires forall x :: x in s ==> p(x)
    ensures Filter(s, p) == s
    decreases |s|
  {
    if |s| > 0 { FilterAll(s[1..], p); assert [s[0]] + s[1..] == s; }
  }

  lemma {:induction false} FilterConcat<T(!new)>(a: seq<T>, b: seq<T>, p: T -> bool)
    ensures Filter(a + b, p) == Filter(a, p) + Filter(b, p)
    decreases |a|
  {
    if |a| > 0 {
      assert (a + b)[1..] == a[1..] + b;
      FilterConcat(a[1..], b, p);
    } else {
      assert a + b == b;
    }
  }

  /** Filtering twice is filtering once by both conditions. */
  lemma {:induction false} FilterFilter<T(!new)>(s: seq<T>, p: T -> bool, q: T -> bool)
    ensures Filter(Filter(s, p), q) == Filter(s, (x: T) => p(x) && q(x))
    decreases |s|
  {
    if |s| > 0 {
      FilterFilter(s[1..], p, q);
      if p(s[0]) {
        var f := Filter(s, p);
        assert f == [s[0]] + Filter(s[1..], p);
        assert f[1..] == Filter(s[1..], p);
      }
    }
  }

  lemma {:induction false} FilterNone<T(!new)>(s: seq<T>, p: T -> bool)
    requires forall i :: 0 <= i < |s| ==> !p(s[i])
    ensures Filter(s, p) == []
    decreases |s|
  {
    if |s| > 0 { FilterNone(s[1..], p); }
  }

  lemma {:induction false} FilterEmpty<T(!new)>(s: seq<T>, p: T -> bool)
    requires Filter(s, p) == []
    ensures forall i :: 0 <= i < |s| ==> !p(s[i])
    decreases |s|
  {
    if |s| > 0 {
      FilterEmpty(s[1..], p);
      assert forall i :: 1 <= i < |s| ==> s[i] == s[1..][i - 1];
    }
  }

  /** The opposite condition. */
  function Not<T>(p: T -> bool): T -> bool
  {
    x => !p(x)
  }

  /** The elements meeting a condition and those failing it together make
      up the sequence. */
  lemma {:induction false} FilterPartition<T(!new)>(s: seq<T>, p: T -> bool)
    ensures multiset(Filter(s, p)) + multiset(Filter(s, Not(p))) == multiset(s)
    decreases |s|
  {
    if |s| > 0 {
      FilterPartition(s[1..], p);
      assert s == [s[0]] + s[1..];
    }
  }

  /** Filtering a prefix one element longer. */
  lemma FilterSnoc<T(!new)>(s: seq<T>, i: nat, p: T -> bool)
    requires i < |s|
    ensures Filter(s[..i + 1], p) == Filter(s[..i], p) + (if p(s[i]) then [s[i]] else [])
  {
    assert s[..i + 1] == s[..i] + [s[i]];
    FilterConcat(s[..i], [s[i]], p);
  }

  /** One more element goes to exactly one side of a condition. */
  lemma FilterSnocBoth<T(!new)>(s: seq<T>, i: nat, p: T -> bool)
    requires i < |s|
    ensures p(s[i]) ==>
      Filter(s[..i + 1], p) == Filter(s[..i], p) + [s[i]] && Filter(s[..i + 1], Not(p)) == Filter(s[..i], Not(p))
    ensures !p(s[i]) ==>
      Filter(s[..i + 1], p) == Filter(s[..i], p) && Filter(s[..i + 1], Not(p)) == Filter(s[..i], Not(p)) + [s[i]]
  {
    FilterSnoc(s, i, p);
    FilterSnoc(s, i, Not(p));
  }

  /** The number of elements of `s` satisfying `p`. */
  function Count<T(!new)>(s: seq<T>, p: T -> bool): (n: nat)
    ensures n <= |s|
  {
    |Filter(s, p)|
  }

  /** No element occurs twice. */
  predicate NoDup<T(==)>(s: seq<T>)
  {
    forall i, j :: 0 <= i < j < |s| ==> s[i] != s[j]
  }

  /** JavaScript's `[...new Set(s)]` with the elements of `seen` already taken:
      the first occurrence of each remaining element, in order. */
  function DedupFrom<T(==,!new)>(s: seq<T>, seen: set<T>): (r: seq<T>)
    ensures forall x :: x in r <==> x in s && x !in seen
    ensures NoDup(r)
    decreases |s|
  {
    if |s| == 0 then []
    else if s[0] in seen then DedupFrom(s[1..], seen)
    else [s[0]] + DedupFrom(s[1..], seen + {s[0]})
  }

  function Dedup<T(==,!new)>(s: seq<T>): (r: seq<T>)
    ensures forall x :: x in r <==> x in s
    ensures NoDup(r)
  {
    DedupFrom(s, {})
  }

  /** Removing duplicates keeps the elements in the order of their first occurrence. */
  lemma {:induction false} DedupFromSubseq<T(!new)>(s: seq<T>, seen: set<T>)
    ensures Subseq(DedupFrom(s, seen), s)
    decreases |s|
  {
    if |s| > 0 {
      if s[0] in seen {
        DedupFromSubseq(s[1..], seen);
      } else {
        DedupFromSubseq(s[1..], seen + {s[0]});
        assert (([s[0]] + DedupFrom(s[1..], seen + {s[0]}))[1..]) == DedupFrom(s[1..], seen + {s[0]});
      }
    }
  }

  /** The first `n` elements, as Python's `s[:n]` and JavaScript's `slice(0, n)`. */
  function Take<T>(s: seq<T>, n: nat): (r: seq<T>)
    ensures |r| == if n < |s| then n else |s|
    ensures r == s[..|r|]
  {
    if n < |s| then s[..n] else s
  }

  function Min(a: int, b: int): int { if a <= b then a else b }
  function Max(a: int, b: int): int { if a >= b then a else b }

  /** The number of pages of size `per` needed for `total` items,
      `(total + per - 1) // per`; it equals Python's `math.ceil(total / per)`. */
  function CeilDiv(total: nat, per: nat): (pages: nat)
    requires per > 0
    ensures pages * per >= total
    ensures pages == 0 || (pages - 1) * per < total
  {
    (total + per - 1) / per
  }

  /** Python's slice `s[a:b]` for non-negative bounds: out-of-range bounds are cut back. */
  function Slice<T>(s: seq<T>, a: nat, b: nat): (r: seq<T>)
    ensures |r| <= |s|
    ensures a < b && a < |s| ==> |r| == Min(b, |s|) - a
    ensures forall i :: 0 <= i < |r| ==> a + i < |s| && r[i] == s[a + i]
  {
    if a >= |s| || b <= a then [] else s[a..Min(b, |s|)]
  }

  // ---------------------------------------------------------------------------
  // Stable sorting

  /** `le(a, b)` means "a may come before b". */
  ghost predicate TotalPreorder<T(!new)>(le: (T, T) -> bool)
  {
    && (forall a, b :: le(a, b) || le(b, a))
    && (forall a, b, c :: le(a, b) && le(b, c) ==> le(a, c))
  }

  ghost predicate SortedBy<T>(s: seq<T>, le: (T, T) -> bool)
  {
    forall i, j :: 0 <= i < j < |s| ==> le(s[i], s[j])
  }

  /** The elements ranked equal to `x`. */
  function EquivTo<T>(le: (T, T) -> bool, x: T): T -> bool
  {
    y => le(x, y) && le(y, x)
  }

  /** Inserts `x` before the first element it may precede. */
  function InsertBy<T>(x: T, s: seq<T>, le: (T, T) -> bool): (r: seq<T>)
    ensures multiset(r) == multiset(s) + multiset{x}
    decreases |s|
  {
    if |s| == 0 then [x]
    else if le(x, s[0]) then [x] + s
    else
      assert s == [s[0]] + s[1..];
      [s[0]] + InsertBy(x, s[1..], le)
  }

  /** Stable insertion sort. */
  function SortBy<T>(s: seq<T>, le: (T, T) -> bool): (r: seq<T>)
    ensures multiset(r) == multiset(s)
    decreases |s|
  {
    if |s| == 0 then []
    else
      assert s == [s[0]] + s[1..];
      InsertBy(s[0], SortBy(s[1..], le), le)
  }

  lemma {:induction false} InsertBySorted<T(!new)>(x: T, s: seq<T>, le: (T, T) -> bool)
    requires TotalPreorder(le)
    requires SortedBy(s, le)
    ensures SortedBy(InsertBy(x, s, le), le)
    decreases |s|
  {
    if |s| > 0 && !le(x, s[0]) {
      InsertBySorted(x, s[1..], le);
      var t := InsertBy(x, s[1..], le);
      assert multiset(t) == multiset(s[1..]) + multiset{x};
      forall k | 0 <= k < |t| ensures le(s[0], t[k]) {
        assert t[k] in multiset(t);
        if t[k] != x {
          assert t[k] in multiset(s[1..]);
          var j :| 0 <= j < |s[1..]| && s[1..][j] == t[k];
          assert s[j + 1] == t[k];
        }
      }
    }
  }

  lemma {:induction false} SortBySorted<T(!new)>(s: seq<T>, le: (T, T) -> bool)
    requires TotalPreorder(le)
    ensures SortedBy(SortBy(s, le), le)
    decreases |s|
  {
    if |s| > 0 {
      SortBySorted(s[1..], le);
      InsertBySorted(s[0], SortBy(s[1..], le), le);
    }
  }

  lemma {:induction false} InsertByEquivs<T(!new)>(h: T, t: seq<T>, le: (T, T) -> bool, x: T)
    requires TotalPreorder(le)
    ensures Filter(InsertBy(h, t, le), EquivTo(le, x))
         == if EquivTo(le, x)(h) then [h] + Filter(t, EquivTo(le, x)) else Filter(t, EquivTo(le, x))
    decreases |t|
  {
    var e := EquivTo(le, x);
    if |t| == 0 {
    } else if le(h, t[0]) {
      assert ([h] + t)[1..] == t;
    } else {
      var rest := InsertBy(h, t[1..], le);
      InsertByEquivs(h, t[1..], le, x);
      assert ([t[0]] + rest)[1..] == rest;
    }
  }

  /** Sorting keeps the original order among elements ranked equal. */
  lemma {:induction false} SortByStable<T(!new)>(s: seq<T>, le: (T, T) -> bool, x: T)
    requires TotalPreorder(le)
    ensures Filter(SortBy(s, le), EquivTo(le, x)) == Filter(s, EquivTo(le, x))
    decreases |s|
  {
    if |s| > 0 {
      SortByStable(s[1..], le, x);
      InsertByEquivs(s[0], SortBy(s[1..], le), le, x);
    }
  }

  /** Sorting neither adds nor drops elements. */
  lemma SortByMembers<T>(s: seq<T>, le: (T, T) -> bool)
    ensures forall x :: x in SortBy(s, le) <==> x in s
  {
    var r := SortBy(s, le);
    forall x ensures x in r <==> x in s {
      assert x in r <==> x in multiset(r);
      assert x in s <==> x in multiset(s);
    }
  }

  /** A prefix of a sorted sequence is sorted and ranks before everything it leaves out. */
  lemma SortedPrefix<T>(s: seq<T>, n: nat, le: (T, T) -> bool)
    requires SortedBy(s, le)
    ensures SortedBy(Take(s, n), le)
    ensures forall x, y :: x in s && x !in Take(s, n) && y in Take(s, n) ==> le(y, x)
  {
    var t := Take(s, n);
    forall x, y | x in s && x !in t && y in t ensures le(y, x) {
      var j :| 0 <= j < |s| && s[j] == x;
      var i :| 0 <= i < |t| && t[i] == y;
      assert s[i] == y;
    }
  }
}

=== FILE: strs.dfy ===
/** String helpers shared by the model: character classes, case mapping,
    substring search, whitespace stripping, splitting and joining, and the
    decimal rendering and parsing of natural numbers.  Whitespace is each
    language's full Unicode set (the two differ in four control characters,
    U+0085 and U+FEFF); case mapping and digits are restricted to ASCII. */
module Strs {
  import opened Wrappers

  // ---------------------------------------------------------------------------
  // Character classes

  /** Whose notion of whitespace applies: Python's `str.isspace()` (used by
      `strip()`, `split()` and `\s` in `re`) or JavaScript's (used by `trim()`
      and `\s` in a `RegExp`). */
  datatype Lang = Py | Js

  /** Whitespace in `lang`; Python unless said otherwise.  Both languages
      count the ASCII controls tab to carriage return, the space separators of
      Unicode category Zs and the line and paragraph separators; Python adds
      the information separators U+001C to U+001F and NEXT LINE, JavaScript
      adds the byte-order mark. */
  predicate IsSpace(c: char, lang: Lang := Py)
  {
    '\t' <= c <= '\r' || c == ' ' || c == '\U{00A0}' || c == '\U{1680}'
    || '\U{2000}' <= c <= '\U{200A}' || c == '\U{2028}' || c == '\U{2029}'
    || c == '\U{202F}' || c == '\U{205F}' || c == '\U{3000}'
    || (lang == Py && ('\U{001C}' <= c <= '\U{001F}' || c == '\U{0085}'))
    || (lang == Js && c == '\U{FEFF}')
  }

  predicate IsDigit(c: char) { '0' <= c <= '9' }
  predicate IsUpper(c: char) { 'A' <= c <= 'Z' }
  predicate IsLower(c: char) { 'a' <= c <= 'z' }
  predicate IsLetter(c: char) { IsUpper(c) || IsLower(c) }
  predicate IsAlnum(c: char) { IsLetter(c) || IsDigit(c) }

  predicate AllSpace(s: string, lang: Lang := Py) { forall i :: 0 <= i < |s| ==> IsSpace(s[i], lang) }
  predicate AllDigits(s: string) { forall i :: 0 <= i < |s| ==> IsDigit(s[i]) }

  /** Python's `str.isdigit()` on ASCII input: non-empty and all digits. */
  predicate IsDigitString(s: string) { |s| > 0 && AllDigits(s) }

  /** Neither end of `s` is whitespace. */
  predicate NoEdgeSpace(s: string, lang: Lang := Py)
  {
    |s| > 0 ==> !IsSpace(s[0], lang) && !IsSpace(s[|s| - 1], lang)
  }

  // ---------------------------------------------------------------------------
  // Case mapping

  function ToLowerChar(c: char): (r: char)
    ensures IsUpper(r) == false || !IsUpper(c)
  {
    if IsUpper(c) then (c as int + 32) as char else c
  }

  function ToUpperChar(c: char): char
  {
    if IsLower(c) then (c as int - 32) as char else c
  }

  lemma LowerNoUpper(s: string)
    requires forall i :: 0 <= i < |s| ==> !IsUpper(s[i])
    ensures Lower(s) == s
  {
  }

  function Lower(s: string): (r: string)
    ensures |r| == |s|
    ensures forall i :: 0 <= i < |s| ==> r[i] == ToLowerChar(s[i])
  {
    seq(|s|, i requires 0 <= i < |s| => ToLowerChar(s[i]))
  }

  function Upper(s: string): (r: string)
    ensures |r| == |s|
    ensures forall i :: 0 <= i < |s| ==> r[i] == ToUpperChar(s[i])
  {
    seq(|s|, i requires 0 <= i < |s| => ToUpperChar(s[i]))
  }

  /** Python's `str.capitalize()`: first character upper-cased, the rest lower-cased. */
  function PyCapitalize(s: string): string
  {
    if |s| == 0 then "" else [ToUpperChar(s[0])] + Lower(s[1..])
  }

  /** JavaScript's `s.charAt(0).toUpperCase() + s.slice(1)`: the rest is kept. */
  function UpperFirst(s: string): string
  {
    if |s| == 0 then "" else [ToUpperChar(s[0])] + s[1..]
  }

  // ---------------------------------------------------------------------------
  // Substring search

  predicate OccursAt(s: string, p: string, j: nat)
  {
    j + |p| <= |s| && s[j..j + |p|] == p
  }

  /** The first occurrence of `p` in `s` at or after position `k`. */
  function IndexFrom(s: string, p: string, k: nat): (r: Option<nat>)
    decreases |s| - k
    ensures r.Some? ==> k <= r.value && OccursAt(s, p, r.value)
    ensures r.Some? ==> forall j :: k <= j < r.value ==> !OccursAt(s, p, j)
    ensures r.None? ==> forall j :: k <= j ==> !OccursAt(s, p, j)
  {
    if k + |p| > |s| then None
    else if OccursAt(s, p, k) then Some(k)
    else IndexFrom(s, p, k + 1)
  }

  function IndexOf(s: string, p: string): (r: Option<nat>)
    ensures r.Some? ==> OccursAt(s, p, r.value)
    ensures r.Some? ==> forall j: nat :: j < r.value ==> !OccursAt(s, p, j)
    ensures r.None? ==> forall j: nat :: !OccursAt(s, p, j)
  {
    IndexFrom(s, p, 0)
  }

  /** Python's `p in s` / JavaScript's `s.includes(p)`. */
  predicate Contains(s: string, p: string)
  {
    IndexOf(s, p).Some?
  }

  lemma ContainsAt(s: string, p: string, j: nat)
    requires OccursAt(s, p, j)
    ensures Contains(s, p)
  {
  }

  lemma ContainsEmpty(s: string)
    ensures Contains(s, "")
  {
    assert OccursAt(s, "", 0);
  }

  /** Case-insensitive containment, as `ilike '%q%'` and `lower().includes()` compute it. */
  predicate ContainsCI(s: string, p: string)
  {
    Contains(Lower(s), Lower(p))
  }

  /** Python's `s.replace(p, "")` for a non-empty `p`: every non-overlapping
      occurrence, scanned left to right, is removed. */
  function RemoveAll(s: string, p: string): (r: string)
    requires |p| > 0
    decreases |s|
    ensures |r| <= |s|
  {
    if |s| < |p| then s
    else if s[..|p|] == p then RemoveAll(s[|p|..], p)
    else [s[0]] + RemoveAll(s[1..], p)
  }

  lemma {:induction false} RemoveAllAbsent(s: string, p: string)
    requires |p| > 0
    requires forall i :: 0 <= i < |s| ==> s[i] != p[0]
    ensures RemoveAll(s, p) == s
    decreases |s|
  {
    if |s| >= |p| {
      assert s[..|p|][0] == s[0];
      RemoveAllAbsent(s[1..], p);
    }
  }

  lemma {:induction false} RemoveAllPrefix(p: string, t: string)
    requires |p| > 0
    requires forall i :: 0 <= i < |t| ==> t[i] != p[0]
    ensures RemoveAll(p + t, p) == t
  {
    assert (p + t)[..|p|] == p;
    assert (p + t)[|p|..] == t;
    RemoveAllAbsent(t, p);
  }

  /** JavaScript's `s.replace(p, "")` with a string pattern: only the first occurrence. */
  function RemoveFirst(s: string, p: string): (r: string)
    ensures IndexOf(s, p).None? ==> r == s
    ensures IndexOf(s, p).Some? ==> |r| == |s| - |p|
  {
    match IndexOf(s, p)
    case None => s
    case Some(i) => s[..i] + s[i + |p|..]
  }

  // ---------------------------------------------------------------------------
  // Whitespace stripping

  function TrimStart(s: string, lang: Lang := Py): (r: string)
    ensures |r| <= |s| && r == s[|s| - |r|..]
    ensures AllSpace(s[..|s| - |r|], lang)
    ensures |r| > 0 ==> !IsSpace(r[0], lang)
  {
    if |s| > 0 && IsSpace(s[0], lang) then
      var t := TrimStart(s[1..], lang);
      TrimStartStep(s, t, lang);
      t
    else s
  }

  /** Dropping one more leading space keeps the trimmed rest a suffix after spaces. */
  lemma TrimStartStep(s: string, t: string, lang: Lang := Py)
    requires |s| > 0 && IsSpace(s[0], lang)
    requires |t| <= |s| - 1 && t == s[1..][|s| - 1 - |t|..] && AllSpace(s[1..][..|s| - 1 - |t|], lang)
    ensures t == s[|s| - |t|..] && AllSpace(s[..|s| - |t|], lang)
  {
    var k := |s| - |t|;
    assert s[1..][k - 1..] == s[k..];
    forall i | 0 <= i < k ensures IsSpace(s[..k][i], lang) {
      if i > 0 {
        assert s[..k][i] == s[1..][..k - 1][i - 1];
      }
    }
  }

  function TrimEnd(s: string, lang: Lang := Py): (r: string)
    ensures |r| <= |s| && r == s[..|r|]
    ensures AllSpace(s[|r|..], lang)
    ensures |r| > 0 ==> !IsSpace(r[|r| - 1], lang)
  {
    if |s| > 0 && IsSpace(s[|s| - 1], lang) then
      var t := TrimEnd(s[..|s| - 1], lang);
      assert s[|t|..] == s[..|s| - 1][|t|..] + [s[|s| - 1]];
      t
    else s
  }

  /** Python's `str.strip()` or JavaScript's `trim()`, by `lang`. */
  function Strip(s: string, lang: Lang := Py): (r: string)
    ensures |r| <= |s|
    ensures NoEdgeSpace(r, lang)
    ensures exists i :: OccursAt(s, r, i)
    ensures r == [] <==> AllSpace(s, lang)
  {
    var a := TrimStart(s, lang);
    var r := TrimEnd(a, lang);
    StripShape(s, a, r, lang);
    r
  }

  lemma StripShape(s: string, a: string, r: string, lang: Lang := Py)
    requires |a| <= |s| && a == s[|s| - |a|..] && AllSpace(s[..|s| - |a|], lang)
    requires |r| <= |a| && r == a[..|r|] && AllSpace(a[|r|..], lang)
    requires |r| > 0 ==> !IsSpace(r[0], lang)
    ensures OccursAt(s, r, |s| - |a|)
    ensures r == [] <==> AllSpace(s, lang)
  {
    var k := |s| - |a|;
    assert s[k..k + |r|] == a[..|r|];
    if r == [] {
      assert a[|r|..] == a;
      StripEmpty(s, a, lang);
    }
  }

  lemma StripEmpty(s: string, a: string, lang: Lang := Py)
    requires |a| <= |s| && a == s[|s| - |a|..]
    requires AllSpace(s[..|s| - |a|], lang) && AllSpace(a, lang)
    ensures AllSpace(s, lang)
  {
    AllSpaceConcat(s[..|s| - |a|], a, lang);
    assert s[..|s| - |a|] + a == s;
  }

  lemma AllSpaceConcat(x: string, y: string, lang: Lang := Py)
    requires AllSpace(x, lang) && AllSpace(y, lang)
    ensures AllSpace(x + y, lang)
  {
    forall i | 0 <= i < |x + y| ensures IsSpace((x + y)[i], lang) {
      if i >= |x| { assert (x + y)[i] == y[i - |x|]; }
    }
  }

  /** Stripping adds no character. */
  lemma StripKeeps(s: string, c: char, lang: Lang := Py)
    requires c !in s
    ensures c !in Strip(s, lang)
  {
  }

  lemma StripNoSpace(s: string, lang: Lang := Py)
    requires NoEdgeSpace(s, lang)
    ensures Strip(s, lang) == s
  {
  }

  // ---------------------------------------------------------------------------
  // Joining and splitting

  /** Python's `sep.join(parts)` / JavaScript's `parts.join(sep)`. */
  function Join(parts: seq<string>, sep: string): string
  {
    if |parts| == 0 then ""
    else if |parts| == 1 then parts[0]
    else parts[0] + sep + Join(parts[1..], sep)
  }

  /** Every part occurs in the joined string. */
  lemma {:induction false} JoinOccurs(parts: seq<string>, sep: string, k: nat) returns (j: nat)
    requires k < |parts|
    ensures OccursAt(Join(parts, sep), parts[k], j)
    decreases |parts|
  {
    if |parts| == 1 {
      j := 0;
    } else if k == 0 {
      j := 0;
      var all := Join(parts, sep);
      assert all == parts[0] + (sep + Join(parts[1..], sep));
      assert all[..|parts[0]|] == parts[0];
    } else {
      var j' := JoinOccurs(parts[1..], sep, k - 1);
      var head := parts[0] + sep;
      var rest := Join(parts[1..], sep);
      assert Join(parts, sep) == head + rest;
      j := |head| + j';
      assert (head + rest)[j..j + |parts[k]|] == rest[j'..j' + |parts[k]|];
    }
  }

  lemma OccursAfter(a: string, s: string, p: string, j: nat)
    requires OccursAt(s, p, j)
    ensures OccursAt(a + s, p, |a| + j)
  {
    assert (a + s)[|a| + j..|a| + j + |p|] == s[j..j + |p|];
  }

  /** JavaScript's `s.split(c)`: always at least one piece, none containing `c`. */
  function Split(s: string, c: char): (r: seq<string>)
    ensures |r| > 0
    ensures forall k :: 0 <= k < |r| ==> c !in r[k]
    decreases |s|
  {
    if |s| == 0 then [""]
    else
      var rest := Split(s[1..], c);
      if s[0] == c then [""] + rest
      else [[s[0]] + rest[0]] + rest[1..]
  }

  lemma {:induction false} SplitNoSep(s: string, c: char)
    requires c !in s
    ensures Split(s, c) == [s]
    decreases |s|
  {
    if |s| > 0 {
      SplitNoSep(s[1..], c);
      assert [s[0]] + s[1..] == s;
    }
  }

  lemma {:induction false} SplitAppend(a: string, c: char, t: string)
    requires c !in a
    ensures Split(a + [c] + t, c) == [a] + Split(t, c)
    decreases |a|
  {
    if |a| == 0 {
      assert a + [c] + t == [c] + t;
      assert ([c] + t)[1..] == t;
    } else {
      assert (a + [c] + t)[1..] == a[1..] + [c] + t;
      SplitAppend(a[1..], c, t);
      assert [a[0]] + a[1..] == a;
    }
  }

  /** Splitting a joined list on a separator character that no element
      contains gives the list back. */
  lemma {:induction false} SplitJoin(parts: seq<string>, c: char)
    requires |parts| > 0
    requires forall k :: 0 <= k < |parts| ==> c !in parts[k]
    ensures Split(Join(parts, [c]), c) == parts
    decreases |parts|
  {
    if |parts| == 1 {
      SplitNoSep(parts[0], c);
    } else {
      SplitJoin(parts[1..], c);
      SplitAppend(parts[0], c, Join(parts[1..], [c]));
    }
  }

  // ---------------------------------------------------------------------------
  // Decimal numbers

  function DigitChar(d: nat): (c: char)
    requires d < 10
    ensures IsDigit(c)
  {
    ('0' as int + d) as char
  }

  function DigitValue(c: char): nat
    requires IsDigit(c)
  {
    c as int - '0' as int
  }

  /** Python's `str(n)` / JavaScript's `n.toString()` for a natural number. */
  function NatToString(n: nat): (r: string)
    ensures IsDigitString(r)
    decreases n
  {
    if n < 10 then [DigitChar(n)] else NatToString(n / 10) + [DigitChar(n % 10)]
  }

  /** Python's `str(n)` for any integer. */
  function IntToString(n: int): (r: string)
    ensures n >= 0 ==> r == NatToString(n)
    ensures n < 0 ==> r == "-" + NatToString(-n)
  {
    if n >= 0 then NatToString(n) else "-" + NatToString(-n)
  }

  function DigitsValue(s: string): nat
    requires AllDigits(s)
    decreases |s|
  {
    if |s| == 0 then 0 else DigitsValue(s[..|s| - 1]) * 10 + DigitValue(s[|s| - 1])
  }

  /** Parses a non-empty run of ASCII digits. */
  function ParseNat(s: string): (r: Option<nat>)
    ensures r.Some? <==> IsDigitString(s)
  {
    if IsDigitString(s) then Some(DigitsValue(s)) else None
  }

  lemma {:induction false} ParseNatToString(n: nat)
    ensures ParseNat(NatToString(n)) == Some(n)
    decreases n
  {
    var s := NatToString(n);
    if n < 10 {
      assert s[..|s| - 1] == [];
      assert DigitsValue(s) == n;
    } else {
      ParseNatToString(n / 10);
      assert s[..|s| - 1] == NatToString(n / 10);
      assert DigitValue(s[|s| - 1]) == n % 10;
      assert DigitsValue(s) == (n / 10) * 10 + n % 10;
    }
  }

  /** A string of digits has no whitespace to strip. */
  lemma StripDigits(s: string, lang: Lang := Py)
    ensures IsDigitString(s) ==> Strip(s, lang) == s
  {
    if IsDigitString(s) {
      assert IsDigit(s[0]) && IsDigit(s[|s| - 1]);
      StripNoSpace(s, lang);
    }
  }

  /** Python's `int(s)` on a string: surrounding whitespace is ignored, one
      optional sign, then ASCII digits.  (Underscore separators and non-ASCII
      digits, which Python also accepts, are outside the model.) */
  function PyInt(s: string): (r: Option<int>)
    ensures IsDigitString(s) ==> r == Some(DigitsValue(s))
  {
    StripDigits(s);
    var t := Strip(s);
    if |t| > 0 && (t[0] == '-' || t[0] == '+') then
      match ParseNat(t[1..])
      case None => None
      case Some(n) => var v: int := if t[0] == '-' then -(n as int) else n; Some(v)
    else
      match ParseNat(t)
      case None => None
      case Some(n) => Some(n)
  }
}

=== FILE: tables.dfy ===
/** What the administrator tables share (frontend/src/pages/admin/Users.tsx,
    Books.tsx and AccountRequestsPage.tsx): the column a table is sorted by
    and the direction, the comparison of two cells, the sorted view of the
    rows, and the local updates after a successful server call. */
module Tables {
  import opened Seqs

  datatype Direction = Asc | Desc

  /** The sorted column and the direction. */
  datatype SortState<F> = SortState(field: F, dir: Direction)

  function Flip(d: Direction): Direction
  {
    if d == Asc then Desc else Asc
  }

  /** `handleSort` of the user and book tables: clicking the sorted column
      reverses the direction; clicking another column sorts ascending by it. */
  function Toggle<F(==)>(s: SortState<F>, f: F): (r: SortState<F>)
    ensures r.field == f
    ensures f == s.field ==> r.dir != s.dir
    ensures f != s.field ==> r.dir == Asc
  {
    if f == s.field then SortState(f, Flip(s.dir)) else SortState(f, Asc)
  }

  /** Clicking the same column twice restores the order. */
  lemma ToggleTwice<F>(s: SortState<F>)
    ensures Toggle(Toggle(s, s.field), s.field) == s
  {
  }

  // ---------------------------------------------------------------------------
  // Cells and their comparison

  /** A cell as the comparators see it: a number, a text, or anything else
      (a list of authors, say), which no comparison orders. */
  datatype Key = Num(x: real) | Text(s: string) | Other

  function Sign(x: real): int
  {
    if x < 0.0 then -1 else if x > 0.0 then 1 else 0
  }

  /** The order of `<` and `>` on JavaScript strings: the first differing
      character decides, and a proper prefix comes first. */
  function LexCompare(a: string, b: string): (c: int)
    ensures c == 0 <==> a == b
    ensures -1 <= c <= 1
  {
    if a == [] && b == [] then 0
    else if a == [] then -1
    else if b == [] then 1
    else if a[0] < b[0] then -1
    else if a[0] > b[0] then 1
    else LexCompare(a[1..], b[1..])
  }

  /** A text comparison that orders its texts: "at most" by it is total and
      transitive. */
  ghost predicate TextOrder(cmp: (string, string) -> int)
  {
    TotalPreorder((a: string, b: string) => cmp(a, b) <= 0)
  }

  lemma {:induction false} LexTotal(a: string, b: string)
    ensures LexCompare(a, b) <= 0 || LexCompare(b, a) <= 0
    ensures LexCompare(a, b) == -LexCompare(b, a)
    decreases |a|
  {
    if a != [] && b != [] && a[0] == b[0] {
      LexTotal(a[1..], b[1..]);
    }
  }

  lemma {:induction false} LexTransitive(a: string, b: string, c: string)
    requires LexCompare(a, b) <= 0 && LexCompare(b, c) <= 0
    ensures LexCompare(a, c) <= 0
    decreases |a|
  {
    if a != [] && b != [] && c != [] && a[0] == b[0] == c[0] {
      LexTransitive(a[1..], b[1..], c[1..]);
    }
  }

  /** The string order of `<` is a total order. */
  lemma LexIsOrder()
    ensures TextOrder(LexCompare)
  {
    forall a, b ensures LexCompare(a, b) <= 0 || LexCompare(b, a) <= 0 {
      LexTotal(a, b);
    }
    forall a, b, c | LexCompare(a, b) <= 0 && LexCompare(b, c) <= 0
      ensures LexCompare(a, c) <= 0
    {
      LexTransitive(a, b, c);
    }
  }

  /** The ascending comparator: numbers by difference, texts by `cmp`, and
      any other pair as equal. */
  function KeyCompare(cmp: (string, string) -> int, a: Key, b: Key): int
  {
    match (a, b)
    case (Num(x), Num(y)) => Sign(x - y)
    case (Text(s), Text(t)) => cmp(s, t)
    case _ => 0
  }

  /** `a` may come before `b`: the comparator answers at most 0, with the
      arguments swapped when descending. */
  function Precedes(cmp: (string, string) -> int, dir: Direction, a: Key, b: Key): bool
  {
    if dir == Asc then KeyCompare(cmp, a, b) <= 0 else KeyCompare(cmp, b, a) <= 0
  }

  /** Every row gives the column a cell of the same kind, as a typed column does. */
  ghost predicate Uniform<R(!new)>(key: R -> Key)
  {
    forall a, b :: key(a).Num? == key(b).Num? && key(a).Text? == key(b).Text?
  }

  function RowOrder<R>(cmp: (string, string) -> int, dir: Direction, key: R -> Key): (R, R) -> bool
  {
    (a: R, b: R) => Precedes(cmp, dir, key(a), key(b))
  }

  /** On a typed column and with an ordering text comparison, rows compare
      as a total preorder in either direction. */
  lemma RowOrderIsPreorder<R(!new)>(cmp: (string, string) -> int, dir: Direction, key: R -> Key)
    requires TextOrder(cmp) && Uniform(key)
    ensures TotalPreorder(RowOrder(cmp, dir, key))
  {
    var le := RowOrder(cmp, dir, key);
    var asc := (a: R, b: R) => KeyCompare(cmp, key(a), key(b)) <= 0;
    var tle := (s: string, t: string) => cmp(s, t) <= 0;
    forall a, b ensures asc(a, b) || asc(b, a) {
      assert key(a).Num? == key(b).Num? && key(a).Text? == key(b).Text?;
      if key(a).Text? {
        assert tle(key(a).s, key(b).s) || tle(key(b).s, key(a).s);
      }
    }
    forall a, b, c | asc(a, b) && asc(b, c) ensures asc(a, c) {
      assert key(a).Num? == key(b).Num? == key(c).Num?;
      assert key(a).Text? == key(b).Text? == key(c).Text?;
      if key(a).Text? {
        assert tle(key(a).s, key(b).s) && tle(key(b).s, key(c).s);
      }
    }
    forall a, b ensures le(a, b) || le(b, a) {
      assert le(a, b) == if dir == Asc then asc(a, b) else asc(b, a);
      assert le(b, a) == if dir == Asc then asc(b, a) else asc(a, b);
    }
    forall a, b, c | le(a, b) && le(b, c) ensures le(a, c) {
      if dir == Asc {
        assert asc(a, b) && asc(b, c);
      } else {
        assert asc(c, b) && asc(b, a);
      }
    }
  }

  /** The sorted view of a table: `[...rows].sort(...)`, a stable sort, so
      rows that compare equal keep their table order. */
  function Sorted<R>(rows: seq<R>, cmp: (string, string) -> int, dir: Direction, key: R -> Key): (r: seq<R>)
    ensures multiset(r) == multiset(rows)
  {
    SortBy(rows, RowOrder(cmp, dir, key))
  }

  /** The sorted view is a reordering of the rows, ordered by the column in
      the chosen direction, in which rows with equal cells keep their order. */
  lemma SortedIsOrdered<R(!new)>(rows: seq<R>, cmp: (string, string) -> int, dir: Direction, key: R -> Key, x: R)
    requires TextOrder(cmp) && Uniform(key)
    ensures var r := Sorted(rows, cmp, dir, key);
      var le := RowOrder(cmp, dir, key);
      multiset(r) == multiset(rows) &&
      (forall i, j :: 0 <= i < j < |r| ==> Precedes(cmp, dir, key(r[i]), key(r[j]))) &&
      Filter(r, EquivTo(le, x)) == Filter(rows, EquivTo(le, x))
  {
    var le := RowOrder(cmp, dir, key);
    RowOrderIsPreorder(cmp, dir, key);
    SortBySorted(rows, le);
    SortByStable(rows, le, x);
  }

  // ---------------------------------------------------------------------------
  // Local updates after the server agreed

  /** `rows.map(row => row.id === id ? change(row) : row)`. */
  function UpdateWhere<R>(rows: seq<R>, id: int, idOf: R -> int, change: R -> R): (r: seq<R>)
    ensures |r| == |rows|
    ensures forall i :: 0 <= i < |rows| ==> r[i] == if idOf(rows[i]) == id then change(rows[i]) else rows[i]
  {
    seq(|rows|, i requires 0 <= i < |rows| => if idOf(rows[i]) == id then change(rows[i]) else rows[i])
  }

  function Unlike<R>(id: int, idOf: R -> int): R -> bool
  {
    (x: R) => idOf(x) != id
  }

  /** `rows.filter(row => row.id !== id)`. */
  function RemoveId<R(!new)>(rows: seq<R>, id: int, idOf: R -> int): (r: seq<R>)
    ensures forall x :: x in r <==> x in rows && idOf(x) != id
    ensures Subseq(r, rows)
  {
    Filter(rows, Unlike(id, idOf))
  }

  /** Removing a row twice is removing it once. */
  lemma RemoveIdTwice<R(!new)>(rows: seq<R>, id: int, idOf: R -> int)
    ensures RemoveId(RemoveId(rows, id, idOf), id, idOf) == RemoveId(rows, id, idOf)
  {
    FilterAll(RemoveId(rows, id, idOf), Unlike(id, idOf));
  }

  /** Removing a row after changing it is removing it: the change leaves the
      other rows alone. */
  lemma {:induction false} RemoveAfterUpdate<R(!new)>(rows: seq<R>, id: int, idOf: R -> int, change: R -> R)
    requires forall x :: idOf(change(x)) == idOf(x)
    ensures RemoveId(UpdateWhere(rows, id, idOf, change), id, idOf) == RemoveId(rows, id, idOf)
    decreases |rows|
  {
    if |rows| > 0 {
      var u := UpdateWhere(rows, id, idOf, change);
      var p := Unlike(id, idOf);
      assert u[1..] == UpdateWhere(rows[1..], id, idOf, change);
      RemoveAfterUpdate(rows[1..], id, idOf, change);
      assert p(u[0]) == p(rows[0]);
      if p(rows[0]) {
        assert u[0] == rows[0];
      }
    }
  }
}

=== FILE: user_profile.dfy ===
/** The reader's profile page (frontend/src/pages/UserProfilePage.tsx): the
    split of the reader's rentals into current loans and history, the pending
    requests, the days left on a loan with its label and colour, and the
    avatar's initials. Dates are parsed by the browser and the clock is read
    by the page; both are parameters here. */
module UserProfile {
  import opened Wrappers
  import opened Strs
  import opened Seqs

  datatype Rental = Rental(id: int, bookId: int, status: string, rentedAt: string, returnedAt: Option<string>)

  datatype Request = Request(id: int, bookId: int, status: string)

  /** `returned_at` is truthy. */
  predicate IsBack(r: Rental)
  {
    r.returnedAt.Some? && r.returnedAt.value != ""
  }

  /** `fetchUserRentals`: one pass over the rentals, each pushed onto the
      history when returned and onto the current loans otherwise. */
  method Separate(rentals: seq<Rental>) returns (active: seq<Rental>, history: seq<Rental>)
    ensures active == Filter(rentals, Not(IsBack)) && history == Filter(rentals, IsBack)
    ensures multiset(history) + multiset(active) == multiset(rentals)
  {
    active, history := [], [];
    var i := 0;
    while i < |rentals|
      invariant i <= |rentals|
      invariant active == Filter(rentals[..i], Not(IsBack))
      invariant history == Filter(rentals[..i], IsBack)
    {
      FilterSnocBoth(rentals, i, IsBack);
      if IsBack(rentals[i]) {
        history := history + [rentals[i]];
      } else {
        active := active + [rentals[i]];
      }
      i := i + 1;
    }
    assert rentals[..i] == rentals;
    FilterPartition(rentals, IsBack);
  }

  /** `fetchUserRequests`: the requests still pending, in order. */
  function Pending(requests: seq<Request>): (r: seq<Request>)
    ensures forall q :: q in r <==> q in requests && q.status == "pending"
    ensures Subseq(r, requests)
  {
    Filter(requests, (q: Request) => q.status == "pending")
  }

  // ---------------------------------------------------------------------------
  // Days left

  const MsPerDay := 86400000
  const LoanDays := 14

  /** `Math.ceil(x / d)` for a positive `d`: the least whole number of days
      covering `x` milliseconds. */
  function CeilDiv(x: int, d: int): (r: int)
    requires d > 0
    ensures (r - 1) * d < x <= r * d
  {
    -((-x) / d)
  }

  /** `calculateDaysLeft`: the whole days, rounded up, from now to fourteen
      days after the loan began; `None` stands for the NaN of a date the
      browser cannot read. */
  function DaysLeft(rentedAt: string, now: int, parse: string -> Option<int>): (r: Option<int>)
    ensures r.None? <==> parse(rentedAt).None?
    ensures r.Some? ==> var left := parse(rentedAt).value + LoanDays * MsPerDay - now;
      (r.value - 1) * MsPerDay < left <= r.value * MsPerDay
  {
    match parse(rentedAt)
    case None => None
    case Some(t) => Some(CeilDiv(t + LoanDays * MsPerDay - now, MsPerDay))
  }

  /** The label under a loan. */
  function Label(days: Option<int>): (r: string)
    ensures days.Some? && days.value <= 0 ==> r == "Overdue"
    ensures days == Some(1) ==> r == "1 day left"
  {
    match days
    case None => "NaN days left"
    case Some(d) =>
      if d <= 0 then "Overdue"
      else if d == 1 then "1 day left"
      else IntToString(d) + " days left"
  }

  datatype Colour = Red | Amber | Green

  /** Red under three days, amber under seven, green otherwise; NaN compares
      false and shows green. */
  function ColourOf(days: Option<int>): (c: Colour)
    ensures c == Red <==> days.Some? && days.value < 3
    ensures c == Amber <==> days.Some? && 3 <= days.value < 7
  {
    if days.Some? && days.value < 3 then Red
    else if days.Some? && days.value < 7 then Amber
    else Green
  }

  /** A loan reads "Overdue" exactly from its due time on, and is then red. */
  lemma OverdueFromDueTime(rentedAt: string, t: int, now: int, parse: string -> Option<int>)
    requires parse(rentedAt) == Some(t)
    ensures var d := DaysLeft(rentedAt, now, parse);
      (Label(d) == "Overdue" <==> now >= t + LoanDays * MsPerDay) &&
      (Label(d) == "Overdue" ==> ColourOf(d) == Red)
  {
    var d := DaysLeft(rentedAt, now, parse);
    var left := t + LoanDays * MsPerDay - now;
    if d.value > 0 {
      assert (d.value - 1) * MsPerDay >= 0;
      assert left > 0;
      if d.value == 1 {
        assert Label(d) == "1 day left";
      } else {
        assert Label(d) == IntToString(d.value) + " days left";
        assert |Label(d)| > |"Overdue"|;
      }
    }
  }

  // ---------------------------------------------------------------------------
  // Initials

  /** The first letters of the name's space-separated parts; an empty part
      (two spaces in a row) gives nothing. */
  function Heads(parts: seq<string>): (r: string)
    ensures |r| <= |parts|
    decreases |parts|
  {
    if parts == [] then ""
    else (if parts[0] != "" then [parts[0][0]] else "") + Heads(parts[1..])
  }

  /** The avatar: the first letters of the name's parts, upper-cased, at most two. */
  function Initials(name: string): (r: string)
    ensures |r| <= 2
    ensures forall i :: 0 <= i < |r| ==> !IsLower(r[i])
  {
    var u := Upper(Heads(Split(name, ' ')));
    u[..if |u| < 2 then |u| else 2]
  }

  /** A first and a last name give their two initials. */
  lemma InitialsOfTwoNames(first: string, last: string)
    requires first != "" && last != "" && ' ' !in first && ' ' !in last
    ensures Initials(first + " " + last) == [ToUpperChar(first[0]), ToUpperChar(last[0])]
  {
    assert Join([first, last], " ") == first + " " + last;
    SplitJoin([first, last], ' ');
    assert Heads([first, last]) == [first[0], last[0]] by {
      assert [first, last][1..] == [last];
    }
  }
}

=== FILE: users.dfy ===
/** UserService (backend/app/services/UserService.py): paginated user and
    account-request listings with a clamped page number, the account-request
    lifecycle (create, approve into a user, reject, set back to pending), and
    the user update and deletion guard.  Optional string arguments whose `None`
    and empty value the code treats alike are plain strings, "" for none. */
module Users {
  import opened Wrappers
  import opened Strs
  import opened Seqs
  import opened Library
  import opened Paging

  // ---------------------------------------------------------------------------
  // Clamped pagination

  /** `math.ceil(a / b)` for a non-zero `b` (exact integer arithmetic). */
  function Ceil(a: int, b: int): (c: int)
    requires b != 0
    ensures b > 0 ==> b * (c - 1) < a <= b * c
  {
    if b > 0 then FloorDiv(a + b - 1, b) else -FloorDiv(-a, b)
  }

  /** `math.ceil(total / per_page) if total > 0 else 1`. */
  function PageTotal(total: nat, per: int): int
    requires total > 0 ==> per != 0
  {
    if total > 0 then Ceil(total, per) else 1
  }

  /** `max(1, min(page, total_pages))`. */
  function ClampPage(page: int, totalPages: int): int
  {
    Max(1, Min(page, totalPages))
  }

  const DivisionByZero := "division by zero"
  const NegativeLimit := "LIMIT must not be negative"

  /** The page both listings return: the page number is clamped into
      [1, total_pages] and the rows at `(page - 1) * per_page` are taken.  A
      zero page size with matching rows divides by zero; a negative one reaches
      the database as a negative LIMIT, which it refuses. */
  function ClampedPage<T>(rows: seq<T>, page: int, per: int): (r: Result<Page<T>>)
    ensures r.Failure? <==> per < 0 || (per == 0 && |rows| > 0)
    ensures r.Success? ==> r.value.totalCount == |rows| && |r.value.items| <= per
    ensures r.Success? && |rows| == 0 ==> r.value.totalPages == 1 && r.value.items == []
    ensures r.Success? && |rows| > 0 ==> r.value.totalPages == CeilDiv(|rows|, per)
    ensures r.Success? ==> forall x :: x in r.value.items ==> x in rows
  {
    if per < 0 then Failure(NegativeLimit)
    else if per == 0 && |rows| > 0 then Failure(DivisionByZero)
    else
      var pages := PageTotal(|rows|, per);
      var p := ClampPage(page, pages);
      var lo := (p - 1) * per;
      var items := Slice(rows, lo, lo + per);
      assert forall x :: x in items ==> x in rows by {
        forall x | x in items ensures x in rows {
          var i :| 0 <= i < |items| && items[i] == x;
          assert rows[lo + i] == x;
        }
      }
      Success(Page(items, |rows|, pages))
  }

  /** A page number inside [1, total_pages] is used as given. */
  lemma ClampedPageInRange<T>(rows: seq<T>, page: int, per: int)
    requires per > 0 && 1 <= page <= PageTotal(|rows|, per)
    ensures ClampedPage(rows, page, per).value.items == Slice(rows, (page - 1) * per, page * per)
  {
    assert page * per == (page - 1) * per + per;
  }

  /** For a positive page size the page is the slice at the clamped page. */
  lemma ClampedPageSlice<T>(rows: seq<T>, page: int, per: int)
    requires per > 0
    ensures var r := ClampedPage(rows, page, per);
      var lo := Offset(ClampPage(page, PageTotal(|rows|, per)), per);
      && r.Success? && r.value.totalPages == PageTotal(|rows|, per)
      && r.value.items == Slice(rows, lo, lo + per)
  {
  }

  /** A page of an ordered listing is ordered. */
  lemma ClampedPageSorted<T>(rows: seq<T>, page: int, per: int, le: (T, T) -> bool)
    requires SortedBy(rows, le)
    ensures var r := ClampedPage(rows, page, per); r.Success? ==> SortedBy(r.value.items, le)
  {
    if per > 0 {
      var lo := Offset(ClampPage(page, PageTotal(|rows|, per)), per);
      ClampedPageSlice(rows, page, per);
      SliceSorted(rows, lo, lo + per, le);
    }
  }

  /** However far out of range the page number is, a non-empty listing never
      shows an empty page: pages past the end show the last page. */
  lemma ClampedPageNeverEmpty<T>(rows: seq<T>, page: int, per: int)
    requires per > 0 && |rows| > 0
    ensures |ClampedPage(rows, page, per).value.items| > 0
    ensures page > PageTotal(|rows|, per) ==>
      ClampedPage(rows, page, per) == ClampedPage(rows, PageTotal(|rows|, per), per)
  {
    var pages := PageTotal(|rows|, per);
    assert pages == CeilDiv(|rows|, per);
    var p := ClampPage(page, pages);
    MulLe(p - 1, pages - 1, per);
  }

  lemma MulLe(a: nat, b: nat, c: nat)
    requires a <= b
    ensures a * c <= b * c
  {
  }

  // ---------------------------------------------------------------------------
  // Listings

  /** The `ilike '%search%'` filter on name or email, applied when `search` is
      non-empty, and the exact role filter, applied when `role` is non-empty. */
  predicate UserMatches(u: User, search: string, role: string)
  {
    && (search != "" ==> ContainsCI(u.name, search) || ContainsCI(u.email, search))
    && (role != "" ==> u.role == role)
  }

  /** `order_by(User.id)`: `a` may be listed before `b`. */
  function LowerId(a: User, b: User): bool { a.id <= b.id }

  /** The users `get_paginated_users` selects, in id order. */
  function MatchingUsers(db: Db, search: string, role: string): (rows: seq<User>)
    ensures forall u :: u in rows <==> u in db.users && UserMatches(u, search, role)
    ensures |rows| == Count(db.users, (u: User) => UserMatches(u, search, role))
    ensures SortedBy(rows, LowerId)
  {
    var matching := Filter(db.users, (u: User) => UserMatches(u, search, role));
    SortBySorted(matching, LowerId);
    SortByMembers(matching, LowerId);
    assert |SortBy(matching, LowerId)| == |multiset(matching)|;
    SortBy(matching, LowerId)
  }

  /** `get_paginated_users`: one clamped page of the matching users, in id order. */
  function PaginatedUsers(db: Db, page: int, per: int, search: string, role: string): (r: Result<Page<User>>)
    ensures r.Failure? <==> per < 0 || (per == 0 && exists u :: u in db.users && UserMatches(u, search, role))
    ensures r.Success? ==> r.value.totalCount == Count(db.users, (u: User) => UserMatches(u, search, role))
    ensures r.Success? ==> forall u :: u in r.value.items ==> u in db.users && UserMatches(u, search, role)
    ensures r.Success? ==> SortedBy(r.value.items, LowerId)
  {
    var rows := MatchingUsers(db, search, role);
    ClampedPageSorted(rows, page, per, LowerId);
    if per == 0 && |rows| > 0 then assert rows[0] in rows; ClampedPage(rows, page, per)
    else ClampedPage(rows, page, per)
  }

  /** For a positive page size the users shown are the slice of the id-ordered
      matches at the clamped page's offset. */
  lemma PaginatedUsersPage(db: Db, page: int, per: int, search: string, role: string)
    requires per > 0
    ensures var rows := MatchingUsers(db, search, role);
      var r := PaginatedUsers(db, page, per, search, role);
      var lo := Offset(ClampPage(page, PageTotal(|rows|, per)), per);
      r.Success? && r.value.items == Slice(rows, lo, lo + per)
  {
    var rows := MatchingUsers(db, search, role);
    assert PaginatedUsers(db, page, per, search, role) == ClampedPage(rows, page, per);
    ClampedPageSlice(rows, page, per);
  }


  /** The id `search` names: its value when it is all digits, else 0. */
  function SearchedId(search: string): nat
  {
    if IsDigitString(search) then DigitsValue(search) else 0
  }

  /** The filters of `get_paginated_account_requests`: status unless "all" or
      empty, and name or email containing `search` or the id it spells. */
  predicate RequestMatches(q: AccountRequest, status: string, search: string)
  {
    && (status != "" && status != "all" ==> q.status == status)
    && (search != "" ==> ContainsCI(q.name, search) || ContainsCI(q.email, search) || q.id == SearchedId(search))
  }

  /** `created_at` descending; requests created at the same time keep id order. */
  function NewerFirst(a: AccountRequest, b: AccountRequest): bool { a.createdAt >= b.createdAt }

  /** The requests `get_paginated_account_requests` selects, newest first. */
  function MatchingRequests(db: Db, status: string, search: string): (rows: seq<AccountRequest>)
    ensures forall q :: q in rows <==> q in db.accountRequests && RequestMatches(q, status, search)
    ensures |rows| == Count(db.accountRequests, (q: AccountRequest) => RequestMatches(q, status, search))
    ensures SortedBy(rows, NewerFirst)
  {
    var matching := Filter(db.accountRequests, (q: AccountRequest) => RequestMatches(q, status, search));
    SortBySorted(matching, NewerFirst);
    SortByMembers(matching, NewerFirst);
    assert |SortBy(matching, NewerFirst)| == |multiset(matching)|;
    SortBy(matching, NewerFirst)
  }

  /** `get_paginated_account_requests`: one clamped page of the matching
      requests, newest first. */
  function PaginatedAccountRequests(db: Db, page: int, per: int, status: string, search: string): (r: Result<Page<AccountRequest>>)
    ensures r.Failure? <==> per < 0 || (per == 0 && exists q :: q in db.accountRequests && RequestMatches(q, status, search))
    ensures r.Success? ==> r.value.totalCount == Count(db.accountRequests, (q: AccountRequest) => RequestMatches(q, status, search))
    ensures r.Success? ==> forall q :: q in r.value.items ==> q in db.accountRequests && RequestMatches(q, status, search)
    ensures r.Success? ==> SortedBy(r.value.items, NewerFirst)
  {
    var rows := MatchingRequests(db, status, search);
    if per == 0 && |rows| > 0 then assert rows[0] in rows; ClampedPage(rows, page, per)
    else if per < 0 then ClampedPage(rows, page, per)
    else
      var p := ClampPage(page, PageTotal(|rows|, per));
      SliceSorted(rows, (p - 1) * per, (p - 1) * per + per, NewerFirst);
      ClampedPage(rows, page, per)
  }

  /** A run of consecutive elements of a sorted sequence is sorted. */
  lemma SliceSorted<T>(s: seq<T>, a: nat, b: nat, le: (T, T) -> bool)
    requires SortedBy(s, le)
    ensures SortedBy(Slice(s, a, b), le)
  {
  }

  // ---------------------------------------------------------------------------
  // Account requests

  /** The email is already used by a user or by a stored account request. */
  predicate EmailTaken(db: Db, email: string)
  {
    (exists i :: 0 <= i < |db.users| && db.users[i].email == email)
    || (exists i :: 0 <= i < |db.accountRequests| && db.accountRequests[i].email == email)
  }

  /** `create_account_request`: `None` when the email is taken; otherwise a
      new pending request is stored. */
  function CreateAccountRequest(db: Db, name: string, email: string, passwordHash: string, now: int): (r: Option<(Db, AccountRequest)>)
    ensures r.None? <==> EmailTaken(db, email)
    ensures r.Some? ==>
      && r.value.0 == db.(accountRequests := db.accountRequests + [r.value.1])
      && r.value.1.name == name && r.value.1.email == email && r.value.1.passwordHash == passwordHash
      && r.value.1.status == "pending" && r.value.1.createdAt == now
      && forall i :: 0 <= i < |db.accountRequests| ==> db.accountRequests[i].id != r.value.1.id
  {
    if |Filter(db.users, (u: User) => u.email == email)| > 0
       || |Filter(db.accountRequests, (q: AccountRequest) => q.email == email)| > 0 then
      assert EmailTaken(db, email) by {
        var us := Filter(db.users, (u: User) => u.email == email);
        var qs := Filter(db.accountRequests, (q: AccountRequest) => q.email == email);
        if |us| > 0 {
          assert us[0] in db.users;
        } else {
          assert qs[0] in db.accountRequests;
        }
      }
      None
    else
      FilterEmpty(db.users, (u: User) => u.email == email);
      FilterEmpty(db.accountRequests, (q: AccountRequest) => q.email == email);
      var q := AccountRequest(NextKey(db.accountRequests, AccountRequestId), name, email, passwordHash, "pending", now);
      Some((db.(accountRequests := db.accountRequests + [q]), q))
  }

  /** `approve_account_request`: only a pending request is approved; it
      becomes a user with role "user" and the same name, email and password
      hash, and the request is deleted. */
  function ApproveAccountRequest(db: Db, id: int): (r: Option<(Db, User)>)
    ensures r.None? <==>
      Lookup(db.accountRequests, AccountRequestId, id).None?
      || Lookup(db.accountRequests, AccountRequestId, id).value.status != "pending"
    ensures r.Some? ==>
      var q := Lookup(db.accountRequests, AccountRequestId, id).value;
      var u := r.value.1;
      && u.name == q.name && u.email == q.email && u.passwordHash == q.passwordHash && u.role == "user"
      && r.value.0.users == db.users + [u]
      && (forall i :: 0 <= i < |db.users| ==> db.users[i].id != u.id)
      && (forall x :: x in r.value.0.accountRequests <==> x in db.accountRequests && x.id != id)
      && r.value.0 == db.(users := r.value.0.users, accountRequests := r.value.0.accountRequests)
  {
    match Lookup(db.accountRequests, AccountRequestId, id)
    case None => None
    case Some(q) =>
      if q.status != "pending" then None
      else
        var u := User(NextKey(db.users, UserId), q.name, q.email, q.passwordHash, "user");
        Some((db.(users := db.users + [u], accountRequests := DeleteWhere(db.accountRequests, AccountRequestId, q.id)), u))
  }

  /** `reject_account_request`: deletes a pending request and answers true;
      otherwise changes nothing and answers false. */
  function RejectAccountRequest(db: Db, id: int): (r: (Db, bool))
    ensures r.1 <==>
      Lookup(db.accountRequests, AccountRequestId, id).Some?
      && Lookup(db.accountRequests, AccountRequestId, id).value.status == "pending"
    ensures !r.1 ==> r.0 == db
    ensures r.0 == db.(accountRequests := r.0.accountRequests)
    ensures forall x :: x in r.0.accountRequests <==> x in db.accountRequests && (r.1 ==> x.id != id)
  {
    match Lookup(db.accountRequests, AccountRequestId, id)
    case None => (db, false)
    case Some(q) =>
      if q.status != "pending" then (db, false)
      else (db.(accountRequests := DeleteWhere(db.accountRequests, AccountRequestId, q.id)), true)
  }

  /** `set_account_request_pending`: the request with that id becomes pending,
      whatever its status; true iff it exists. */
  function SetAccountRequestPending(db: Db, id: int): (r: (Db, bool))
    ensures r.1 <==> Lookup(db.accountRequests, AccountRequestId, id).Some?
    ensures !r.1 ==> r.0 == db
    ensures r.0 == db.(accountRequests := r.0.accountRequests)
    ensures |r.0.accountRequests| == |db.accountRequests|
    ensures forall i :: 0 <= i < |db.accountRequests| ==>
      r.0.accountRequests[i] == if db.accountRequests[i].id == id then db.accountRequests[i].(status := "pending")
                                else db.accountRequests[i]
  {
    match Lookup(db.accountRequests, AccountRequestId, id)
    case None => (db, false)
    case Some(q) =>
      (db.(accountRequests := UpdateWhere(db.accountRequests, AccountRequestId, q.id, (x: AccountRequest) => x.(status := "pending"))), true)
  }

  /** Every stored account request is pending. */
  ghost predicate AllPending(db: Db)
  {
    forall q :: q in db.accountRequests ==> q.status == "pending"
  }

  /** None of the four account-request operations stores a non-pending
      request: approval and rejection delete instead of recording a status. */
  lemma AccountRequestsStayPending(db: Db, id: int, name: string, email: string, passwordHash: string, now: int)
    requires AllPending(db)
    ensures var c := CreateAccountRequest(db, name, email, passwordHash, now); c.Some? ==> AllPending(c.value.0)
    ensures var a := ApproveAccountRequest(db, id); a.Some? ==> AllPending(a.value.0)
    ensures AllPending(RejectAccountRequest(db, id).0)
    ensures AllPending(SetAccountRequestPending(db, id).0)
  {
    var s := SetAccountRequestPending(db, id).0;
    forall q | q in s.accountRequests ensures q.status == "pending" {
      var i :| 0 <= i < |s.accountRequests| && s.accountRequests[i] == q;
      assert db.accountRequests[i] in db.accountRequests;
    }
  }

  /** After a successful creation no two stored requests share the new email. */
  lemma CreatedEmailUnique(db: Db, name: string, email: string, passwordHash: string, now: int)
    requires CreateAccountRequest(db, name, email, passwordHash, now).Some?
    ensures var d := CreateAccountRequest(db, name, email, passwordHash, now).value.0;
      forall i :: 0 <= i < |d.accountRequests| - 1 ==> d.accountRequests[i].email != email
  {
  }

  // ---------------------------------------------------------------------------
  // Users

  /** `update_user`: each non-empty argument overwrites its field, and the
      stored row is the user returned; `None` for a missing user. */
  function UpdateUser(db: Db, id: int, name: string, email: string, role: string): (r: (Db, Option<User>))
    ensures r.1.None? <==> Lookup(db.users, UserId, id).None?
    ensures r.1.None? ==> r.0 == db
    ensures r.1.Some? ==>
      var u := Lookup(db.users, UserId, id).value;
      && r.1.value.id == u.id && r.1.value.passwordHash == u.passwordHash
      && (name != "" ==> r.1.value.name == name) && (name == "" ==> r.1.value.name == u.name)
      && (email != "" ==> r.1.value.email == email) && (email == "" ==> r.1.value.email == u.email)
      && (role != "" ==> r.1.value.role == role) && (role == "" ==> r.1.value.role == u.role)
    ensures r.1.Some? ==> Lookup(r.0.users, UserId, id) == r.1
    ensures r.0 == db.(users := r.0.users) && |r.0.users| == |db.users|
    ensures forall i :: 0 <= i < |db.users| && db.users[i].id != id ==> r.0.users[i] == db.users[i]
  {
    match Lookup(db.users, UserId, id)
    case None => (db, None)
    case Some(u) =>
      var f := (x: User) => x.(name := if name != "" then name else x.name,
                               email := if email != "" then email else x.email,
                               role := if role != "" then role else x.role);
      LookupUpdated(db.users, UserId, u.id, f);
      (db.(users := UpdateWhere(db.users, UserId, u.id, f)), Some(f(u)))
  }

  /** Applying the same update twice is the same as applying it once. */
  lemma UpdateUserIdempotent(db: Db, id: int, name: string, email: string, role: string)
    ensures var once := UpdateUser(db, id, name, email, role).0;
      UpdateUser(once, id, name, email, role).0 == once
  {
    var once := UpdateUser(db, id, name, email, role).0;
    var twice := UpdateUser(once, id, name, email, role).0;
    assert twice.users == once.users;
  }

  /** `delete_user`: a missing user or an admin is refused with false;
      otherwise the user is deleted and the answer is true. */
  function DeleteUser(db: Db, id: int): (r: (Db, bool))
    ensures r.1 <==> Lookup(db.users, UserId, id).Some? && Lookup(db.users, UserId, id).value.role != "admin"
    ensures !r.1 ==> r.0 == db
    ensures r.0 == db.(users := r.0.users)
    ensures forall u :: u in r.0.users <==> u in db.users && (r.1 ==> u.id != id)
  {
    match Lookup(db.users, UserId, id)
    case None => (db, false)
    case Some(u) =>
      if u.role == "admin" then (db, false)
      else (db.(users := DeleteWhere(db.users, UserId, u.id)), true)
  }

  /** With unique ids, no admin is ever deleted. */
  lemma AdminsSurviveDelete(db: Db, id: int, a: User)
    requires UniqueKeys(db.users, UserId)
    requires a in db.users && a.role == "admin"
    ensures a in DeleteUser(db, id).0.users
  {
  }
}

=== FILE: wrappers.dfy ===
/** Optional values and error-carrying results, used wherever the source returns
    None or raises an error that its caller turns into a message. */
module Wrappers {

  datatype Option<T> = None | Some(value: T)
  {
    predicate IsSome() { Some? }

    function GetOr(default: T): T
    {
      match this
      case Some(v) => v
      case None => default
    }
  }

  datatype Result<T> = Success(value: T) | Failure(error: string)
  {
    predicate IsSuccess() { Success? }

    function GetOr(default: T): T
    {
      match this
      case Success(v) => v
      case Failure(_) => default
    }
  }

  /** A route's answer: a value, or an error status with its message. */
  datatype Http<T> = Ok(value: T) | Err(status: int, message: string)
}
